=== FILE: README.md ===
# A Dafny model of the WSD_3_locotive job board and its crawler

The system is a Flask job-board API over MySQL, plus a crawler. The crawler scrapes Saramin search-result pages and loads the listings into the board's schema. This project models the parts that decide something, each in the form the Python code has:

- **Crawl and ingest pipeline.**
  - `parse_deadline` (`Deadline`).
  - The two listing-item extractors and their page loops: `Saramin`, `LocalCrawler`, over the listing records of `Listing`.
  - The four loaders, each with its own posting key:
    - `JcloudUpload`: upsert on (title, company_id) among live postings;
    - `DbLoader`: skip on any (company_id, title), with the `retry_on_error` decorator and the `process_csv_file` counters;
    - `CsvImport`: overwrite on (title, company_name);
    - `Saramin.save_jobs`: no dedupe.
  - The shared table rows (`Schema`) and get-or-create.
- **Search-parameter encoding.**
  - The region, job-category, sort and filter code tables and their lookups: `CodeTables`, `LocationConfig`, `JobConfig`, `SearchConfig`.
  - The crawler's copy in `ParamsCode`, proved to agree with them on every input.
  - `build_params`.
- **API-side record logic.**
  - The listing query builders (`JobsQuery`, `JobsRoutes`, over the SQL fragments of `Sql`).
  - Job create, update, delete and detail (`JobsModel`); request validation and filters (`JobsUtils`).
  - Bookmark toggling (`Bookmarks`); resume primary-flag rules (`Resumes`).
  - Applications in the model layer (`Applications`) and in the endpoints (`ApplicationRoutes`).
  - The fixed-window rate limiter (`RateLimit`), JSON sanitising and the attack checks (`Security`), and the response cache (`RedisCache`).

Modelling conventions:
- **Tables.** A table whose rows are never deleted is a sequence in id order: the row at index i has AUTO_INCREMENT id i + 1. A table with hard deletes is a sequence of rows that carry their id, plus the next id to hand out. `fetchone()` without ORDER BY answers the matching row with the lowest id.
- **SQL text** is a sequence of fragments: literal text, `%s` parameters, and caller text spliced in verbatim. This makes counting placeholders structural.
- **Redis** is a map from key to value. A key's time to live running out is an explicit operation.
- **Objects and loops.** A Python object whose methods update its state in place is a class holding that state. Each of its methods is proved against a function from the old state to the new one. Loops in the source are loops in the model, each with its invariants.
- **Outside world.**
  - What the browser or the HTTP session shows for a page is a function parameter.
  - In `db_loader.py`'s retry loop and row loading, in the rate limiter and in `create_application`'s application INSERT, whether a database or Redis call raises is a parameter. The API's other database-error paths are listed under Left out.
  - The current date is a parameter.
  - The regular expressions of the security middleware are predicate parameters.
- **Text.** `str.lower`, `str.strip` and `\d` are taken on ASCII. `int()` is modelled on optionally signed decimal text with surrounding whitespace.

## Model

| member | source | states |
|---|---|---|
| Text.DigitChar | upload_to_jcloud.py:25 | the digit character written for a value below 10 reads back as that value |
| Text.TrimStart | app/crawling/saramin.py:158 | the result is no longer than the text and does not start with whitespace |
| Text.TrimEnd | app/crawling/saramin.py:158 | the result is no longer than the text and does not end with whitespace |
| Text.Strip | app/crawling/saramin.py:158-163 | `str.strip()`: no longer than the text, and neither starting nor ending with whitespace |
| Text.TrimEndIsPrefix | app/crawling/saramin.py:158 | trimming the end keeps a prefix of the text |
| Text.StripNoSpace | app/crawling/saramin.py:158 | text without leading or trailing whitespace is left unchanged |
| Text.Split | app/crawling/db_loader.py:190 | `str.split(sep)` gives at least one part and no part holds the separator |
| Text.JoinSplit | app/crawling/db_loader.py:190 | joining the parts of a split with the separator gives the text back |
| Text.SplitJoin | app/jobs/models.py:99-100 | splitting parts joined with a separator none of them holds gives the parts back |
| Text.IndexOfAfter | app/crawling/db_loader.py:157-159 | in text whose first occurrence of a character follows a prefix without it, that occurrence is found right after the prefix |
| Text.NatToString | upload_to_jcloud.py:25 | `str()` of a natural number: digits only, with no leading zero unless it is 0 |
| Text.DigitsValueOfNatToString | upload_to_jcloud.py:25 | the digits written for a number read back as that number |
| Text.ParseInt | app/jobs/utils.py:39 | `int()` succeeds only on text that is not blank |
| Text.ParseIntRejectsNonDigit | app/jobs/utils.py:39 | `int()` fails on stripped text holding any character other than a digit, except one leading sign before at least one digit |
| Text.ParseIntOfDigits | app/jobs/routes.py:15-16 | `int()` of a run of digits is its decimal value |
| Text.ParseIntOfNegated | app/jobs/routes.py:15-16 | `int()` of a minus sign then digits is the negated decimal value |
| Text.ParseIntOfIntToString | app/jobs/routes.py:15-16 | `int(str(n))` is n for every integer |
| Text.LexLeReflexive | app/crawling/utils/csv_to_db.py:20 | string order: every name is ordered before or equal to itself |
| Text.LexLeTotal | app/crawling/utils/csv_to_db.py:20 | string order: any two names are ordered one way or the other |
| Text.LexLeTransitive | app/crawling/utils/csv_to_db.py:20 | string order is transitive |
| Text.LexLeAntisymmetric | app/crawling/utils/csv_to_db.py:20 | two names ordered both ways are equal |
| Seqs.IndexOf | upload_to_jcloud.py:53-58 | the first position of the value, None exactly when it does not occur |
| Seqs.FindFirst | upload_to_jcloud.py:72-78 | `fetchone()` on a filter: the first position whose row satisfies it, or None when no row does |
| Seqs.IndexOfAppend | upload_to_jcloud.py:53-66 | appending a row does not move a value already present |
| Seqs.IndexOfPrefix | upload_to_jcloud.py:53-66 | extending a table does not move a value already present |
| JsonValue.Get | app/jobs/utils.py:13-14 | `data[key]`: a value exactly when the object has the key, namely that of the last member under that key (as `json.loads` keeps it) |
| Listing.Span | app/crawling/saramin.py:168-171 | `details[i].text if len(details) > i else ''`: the i-th span when it exists and "" otherwise |
| Deadline.SampleNotBlank | upload_to_jcloud.py:13 | the listing text "~ 01/09(목)" is neither empty nor "none" |
| Deadline.SampleMatch | upload_to_jcloud.py:18 | the first "NN/NN" in the listing text starts at position 2 |
| Deadline.SampleFields | upload_to_jcloud.py:20-22 | the listing text's month is "01", which reads as 1, and its day "09" |
| DbLoader.GrowsTransitive | app/crawling/db_loader.py:285-317 | the tables growing in one step and then another have grown from the first to the last |
| Saramin.DescribesCons | app/crawling/saramin.py:203-214 | a row built from a record, for the company of that name, extends a description of later rows to one of the record and those rows |
| Saramin.LinkedSplit | app/crawling/saramin.py:207 | records all have a link exactly when the first has one and the rest all do |
| Saramin.JobStore.constructor | app/crawling/saramin.py:190 | the store starts as the given tables |
| CsvImport.JobSession.constructor | app/crawling/utils/csv_to_db.py:9 | the session starts over the given jobs |
| DbLoader.JobDatabase.constructor | app/crawling/db_loader.py:40-130 | tech_stacks and job_categories are seeded with INSERT IGNORE, then the caches are loaded from the seeded tables, so every seed name (stacks lowercased) is in its cache; the other tables are the given ones |
| JcloudUpload.JcloudDatabase.constructor | upload_to_jcloud.py:31-42 | the uploader starts over the given companies and postings |
| JobsModel.JobBoard.constructor | app/jobs/models.py:4 | the board starts over the given tables |
| Deadline.FindDate | upload_to_jcloud.py:18 | the position found is a "NN/NN" match and no match starts earlier; None means there is no match at all |
| Deadline.ParseDeadline | upload_to_jcloud.py:13-29 | None, "" and any casing of "none" give None; otherwise a date comes back exactly when the text holds a "NN/NN" match, so input without one gives None rather than an error |
| Deadline.ParseDeadlineMatch | upload_to_jcloud.py:18-25 | the result is the inferred year, "-", then the month and day of the leftmost match copied verbatim, with no range check |
| Deadline.SampleDeadline | upload_to_jcloud.py:18-25 | the listing text "~ 01/09(목)" reads as January 9th of the year inferred for month 1 |
| Deadline.DecemberRollsOver | upload_to_jcloud.py:21-24 | "01/09" read in December of year y is due in year y + 1 |
| Deadline.JanuaryKeepsYear | upload_to_jcloud.py:21-24 | "01/09" read in January of year y is due in year y |
| Deadline.DeadlineYearRange | upload_to_jcloud.py:21-24 | the year is the current year exactly when the month is not before the current month, and otherwise the next year |
| Schema.GetOrCreate | upload_to_jcloud.py:53-66 | an existing name keeps its id and the table; a new name is appended once and gets the next id |
| Schema.GetOrCreateKeepsUnique | upload_to_jcloud.py:53-66 | get-or-create never introduces a duplicate name |
| Schema.GetOrCreateIdempotent | upload_to_jcloud.py:53-66 | a second get-or-create of the same name returns the same id and changes nothing |
| JcloudUpload.FindLive | upload_to_jcloud.py:72-78 | the first posting with that title and company and no deleted_at; None exactly when there is none |
| JcloudUpload.JcloudDatabase.ApplyRow | upload_to_jcloud.py:51-123 | one row of the loop changes the two tables as UploadRow says and reports whether it was an update; a missing column raises and changes nothing |
| JcloudUpload.JcloudDatabase.UploadCsv | upload_to_jcloud.py:44-132 | the row loop leaves the tables UploadFrom computes and returns saved + updated; on an error the tables are rolled back to what they were |
| JcloudUpload.UploadFromCons | upload_to_jcloud.py:51-123 | the rows are processed in order, the first error stopping the upload |
| JcloudUpload.UploadFromOk | upload_to_jcloud.py:51-123 | a successful upload's first row succeeded and the rest started from its tables |
| JcloudUpload.UploadFailsIffMissingColumn | upload_to_jcloud.py:56-132 | the upload fails exactly when some row lacks company_name or title |
| JcloudUpload.UploadCountsRows | upload_to_jcloud.py:99-127 | saved + updated grows by exactly the number of rows |
| JcloudUpload.UploadRowKeepsUniqueLive | upload_to_jcloud.py:72-123 | one row never creates a second live posting with the same (title, company) |
| JcloudUpload.UploadKeepsUniqueLive | upload_to_jcloud.py:51-123 | a whole upload keeps live (title, company) pairs unique |
| JcloudUpload.UploadRowKeepsCovered | upload_to_jcloud.py:53-123 | a row that already has its company and live posting keeps them after any other row |
| JcloudUpload.UploadFromKeepsCovered | upload_to_jcloud.py:51-123 | the same over the rest of the upload |
| JcloudUpload.UploadRowCovers | upload_to_jcloud.py:53-123 | after a row its company exists and a live posting with its title exists |
| JcloudUpload.UploadCoversFirst | upload_to_jcloud.py:51-123 | after a successful upload the first row is covered |
| JcloudUpload.UploadCoversRows | upload_to_jcloud.py:51-123 | after a successful upload every row is covered |
| JcloudUpload.CoveredUploadOnlyUpdates | upload_to_jcloud.py:80-99 | rows that are all covered succeed, add no company and no posting, and each counts as an update |
| JcloudUpload.ReuploadOnlyUpdates | upload_to_jcloud.py:51-127 | uploading the same file again adds nothing and counts every row as updated |
| DbLoader.Retry | app/crawling/db_loader.py:20-37 | at most max_retries calls; every call before the last raised a MySQL error; the result is the last call's value or error; a MySQL error is re-raised only on the max_retries-th call; max_retries <= 0 calls nothing and gives None |
| DbLoader.IdCacheLastRow | app/crawling/db_loader.py:58-74 | a dict comprehension over the rows holds exactly the rows' names, each mapped to the id of the last row with that name |
| DbLoader.InsertIgnore | app/crawling/db_loader.py:99-128 | INSERT IGNORE of each seed in turn keeps the existing rows in place, leaves every seed's name in the table and adds only seed rows |
| DbLoader.InsertIgnorePresent | app/crawling/db_loader.py:99-128 | seeds whose names are all present add nothing |
| DbLoader.SeedingIdempotent | app/crawling/db_loader.py:76-130 | seeding a table a second time, as every later start-up does, changes nothing |
| DbLoader.SeedStacksCached | app/crawling/db_loader.py:58-108 | after seeding, the lowercased name of every seed stack is a key of the cache `_load_tech_stacks` builds |
| DbLoader.SeedCategoriesCached | app/crawling/db_loader.py:67-128 | after seeding, every seed category is a key of the cache `_load_job_categories` builds |
| DbLoader.InitTable | app/crawling/db_loader.py:99-128 | the loop of INSERT IGNOREs leaves the table that InsertIgnore describes |
| DbLoader.SplitLocation | app/crawling/db_loader.py:157-159 | the city is the text before the first space and holds no space; the district is the rest, None exactly when the text has no space |
| DbLoader.LocationFor | app/crawling/db_loader.py:151-178 | a NaN location gives None and no write; otherwise get-or-create on (city, district), a NULL district matching only a NULL district |
| DbLoader.StackNames | app/crawling/db_loader.py:190-191 | the text up to the first '외', split on ',', each piece stripped |
| DbLoader.StackIds | app/crawling/db_loader.py:192-199 | at most one id per name, and only ids from the cache come out |
| DbLoader.StackIdsSingleton | app/crawling/db_loader.py:194-197 | one name gives the cached id of its lower-cased form, or nothing when that is not cached |
| DbLoader.StackIdsAppend | app/crawling/db_loader.py:192-199 | the loop treats names independently and in order: the ids of a concatenation are the ids of the parts, concatenated |
| DbLoader.StackIdsKeepsCached | app/crawling/db_loader.py:192-199 | a name whose lower-cased form is cached is never dropped: its cached id comes right after the ids of the names before it |
| DbLoader.StackIdsDropsUncached | app/crawling/db_loader.py:194-197 | a name whose lower-cased form is not cached adds nothing |
| DbLoader.StackIdsAllCached | app/crawling/db_loader.py:194-197 | when every lower-cased name is cached the ids are the cached ids in input order |
| DbLoader.CategoryIds | app/crawling/db_loader.py:202-213 | [] or one id: the cached id of the stripped experience text, present exactly when that text is cached |
| DbLoader.FindPosting | app/crawling/db_loader.py:219-223 | a posting with the same (company_id, title) is found exactly when one exists |
| DbLoader.Links | app/crawling/db_loader.py:250-261 | one junction row per id, in order, all for the new posting |
| DbLoader.InsertPosting | app/crawling/db_loader.py:216-264 | an existing (company_id, title) writes nothing and returns None; otherwise one posting is appended with the next id, plus one stack link per stack id and one category link per category id |
| DbLoader.InsertedPostingIsActive | app/crawling/db_loader.py:227-246 | the inserted posting is 'active', has the job data's company, title and location, no views and no deleted_at |
| DbLoader.JobDatabase.InsertCompany | app/crawling/db_loader.py:132-148 | get-or-create on the exact company name |
| DbLoader.JobDatabase.InsertLocation | app/crawling/db_loader.py:150-182 | the locations table and id LocationFor gives |
| DbLoader.JobDatabase.GetTechStacks | app/crawling/db_loader.py:184-199 | the cached ids of the listed stack names, never creating a stack |
| DbLoader.JobDatabase.GetCategories | app/crawling/db_loader.py:201-213 | the cached category id of the experience text, if any |
| DbLoader.JobDatabase.InsertJobPosting | app/crawling/db_loader.py:215-268 | the tables and id InsertPosting gives |
| DbLoader.WithCompany | app/crawling/db_loader.py:287 | the company step of a row: get-or-create, the other tables only growing |
| DbLoader.WithLocation | app/crawling/db_loader.py:288 | the location step of a row, the other tables only growing |
| DbLoader.InsertPostingGrows | app/crawling/db_loader.py:216-264 | inserting a posting never removes or changes an existing row |
| DbLoader.LoadRowOutcome | app/crawling/db_loader.py:285-317 | a row is counted as errored exactly when one of its steps raised, and the tables only grow either way |
| DbLoader.ProcessCsvFile | app/crawling/db_loader.py:277-325 | the loop leaves the tables and counts ProcessFrom computes, the caches unchanged |
| DbLoader.ProcessRow | app/crawling/db_loader.py:286-317 | one row's steps change the tables as LoadRow says |
| DbLoader.ProcessCountsRows | app/crawling/db_loader.py:306-317 | inserted + skipped + errored equals the rows processed, errored being the rows with a fault, so, with every column present, an errored row never stops later rows |
| DbLoader.InsertPostingKeepsUniqueKeys | app/crawling/db_loader.py:219-225 | company names, locations and (company_id, title) pairs stay unique after an insert |
| DbLoader.WithCompanyKeepsUniqueKeys | app/crawling/db_loader.py:136-144 | the company step keeps the keys unique |
| DbLoader.WithLocationKeepsUniqueKeys | app/crawling/db_loader.py:161-178 | the location step keeps the keys unique |
| DbLoader.LoadRowKeepsUniqueKeys | app/crawling/db_loader.py:285-317 | one row keeps the keys unique |
| DbLoader.ProcessKeepsUniqueKeys | app/crawling/db_loader.py:285-317 | the whole file keeps the keys unique |
| DbLoader.LoadRowLoads | app/crawling/db_loader.py:285-313 | after a row without faults its company, location and (company, title) posting exist |
| DbLoader.LoadRowKeepsLoaded | app/crawling/db_loader.py:285-317 | a loaded row stays loaded after any other row |
| DbLoader.ProcessKeepsLoaded | app/crawling/db_loader.py:285-317 | a loaded row stays loaded through the file |
| DbLoader.ProcessLoadsRows | app/crawling/db_loader.py:285-317 | without faults every row of the file ends up loaded |
| DbLoader.LoadedRowIsSkipped | app/crawling/db_loader.py:219-312 | a row already loaded changes nothing and is counted as skipped |
| DbLoader.LoadedRowsAreSkipped | app/crawling/db_loader.py:285-317 | rows that are all loaded leave the tables as they are and are all skipped |
| DbLoader.ReloadSkipsEverything | app/crawling/db_loader.py:277-325 | loading the same file twice: the second run writes nothing and skips every row |
| CsvImport.FirstMissing | app/crawling/utils/csv_to_db.py:30-55 | the first of the columns the loop reads that the row lacks; None exactly when the row has them all |
| CsvImport.FindJob | app/crawling/utils/csv_to_db.py:30-33 | a job with the row's (title, company_name) is found exactly when one exists |
| CsvImport.Overwritten | app/crawling/utils/csv_to_db.py:37-43 | the updated job keeps its title and company |
| CsvImport.LatestCsv | app/crawling/utils/csv_to_db.py:15-20 | a ".csv" name from the listing, None exactly when there is none |
| CsvImport.LatestCsvIsGreatest | app/crawling/utils/csv_to_db.py:20 | the chosen file is the lexicographically greatest ".csv" name |
| CsvImport.JobSession.ApplyRow | app/crawling/utils/csv_to_db.py:28-58 | one row updates or adds a job as ImportRow says; a missing column raises and changes nothing |
| CsvImport.JobSession.ImportRows | app/crawling/utils/csv_to_db.py:22-67 | the row loop leaves the jobs ImportFrom computes and returns saved + updated; on an error the session is rolled back |
| CsvImport.JobSession.ImportCsvToDb | app/crawling/utils/csv_to_db.py:9-67 | the file is chosen, imported and committed as Import says; on an error nothing is kept and the error is re-raised |
| CsvImport.ImportFromCons | app/crawling/utils/csv_to_db.py:28-58 | the rows are processed in order, the first missing column stopping the import |
| CsvImport.ImportFailsIffIncomplete | app/crawling/utils/csv_to_db.py:28-67 | the import fails exactly when some row lacks a column the loop reads |
| CsvImport.ImportCountsRows | app/crawling/utils/csv_to_db.py:44-62 | saved + updated grows by exactly the number of rows |
| CsvImport.ImportReturnsRowCount | app/crawling/utils/csv_to_db.py:13-62 | the result is the chosen file's row count, and 0 when no path is given and there is no ".csv" file |
| CsvImport.ImportFailure | app/crawling/utils/csv_to_db.py:13-67 | the import fails exactly when the chosen file does not exist or has an incomplete row |
| CsvImport.ImportRowUpdates | app/crawling/utils/csv_to_db.py:35-44 | a matching row overwrites that job only and counts as an update |
| CsvImport.ImportRowSaves | app/crawling/utils/csv_to_db.py:45-58 | a non-matching row appends exactly one job built from the row |
| CsvImport.OverwrittenFields | app/crawling/utils/csv_to_db.py:37-43 | location, experience, education, employment_type, deadline and tech_stacks are taken from the row, updated_at is refreshed, title and company stay |
| CsvImport.ImportRowKeepsUniqueKeys | app/crawling/utils/csv_to_db.py:28-58 | one row keeps (title, company_name) unique |
| CsvImport.ImportKeepsUniqueKeys | app/crawling/utils/csv_to_db.py:28-58 | the whole file keeps (title, company_name) unique |
| CsvImport.ImportRowKeepsPresent | app/crawling/utils/csv_to_db.py:28-58 | a job present for a row stays present after any other row |
| CsvImport.ImportKeepsPresent | app/crawling/utils/csv_to_db.py:28-58 | the same over the rest of the file |
| CsvImport.ImportRowMakesPresent | app/crawling/utils/csv_to_db.py:28-58 | after a row a job with its key exists |
| CsvImport.ImportMakesRowsPresent | app/crawling/utils/csv_to_db.py:28-58 | after a successful import every row has its job |
| CsvImport.PresentRowsOnlyUpdate | app/crawling/utils/csv_to_db.py:35-44 | rows that all have their job add nothing and are all counted as updates |
| CsvImport.ReimportOnlyUpdates | app/crawling/utils/csv_to_db.py:28-62 | importing the same rows again adds no job and counts every row as updated |
| Saramin.ExtractJobInfo | app/crawling/saramin.py:151-188 | a record comes back exactly when the title, company, date and sector elements are all present; a missing one gives None |
| Saramin.ExtractedFields | app/crawling/saramin.py:156-179 | title and company name are the stripped element texts and the link is the title's href; the first four condition spans fill location, experience, education and employment type in that order, each "" where its span is missing; date and sector are taken unstripped |
| Saramin.Extracted | app/crawling/saramin.py:112-115 | a page never yields more records than it has items |
| Saramin.ExtractedFromItems | app/crawling/saramin.py:113-115 | every record kept from a page is the extraction of one of its items |
| Saramin.ExtractedKeepsAll | app/crawling/saramin.py:113-115 | when every item extracts, the page's records are those extractions, one per item and in item order |
| Saramin.ExtractPage | app/crawling/saramin.py:112-115 | the loop over the page's elements keeps exactly the records of the items that extract, in page order |
| Saramin.CollectKeepsEarlier | app/crawling/saramin.py:102-128 | records gathered on earlier pages are never dropped by later pages |
| Saramin.TimeoutStopsCrawl | app/crawling/saramin.py:122-124 | a page that times out ends the crawl: no page after it affects the records collected |
| Saramin.CollectedFromPages | app/crawling/saramin.py:102-115 | every collected record was extracted from an item of some page between the start page and MAX_PAGES |
| Saramin.FailedPageSkipped | app/crawling/saramin.py:126-128 | a page whose processing raised something other than a timeout contributes nothing and the crawl goes on with the next page |
| Saramin.CollectPages | app/crawling/saramin.py:88-128 | the page loop from 1 to MAX_PAGES returns the records of the page-by-page collection, stopping at the first timeout |
| Saramin.Step | app/crawling/saramin.py:194-214 | one record adds its company if the name is new (committing the pending rows with it) and appends a row pointing at the company's id; committed rows are only extended and the rows seen by the session grow by exactly that one row |
| Saramin.JobStore.SaveJobs | app/crawling/saramin.py:190-224 | the loop leaves the tables and returns the count that the record-by-record save gives |
| Saramin.CrawlJobs | app/crawling/saramin.py:82-136 | a driver that fails to start raises "WebDriver 초기화 실패" and stores nothing; otherwise the collected records are saved and their saved count returned |
| Saramin.SaveCount | app/crawling/saramin.py:193-224 | the count is the number of records when no row lacks a link, and 0 otherwise |
| Saramin.SaveOnlyGrows | app/crawling/saramin.py:196-224 | saving never removes a committed company or job row, even when it fails |
| Saramin.StepKeepsSessionOk | app/crawling/saramin.py:196-214 | each job row refers to an existing company and company names stay unique after one record |
| Saramin.SaveKeepsStoreOk | app/crawling/saramin.py:190-224 | after save_jobs every stored row refers to an existing company and company names are unique |
| Saramin.SaveSuccess | app/crawling/saramin.py:194-219 | when every record has a link, the earlier rows stay in place and one new row per record follows, in record order, each carrying its record's fields and its company's id |
| Saramin.SaveCompanies | app/crawling/saramin.py:196-200 | after a successful save a company name is stored exactly when it was stored before or is some record's company name |
| Saramin.SaveJobsResult | app/crawling/saramin.py:217-224 | save_jobs returns the number of records when all have a link, and 0 otherwise; a successful save adds exactly that many rows |
| Saramin.CompanyCreatedOnce | app/crawling/saramin.py:196-200 | two records of a new company create it once, and both rows point at its new id |
| Saramin.PartialSaveReportsZero | app/crawling/saramin.py:196-224 | when a later record lacks a link, the row committed with an earlier new company stays stored although 0 is reported |
| LocalCrawler.ExtractJobInfo | Crawl/scripts/local_crawler.py:84-111 | a record comes back exactly when the item has both the title anchor and the company anchor; otherwise None |
| LocalCrawler.ExtractedFields | Crawl/scripts/local_crawler.py:90-105 | every field is stripped; title and company are the anchors' stripped texts; a missing condition span or date element gives "" and a present date gives its stripped text |
| LocalCrawler.Extracted | Crawl/scripts/local_crawler.py:64-66 | a page never yields more records than it has elements |
| LocalCrawler.ExtractedKeepsAll | Crawl/scripts/local_crawler.py:64-66 | when every element extracts, the page yields one record per element |
| LocalCrawler.LocalSaraminCrawler.constructor | Crawl/scripts/local_crawler.py:14-20 | a new crawler starts at page 1 |
| LocalCrawler.LocalSaraminCrawler.ExtractPage | Crawl/scripts/local_crawler.py:64-66 | the loop over the elements keeps exactly the records of the elements that extract, in page order |
| LocalCrawler.LocalSaraminCrawler.CrawlJobs | Crawl/scripts/local_crawler.py:32-82 | the while loop leaves current_page and the collected rows as the page-by-page crawl from the crawler's current page does, and returns their number; the rows handed to the CSV are those rows |
| LocalCrawler.CrawlKeepsEarlier | Crawl/scripts/local_crawler.py:64-66 | records collected earlier are never dropped by later pages |
| LocalCrawler.CrawlPageBound | Crawl/scripts/local_crawler.py:42-68 | current_page only moves forward and never goes past MAX_PAGES + 1 |
| LocalCrawler.CrawlStopsAt | Crawl/scripts/local_crawler.py:42-72 | the loop ends only past MAX_PAGES, on a page with no elements, or on an exception |
| LocalCrawler.TwentyThenEmpty | Crawl/scripts/local_crawler.py:56-68 | twenty extractable items on page 1 and an empty page 2 give twenty records and leave current_page at 2 |
| LocalCrawler.ExhaustedCrawlerFindsNothing | Crawl/scripts/local_crawler.py:17-68 | a crawler whose current_page is already past MAX_PAGES finds nothing and stays there, since current_page is never reset |
| LocalCrawler.FullRunExhausts | Crawl/scripts/local_crawler.py:42-68 | when no page stops the loop, it runs to MAX_PAGES + 1 |
| CodeTables.Find | app/config/location_config.py:16 | a dict `.get`: None exactly when no entry has the key, and otherwise a code stored under that key |
| CodeTables.FindGroup | app/config/location_config.py:16 | `.get(region, {})`: the empty dict when no group has the name, otherwise the entries of a group with that name |
| CodeTables.TwoLevel | app/config/location_config.py:15-16 | a code found through a group and a sub-name is stored under the sub-name in one of the groups |
| CodeTables.FindLeaf | app/config/location_config.py:17-18 | the generator search: None exactly when no group holds the name as a leaf, otherwise a code stored under that leaf name |
| CodeTables.FindLeafAbsent | app/config/location_config.py:17-18 | a name that is no leaf of any group gives None |
| CodeTables.GetCodeTruthy | app/config/location_config.py:14-18 | when no stored code is empty, a code that is found is truthy |
| CodeTables.DistinctAppend | app/config/location_config.py:3-12 | two tables each free of repeated keys, with no key in common, together have no repeated key |
| CodeTables.DisjointFromLeaves | app/config/location_config.py:3-12 | a table that shares no key with any group shares none with all the leaves together |
| CodeTables.LeavesDistinctBy | app/config/location_config.py:3-12 | groups without repeated keys that pairwise share none give leaves without repeated keys |
| CodeTables.FindLeafIsFindOnLeaves | app/config/location_config.py:17-18 | the nested generator finds the first match over all leaves, group by group in dict order |
| CodeTables.FindAppend | app/config/location_config.py:17-18 | searching two tables in a row gives the first table's match if it has one, otherwise the second's |
| CodeTables.FindExact | app/config/location_config.py:16 | in a table without repeated keys, the lookup gives c exactly when the entry (key, c) is stored |
| CodeTables.FindLeafUnique | app/config/location_config.py:17-18 | with leaf names unique across groups, the search gives c exactly when (name, c) is a leaf |
| CodeTables.TwoLevelExact | app/config/location_config.py:15-16 | for a well-formed two-level dict, the lookup gives c exactly when the named group stores (sub, c) |
| CodeTables.FindGroupFirst | app/config/location_config.py:16 | the lookup returns the entries of the first group with the name |
| CodeTables.AddIf | app/config/search_config.py:47-68 | `if code := ...: params[key] = code`: the key is set to the code exactly when the code is truthy; every other key is untouched |
| CodeTables.AssembleFixedKeys | app/config/search_config.py:40-44 | searchType is always "search", searchword is the keyword or "", and recruitPage is the page or 1 |
| CodeTables.AssembleCodeKeys | app/config/search_config.py:46-68 | each of loc_cd, job_cd, sort, exp_cd and emp_cd is present exactly when its resolved code is truthy, and then holds that code |
| CodeTables.AssembleOnlyParamKeys | app/config/search_config.py:40-70 | the parameter map holds no key besides the three fixed ones and the five optional ones |
| LocationConfig.GroupsDistinct | app/config/location_config.py:3-12 | no region group repeats a name or a code |
| LocationConfig.MetroCitiesDisjoint | app/config/location_config.py:4-6 | the 수도권 and 광역시 groups share no name and no code |
| LocationConfig.MetroProvincesDisjoint | app/config/location_config.py:4-9 | the 수도권 and 도 groups share no name and no code |
| LocationConfig.MetroOverseasDisjoint | app/config/location_config.py:4-11 | the 수도권 and 해외 groups share no name and no code |
| LocationConfig.CitiesProvincesDisjoint | app/config/location_config.py:5-9 | the 광역시 and 도 groups share no name and no code |
| LocationConfig.CitiesOverseasDisjoint | app/config/location_config.py:5-11 | the 광역시 and 해외 groups share no name and no code |
| LocationConfig.ProvincesOverseasDisjoint | app/config/location_config.py:7-11 | the 도 and 해외 groups share no name and no code |
| LocationConfig.LeavesDistinct | app/config/location_config.py:3-12 | across all groups, every region name and every region code occurs once |
| LocationConfig.CodesAreDict | app/config/location_config.py:3-12 | group names are unique and each group's names are unique, as in a Python dict |
| LocationConfig.CodesAreNonEmpty | app/config/location_config.py:3-12 | no stored code is the empty string |
| LocationConfig.CodesWellFormed | app/config/location_config.py:3-12 | the table is a two-level dict whose codes are all non-empty |
| LocationConfig.GetCodeWithSubRegion | app/config/location_config.py:15-16 | with a sub-region, the code is c exactly when the named region group stores (sub-region, c) |
| LocationConfig.GetCodeByLeaf | app/config/location_config.py:17-18 | without a sub-region, the code is c exactly when (region, c) is a leaf of some group |
| LocationConfig.NoLeafNamed | app/config/location_config.py:4-11 | the four group names are not leaf names |
| LocationConfig.GroupNamesAreNotLeaves | app/config/location_config.py:17-18 | a group name with no sub-region gives None, since only leaves are searched |
| LocationConfig.FoundCodeIsTruthy | app/config/location_config.py:14-18 | every code the lookup finds is non-empty |
| LocationConfig.SeoulByLeaf | app/config/location_config.py:4-18 | "서울" alone gives "101000" |
| LocationConfig.SeoulByGroup | app/config/location_config.py:4-16 | "수도권" with sub-region "서울" gives "101000" |
| JobConfig.GroupsDistinct | app/config/job_config.py:3-22 | no category group repeats a name or a code |
| JobConfig.DevelopmentPlanningDisjoint | app/config/job_config.py:4-16 | 개발 and 기획 share no name and no code |
| JobConfig.DevelopmentDesignDisjoint | app/config/job_config.py:4-21 | 개발 and 디자인 share no name and no code |
| JobConfig.PlanningDesignDisjoint | app/config/job_config.py:12-21 | 기획 and 디자인 share no name and no code |
| JobConfig.LeavesDistinct | app/config/job_config.py:3-22 | across all categories, every job name and every job code occurs once |
| JobConfig.CategoriesAreDict | app/config/job_config.py:3-22 | category names are unique and each category's job names are unique |
| JobConfig.CategoriesAreNonEmpty | app/config/job_config.py:3-22 | no stored code is the empty string |
| JobConfig.GetCodeWithSubCategory | app/config/job_config.py:25-26 | with a sub-category, the code is c exactly when the named category stores (sub-category, c) |
| JobConfig.GetCodeByLeaf | app/config/job_config.py:27-28 | without a sub-category, the code is c exactly when (category, c) is a leaf of some category |
| JobConfig.NoLeafNamed | app/config/job_config.py:4-17 | the three category names are not job names |
| JobConfig.GroupNamesAreNotLeaves | app/config/job_config.py:27-28 | a category name with no sub-category gives None |
| JobConfig.FoundCodeIsTruthy | app/config/job_config.py:24-28 | every code the lookup finds is non-empty |
| JobConfig.BackendByLeaf | app/config/job_config.py:5-28 | "백엔드" alone gives "2001" |
| SearchConfig.SortLabels | app/config/search_config.py:6-27 | a sort code exists exactly for the four sort labels |
| SearchConfig.SortCodes | app/config/search_config.py:6-11 | the four labels map to latest, relevance, deadline and experience |
| SearchConfig.FiltersAreDict | app/config/search_config.py:13-24 | filter types are unique and each filter's values are unique |
| SearchConfig.FilterCodeExact | app/config/search_config.py:29-30 | the filter code is c exactly when the named filter type stores (value, c) |
| SearchConfig.UnknownFilterType | app/config/search_config.py:29-30 | a filter type other than 경력 and 고용형태 gives None |
| SearchConfig.SearchCodesNonEmpty | app/config/search_config.py:6-24 | no sort code and no filter code is empty |
| SearchConfig.SortCodeIsTruthy | app/config/search_config.py:26-27 | every sort code found is non-empty |
| SearchConfig.FilterCodeIsTruthy | app/config/search_config.py:29-30 | every filter code found is non-empty |
| SearchConfig.BuildParamsFixedKeys | app/config/search_config.py:40-44 | searchType is "search", searchword is the keyword or "", recruitPage is the page or 1 |
| SearchConfig.BuildParamsRegion | app/config/search_config.py:47-49 | loc_cd is present exactly when a truthy region resolves by leaf search, and then holds that code |
| SearchConfig.BuildParamsJob | app/config/search_config.py:52-54 | job_cd is present exactly when a truthy job resolves by leaf search, and then holds that code |
| SearchConfig.BuildParamsSort | app/config/search_config.py:57-59 | sort is present exactly when a truthy sort label has a code, and then holds it |
| SearchConfig.BuildParamsFilters | app/config/search_config.py:62-68 | exp_cd and emp_cd are present exactly when the experience and employment values have codes under 경력 and 고용형태, and then hold them |
| SearchConfig.BuildParamsOnlyParamKeys | app/config/search_config.py:40-70 | build_params adds no key besides the eight it names |
| SearchConfig.RegionOnlyByLeaf | app/config/search_config.py:47-49 | loc_cd is c exactly when the region is a leaf of the location table with code c |
| SearchConfig.GroupRegionAddsNothing | app/config/search_config.py:47-49 | passing a group name such as "수도권" as the region adds no loc_cd |
| ParamsCode.TablesAgree | app/crawling/params_code.py:3-69 | the crawler's copies of the location, job, sort and filter tables equal those of app/config |
| ParamsCode.LocationAgrees | app/crawling/params_code.py:14-18 | the crawler's region lookup agrees with the config lookup on every input |
| ParamsCode.JobAgrees | app/crawling/params_code.py:43-47 | the crawler's job lookup agrees with the config lookup on every input |
| ParamsCode.SearchAgrees | app/crawling/params_code.py:71-75 | the crawler's sort and filter lookups agree with the config ones on every input |
| ParamsCode.BuildParamsAgrees | app/crawling/params_code.py:83-115 | the crawler's build_params gives the same map as the config one for every argument set |
| ParamsCode.ResolveAgrees | app/crawling/params_code.py:91-113 | the crawler resolves the same five codes as the config version |
| ParamsCode.LocationWithSubRegion | app/crawling/params_code.py:15-16 | with a sub-region, the code is c exactly when the named group stores (sub-region, c) |
| ParamsCode.LocationByLeaf | app/crawling/params_code.py:17-18 | without a sub-region, the code is c exactly when (region, c) is a leaf; a group name gives None |
| ParamsCode.JobModes | app/crawling/params_code.py:43-47 | the two lookup modes of the job table: by category and job, or by job name alone, where a category name gives None |
| ParamsCode.UnknownOptions | app/crawling/params_code.py:71-75 | an unknown sort label has no code and an unknown filter type gives None |
| ParamsCode.LeavesDistinct | app/crawling/params_code.py:3-41 | region and job names and codes are each unique across all groups |
| ParamsCode.BuildParamsFixedKeys | app/crawling/params_code.py:85-89 | searchType is "search", searchword is the keyword or "", recruitPage is the page or 1 |
| ParamsCode.BuildParamsCodeKeys | app/crawling/params_code.py:91-115 | each optional key is present exactly when its argument is truthy and resolves to a code; no other key appears |
| JobsUtils.ValidateJobData | app/jobs/utils.py:8-11 | a body lacking title, job_description or company_id gets "Missing required fields" whatever else it holds |
| JobsUtils.ValidateJobDataSpec | app/jobs/utils.py:3-23 | no error exactly when the body is well formed; each of the other three messages comes back exactly when every earlier check passed and its own check fails |
| JobsUtils.ArgGet | app/jobs/utils.py:33 | `args.get`: None exactly when no argument has the key, otherwise the value of an argument with that key |
| JobsUtils.ArgList | app/jobs/utils.py:45-46 | `args.getlist`: empty exactly when the key is absent, headed by the value `args.get` gives, and never longer than the arguments |
| JobsUtils.FieldsListed | app/jobs/utils.py:32-44 | the text and list filter fields are exactly the six and the two that the loops name |
| JobsUtils.CopyTextFilters | app/jobs/utils.py:32-34 | the filter holds a text field exactly when the field is named and its argument is non-empty, and then holds that argument |
| JobsUtils.CopyListFilters | app/jobs/utils.py:44-46 | the filter holds a list field exactly when it has at least one value, and then holds all its values in order |
| JobsUtils.PrepareJobFilters | app/jobs/utils.py:25-52 | text and list filters as above; location_id is the parsed integer when given, dropped when it does not parse; sort_field and sort_order default to created_at and desc |
| JobsUtils.LocationIdParsed | app/jobs/utils.py:37-41 | "12" parses to 12 and "abc" is dropped without an error |
| JobsQuery.TextFilter | app/jobs/models.py:40-64 | a text filter is applied only when its value is truthy, that is non-empty |
| JobsQuery.SortColumn | app/jobs/models.py:80-87 | the ORDER BY column is always one of the four whitelisted columns, whatever sort_field was given |
| JobsQuery.SortDirection | app/jobs/models.py:88 | DESC exactly when the lower-cased sort_order (default desc) is "desc"; ASC for anything else |
| JobsQuery.FilterParamCount | app/jobs/models.py:38-76 | the keyword adds two parameters, each other applied filter one, and each tech stack or category one |
| JobsQuery.Strs | app/jobs/models.py:71-76 | the list values are passed as parameters one by one, in order |
| JobsQuery.InClause | app/jobs/models.py:70-75 | `IN (%s,...)` carries one placeholder per list element and splices no value into the text |
| JobsQuery.AddClause | app/jobs/models.py:41-76 | appending a clause with its values keeps the placeholder count equal to the parameter count and splices nothing |
| JobsQuery.AddText | app/jobs/models.py:78-93 | appending fixed text adds no placeholder and no spliced value |
| JobsQuery.AddFilter | app/jobs/models.py:40-66 | an optional filter appends its values, keeps placeholders and parameters in step, and leaves the base query at the front |
| JobsQuery.KeywordClause | app/jobs/models.py:41 | the keyword condition carries exactly two placeholders |
| JobsQuery.Condition | app/jobs/models.py:45-65 | each single-column condition carries exactly one placeholder |
| JobsQuery.ScalarClauses | app/jobs/models.py:38-66 | the scalar filters give parameters in the fixed filter order and exactly as many placeholders, after the base query |
| JobsQuery.ListClause | app/jobs/models.py:68-76 | a list filter appends its elements as parameters, in order, keeping placeholders in step |
| JobsQuery.ListJobsQuery | app/jobs/models.py:11-93 | list_jobs' query has one placeholder per parameter and splices no filter value; it starts with the active-only base query and ends with GROUP BY, the whitelisted ORDER BY and LIMIT 20 OFFSET (page - 1) * 20 |
| JobsQuery.SplitRows | app/jobs/models.py:98-107 | one job per fetched row, each aggregate split on commas, and an empty or NULL aggregate becomes [] |
| JobsQuery.PagesTileRows | app/jobs/models.py:91-93 | the LIMIT 20 OFFSET (page - 1) * 20 windows of pages 1, 2, ... tile the result: every row is returned by exactly one page, page r // 20 + 1, so paging neither skips nor repeats a row |
| Sql.PlaceholdersAppend | app/jobs/models.py:41-93 | joining query pieces adds their placeholder counts |
| Sql.SplicedTextsAppend | app/jobs/models.py:41-93 | joining query pieces joins the values spliced into their text |
| Sql.RenderAppend | app/jobs/models.py:41-93 | the text of joined pieces is the pieces' texts joined |
| Sql.NoSpliceHasNoText | app/jobs/models.py:41-93 | a query with no spliced piece carries no value in its text |
| Sql.LiteralsOnly | app/jobs/models.py:78-93 | fixed text alone has no placeholder and no spliced value |
| Sql.TextThenParam | app/jobs/models.py:45-65 | a condition followed by `%s` has exactly one placeholder |
| Sql.ParamList | app/jobs/models.py:70-75 | `','.join(['%s'] * n)` holds n placeholders separated by commas and nothing else |
| Sql.SplitAggregate | app/jobs/models.py:99-107 | a NULL or empty GROUP_CONCAT gives [], and no part of the split holds a comma |
| Sql.SplitAggregateOfConcat | app/jobs/models.py:98-107 | splitting the comma-joined names gives the names back when none holds a comma |
| JobsModel.StackIndex | app/jobs/models.py:235-236 | `SELECT stack_id ... WHERE name = %s`: the first tech stack with that name, or None when no stack has it |
| JobsModel.GetOrCreateStack | app/jobs/models.py:235-244 | an existing stack's id is reused and the table unchanged; otherwise one stack with the name and the given category is appended and its id returned |
| JobsModel.CategoryIndex | app/jobs/models.py:254-258 | the first job category with that name, or None when none has it |
| JobsModel.GetOrCreateCategory | app/jobs/models.py:254-266 | an existing category's id is reused and the table unchanged; otherwise the name is appended and its id returned |
| JobsModel.AddStacks | app/jobs/models.py:233-249 | the stack loop adds one junction row per name and touches no other table |
| JobsModel.AddCategories | app/jobs/models.py:252-271 | the category loop adds one junction row per name and touches no other table |
| JobsModel.AddStacksGrows | app/jobs/models.py:233-249 | the stack loop only appends: earlier stacks and junction rows stay in place |
| JobsModel.AddCategoriesGrows | app/jobs/models.py:252-271 | the category loop only appends: earlier categories and junction rows stay in place |
| JobsModel.StackLinkedGrows | app/jobs/models.py:233-249 | a junction row linking a posting to a named stack still does so after more rows are appended |
| JobsModel.CategoryLinkedGrows | app/jobs/models.py:252-271 | a junction row linking a posting to a named category still does so after more rows are appended |
| JobsModel.AddStacksLinks | app/jobs/models.py:233-249 | the k-th new junction row links the posting to a stack named as the k-th given name |
| JobsModel.AddStacksUnique | app/jobs/models.py:235-244 | lookup before insert keeps tech stack names unique, even with repeated names in the list |
| JobsModel.AddStacksNew | app/jobs/models.py:240-244 | every stack the loop creates is named in the list and carries the loop's category |
| JobsModel.AddCategoriesLinks | app/jobs/models.py:252-271 | the k-th new junction row links the posting to a category named as the k-th given name |
| JobsModel.AddCategoriesUnique | app/jobs/models.py:254-266 | lookup before insert keeps category names unique |
| JobsModel.WithLocation | app/jobs/models.py:194-213 | without a location nothing changes and the id is None; with one, the location is found or appended and the id points at it; no other table changes |
| JobsModel.InsertPosting | app/jobs/models.py:216-228 | the INSERT adds exactly one posting and touches no stack or category table |
| JobsModel.CreateInsertsActive | app/jobs/models.py:188-230 | create_job appends one posting, returns its new id and keeps every earlier posting; the posting is active with view count 0 and the given fields, and its location id is set exactly when a location was given and points at that location |
| JobsModel.CreateStackLinks | app/jobs/models.py:232-249 | one junction row per given tech stack links the new posting to it; every stack created has category "Other" and is one of the given names |
| JobsModel.CreateCategoryLinks | app/jobs/models.py:251-271 | one junction row per given category links the new posting to it |
| JobsModel.CreateKeepsNamesUnique | app/jobs/models.py:232-271 | create_job keeps tech stack and category names unique |
| JobsModel.UnlinkKeepsOthers | app/jobs/models.py:336-358 | the DELETE removes exactly the posting's junction rows and keeps every other row |
| JobsModel.UpdateRow | app/jobs/models.py:300-333 | the UPDATE of an existing posting keeps the number of postings and touches no stack or category table |
| JobsModel.UpdateNotFound | app/jobs/models.py:288-298 | update_job fails exactly when the posting does not exist, with "Job posting not found", and then changes nothing |
| JobsModel.UpdateFields | app/jobs/models.py:300-333 | each of the eight fields takes the given value or keeps its old one; a given location is found or created and the posting points at it; company, view count and every other posting are unchanged |
| JobsModel.UpdateKeepsLinks | app/jobs/models.py:335-357 | without tech_stacks (or job_categories) in the body, that posting's junction rows stay as they were |
| JobsModel.UpdateRewritesStacks | app/jobs/models.py:335-355 | with tech_stacks given, the posting's old stack links are replaced by one new link per given name; other postings' links are kept |
| JobsModel.RewriteStacksLinks | app/jobs/models.py:336-355 | deleting the posting's stack links then linking each name keeps every other link and adds exactly one per name, in order |
| JobsModel.UpdateRewritesCategories | app/jobs/models.py:357-380 | with job_categories given, the posting's old category links are replaced by one new link per given name; other postings' links are kept |
| JobsModel.RewriteCategoriesLinks | app/jobs/models.py:358-380 | deleting the posting's category links then linking each name keeps every other link and adds exactly one per name, in order |
| JobsModel.DeleteOutcome | app/jobs/models.py:392-414 | "Job posting not found" exactly when the posting is missing and "Job posting already deleted" exactly when its status is deleted, both changing nothing; otherwise only its status becomes deleted |
| JobsModel.DeleteTwice | app/jobs/models.py:406-407 | deleting the same posting a second time reports "Job posting already deleted" and changes nothing |
| JobsModel.ViewedOnce | app/jobs/models.py:120-149 | get_job_detail adds one to an existing posting's view count, also for a deleted posting, and changes nothing else; the detail is None exactly when the posting is missing or deleted, and otherwise shows the new count |
| JobsModel.JobBoard.LinkStacks | app/jobs/models.py:233-249 | the loop leaves the tables the stack-by-stack link function gives |
| JobsModel.JobBoard.LinkCategories | app/jobs/models.py:252-271 | the loop leaves the tables the category-by-category link function gives |
| JobsModel.JobBoard.CreateJob | app/jobs/models.py:187-280 | the tables and returned id are those of create_job's function |
| JobsModel.JobBoard.UpdateJob | app/jobs/models.py:282-389 | the tables and returned error are those of update_job's function |
| JobsModel.JobBoard.DeleteJob | app/jobs/models.py:391-420 | the tables and returned error are those of delete_job's function |
| JobsModel.JobBoard.GetJobDetail | app/jobs/models.py:114-185 | the tables after the view-count update, and the detail read from them |
| JobsRoutes.IntArg | app/jobs/routes.py:15-16 | an absent page or per_page takes its default; a present one is `int()` of the text, None when it does not parse |
| JobsRoutes.RouteFilterParamCount | app/jobs/routes.py:42-72 | each given filter adds one parameter and the keyword three, the last three being the same LIKE pattern |
| JobsRoutes.RouteKeywordClause | app/jobs/routes.py:66-70 | the keyword condition carries three placeholders and splices nothing |
| JobsRoutes.RouteScalarClauses | app/jobs/routes.py:34-63 | the five single-value filters give their parameters in order and exactly as many placeholders, after the base query |
| JobsRoutes.RouteFilterClauses | app/jobs/routes.py:34-72 | all filters give their parameters, with the keyword last, and as many placeholders, splicing nothing |
| JobsRoutes.OrderBy | app/jobs/routes.py:75 | the ORDER BY clause has no placeholder: the sort and order arguments are spliced into the SQL text verbatim |
| JobsRoutes.LimitOffset | app/jobs/routes.py:78 | LIMIT and OFFSET are two placeholders with no spliced text |
| JobsRoutes.RouteQuery | app/jobs/routes.py:34-79 | the full query has one placeholder per parameter; the parameters are the filters' then per_page and offset; the only spliced text is the sort then the order argument, and the query ends with the ORDER BY and LIMIT clauses |
| JobsRoutes.FloorDiv | app/jobs/routes.py:97 | Python's `//`: an error exactly for a zero divisor, otherwise the floor of the quotient, for either sign |
| JobsRoutes.PagesIsCeiling | app/jobs/routes.py:97 | for a positive per_page, pages is the least count of pages that holds all results: enough pages, and one fewer would not be |
| JobsRoutes.ListingFor | app/jobs/routes.py:17-107 | a failed execution answers 500, a per_page of 0 answers 500 from the division, and otherwise the listing carries the filters' parameters, LIMIT and OFFSET (page - 1) * per_page, the spliced sort and order, and the pagination block |
| JobsRoutes.GetJobs | app/jobs/routes.py:8-107 | a non-integer page or per_page answers 500 before any query, and only then; otherwise the answer is the listing for the parsed window |
| JobsRoutes.DefaultWindow | app/jobs/routes.py:15-16 | without page and per_page the window is page 1 of 20 |
| Bookmarks.Match | app/bookmarks/models.py:10-17 | the SELECT finds the first bookmark of that user and posting, and finds none exactly when the pair is not bookmarked |
| Bookmarks.WithoutMembers | app/bookmarks/models.py:20-23 | deleting by bookmark_id removes exactly the rows with that id |
| Bookmarks.WithoutKeepsOrder | app/bookmarks/models.py:20-23 | deleting a row keeps the remaining rows in increasing id order |
| Bookmarks.WithoutKeepsPairsUnique | app/bookmarks/models.py:20-23 | deleting rows keeps each (user, posting) pair bookmarked at most once |
| Bookmarks.WithoutAbsent | app/bookmarks/models.py:20-23 | deleting an id no row has changes nothing |
| Bookmarks.WithoutAppend | app/bookmarks/models.py:20-23 | deleting from two parts of the table is deleting from each part |
| Bookmarks.OthersKeepId | app/bookmarks/models.py:20-23 | with increasing ids, no row before or after a given row shares its id |
| Bookmarks.RemoveRow | app/bookmarks/models.py:20-23 | with increasing ids, deleting a row's id removes exactly that row |
| Bookmarks.SplitAt | app/bookmarks/models.py:20-23 | a table is the rows before a position, the row there and the rows after |
| Bookmarks.RemoveOne | app/bookmarks/models.py:20-23 | when no other row has the id, deleting it removes just that row |
| Bookmarks.RemoveRowMembers | app/bookmarks/models.py:19-23 | with unique pairs, removing the matched row removes exactly the bookmark of that pair |
| Bookmarks.ToggleRemoves | app/bookmarks/models.py:19-25 | an existing bookmark is deleted with "Bookmark removed" and no id: the table loses exactly that pair's row and the id counter is unchanged |
| Bookmarks.ToggleAdds | app/bookmarks/models.py:26-32 | a missing bookmark is inserted with the next id, which is returned with "Bookmark added" |
| Bookmarks.ToggleKeepsValid | app/bookmarks/models.py:5-32 | toggling keeps ids increasing and below the next id, and keeps each pair bookmarked at most once |
| Bookmarks.ToggleFlips | app/bookmarks/models.py:5-32 | toggling flips whether that user has that posting bookmarked and leaves every other pair as it was |
| Bookmarks.RemoveLast | app/bookmarks/models.py:20-23 | deleting the newest row, whose id is above all others, gives the earlier table back |
| Bookmarks.ToggleTwice | app/bookmarks/models.py:5-32 | toggling twice leaves the same bookmarks; starting from no bookmark, the same rows come back with the id counter advanced by one |
| Bookmarks.BookmarkStore.constructor | app/bookmarks/models.py:3 | an empty bookmarks table whose first id is 1 |
| Bookmarks.BookmarkStore.ToggleBookmark | app/bookmarks/models.py:4-38 | the table, message and id are those of the toggle function, and a well-formed table stays well formed |
| Bookmarks.BookmarksQuery | app/bookmarks/models.py:46-78 | the query has one placeholder, for the user id, splices no value, orders by created_at ASC only when sort is "asc" and DESC otherwise, and takes 20 rows from offset (page - 1) * 20 |
| Bookmarks.SortOnlyPicksDirection | app/bookmarks/models.py:74 | any sort value other than "asc" gives the same query as "desc" |
| Bookmarks.SplitBookmarks | app/bookmarks/models.py:83-92 | one bookmark per fetched row, each aggregate split on commas and a NULL or empty one becoming [] |
| Sql.Direction | app/bookmarks/models.py:74 | ASC exactly when the sort is "asc", DESC otherwise |
| Resumes.CreatePrimaryIffFirst | app/resumes/models.py:13-33 | create_resume appends one row with the next id for the user and keeps the earlier rows; the new resume is primary exactly when the user had no resume before |
| Resumes.CreateKeepsOnePrimary | app/resumes/models.py:13-29 | creating a resume keeps ids increasing and no user with two primary resumes |
| Resumes.CreateKeepsPrimaryPresent | app/resumes/models.py:13-29 | after a create, every user who has a resume still has a primary one |
| Resumes.Owned | app/resumes/models.py:68-73 | the lookup by resume id and user id finds a row with both, or reports that no row has both |
| Resumes.GetResume | app/resumes/models.py:62-77 | get_resume returns a row of the table with that id and that owner, or "Resume not found" when no such row exists |
| Resumes.GetResumeOnlyOwn | app/resumes/models.py:68-75 | a resume owned by another user is "Resume not found" |
| Resumes.UpdateNotFound | app/resumes/models.py:92-98 | update_resume of a resume the user does not own reports "Resume not found" and changes nothing |
| Resumes.UpdateFields | app/resumes/models.py:100-122 | on success only the matched row changes: its title and content take the given values or keep theirs; ids, owners and primary flags stay as they were |
| Resumes.SameKeysKeepInvariants | app/resumes/models.py:104-119 | an edit that keeps every row's id, owner and primary flag keeps the table's invariants |
| Resumes.UpdateKeepsInvariants | app/resumes/models.py:85-129 | update_resume keeps ids increasing, at most one primary resume per user, and a primary resume for every user who has one |
| Resumes.OwnedIsOnly | app/resumes/models.py:138-145 | with unique ids, the found resume is the only row with that id |
| Resumes.SplitAt | app/resumes/models.py:151-154 | a table is the rows before a position, the row there and the rows after |
| Resumes.DeleteOutcome | app/resumes/models.py:131-157 | "Resume not found" when the user owns no such resume and "Cannot delete primary resume" for a primary one, both changing nothing; a successful delete removes exactly the one row with that id, a non-primary resume of that user |
| Resumes.RemoveAtKeepsOrder | app/resumes/models.py:151-154 | removing a row keeps ids increasing and at most one primary resume per user |
| Resumes.RemoveAtKeepsPrimaryPresent | app/resumes/models.py:147-154 | removing a non-primary row keeps a primary resume for every user who has one |
| Resumes.DeleteKeepsInvariants | app/resumes/models.py:131-157 | delete_resume keeps ids increasing, at most one primary resume per user, and a primary resume for every user who has one |
| Resumes.PickMembers | app/resumes/models.py:48-52 | the picked rows are exactly the user's rows with the given primary flag |
| Resumes.PickNewestFirst | app/resumes/models.py:51 | the picked rows come newest first |
| Resumes.UserResumesOrder | app/resumes/models.py:43-54 | get_user_resumes returns exactly the user's resumes, the primary one first and each group newest first |
| Resumes.ResumeStore.constructor | app/resumes/models.py:5 | an empty resumes table whose first id is 1 |
| Resumes.ResumeStore.Create | app/resumes/models.py:6-40 | the table is that of create_resume's function and the returned id is the table's next id |
| Resumes.ResumeStore.Update | app/resumes/models.py:85-129 | the table and error are those of update_resume's function |
| Resumes.ResumeStore.Delete | app/resumes/models.py:131-164 | the table and error are those of delete_resume's function |
| Applications.CreateRefusesDuplicate | app/applications/models.py:12-20 | a second application of the same user to the same posting is refused with "Already applied for this job posting" and changes nothing |
| Applications.CreateRefusesForeignResume | app/applications/models.py:35-41 | a non-zero resume id that the user does not own is refused with "Not authorized to use this resume" and changes nothing |
| Applications.CreateInsertsPending | app/applications/models.py:43-52 | a successful create means the user had not applied and the INSERT did not raise; it appends one pending application with the next id for that user and posting, keeps the earlier ones, and any resume it names is the user's |
| Applications.UploadAlwaysAuthorized | app/applications/models.py:23-41 | uploaded resume content is stored as a new resume of the user, which the application then uses, so the ownership check always passes |
| Applications.UploadLeavesNoPrimary | app/applications/models.py:23-56 | for a user without resumes, the uploaded resume is not primary, so the user has a resume but no primary one, even when the application INSERT then fails, and a later create_resume is not made primary either |
| Applications.FailedInsertKeepsUpload | app/applications/models.py:23-56 | when the application INSERT raises after an upload, the call answers the exception's message, adds no application, and the committed upload stays as one new resume |
| Applications.FailedInsertWithoutUpload | app/applications/models.py:43-56 | without an upload, a raising INSERT leaves both tables as they were and answers an error |
| Applications.ApplicationsParams | app/applications/models.py:72-76 | the parameters are the user id, then the status filter when it is non-empty |
| Applications.ApplicationsQuery | app/applications/models.py:66-82 | one placeholder per parameter and no spliced value; the status condition appears exactly when the filter is non-empty; ordered by applied_at ASC only for "asc"; 20 rows from offset (page - 1) * 20 |
| Applications.FindApp | app/applications/models.py:96-100 | the lookup by application id finds a row with that id, or reports that none has it |
| Applications.SplitAt | app/applications/models.py:108-111 | a table is the rows before a position, the row there and the rows after |
| Applications.FoundIsOnly | app/applications/models.py:96-100 | with unique ids, the found application is the only row with that id |
| Applications.DeleteApplicationRefusals | app/applications/models.py:102-106 | "Application not found" exactly when no application has the id, and "Not authorized to cancel this application" exactly when it belongs to someone else; both change nothing |
| Applications.DeleteApplicationRemoves | app/applications/models.py:108-113 | a successful delete removes exactly the application with that id, which belonged to the user, and leaves the resumes alone |
| Applications.RemoveUnique | app/applications/models.py:108-111 | removing the row with a unique id removes exactly the rows with that id |
| Applications.CreateKeepsValid | app/applications/models.py:5-58 | create_application, in every outcome, keeps application ids increasing and below the next id |
| Applications.DeleteKeepsValid | app/applications/models.py:90-119 | delete_application keeps application ids increasing and below the next id |
| Applications.ApplicationStore.constructor | app/applications/models.py:4 | no applications yet, the first id is 1, over the given resumes table; the ids are well formed |
| Applications.ApplicationStore.Create | app/applications/models.py:5-58 | the tables, id and error are those of create_application's function, including the kept upload when the INSERT raises; well-formed ids stay well formed |
| Applications.ApplicationStore.Delete | app/applications/models.py:90-119 | the tables and error are those of delete_application's function; well-formed ids stay well formed |
| ApplicationRoutes.ActiveJob | app/applications/routes.py:36-41 | the lookup finds an active job with that id, or reports that no job with that id is active |
| ApplicationRoutes.ApplyRefusalWritesNothing | app/applications/routes.py:14-52 | every refusal (the 500 of a missing job id, 409, 404, the 500 of a NULL deadline, or 400 for a passed deadline) leaves the tables unchanged |
| ApplicationRoutes.MissingJobIdFails | app/applications/routes.py:14-21 | a missing or zero job_id ends in a 500 that writes nothing, and "Job ID is required" is never sent: the early return leaves `cursor` unbound, so `cursor.close()` in the `finally` clause (:77-78) raises and the app's 500 handler answers |
| ApplicationRoutes.ApplyAccepts | app/applications/routes.py:9-68 | an application is created exactly when a non-zero job id is given, the user holds no live application to it, the job is active, and its deadline is set and not before now; the new 'applied' row gets the next id, which is returned |
| ApplicationRoutes.CancelledDoNotBlock | app/applications/routes.py:24-33 | cancelled applications never cause the 409 "Already applied to this job" |
| ApplicationRoutes.ApplyKeepsInvariants | app/applications/routes.py:24-62 | applying keeps ids increasing and at most one live application per user and job |
| ApplicationRoutes.FindEntry | app/applications/routes.py:88-93 | the lookup finds an application with that id owned by the user, or reports that none exists |
| ApplicationRoutes.CancelOutcome | app/applications/routes.py:82-118 | the reply is 200, 400 or 404; 404 "Application not found", changing nothing, exactly when the user owns no application with that id; a 400 changes nothing; a successful cancel sets only that application's status to cancelled and keeps every other row |
| ApplicationRoutes.CancelOwned | app/applications/routes.py:88-113 | with unique ids, the user's own application that is not cancelled is cancelled with 200, and one already cancelled gets 400 "Application already cancelled" and writes nothing |
| ApplicationRoutes.CancelKeepsInvariants | app/applications/routes.py:100-113 | cancelling keeps ids increasing and at most one live application per user and job |
| ApplicationRoutes.ApplyCancelApply | app/applications/routes.py:24-113 | after applying, cancelling that application succeeds, and the user can then apply to the same job again |
| ApplicationRoutes.ApplicationHistory | app/applications/routes.py:132-181 | a 500 exactly when page or per_page is not an integer, the database fails or per_page is 0; otherwise the parameters are the user id, per_page and (page - 1) * per_page, with the pagination block |
| ApplicationRoutes.HistoryQueryShape | app/applications/routes.py:143-153 | the history query has three placeholders and splices no value |
| ApplicationRoutes.HistoryPagesIsCeiling | app/applications/routes.py:169 | for a positive per_page, pages is the least page count that holds every application |
| ApplicationRoutes.ApplicationDesk.constructor | app/applications/routes.py:7 | no applications yet, the first id is 1, over the given jobs |
| ApplicationRoutes.ApplicationDesk.Apply | app/applications/routes.py:9-78 | the tables and reply are those of apply_job's function, a missing or zero job_id answering 500 |
| ApplicationRoutes.ApplicationDesk.Cancel | app/applications/routes.py:80-128 | the tables and reply are those of cancel_application's function |
| RateLimit.CounterKey | app/middleware/rate_limit.py:24-28 | the counter key is "rate_limit:" followed by the X-API-KEY header when it is non-empty, and otherwise by the remote address |
| RateLimit.RequestCounts | app/middleware/rate_limit.py:30-68 | without a Redis error: a client with no counter starts at 1 and passes; one at the limit gets 429 without the view running and the counter unchanged; otherwise the counter grows by one; Remaining is the limit minus the new counter; no other client's counter changes |
| RateLimit.StatusOfResponse | app/middleware/rate_limit.py:53-68 | a tuple response keeps its status and a bare response is sent with 200, both with the view's body |
| RateLimit.RedisErrorFailsOpen | app/middleware/rate_limit.py:30-72 | a Redis error lets the request through without headers; the view runs twice when the error comes after it already ran, and the counter is unchanged when the error came before the write |
| RateLimit.CounterBounded | app/middleware/rate_limit.py:32-47 | within a window the counter never goes past the limit, or past 1 for a limit below 1 |
| RateLimit.BurstCount | app/middleware/rate_limit.py:32-47 | n requests in a fresh window leave the counter at n, capped at the limit |
| RateLimit.HundredAndFirstRejected | app/middleware/rate_limit.py:15-47 | with the default limit of 100, the 100th request of a window passes and the 101st gets 429 |
| RateLimit.EndpointLimit | app/middleware/rate_limit.py:78-94 | every limit uses a 60-second window, and a request without an endpoint gets the default (100, 60) |
| RateLimit.EndpointLimits | app/middleware/rate_limit.py:80-94 | list_jobs gets 200, apply_job 30 and register_user 10 requests per window; any endpoint not in the table gets (100, 60) |
| RateLimit.RateLimiter.constructor | app/middleware/rate_limit.py:21-23 | no counters yet |
| RateLimit.RateLimiter.Handle | app/middleware/rate_limit.py:21-75 | the counters, reply and view-run count are those of the per-request function, for the key built from the request |
| RateLimit.RateLimiter.ExpireWindow | app/middleware/rate_limit.py:36 | when the key's TTL runs out only that counter is dropped |
| RedisCache.CacheKey | app/cache/redis_cache.py:22 | the key is "cache:", the request path, ":", then the query string, each recoverable by position |
| RedisCache.CacheKeyDeterminesRequest | app/cache/redis_cache.py:22 | for paths without ':', two requests share a key exactly when their path and query string are equal |
| RedisCache.CacheKeyCollision | app/cache/redis_cache.py:22 | a ':' in the path lets "/jobs:1" with no query and "/jobs" with query "1:" share one cache entry |
| RedisCache.Serve | app/cache/redis_cache.py:17-46 | a request other than GET runs the view once and leaves the cache alone; a GET whose key is stored answers the stored value without running the view |
| RedisCache.MissStoresTruthy | app/cache/redis_cache.py:33-44 | a GET that misses runs the view once and answers its result, which is stored under the request's key exactly when it is truthy; no other entry changes |
| RedisCache.Memoised | app/cache/redis_cache.py:29-44 | after a truthy result is stored, the same GET is answered with it from the cache and the view does not run |
| RedisCache.FalsyNotMemoised | app/cache/redis_cache.py:37-44 | a falsy result is not stored, so the same GET runs the view again |
| RedisCache.StarMatchesAll | app/cache/redis_cache.py:48 | the default pattern `*` matches every key suffix |
| RedisCache.LiteralPrefix | app/cache/redis_cache.py:50 | a pattern that starts with literal text matches exactly the keys that start with that text and whose rest matches the rest of the pattern |
| RedisCache.AllCacheKeys | app/cache/redis_cache.py:55 | `cache:*` matches exactly the keys that start with "cache:" |
| RedisCache.Evict | app/cache/redis_cache.py:48-51 | exactly the keys matching "cache:" + pattern are deleted; every other key keeps its value |
| RedisCache.EvictAllDropsCacheKeys | app/cache/redis_cache.py:48-51 | invalidate_cache() with its default pattern deletes every cached response and keeps every other key |
| RedisCache.EvictIdempotent | app/cache/redis_cache.py:48-51 | invalidating twice with the same pattern is invalidating once |
| RedisCache.CachedKeys | app/cache/redis_cache.py:55 | the scan visits exactly the stored keys that start with "cache:" |
| RedisCache.Cache.constructor | app/cache/redis_cache.py:9-15 | an empty cache database |
| RedisCache.Cache.Respond | app/cache/redis_cache.py:17-46 | the cache, response and view-run count are those of the per-request function |
| RedisCache.Cache.Invalidate | app/cache/redis_cache.py:48-51 | the loop deleting matched keys one at a time leaves the store the eviction function gives |
| RedisCache.Cache.Size | app/cache/redis_cache.py:53-55 | the count equals the number of stored keys starting with "cache:" |
| RedisCache.Cache.Expire | app/cache/redis_cache.py:38-42 | when an entry's timeout runs out only that key is dropped |
| Security.EscapeChar | app/middleware/security.py:18 | an escaped character holds no markup character (<, >, ", '), and a character is left as it is exactly when it is neither markup nor & |
| Security.Escape | app/middleware/security.py:16-18 | `html.escape` leaves no markup character in the text and never shortens it |
| Security.Entity | app/middleware/security.py:18 | a recognised entity spans 4 or more characters of the text |
| Security.EntityOfEscape | app/middleware/security.py:18 | an escaped character reads back as one entity for that character, of that length |
| Security.UnescapeChar | app/middleware/security.py:18 | reading back an escaped character followed by more text gives the character, then the rest read back |
| Security.EscapeRoundTrip | app/middleware/security.py:16-18 | escaping loses nothing: reading the entities back gives the original text |
| Security.EscapePlain | app/middleware/security.py:16-18 | text without & and markup characters is left unchanged |
| Security.EscapeTwice | app/middleware/security.py:16-18 | escaping is not idempotent: "&" becomes "&amp;" and then "&amp;amp;" |
| Security.Sanitize | app/middleware/security.py:14-23 | strings are escaped; null, booleans and numbers are unchanged; lists keep their length and objects their keys in order |
| Security.SanitizeIsClean | app/middleware/security.py:14-23 | no string anywhere in a sanitized value holds a markup character |
| Security.SanitizeHasKey | app/middleware/security.py:19-20 | a sanitized object has exactly the keys of the original |
| Security.GetMapped | app/middleware/security.py:19-20 | mapping a function over an object's values maps the value read under any key |
| Security.SanitizeGet | app/middleware/security.py:19-20 | the value read under a key of a sanitized object is the sanitized value read under that key |
| Security.SanitizeRoundTrip | app/middleware/security.py:14-23 | sanitizing loses nothing: reading every string's entities back gives the original value |
| Security.Concat | app/middleware/security.py:31-33 | a string is in the joined lists exactly when it is in one of them |
| Security.DetectIffString | app/middleware/security.py:25-45 | a value is flagged exactly when one of the strings it holds matches the pattern |
| Security.KeysNotChecked | app/middleware/security.py:31-42 | object keys are never checked: an object is flagged exactly when its value is |
| Security.ShadowedNotChecked | app/middleware/security.py:31-42 | of two members with the same key, only the later one, which the dict keeps, is checked |
| Security.ValidateOrder | app/middleware/security.py:65-93 | a JSON body with a string matching the XSS pattern aborts with the XSS message; failing that, one matching the SQL pattern aborts with the SQL message; failing both, a flagged query parameter aborts with "Invalid query parameter" |
| Security.ForwardedIsSafe | app/middleware/security.py:65-93 | a forwarded request has no flagged body string and no flagged query parameter; its body is replaced exactly when it was JSON, by a sanitized copy that reads back to the original |
| Security.LaterValueNotChecked | app/middleware/security.py:87-89 | only the first value of a repeated query parameter is checked |
| Security.SecurityHeaders | app/middleware/security.py:47-63 | the response gets exactly the five security headers with their fixed values, added to its own; every other header is unchanged |

## Left out

- **Browsers and HTTP.** Selenium, webdriver-manager, the virtual display, the aiohttp session and BeautifulSoup parsing are external libraries. A page is a sequence of listing items, each a record of optional elements. What a page request returns, or whether it raises, is a parameter.
- **Sleeps.** The fixed and random sleeps in the crawlers and in `retry_on_error` only affect timing, so they are omitted.
- **Files and CSV.** File reading, CSV parsing and writing, and `os.listdir` are I/O.
  - The rows of a file are a sequence of records (a map from column to text where a missing column matters).
  - The directory listing is a sequence of names.
- **Database and Redis connections.** MySQL, SQLAlchemy and Redis connections, pooling and logging are external. Tables and stores are values.
  - In `DbLoader.Retry`, `DbLoader.LoadRow`, `RateLimit.Request` and `Applications.CreateApplication`, which call raises is a parameter. The exception's message text in a 500 response is not modelled.
  - `Applications.CreateApplication` models a failing application INSERT: the uploaded resume, committed before it, stays (`Applications.FailedInsertKeepsUpload`). A failure of its other statements is not modelled.
  - The `except Exception: rollback` paths of the other API operations are not modelled: a database error in `JobsModel.JobBoard.CreateJob`, `UpdateJob`, `DeleteJob` or `GetJobDetail`, `Bookmarks.BookmarkStore.ToggleBookmark`, `Resumes.ResumeStore.Create`, `Update` or `Delete`, `Applications.ApplicationStore.Delete`, or `ApplicationRoutes.ApplicationDesk.Apply` or `Cancel`. Each of these is modelled with every statement succeeding.
  - `ApplicationRoutes.ApplicationHistory` and `JobsRoutes.ListingFor`: the `found` argument stands for MySQL's whole answer, including its rejection of a negative LIMIT or OFFSET (per_page below 0, or page below 1 with per_page above 0), which makes the endpoint answer 500. The model does not derive that rejection from page and per_page: those inputs are meant to be paired with `found` None.
- **Time.** `datetime.now()` and `CURRENT_TIMESTAMP` are a clock. The current year, month or time is a parameter, and creation times are not stored except where the code compares them.
- **`get_user_resumes`.** Its "newest first" order uses `created_at`. The model orders by id instead, taking creation times to grow with insertion order.
- **`get_job_detail` related jobs.** The related-jobs query uses `ORDER BY RAND() LIMIT 5`, so its answer is random. The detail row is modelled without it.
- **`GROUP_CONCAT(DISTINCT ...)`.** Its output order is not fixed by the query. The detail's stack and category names are modelled as sets.
- **Redis expiry and scanning.**
  - A key's time to live is not a clock. `RateLimit.RateLimiter.ExpireWindow` and `RedisCache.Cache.Expire` model its running out.
  - The `X-RateLimit-Reset` header, which reads `ttl`, is not modelled.
  - `scan_iter` may return a key twice; the model visits each key once.
  - Redis glob patterns are modelled with `*`, `?` and literal characters; character classes and backslash escapes are not modelled.
- **Rate-limit counters.** A stored counter that is not an integer would make `int()` raise inside the wrapper. Counters are integers in the model.
- **Rate-limit responses.** A view returning a three-element tuple is not modelled: `HandlerResult` is a `(body, status)` pair or a bare body.
- **`request.get_json()`.** On a body that is not JSON it raises or returns None, depending on Flask's settings. The model's bodies are decoded JSON values. `JsonValue.Json`'s numbers are integers: a fractional JSON number such as `1.5` is not modelled.
- **Regular expressions.** The XSS and SQL-injection patterns of the security middleware are not a regex engine. Each check takes the pattern's `search` as a predicate.
- **Text.**
  - Case folding and whitespace outside ASCII are not modelled.
  - `int()` is modelled on optional whitespace, an optional sign and ASCII digits. Underscore separators and non-ASCII digits are not modelled.
- **The API's two schemas.** app/applications/routes.py and app/jobs/routes.py query their own tables (`jobs`, `applications` with `job_id`, statuses 'applied'/'cancelled'). Those differ from the `job_postings` schema that app/jobs/models.py and the loaders use. Each is modelled on its own, as the code has it, and they are not reconciled.
- **Auth and JWT.** `login_required`, the auth models and utilities, and the JWT middleware are not part of this model. The user id of a request is a parameter.
- DbLoader.JobDatabase.constructor: takes the seed lists as parameters. `__init__` always seeds with the lists written in `_init_tech_stacks` and `_init_job_categories`, which the model spells out as `DbLoader.SeedStacks` and `DbLoader.SeedCategories`.
  - A failing seed INSERT (logged and rolled back) is not modelled.
  - The name columns are taken to be the tables' unique keys, and a skipped INSERT IGNORE is taken not to use up an AUTO_INCREMENT value.
- JcloudUpload.UploadFailsIffMissingColumn: "exactly when" holds for a database that does not raise. An exception from a flush or the commit (a title longer than its column, a lost connection), which `upload_to_jcloud.py:129-132` rolls back and re-raises, is not modelled; the same holds for `JcloudUpload.JcloudDatabase.UploadCsv`.
- CsvImport.ImportFailsIffIncomplete: "exactly when" holds for a database that does not raise. A flush or commit exception, which `app/crawling/utils/csv_to_db.py:64-67` rolls back and re-raises, is not modelled; the same holds for `CsvImport.JobSession.ImportRows` and `CsvImport.JobSession.ImportCsvToDb`.
- CsvImport.ImportFailure: the failure causes are the missing file and the incomplete row; the database exceptions of `app/crawling/utils/csv_to_db.py:64-67` are not modelled.
- Saramin.SaveCount: 0 is tied to a record without a link only. `app/crawling/saramin.py:221-224` also returns 0 after any other database exception, which is not modelled; the same holds for `Saramin.JobStore.SaveJobs`.
- Saramin.SaveJobsResult: as for `Saramin.SaveCount`, the database is taken not to raise apart from the NULL link.
- DbLoader.ProcessCountsRows: `DbLoader.CsvRecord` takes the 회사명, 제목 and 링크 columns to be present in every row. On a file without the 제목 column, the per-row handler at app/crawling/db_loader.py:314-316 itself raises KeyError while logging `row['제목']`. The outer handler at :321-323 re-raises it, so the run aborts after the first row, whose company and location were already committed. That abort is not modelled: "an errored row never stops later rows" holds only for files with those columns.
- Saramin.CrawlJobs: the first `driver.get` of the search page (app/crawling/saramin.py:100) runs outside the page loop. Its exception would reach the outer handler and be re-raised with nothing saved. The model's page outcomes start at the loop, so that failure is not represented.
- LocalCrawler.LocalSaraminCrawler.CrawlJobs: the CSV is written after the loop. A failing `os.makedirs` (Crawl/scripts/local_crawler.py:116), which sits outside `save_to_csv`'s own try, reaches `crawl_jobs`' handler, and the call returns 0 instead of the number of records. File-system failures are not modelled.
- JobsModel.JobBoard.GetJobDetail: the detail leaves out `company_name`. The query's inner `JOIN companies` (app/jobs/models.py:135) also means a posting whose company row is missing yields no detail row, and the call then returns None. The model reads the posting without that join.
- **Name lookups and collation.** `JobsModel.StackIndex`, `JobsModel.CategoryIndex` and the loaders' get-or-create compare names exactly. MySQL's default collation compares `WHERE name = %s` case- and trailing-space-insensitively, so "Python" and "python" would find the same row there. The id lookups of resumes, bookmarks and applications compare integers and are not affected.
- **Absent and None arguments.** `CodeTables.SearchArgs` has no way to pass `keyword=None` or `page=None` explicitly. In app/config/search_config.py `kwargs.get('keyword', '')` then gives a `searchword` of None rather than ""; absent and None arguments are not told apart. Likewise `JobsQuery.SortDirection` reads None as an absent `sort_order`, taking the default "desc": in app/jobs/models.py:88 a `sort_order` passed as None makes `.lower()` raise, and `list_jobs` fails.
- **Sanitized request bodies.** `Security.ForwardedIsSafe` takes the view's `get_json()` to return the sanitized body once the middleware sets `request._cached_json`. That is an assumption about Flask and Werkzeug: in Werkzeug 0.15 and later that cache is a `(silent, non-silent)` pair, so the assignment may not reach the view.
- **Cached responses.** `RedisCache` takes `json.loads(json.dumps(result))` to give the view's result back unchanged. In app/cache/redis_cache.py a `(body, status)` tuple comes back as a list, and a Flask `Response` object makes `json.dumps` raise; neither is modelled.
- **Concurrent requests.** `RateLimit.CounterBounded`, `RateLimit.HundredAndFirstRejected`, `Bookmarks.ToggleKeepsValid`, `Resumes.CreateKeepsOnePrimary` and `ApplicationRoutes.ApplyKeepsInvariants` hold for requests that run one after another. The source reads and then writes without a lock or transaction isolation: the rate limiter's GET then INCR, `toggle_bookmark`'s SELECT then INSERT or DELETE, `create_resume`'s primary check then INSERT, and `apply_job`'s duplicate check then INSERT. Two interleaved requests can overshoot the limit, insert two bookmarks, two primary resumes or two applications.
- **Schedulers and entry points.** The schedulers, the background threads, `run_crawler.py`, the Flask application factory and the route wiring are concurrency and configuration.
  - The schedulers call crawler methods that `SaraminCrawler` does not define.
- **Metrics.** The Prometheus and psutil metrics compute floating-point ratios.
- **ORM helpers.** The ORM's `to_dict` and the migration scripts are not part of this model.

=== FILE: application_routes.dfy ===
/**
 * The endpoints of app/applications/routes.py: `apply_job`,
 * `cancel_application` and `get_application_history`.
 *
 * These endpoints run their own SQL against a `jobs` table and an
 * `applications` table keyed by `id` and `job_id`, with statuses 'applied'
 * and 'cancelled'; that schema is modelled here on its own. The current time
 * is a parameter, and deadlines and creation times are plain integers. A
 * `SELECT ... fetchone()` without ORDER BY answers the first matching row.
 */
module ApplicationRoutes {
  import opened Wrappers
  import opened Sql
  import opened JobsUtils
  import opened JobsRoutes

  /** A row of `applications` as these endpoints see it. */
  datatype Entry = Entry(id: nat, userId: nat, jobId: int, status: string, createdAt: int)

  /** A row of `jobs`: its id, status and deadline (NULL possible). */
  datatype Job = Job(id: int, status: string, deadline: Option<int>)

  datatype RouteTables = RouteTables(jobs: seq<Job>, entries: seq<Entry>, nextId: nat)

  const AppliedStatus := "applied"
  const CancelledStatus := "cancelled"

  /**
   * What an endpoint answers: a status code with its message, the 201 of a
   * new application with its id, or a 500, whose message (the text of an
   * exception, or the app's "Internal server error") is not modelled.
   */
  datatype Reply =
    | Status(code: nat, message: string)
    | AppliedReply(applicationId: nat)
    | Failed

  /** Ids grow with insertion order and stay below the next id. */
  predicate Valid(t: RouteTables)
  {
    && (forall i, j :: 0 <= i < j < |t.entries| ==> t.entries[i].id < t.entries[j].id)
    && (forall i :: 0 <= i < |t.entries| ==> t.entries[i].id < t.nextId)
  }

  /** The user holds an application to the job that is not cancelled. */
  predicate Holds(entries: seq<Entry>, userId: nat, jobId: int)
  {
    exists e :: e in entries && e.userId == userId && e.jobId == jobId && e.status != CancelledStatus
  }

  /** No user holds two non-cancelled applications to the same job. */
  predicate OneLive(entries: seq<Entry>)
  {
    forall i, j :: 0 <= i < j < |entries| && entries[i].userId == entries[j].userId && entries[i].jobId == entries[j].jobId ==>
      entries[i].status == CancelledStatus || entries[j].status == CancelledStatus
  }

  // ---------------------------------------------------------------------------
  // apply_job
  // ---------------------------------------------------------------------------

  /** `SELECT deadline FROM jobs WHERE id = %s AND status = 'active'` then `fetchone()`. */
  function ActiveJob(jobs: seq<Job>, jobId: int): (r: Option<nat>)
    ensures r.Some? ==> r.value < |jobs| && jobs[r.value].id == jobId && jobs[r.value].status == "active"
    ensures r.None? ==> forall i :: 0 <= i < |jobs| ==> !(jobs[i].id == jobId && jobs[i].status == "active")
  {
    if jobs == [] then None
    else if jobs[0].id == jobId && jobs[0].status == "active" then Some(0)
    else
      var rest := ActiveJob(jobs[1..], jobId);
      if rest.None? then None else Some(rest.value + 1)
  }

  /** The tables after a call, and the reply. */
  datatype Answer = Answer(tables: RouteTables, reply: Reply)

  /**
   * `apply_job()` with `data.get('job_id')` as `jobId`. A missing or zero id
   * returns its 400 before `cursor` is assigned, so the `finally` clause's
   * `cursor.close()` raises UnboundLocalError, which replaces the return
   * value and reaches the app's 500 handler. Then a live application is
   * 409; a job that is missing or not active is 404; a NULL deadline raises
   * on the comparison (500); a deadline before now is 400; otherwise one
   * 'applied' row is inserted (201).
   */
  function ApplyJob(t: RouteTables, userId: nat, jobId: Option<int>, now: int): Answer
  {
    if jobId.None? || jobId.value == 0 then Answer(t, Failed)
    else if Holds(t.entries, userId, jobId.value) then Answer(t, Status(409, "Already applied to this job"))
    else
      var job := ActiveJob(t.jobs, jobId.value);
      if job.None? then Answer(t, Status(404, "Invalid or expired job posting"))
      else if t.jobs[job.value].deadline.None? then Answer(t, Failed)
      else if t.jobs[job.value].deadline.value < now then Answer(t, Status(400, "Job application deadline has passed"))
      else
        Answer(
          t.(entries := t.entries + [Entry(t.nextId, userId, jobId.value, AppliedStatus, now)], nextId := t.nextId + 1),
          AppliedReply(t.nextId))
  }

  /** Every refusal leaves the tables as they were. */
  lemma ApplyRefusalWritesNothing(t: RouteTables, userId: nat, jobId: Option<int>, now: int)
    requires !ApplyJob(t, userId, jobId, now).reply.AppliedReply?
    ensures ApplyJob(t, userId, jobId, now).tables == t
  {
  }

  /**
   * A call is accepted exactly when a job id is given, the user holds no
   * live application to it, the job is active and its deadline is not
   * before now; then one 'applied' row with the next id is appended.
   */
  lemma ApplyAccepts(t: RouteTables, userId: nat, jobId: Option<int>, now: int)
    ensures var a := ApplyJob(t, userId, jobId, now);
      a.reply.AppliedReply? <==>
        && jobId.Some? && jobId.value != 0
        && !Holds(t.entries, userId, jobId.value)
        && (exists k :: 0 <= k < |t.jobs| && t.jobs[k].id == jobId.value && t.jobs[k].status == "active")
        && var d := t.jobs[ActiveJob(t.jobs, jobId.value).value].deadline;
           d.Some? && d.value >= now
    ensures var a := ApplyJob(t, userId, jobId, now);
      a.reply.AppliedReply? ==>
        && a.reply.applicationId == t.nextId && a.tables.jobs == t.jobs && a.tables.nextId == t.nextId + 1
        && a.tables.entries == t.entries + [Entry(t.nextId, userId, jobId.value, AppliedStatus, now)]
  {
  }

  /**
   * A missing or zero job id never reaches the 400 written for it: the call
   * ends in a 500 and writes nothing, and "Job ID is required" is never sent.
   */
  lemma MissingJobIdFails(t: RouteTables, userId: nat, jobId: Option<int>, now: int)
    ensures jobId.None? || jobId.value == 0 ==> ApplyJob(t, userId, jobId, now) == Answer(t, Failed)
    ensures ApplyJob(t, userId, jobId, now).reply != Status(400, "Job ID is required")
  {
  }

  /** Cancelled applications do not block a new one: only live ones give 409. */
  lemma CancelledDoNotBlock(t: RouteTables, userId: nat, jobId: int, now: int)
    requires jobId != 0
    requires forall e :: e in t.entries && e.userId == userId && e.jobId == jobId ==> e.status == CancelledStatus
    ensures ApplyJob(t, userId, Some(jobId), now).reply != Status(409, "Already applied to this job")
  {
  }

  /** Applying keeps ids valid and at most one live application per user and job. */
  lemma ApplyKeepsInvariants(t: RouteTables, userId: nat, jobId: Option<int>, now: int)
    requires Valid(t) && OneLive(t.entries)
    ensures Valid(ApplyJob(t, userId, jobId, now).tables)
    ensures OneLive(ApplyJob(t, userId, jobId, now).tables.entries)
  {
    var a := ApplyJob(t, userId, jobId, now);
    if a.reply.AppliedReply? {
      var e := a.tables.entries;
      forall i, j | 0 <= i < j < |e| && e[i].userId == e[j].userId && e[i].jobId == e[j].jobId
        ensures e[i].status == CancelledStatus || e[j].status == CancelledStatus
      {
        if j == |t.entries| {
          assert e[i] in t.entries;
        }
      }
    }
  }

  // ---------------------------------------------------------------------------
  // cancel_application
  // ---------------------------------------------------------------------------

  /** `SELECT status FROM applications WHERE id = %s AND user_id = %s` then `fetchone()`. */
  function FindEntry(entries: seq<Entry>, id: nat, userId: nat): (r: Option<nat>)
    ensures r.Some? ==> r.value < |entries| && entries[r.value].id == id && entries[r.value].userId == userId
    ensures r.None? ==> forall i :: 0 <= i < |entries| ==> !(entries[i].id == id && entries[i].userId == userId)
  {
    if entries == [] then None
    else if entries[0].id == id && entries[0].userId == userId then Some(0)
    else
      var rest := FindEntry(entries[1..], id, userId);
      if rest.None? then None else Some(rest.value + 1)
  }

  /** `UPDATE applications SET status = 'cancelled' WHERE id = %s AND user_id = %s`. */
  function CancelRows(entries: seq<Entry>, id: nat, userId: nat): seq<Entry>
  {
    seq(|entries|, i requires 0 <= i < |entries| =>
      if entries[i].id == id && entries[i].userId == userId then entries[i].(status := CancelledStatus) else entries[i])
  }

  /**
   * `cancel_application(application_id)`: not the user's (or missing) is 404,
   * already cancelled is 400, otherwise the row becomes 'cancelled' (200).
   */
  function CancelApplication(t: RouteTables, id: nat, userId: nat): Answer
  {
    var k := FindEntry(t.entries, id, userId);
    if k.None? then Answer(t, Status(404, "Application not found"))
    else if t.entries[k.value].status == CancelledStatus then Answer(t, Status(400, "Application already cancelled"))
    else Answer(t.(entries := CancelRows(t.entries, id, userId)), Status(200, "Application cancelled successfully"))
  }

  /**
   * Missing or foreign applications give 404 and already cancelled ones 400,
   * both writing nothing; a success changes only the status of the user's
   * row with that id, to 'cancelled'.
   */
  lemma CancelOutcome(t: RouteTables, id: nat, userId: nat)
    ensures var a := CancelApplication(t, id, userId);
      && ((forall e :: e in t.entries ==> !(e.id == id && e.userId == userId)) <==>
            a == Answer(t, Status(404, "Application not found")))
      && a.reply.Status? && a.reply.code in {200, 400, 404}
      && (a.reply.code == 200 ==>
            && a.tables.jobs == t.jobs && a.tables.nextId == t.nextId
            && |a.tables.entries| == |t.entries|
            && forall i :: 0 <= i < |t.entries| ==>
                 if t.entries[i].id == id && t.entries[i].userId == userId
                 then a.tables.entries[i] == t.entries[i].(status := CancelledStatus)
                 else a.tables.entries[i] == t.entries[i])
      && (a.reply.code != 200 ==> a.tables == t)
  {
    if FindEntry(t.entries, id, userId).None? {
      forall e | e in t.entries
        ensures !(e.id == id && e.userId == userId)
      {
        var i :| 0 <= i < |t.entries| && t.entries[i] == e;
      }
    }
  }

  /**
   * With unique ids, the user's own application decides the outcome: one
   * that is not cancelled becomes 'cancelled' with 200, and one already
   * cancelled gets 400 "Application already cancelled" and writes nothing.
   */
  lemma CancelOwned(t: RouteTables, i: nat, userId: nat)
    requires Valid(t) && i < |t.entries| && t.entries[i].userId == userId
    ensures var a := CancelApplication(t, t.entries[i].id, userId);
      && (t.entries[i].status != CancelledStatus ==>
            && a.reply == Status(200, "Application cancelled successfully")
            && a.tables.entries[i] == t.entries[i].(status := CancelledStatus))
      && (t.entries[i].status == CancelledStatus ==>
            a == Answer(t, Status(400, "Application already cancelled")))
  {
    var k := FindEntry(t.entries, t.entries[i].id, userId);
    assert k.Some?;
    assert k.value == i by {
      var j := k.value;
      assert t.entries[j].id == t.entries[i].id;
    }
  }

  /** Cancelling only turns rows to 'cancelled', so at most one live application per user and job remains. */
  lemma CancelKeepsInvariants(t: RouteTables, id: nat, userId: nat)
    requires Valid(t) && OneLive(t.entries)
    ensures Valid(CancelApplication(t, id, userId).tables)
    ensures OneLive(CancelApplication(t, id, userId).tables.entries)
  {
    var a := CancelApplication(t, id, userId);
    CancelOutcome(t, id, userId);
    if a.tables != t {
      var e := a.tables.entries;
      forall i, j | 0 <= i < j < |e| && e[i].userId == e[j].userId && e[i].jobId == e[j].jobId
        ensures e[i].status == CancelledStatus || e[j].status == CancelledStatus
      {
        assert t.entries[i].userId == t.entries[j].userId && t.entries[i].jobId == t.entries[j].jobId;
      }
    }
  }

  /** After an accepted application, cancelling it succeeds, and a new application is then accepted again. */
  lemma ApplyCancelApply(t: RouteTables, userId: nat, jobId: int, now: int)
    requires Valid(t) && OneLive(t.entries)
    requires ApplyJob(t, userId, Some(jobId), now).reply.AppliedReply?
    ensures var t1 := ApplyJob(t, userId, Some(jobId), now).tables;
      var t2 := CancelApplication(t1, t.nextId, userId);
      && t2.reply == Status(200, "Application cancelled successfully")
      && ApplyJob(t2.tables, userId, Some(jobId), now).reply.AppliedReply?
  {
    var t1 := ApplyJob(t, userId, Some(jobId), now).tables;
    var n := |t.entries|;
    assert FindEntry(t1.entries, t.nextId, userId) == Some(n) by {
      forall i | 0 <= i < n
        ensures t1.entries[i].id != t.nextId
      {
        assert t1.entries[i] == t.entries[i];
      }
    }
    var t2 := CancelApplication(t1, t.nextId, userId);
    CancelOutcome(t1, t.nextId, userId);
    forall e | e in t2.tables.entries && e.userId == userId && e.jobId == jobId
      ensures e.status == CancelledStatus
    {
      var i :| 0 <= i < |t2.tables.entries| && t2.tables.entries[i] == e;
      if i < n {
        assert t.entries[i] in t.entries && t.entries[i].id != t.nextId;
      }
    }
  }

  // ---------------------------------------------------------------------------
  // get_application_history
  // ---------------------------------------------------------------------------

  const HistorySelect: string :=
    "SELECT SQL_CALC_FOUND_ROWS a.*, j.title as job_title, c.name as company_name "
    + "FROM applications a JOIN jobs j ON a.job_id = j.id JOIN companies c ON j.company_id = c.id "
    + "WHERE a.user_id = "

  /** The history query: the user, then LIMIT and OFFSET, all three as `%s`. */
  const HistoryQuery: Query :=
    [Lit(HistorySelect), Param] + [Lit(" ORDER BY a.created_at DESC LIMIT "), Param] + [Lit(" OFFSET "), Param]

  /** What the history endpoint answers: the parameters it executes with and the pagination block, or a 500. */
  datatype History = HistoryPage(params: seq<SqlValue>, pagination: Pagination) | HistoryFailed

  /**
   * `get_application_history()`: page and per_page parsed with `int()`,
   * offset = (page - 1) * per_page, and pages = (total + per_page - 1) //
   * per_page, where `found` is the FOUND_ROWS() count or None when the
   * database raises.
   */
  function ApplicationHistory(args: seq<Arg>, userId: nat, found: Option<nat>): (h: History)
    ensures h.HistoryFailed? <==>
      || IntArg(args, "page", 1).None? || IntArg(args, "per_page", 20).None?
      || found.None? || IntArg(args, "per_page", 20).value == 0
    ensures h.HistoryPage? ==>
      var page := IntArg(args, "page", 1).value;
      var perPage := IntArg(args, "per_page", 20).value;
      && h.params == [SInt(userId), SInt(perPage), SInt((page - 1) * perPage)]
      && Paginated(h.pagination, page, perPage, found.value)
  {
    var page := IntArg(args, "page", 1);
    var perPage := IntArg(args, "per_page", 20);
    if page.None? || perPage.None? || found.None? then HistoryFailed
    else
      var pages := Pages(found.value, perPage.value);
      if pages.None? then HistoryFailed
      else HistoryPage([SInt(userId), SInt(perPage.value), SInt((page.value - 1) * perPage.value)],
                       Pagination(page.value, perPage.value, found.value, pages.value))
  }

  /** The query has exactly the three placeholders the parameters fill, and no caller text pasted in. */
  lemma HistoryQueryShape()
    ensures Placeholders(HistoryQuery) == 3 && NoSplice(HistoryQuery)
  {
    var a, b, c := [Lit(HistorySelect), Param], [Lit(" ORDER BY a.created_at DESC LIMIT "), Param], [Lit(" OFFSET "), Param];
    TextThenParam(HistorySelect);
    TextThenParam(" ORDER BY a.created_at DESC LIMIT ");
    TextThenParam(" OFFSET ");
    PlaceholdersAppend(a, b);
    PlaceholdersAppend(a + b, c);
  }

  /** For a positive per_page, the page count is the least number of pages of that size holding every row. */
  lemma HistoryPagesIsCeiling(args: seq<Arg>, userId: nat, found: Option<nat>)
    requires ApplicationHistory(args, userId, found).HistoryPage?
    requires IntArg(args, "per_page", 20).value > 0
    ensures var p := ApplicationHistory(args, userId, found).pagination;
      && p.pages * p.perPage >= p.total
      && (p.total > 0 ==> (p.pages - 1) * p.perPage < p.total)
  {
    PagesIsCeiling(found.value, IntArg(args, "per_page", 20).value);
  }

  // ---------------------------------------------------------------------------
  // The tables as the two writing endpoints change them
  // ---------------------------------------------------------------------------

  class ApplicationDesk {
    var t: RouteTables

    constructor (jobs: seq<Job>)
      ensures t == RouteTables(jobs, [], 1)
    {
      t := RouteTables(jobs, [], 1);
    }

    /** `POST /apply`. */
    method Apply(userId: nat, jobId: Option<int>, now: int) returns (reply: Reply)
      modifies this
      ensures t == ApplyJob(old(t), userId, jobId, now).tables
      ensures reply == ApplyJob(old(t), userId, jobId, now).reply
    {
      if jobId.None? || jobId.value == 0 {
        // the early return's `finally: cursor.close()` raises: cursor is unbound
        return Failed;
      }
      if Holds(t.entries, userId, jobId.value) {
        return Status(409, "Already applied to this job");
      }
      var job := ActiveJob(t.jobs, jobId.value);
      if job.None? {
        return Status(404, "Invalid or expired job posting");
      }
      var deadline := t.jobs[job.value].deadline;
      if deadline.None? {
        return Failed;
      }
      if deadline.value < now {
        return Status(400, "Job application deadline has passed");
      }
      reply := AppliedReply(t.nextId);
      t := t.(entries := t.entries + [Entry(t.nextId, userId, jobId.value, AppliedStatus, now)], nextId := t.nextId + 1);
    }

    /** `POST /cancel/<application_id>`. */
    method Cancel(id: nat, userId: nat) returns (reply: Reply)
      modifies this
      ensures t == CancelApplication(old(t), id, userId).tables
      ensures reply == CancelApplication(old(t), id, userId).reply
    {
      var k := FindEntry(t.entries, id, userId);
      if k.None? {
        return Status(404, "Application not found");
      }
      if t.entries[k.value].status == CancelledStatus {
        return Status(400, "Application already cancelled");
      }
      t := t.(entries := CancelRows(t.entries, id, userId));
      reply := Status(200, "Application cancelled successfully");
    }
  }
}

=== FILE: applications.dfy ===
/**
 * `Application` of app/applications/models.py: applying to a job posting,
 * listing one's applications and withdrawing one.
 *
 * Applying may first store an uploaded resume, so the state is the resumes
 * table together with the applications table. The insert time of an
 * uploaded resume's title (`datetime.now()`) is a parameter.
 */
module Applications {
  import opened Wrappers
  import opened Text
  import opened Sql
  import opened Resumes

  datatype Application = Application(id: nat, userId: nat, postingId: nat, resumeId: Option<nat>, status: string)

  datatype AppTables = AppTables(resumes: ResumeTable, apps: seq<Application>, nextAppId: nat)

  const Pending := "pending"
  const AlreadyApplied := "Already applied for this job posting"
  const NotYourResume := "Not authorized to use this resume"
  const AppNotFound := "Application not found"
  const NotYourApplication := "Not authorized to cancel this application"

  /** Application ids grow with insertion order and stay below the next id. */
  predicate ValidApps(t: AppTables)
  {
    && (forall i, j :: 0 <= i < j < |t.apps| ==> t.apps[i].id < t.apps[j].id)
    && (forall i :: 0 <= i < |t.apps| ==> t.apps[i].id < t.nextAppId)
  }

  /** The user has an application, in any status, for the posting. */
  predicate Applied(apps: seq<Application>, userId: nat, postingId: nat)
  {
    exists a :: a in apps && a.userId == userId && a.postingId == postingId
  }

  /** `resume_id` is used only when truthy: not None and not 0. */
  predicate Truthy(id: Option<nat>)
  {
    id.Some? && id.value != 0
  }

  /** The user owns a resume with this id. */
  predicate OwnsResume(resumes: seq<Resume>, id: nat, userId: nat)
  {
    exists r :: r in resumes && r.id == id && r.userId == userId
  }

  /** The tables after `create_application`, and its `(id, error)` pair. */
  datatype Applying = Applying(tables: AppTables, id: Option<nat>, error: Option<string>)

  /** An uploaded file is stored as a new resume that is never primary; it is committed at once. */
  function StoreUpload(resumes: ResumeTable, userId: nat, content: string, now: string): ResumeTable
  {
    ResumeTable(resumes.rows + [Resume(resumes.nextId, userId, "Resume " + now, content, false)], resumes.nextId + 1)
  }

  /**
   * `create_application(user_id, posting_id, resume_id, resume_file_content)`:
   * an existing application stops everything; an upload becomes a resume
   * and replaces `resume_id`; a truthy resume id must be the user's; then
   * one 'pending' application is inserted.
   *
   * `insertError` is the message of the exception the application INSERT
   * raises, if it does: the call then rolls back and answers `(None, str(e))`,
   * but an uploaded resume was already committed and stays.
   */
  function CreateApplication(t: AppTables, userId: nat, postingId: nat, resumeId: Option<nat>,
                             upload: Option<string>, now: string, insertError: Option<string>): Applying
  {
    if Applied(t.apps, userId, postingId) then Applying(t, None, Some(AlreadyApplied))
    else
      var uploaded := upload.Some? && upload.value != "";
      var resumes := if uploaded then StoreUpload(t.resumes, userId, upload.value, now) else t.resumes;
      var rid := if uploaded then Some(t.resumes.nextId) else resumeId;
      if Truthy(rid) && !OwnsResume(resumes.rows, rid.value, userId) then
        Applying(t.(resumes := resumes), None, Some(NotYourResume))
      else if insertError.Some? then
        Applying(t.(resumes := resumes), None, insertError)
      else
        Applying(
          AppTables(resumes, t.apps + [Application(t.nextAppId, userId, postingId, rid, Pending)], t.nextAppId + 1),
          Some(t.nextAppId), None)
  }

  /** An existing application for the pair, whatever its status, refuses the call and writes nothing. */
  lemma CreateRefusesDuplicate(t: AppTables, userId: nat, postingId: nat, resumeId: Option<nat>,
                               upload: Option<string>, now: string, insertError: Option<string>)
    requires Applied(t.apps, userId, postingId)
    ensures CreateApplication(t, userId, postingId, resumeId, upload, now, insertError) == Applying(t, None, Some(AlreadyApplied))
  {
  }

  /** A resume id of someone else, without an upload, is refused and nothing is written. */
  lemma CreateRefusesForeignResume(t: AppTables, userId: nat, postingId: nat, rid: nat, now: string,
                                   insertError: Option<string>)
    requires !Applied(t.apps, userId, postingId)
    requires rid != 0 && forall r :: r in t.resumes.rows && r.id == rid ==> r.userId != userId
    ensures CreateApplication(t, userId, postingId, Some(rid), None, now, insertError) == Applying(t, None, Some(NotYourResume))
  {
  }

  /**
   * A successful call inserts exactly one 'pending' application with the next
   * id, for the pair, and returns that id; the applications before it stay.
   */
  lemma CreateInsertsPending(t: AppTables, userId: nat, postingId: nat, resumeId: Option<nat>,
                             upload: Option<string>, now: string, insertError: Option<string>)
    requires CreateApplication(t, userId, postingId, resumeId, upload, now, insertError).error.None?
    ensures var r := CreateApplication(t, userId, postingId, resumeId, upload, now, insertError);
      && insertError.None?
      && !Applied(t.apps, userId, postingId)
      && r.id == Some(t.nextAppId)
      && |r.tables.apps| == |t.apps| + 1 && r.tables.apps[..|t.apps|] == t.apps
      && (var a := r.tables.apps[|t.apps|];
          && a.id == t.nextAppId && a.userId == userId && a.postingId == postingId && a.status == Pending
          && (Truthy(a.resumeId) ==> OwnsResume(r.tables.resumes.rows, a.resumeId.value, userId)))
  {
  }

  /**
   * An upload is stored as a non-primary resume of the user and always passes
   * the ownership check, so the call then succeeds with that resume.
   */
  lemma UploadAlwaysAuthorized(t: AppTables, userId: nat, postingId: nat, resumeId: Option<nat>,
                               content: string, now: string)
    requires !Applied(t.apps, userId, postingId) && content != ""
    ensures var r := CreateApplication(t, userId, postingId, resumeId, Some(content), now, None);
      && r.error.None?
      && r.tables.resumes == StoreUpload(t.resumes, userId, content, now)
      && r.tables.apps[|t.apps|].resumeId == Some(t.resumes.nextId)
  {
    var rows := StoreUpload(t.resumes, userId, content, now).rows;
    assert rows[|t.resumes.rows|] in rows;
  }

  /**
   * When the application INSERT raises after an upload, the call answers the
   * exception's message and inserts no application, yet the uploaded resume
   * stays: it was committed before the INSERT.
   */
  lemma FailedInsertKeepsUpload(t: AppTables, userId: nat, postingId: nat, resumeId: Option<nat>,
                                content: string, now: string, message: string)
    requires !Applied(t.apps, userId, postingId) && content != ""
    ensures var r := CreateApplication(t, userId, postingId, resumeId, Some(content), now, Some(message));
      && r.error == Some(message) && r.id.None?
      && r.tables.apps == t.apps && r.tables.nextAppId == t.nextAppId
      && r.tables.resumes == StoreUpload(t.resumes, userId, content, now)
      && |r.tables.resumes.rows| == |t.resumes.rows| + 1
  {
    var rows := StoreUpload(t.resumes, userId, content, now).rows;
    assert rows[|t.resumes.rows|] in rows;
  }

  /** Without an upload, a failing INSERT leaves both tables as they were. */
  lemma FailedInsertWithoutUpload(t: AppTables, userId: nat, postingId: nat, resumeId: Option<nat>,
                                  now: string, message: string)
    ensures var r := CreateApplication(t, userId, postingId, resumeId, None, now, Some(message));
      r.tables == t && r.id.None? && r.error.Some?
  {
  }

  /**
   * Applying with an upload before having any resume leaves the user with a
   * resume but no primary one; `create_resume` afterwards will not mark one
   * either, as the user then already has a resume. This holds also when
   * the application INSERT then fails.
   */
  lemma UploadLeavesNoPrimary(t: AppTables, userId: nat, postingId: nat, content: string, now: string,
                              insertError: Option<string>)
    requires !Applied(t.apps, userId, postingId) && content != ""
    requires !Owns(t.resumes.rows, userId)
    ensures var rows := CreateApplication(t, userId, postingId, None, Some(content), now, insertError).tables.resumes.rows;
      && !PrimaryPresent(rows)
      && !CreateResume(ResumeTable(rows, t.resumes.nextId + 1), userId, "t", "c").table.rows[|rows|].isPrimary
  {
    UploadAlwaysAuthorized(t, userId, postingId, None, content, now);
    if insertError.Some? {
      FailedInsertKeepsUpload(t, userId, postingId, None, content, now, insertError.value);
    }
    var rows := StoreUpload(t.resumes, userId, content, now).rows;
    var r := rows[|t.resumes.rows|];
    assert r in rows && r.userId == userId;
  }

  // ---------------------------------------------------------------------------
  // get_applications
  // ---------------------------------------------------------------------------

  const ApplicationsSelect: string :=
    "SELECT a.application_id, a.posting_id, jp.title, a.status, a.applied_at FROM applications a "
    + "JOIN job_postings jp ON a.posting_id=jp.posting_id WHERE a.user_id="

  /** `page_size` of `get_applications`. */
  const AppPageSize := 20

  /** The parameters: the user, then the status filter when it is truthy. */
  function ApplicationsParams(userId: nat, statusFilter: Option<string>): (r: seq<SqlValue>)
    ensures |r| == if statusFilter.Some? && statusFilter.value != "" then 2 else 1
    ensures r[0] == SInt(userId)
    ensures |r| == 2 ==> r[1] == SStr(statusFilter.value)
  {
    [SInt(userId)] + (if statusFilter.Some? && statusFilter.value != "" then [SStr(statusFilter.value)] else [])
  }

  /**
   * The query of `get_applications`: the status condition only for a truthy
   * filter, as many placeholders as parameters, no caller text pasted in,
   * newest first unless sort is exactly "asc", 20 rows from (page - 1) * 20.
   */
  function ApplicationsQuery(statusFilter: Option<string>, sort: string, page: int): (q: Query)
    ensures Placeholders(q) == (if statusFilter.Some? && statusFilter.value != "" then 2 else 1) && NoSplice(q)
    ensures |q| >= 4 && q[0] == Lit(ApplicationsSelect) && q[1] == Param
    ensures Lit(" AND a.status=") in q <==> statusFilter.Some? && statusFilter.value != ""
    ensures q[|q| - 2] == Lit(" ORDER BY a.applied_at " + Direction(sort))
    ensures q[|q| - 1] == Lit(" LIMIT 20 OFFSET " + IntToString((page - 1) * AppPageSize))
  {
    var head := [Lit(ApplicationsSelect), Param];
    var filter := if statusFilter.Some? && statusFilter.value != "" then [Lit(" AND a.status="), Param] else [];
    var tail := [Lit(" ORDER BY a.applied_at " + Direction(sort)),
                 Lit(" LIMIT 20 OFFSET " + IntToString((page - 1) * AppPageSize))];
    LiteralsOnly(tail);
    PlaceholdersAppend(head, filter);
    PlaceholdersAppend(head + filter, tail);
    assert Placeholders(filter) == |filter| / 2 by {
      if filter != [] {
        assert filter[1..][1..] == [];
      }
    }
    head + filter + tail
  }

  // ---------------------------------------------------------------------------
  // delete_application
  // ---------------------------------------------------------------------------

  /** `SELECT user_id FROM applications WHERE application_id=%s` then `fetchone()`. */
  function FindApp(apps: seq<Application>, id: nat): (r: Option<nat>)
    ensures r.Some? ==> r.value < |apps| && apps[r.value].id == id
    ensures r.None? ==> forall i :: 0 <= i < |apps| ==> apps[i].id != id
  {
    if apps == [] then None
    else if apps[0].id == id then Some(0)
    else
      var rest := FindApp(apps[1..], id);
      if rest.None? then None else Some(rest.value + 1)
  }

  /** The tables after a call and the error it returns (None on success). */
  datatype Withdrawal = Withdrawal(tables: AppTables, error: Option<string>)

  /**
   * `delete_application(application_id, user_id)`: missing, then another
   * user's, are refused; otherwise the row is deleted, whatever its status.
   */
  function DeleteApplication(t: AppTables, id: nat, userId: nat): Withdrawal
  {
    var k := FindApp(t.apps, id);
    if k.None? then Withdrawal(t, Some(AppNotFound))
    else if t.apps[k.value].userId != userId then Withdrawal(t, Some(NotYourApplication))
    else Withdrawal(t.(apps := t.apps[..k.value] + t.apps[k.value + 1..]), None)
  }

  lemma SplitAt(apps: seq<Application>, k: nat)
    requires k < |apps|
    ensures apps == apps[..k] + [apps[k]] + apps[k + 1..]
  {
  }

  /** With increasing ids, the row found is the only one with that id. */
  lemma FoundIsOnly(t: AppTables, id: nat)
    requires ValidApps(t) && FindApp(t.apps, id).Some?
    ensures forall a :: a in t.apps && a.id == id ==> a == t.apps[FindApp(t.apps, id).value]
  {
    var k := FindApp(t.apps, id).value;
    forall a | a in t.apps && a.id == id
      ensures a == t.apps[k]
    {
      var i :| 0 <= i < |t.apps| && t.apps[i] == a;
    }
  }

  /**
   * A missing id gives "Application not found" and another owner's gives
   * "Not authorized to cancel this application", both writing nothing.
   */
  lemma DeleteApplicationRefusals(t: AppTables, id: nat, userId: nat)
    requires ValidApps(t)
    ensures var o := DeleteApplication(t, id, userId);
      && ((forall a :: a in t.apps ==> a.id != id) <==> o == Withdrawal(t, Some(AppNotFound)))
      && ((exists a :: a in t.apps && a.id == id && a.userId != userId) <==> o == Withdrawal(t, Some(NotYourApplication)))
  {
    var k := FindApp(t.apps, id);
    if k.None? {
      forall a | a in t.apps
        ensures a.id != id
      {
        var i :| 0 <= i < |t.apps| && t.apps[i] == a;
      }
    } else {
      FoundIsOnly(t, id);
      assert t.apps[k.value] in t.apps;
    }
  }

  /** A success removes exactly the row with that id, which was the user's, and nothing else changes. */
  lemma DeleteApplicationRemoves(t: AppTables, id: nat, userId: nat)
    requires ValidApps(t) && DeleteApplication(t, id, userId).error.None?
    ensures var o := DeleteApplication(t, id, userId);
      && o.tables.resumes == t.resumes && o.tables.nextAppId == t.nextAppId
      && |o.tables.apps| == |t.apps| - 1
      && (forall a :: a in t.apps && a.id == id ==> a.userId == userId)
      && (forall a :: a in o.tables.apps <==> a in t.apps && a.id != id)
  {
    var k := FindApp(t.apps, id).value;
    FoundIsOnly(t, id);
    forall i | 0 <= i < |t.apps| && i != k
      ensures t.apps[i].id != id
    {
    }
    RemoveUnique(t.apps, k);
  }

  /** Applying, in every outcome, keeps application ids increasing and below the next id. */
  lemma CreateKeepsValid(t: AppTables, userId: nat, postingId: nat, resumeId: Option<nat>,
                         upload: Option<string>, now: string, insertError: Option<string>)
    requires ValidApps(t)
    ensures ValidApps(CreateApplication(t, userId, postingId, resumeId, upload, now, insertError).tables)
  {
  }

  /** Withdrawing an application keeps application ids increasing and below the next id. */
  lemma DeleteKeepsValid(t: AppTables, id: nat, userId: nat)
    requires ValidApps(t)
    ensures ValidApps(DeleteApplication(t, id, userId).tables)
  {
    var o := DeleteApplication(t, id, userId);
    var k := FindApp(t.apps, id);
    if o.error.None? {
      var rest := o.tables.apps;
      assert forall i :: 0 <= i < |rest| ==> rest[i] == t.apps[if i < k.value then i else i + 1];
    }
  }

  /** Removing the only row with an id leaves exactly the rows with other ids. */
  lemma RemoveUnique(apps: seq<Application>, k: nat)
    requires k < |apps|
    requires forall i :: 0 <= i < |apps| && i != k ==> apps[i].id != apps[k].id
    ensures |apps[..k] + apps[k + 1..]| == |apps| - 1
    ensures forall a :: a in apps[..k] + apps[k + 1..] <==> a in apps && a.id != apps[k].id
  {
    var rest := apps[..k] + apps[k + 1..];
    SplitAt(apps, k);
    forall a | a in rest
      ensures a in apps && a.id != apps[k].id
    {
      var i :| 0 <= i < |rest| && rest[i] == a;
      if i < k {
        assert apps[i] == a;
      } else {
        assert apps[i + 1] == a;
      }
    }
  }

  // ---------------------------------------------------------------------------
  // The tables as the two writing calls change them
  // ---------------------------------------------------------------------------

  class ApplicationStore {
    var t: AppTables

    constructor (resumes: ResumeTable)
      ensures t == AppTables(resumes, [], 1) && ValidApps(t)
    {
      t := AppTables(resumes, [], 1);
    }

    /** `create_application(...)`: returns `(application_id, None)` or `(None, error)`. */
    method Create(userId: nat, postingId: nat, resumeId: Option<nat>, upload: Option<string>, now: string,
                  insertError: Option<string>)
      returns (id: Option<nat>, error: Option<string>)
      modifies this
      ensures t == CreateApplication(old(t), userId, postingId, resumeId, upload, now, insertError).tables
      ensures id == CreateApplication(old(t), userId, postingId, resumeId, upload, now, insertError).id
      ensures error == CreateApplication(old(t), userId, postingId, resumeId, upload, now, insertError).error
      ensures ValidApps(old(t)) ==> ValidApps(t)
    {
      if ValidApps(t) {
        CreateKeepsValid(t, userId, postingId, resumeId, upload, now, insertError);
      }
      if Applied(t.apps, userId, postingId) {
        return None, Some(AlreadyApplied);
      }
      var rid := resumeId;
      if upload.Some? && upload.value != "" {
        rid := Some(t.resumes.nextId);
        t := t.(resumes := StoreUpload(t.resumes, userId, upload.value, now));
      }
      if Truthy(rid) && !OwnsResume(t.resumes.rows, rid.value, userId) {
        return None, Some(NotYourResume);
      }
      if insertError.Some? {
        // the rollback cannot undo the upload's commit
        return None, insertError;
      }
      id := Some(t.nextAppId);
      t := t.(apps := t.apps + [Application(t.nextAppId, userId, postingId, rid, Pending)], nextAppId := t.nextAppId + 1);
      error := None;
    }

    /** `delete_application(application_id, user_id)`. */
    method Delete(id: nat, userId: nat) returns (error: Option<string>)
      modifies this
      ensures t == DeleteApplication(old(t), id, userId).tables
      ensures error == DeleteApplication(old(t), id, userId).error
      ensures ValidApps(old(t)) ==> ValidApps(t)
    {
      if ValidApps(t) {
        DeleteKeepsValid(t, id, userId);
      }
      var k := FindApp(t.apps, id);
      if k.None? {
        return Some(AppNotFound);
      }
      if t.apps[k.value].userId != userId {
        return Some(NotYourApplication);
      }
      t := t.(apps := t.apps[..k.value] + t.apps[k.value + 1..]);
      error := None;
    }
  }
}

=== FILE: bookmarks.dfy ===
/**
 * `Bookmark` of app/bookmarks/models.py: a user's bookmarks on job postings.
 *
 * The bookmarks table is a sequence of rows in insertion order, each with the
 * id AUTO_INCREMENT gave it, and the next id to hand out. A `SELECT ...
 * fetchone()` without ORDER BY is taken to answer the first matching row.
 */
module Bookmarks {
  import opened Wrappers
  import opened Text
  import opened Sql

  datatype Bookmark = Bookmark(id: nat, userId: nat, postingId: nat)

  datatype BookmarkTable = BookmarkTable(rows: seq<Bookmark>, nextId: nat)

  const Removed := "Bookmark removed"
  const Added := "Bookmark added"

  /** Ids grow with insertion order and stay below the next id AUTO_INCREMENT hands out. */
  predicate Valid(t: BookmarkTable)
  {
    && (forall i, j :: 0 <= i < j < |t.rows| ==> t.rows[i].id < t.rows[j].id)
    && (forall i :: 0 <= i < |t.rows| ==> t.rows[i].id < t.nextId)
  }

  /** No two rows bookmark the same posting for the same user. */
  predicate PairsUnique(rows: seq<Bookmark>)
  {
    forall i, j :: 0 <= i < j < |rows| ==>
      !(rows[i].userId == rows[j].userId && rows[i].postingId == rows[j].postingId)
  }

  /** The user has bookmarked the posting. */
  predicate Has(rows: seq<Bookmark>, userId: nat, postingId: nat)
  {
    exists b :: b in rows && b.userId == userId && b.postingId == postingId
  }

  /** `SELECT bookmark_id ... WHERE user_id=%s AND posting_id=%s` then `fetchone()`: the first matching row. */
  function Match(rows: seq<Bookmark>, userId: nat, postingId: nat): (r: Option<nat>)
    ensures r.Some? ==>
      && r.value < |rows| && rows[r.value].userId == userId && rows[r.value].postingId == postingId
      && (forall i :: 0 <= i < r.value ==> !(rows[i].userId == userId && rows[i].postingId == postingId))
    ensures r.None? <==> !Has(rows, userId, postingId)
  {
    if rows == [] then None
    else if rows[0].userId == userId && rows[0].postingId == postingId then Some(0)
    else
      var rest := Match(rows[1..], userId, postingId);
      assert forall b :: b in rows[1..] ==> b in rows;
      assert forall b :: b in rows && b != rows[0] ==> b in rows[1..];
      if rest.None? then None else Some(rest.value + 1)
  }

  /** `DELETE FROM bookmarks WHERE bookmark_id=%s`: every row with that id goes, the rest keep their order. */
  function Without(rows: seq<Bookmark>, id: nat): seq<Bookmark>
  {
    if rows == [] then []
    else (if rows[0].id == id then [] else [rows[0]]) + Without(rows[1..], id)
  }

  /** The rows left are exactly the rows whose id differs. */
  lemma {:induction false} WithoutMembers(rows: seq<Bookmark>, id: nat)
    ensures forall b :: b in Without(rows, id) <==> b in rows && b.id != id
  {
    if rows != [] {
      WithoutMembers(rows[1..], id);
      assert rows == [rows[0]] + rows[1..];
    }
  }

  /** A row is removed from wherever it is; the ones before and after keep their relative order. */
  lemma {:induction false} WithoutKeepsOrder(rows: seq<Bookmark>, id: nat)
    requires forall i, j :: 0 <= i < j < |rows| ==> rows[i].id < rows[j].id
    ensures forall i, j :: 0 <= i < j < |Without(rows, id)| ==> Without(rows, id)[i].id < Without(rows, id)[j].id
  {
    if rows != [] {
      var rest := Without(rows[1..], id);
      WithoutKeepsOrder(rows[1..], id);
      WithoutMembers(rows[1..], id);
      forall b | b in rest
        ensures rows[0].id < b.id
      {
        var k :| 0 <= k < |rows[1..]| && rows[1..][k] == b;
        assert rows[k + 1] == b;
      }
    }
  }

  /** Removing rows keeps every remaining pair distinct. */
  lemma {:induction false} WithoutKeepsPairsUnique(rows: seq<Bookmark>, id: nat)
    requires PairsUnique(rows)
    ensures PairsUnique(Without(rows, id))
  {
    if rows != [] {
      var rest := Without(rows[1..], id);
      assert PairsUnique(rows[1..]) by {
        forall i, j | 0 <= i < j < |rows[1..]|
          ensures !(rows[1..][i].userId == rows[1..][j].userId && rows[1..][i].postingId == rows[1..][j].postingId)
        {
          assert rows[1..][i] == rows[i + 1] && rows[1..][j] == rows[j + 1];
        }
      }
      WithoutKeepsPairsUnique(rows[1..], id);
      WithoutMembers(rows[1..], id);
      forall b | b in rest
        ensures !(b.userId == rows[0].userId && b.postingId == rows[0].postingId)
      {
        var k :| 0 <= k < |rows[1..]| && rows[1..][k] == b;
        assert rows[k + 1] == b;
      }
    }
  }

  /** With no row carrying the id, nothing is removed. */
  lemma {:induction false} WithoutAbsent(rows: seq<Bookmark>, id: nat)
    requires forall i :: 0 <= i < |rows| ==> rows[i].id != id
    ensures Without(rows, id) == rows
  {
    if rows != [] {
      WithoutAbsent(rows[1..], id);
      assert rows == [rows[0]] + rows[1..];
    }
  }

  lemma {:induction false} WithoutAppend(a: seq<Bookmark>, b: seq<Bookmark>, id: nat)
    ensures Without(a + b, id) == Without(a, id) + Without(b, id)
  {
    if a == [] {
      assert a + b == b;
    } else {
      assert (a + b)[1..] == a[1..] + b;
      WithoutAppend(a[1..], b, id);
    }
  }

  /** What `toggle_bookmark` leaves in the table and returns as (message, id). */
  datatype Toggled = Toggled(table: BookmarkTable, message: string, id: Option<nat>)

  /**
   * `toggle_bookmark()`: an existing bookmark for the pair is deleted by its
   * id; otherwise one row is inserted and its new id returned.
   */
  function Toggle(t: BookmarkTable, userId: nat, postingId: nat): Toggled
  {
    var m := Match(t.rows, userId, postingId);
    if m.Some? then
      Toggled(BookmarkTable(Without(t.rows, t.rows[m.value].id), t.nextId), Removed, None)
    else
      Toggled(BookmarkTable(t.rows + [Bookmark(t.nextId, userId, postingId)], t.nextId + 1), Added, Some(t.nextId))
  }

  /** With increasing ids, no row before or after row k carries its id. */
  lemma OthersKeepId(rows: seq<Bookmark>, k: nat)
    requires k < |rows|
    requires forall i, j :: 0 <= i < j < |rows| ==> rows[i].id < rows[j].id
    ensures Without(rows[..k], rows[k].id) == rows[..k]
    ensures Without(rows[k + 1..], rows[k].id) == rows[k + 1..]
  {
    var before, after := rows[..k], rows[k + 1..];
    forall i | 0 <= i < |before|
      ensures before[i].id != rows[k].id
    {
      assert before[i] == rows[i];
    }
    WithoutAbsent(before, rows[k].id);
    forall i | 0 <= i < |after|
      ensures after[i].id != rows[k].id
    {
      assert after[i] == rows[k + 1 + i];
    }
    WithoutAbsent(after, rows[k].id);
  }

  /** With increasing ids, deleting the id of row k removes that row and no other. */
  lemma RemoveRow(rows: seq<Bookmark>, k: nat)
    requires k < |rows|
    requires forall i, j :: 0 <= i < j < |rows| ==> rows[i].id < rows[j].id
    ensures Without(rows, rows[k].id) == rows[..k] + rows[k + 1..]
  {
    OthersKeepId(rows, k);
    RemoveOne(rows[..k], rows[k], rows[k + 1..]);
    SplitAt(rows, k);
  }

  lemma SplitAt(rows: seq<Bookmark>, k: nat)
    requires k < |rows|
    ensures rows == rows[..k] + [rows[k]] + rows[k + 1..]
  {
  }

  lemma RemoveOne(before: seq<Bookmark>, b: Bookmark, after: seq<Bookmark>)
    requires Without(before, b.id) == before && Without(after, b.id) == after
    ensures Without(before + [b] + after, b.id) == before + after
  {
    assert Without([b], b.id) == [] by {
      assert [b][1..] == [];
    }
    WithoutAppend(before, [b], b.id);
    WithoutAppend(before + [b], after, b.id);
  }

  /** Removing row k of a table with one row per pair leaves exactly the rows on other pairs. */
  lemma RemoveRowMembers(rows: seq<Bookmark>, k: nat)
    requires k < |rows| && PairsUnique(rows)
    ensures forall b :: b in rows[..k] + rows[k + 1..] <==>
      b in rows && !(b.userId == rows[k].userId && b.postingId == rows[k].postingId)
  {
    var rest := rows[..k] + rows[k + 1..];
    forall b | b in rest
      ensures b in rows && !(b.userId == rows[k].userId && b.postingId == rows[k].postingId)
    {
      var j :| 0 <= j < |rest| && rest[j] == b;
      if j < k {
        assert rows[j] == b;
      } else {
        assert rows[j + 1] == b;
      }
    }
    forall j | 0 <= j < |rows| && j != k
      ensures rows[j] in rest
    {
      if j < k {
        assert rest[j] == rows[j];
      } else {
        assert rest[j - 1] == rows[j];
      }
    }
  }

  /**
   * An existing pair is removed with ("Bookmark removed", None): its row
   * alone disappears and the next id is not used.
   */
  lemma ToggleRemoves(t: BookmarkTable, userId: nat, postingId: nat)
    requires Valid(t) && PairsUnique(t.rows)
    requires Has(t.rows, userId, postingId)
    ensures var r := Toggle(t, userId, postingId);
      && r.message == Removed && r.id.None? && r.table.nextId == t.nextId
      && |r.table.rows| == |t.rows| - 1
      && (forall b :: b in r.table.rows <==>
            b in t.rows && !(b.userId == userId && b.postingId == postingId))
  {
    var k := Match(t.rows, userId, postingId).value;
    RemoveRow(t.rows, k);
    RemoveRowMembers(t.rows, k);
  }

  /** An absent pair gives ("Bookmark added", id) and exactly one new row, with that id, at the end. */
  lemma ToggleAdds(t: BookmarkTable, userId: nat, postingId: nat)
    requires !Has(t.rows, userId, postingId)
    ensures var r := Toggle(t, userId, postingId);
      && r.message == Added && r.id == Some(t.nextId)
      && r.table == BookmarkTable(t.rows + [Bookmark(t.nextId, userId, postingId)], t.nextId + 1)
  {
  }

  /** Toggling keeps ids increasing and below the next id, and keeps one row per pair. */
  lemma ToggleKeepsValid(t: BookmarkTable, userId: nat, postingId: nat)
    requires Valid(t) && PairsUnique(t.rows)
    ensures Valid(Toggle(t, userId, postingId).table)
    ensures PairsUnique(Toggle(t, userId, postingId).table.rows)
  {
    var m := Match(t.rows, userId, postingId);
    if m.Some? {
      var id := t.rows[m.value].id;
      WithoutKeepsOrder(t.rows, id);
      WithoutKeepsPairsUnique(t.rows, id);
      WithoutMembers(t.rows, id);
      var rows' := Without(t.rows, id);
      forall i | 0 <= i < |rows'|
        ensures rows'[i].id < t.nextId
      {
        assert rows'[i] in t.rows;
      }
    } else {
      var rows' := t.rows + [Bookmark(t.nextId, userId, postingId)];
      forall i, j | 0 <= i < j < |rows'|
        ensures !(rows'[i].userId == rows'[j].userId && rows'[i].postingId == rows'[j].postingId)
      {
        if j == |t.rows| {
          assert rows'[i] in t.rows;
        }
      }
    }
  }

  /**
   * Toggling flips whether the user has bookmarked the posting and leaves
   * every other (user, posting) pair as it was.
   */
  lemma ToggleFlips(t: BookmarkTable, userId: nat, postingId: nat)
    requires Valid(t) && PairsUnique(t.rows)
    ensures Has(Toggle(t, userId, postingId).table.rows, userId, postingId) <==> !Has(t.rows, userId, postingId)
    ensures forall u, p :: !(u == userId && p == postingId) ==>
      (Has(Toggle(t, userId, postingId).table.rows, u, p) <==> Has(t.rows, u, p))
  {
    var rows' := Toggle(t, userId, postingId).table.rows;
    if Has(t.rows, userId, postingId) {
      ToggleRemoves(t, userId, postingId);
      forall u, p | !(u == userId && p == postingId) && Has(t.rows, u, p)
        ensures Has(rows', u, p)
      {
        var b :| b in t.rows && b.userId == u && b.postingId == p;
        assert b in rows';
      }
    } else {
      ToggleAdds(t, userId, postingId);
      var b := Bookmark(t.nextId, userId, postingId);
      assert b in rows';
      forall u, p | Has(rows', u, p) && !(u == userId && p == postingId)
        ensures Has(t.rows, u, p)
      {
        var c :| c in rows' && c.userId == u && c.postingId == p;
        assert c in t.rows;
      }
      forall u, p | Has(t.rows, u, p)
        ensures Has(rows', u, p)
      {
        var c :| c in t.rows && c.userId == u && c.postingId == p;
        assert c in rows';
      }
    }
  }

  /** Deleting the id of a row appended after all others gives the earlier rows back. */
  lemma RemoveLast(rows: seq<Bookmark>, b: Bookmark)
    requires forall i :: 0 <= i < |rows| ==> rows[i].id < b.id
    ensures Without(rows + [b], b.id) == rows
  {
    WithoutAbsent(rows, b.id);
    WithoutAppend(rows, [b], b.id);
    assert Without([b], b.id) == [] by {
      assert [b][1..] == [];
    }
  }

  /**
   * Toggling the same pair twice restores every pair's bookmark state; when
   * the pair had no bookmark, the rows themselves come back (only the next
   * id has moved on).
   */
  lemma ToggleTwice(t: BookmarkTable, userId: nat, postingId: nat)
    requires Valid(t) && PairsUnique(t.rows)
    ensures var t2 := Toggle(Toggle(t, userId, postingId).table, userId, postingId).table;
      && (forall u, p :: Has(t2.rows, u, p) <==> Has(t.rows, u, p))
      && (!Has(t.rows, userId, postingId) ==> t2.rows == t.rows && t2.nextId == t.nextId + 1)
  {
    var t1 := Toggle(t, userId, postingId).table;
    ToggleFlips(t, userId, postingId);
    ToggleKeepsValid(t, userId, postingId);
    ToggleFlips(t1, userId, postingId);
    if !Has(t.rows, userId, postingId) {
      var b := Bookmark(t.nextId, userId, postingId);
      assert t1.rows == t.rows + [b];
      assert Match(t1.rows, userId, postingId) == Some(|t.rows|) by {
        assert forall i :: 0 <= i < |t.rows| ==> t1.rows[i] == t.rows[i];
      }
      RemoveLast(t.rows, b);
    }
  }

  /** The bookmarks table with its toggle, as `toggle_bookmark` changes it. */
  class BookmarkStore {
    var t: BookmarkTable

    constructor ()
      ensures t == BookmarkTable([], 1)
      ensures Valid(t) && PairsUnique(t.rows)
    {
      t := BookmarkTable([], 1);
    }

    /** `toggle_bookmark(user_id, posting_id)`: returns (message, id) and applies the delete or insert. */
    method ToggleBookmark(userId: nat, postingId: nat) returns (message: string, id: Option<nat>)
      modifies this
      ensures t == Toggle(old(t), userId, postingId).table
      ensures message == Toggle(old(t), userId, postingId).message
      ensures id == Toggle(old(t), userId, postingId).id
      ensures Valid(old(t)) && PairsUnique(old(t).rows) ==> Valid(t) && PairsUnique(t.rows)
    {
      var existing := Match(t.rows, userId, postingId);
      if existing.Some? {
        t := BookmarkTable(Without(t.rows, t.rows[existing.value].id), t.nextId);
        message, id := Removed, None;
      } else {
        id := Some(t.nextId);
        t := BookmarkTable(t.rows + [Bookmark(t.nextId, userId, postingId)], t.nextId + 1);
        message := Added;
      }
      if Valid(old(t)) && PairsUnique(old(t).rows) {
        ToggleKeepsValid(old(t), userId, postingId);
      }
    }
  }

  // ---------------------------------------------------------------------------
  // get_bookmarks
  // ---------------------------------------------------------------------------

  const BookmarksSelect: string :=
    "SELECT b.bookmark_id, b.posting_id, jp.title, jp.job_description, jp.experience_level, "
    + "jp.education_level, jp.employment_type, jp.salary_info, "
    + "CONCAT(l.city, ' ', COALESCE(l.district, '')) as location, jp.deadline_date, jp.view_count, "
    + "c.name as company_name, GROUP_CONCAT(DISTINCT ts.name) as tech_stacks, "
    + "GROUP_CONCAT(DISTINCT jc.name) as job_categories FROM bookmarks b "
    + "JOIN job_postings jp ON b.posting_id = jp.posting_id "
    + "JOIN companies c ON jp.company_id = c.company_id "
    + "LEFT JOIN locations l ON jp.location_id = l.location_id "
    + "LEFT JOIN posting_tech_stacks pts ON jp.posting_id = pts.posting_id "
    + "LEFT JOIN tech_stacks ts ON pts.stack_id = ts.stack_id "
    + "LEFT JOIN posting_categories pc ON jp.posting_id = pc.posting_id "
    + "LEFT JOIN job_categories jc ON pc.category_id = jc.category_id "
    + "WHERE b.user_id = "

  /** `page_size` of `get_bookmarks`. */
  const BookmarkPageSize := 20

  /**
   * The query `get_bookmarks` executes with the single parameter `(user_id,)`:
   * one placeholder, nothing pasted in from the caller, newest first unless
   * sort is exactly "asc", and 20 rows from offset (page - 1) * 20.
   */
  function BookmarksQuery(page: int, sort: string): (q: Query)
    ensures Placeholders(q) == 1 && NoSplice(q) && |q| == 5
    ensures q[|q| - 2] == Lit(" ORDER BY b.created_at " + Direction(sort))
    ensures q[|q| - 1] == Lit(" LIMIT 20 OFFSET " + IntToString((page - 1) * BookmarkPageSize))
  {
    var tail := [Lit(" GROUP BY b.bookmark_id"),
                 Lit(" ORDER BY b.created_at " + Direction(sort)),
                 Lit(" LIMIT 20 OFFSET " + IntToString((page - 1) * BookmarkPageSize))];
    LiteralsOnly(tail);
    PlaceholdersAppend([Lit(BookmarksSelect), Param], tail);
    [Lit(BookmarksSelect), Param] + tail
  }

  /** The sort argument only chooses between ASC and DESC: sorts that agree on the direction give the same query. */
  lemma SortOnlyPicksDirection(page: int, sort1: string, sort2: string)
    requires (sort1 == "asc") == (sort2 == "asc")
    ensures BookmarksQuery(page, sort1) == BookmarksQuery(page, sort2)
  {
  }

  /** A fetched row, with the two GROUP_CONCAT columns still as text. */
  datatype BookmarkRow = BookmarkRow(bookmarkId: nat, postingId: nat, techStacks: Option<string>, jobCategories: Option<string>)

  /** A row as `get_bookmarks` returns it. */
  datatype ListedBookmark = ListedBookmark(bookmarkId: nat, postingId: nat, techStacks: seq<string>, jobCategories: seq<string>)

  /** The loop over the fetched rows: order and ids kept, each column split on ',' or [] when NULL or empty. */
  method SplitBookmarks(rows: seq<BookmarkRow>) returns (out: seq<ListedBookmark>)
    ensures |out| == |rows|
    ensures forall i :: 0 <= i < |rows| ==>
      out[i] == ListedBookmark(rows[i].bookmarkId, rows[i].postingId,
                               SplitAggregate(rows[i].techStacks), SplitAggregate(rows[i].jobCategories))
  {
    out := [];
    for i := 0 to |rows|
      invariant |out| == i
      invariant forall j :: 0 <= j < i ==>
        out[j] == ListedBookmark(rows[j].bookmarkId, rows[j].postingId,
                                 SplitAggregate(rows[j].techStacks), SplitAggregate(rows[j].jobCategories))
    {
      out := out + [ListedBookmark(rows[i].bookmarkId, rows[i].postingId,
                                   SplitAggregate(rows[i].techStacks), SplitAggregate(rows[i].jobCategories))];
    }
  }
}

=== FILE: code_tables.dfy ===
/**
 * What the Saramin search-code tables share: a two-level dictionary from
 * group name to leaf name to code (a Python dict keeps its insertion order,
 * so each level is a sequence), its `.get` lookups and the generator search
 * over all leaves, and the assembly of the query-parameter map.
 */
module CodeTables {
  import opened Wrappers

  datatype Entry = Entry(name: string, code: string)
  datatype Group = Group(name: string, entries: seq<Entry>)

  /** Python truthiness of an optional string argument: given and not "". */
  predicate Truthy(s: Option<string>)
  {
    s.Some? && s.value != ""
  }

  /** `d.get(key)` on one level: the code of the first entry with that name. */
  function Find(entries: seq<Entry>, key: string): (r: Option<string>)
    ensures r.None? <==> forall i :: 0 <= i < |entries| ==> entries[i].name != key
    ensures r.Some? ==> exists i :: 0 <= i < |entries| && entries[i] == Entry(key, r.value)
  {
    if entries == [] then None
    else if entries[0].name == key then Some(entries[0].code)
    else
      var r := Find(entries[1..], key);
      assert forall i :: 1 <= i < |entries| ==> entries[i] == entries[1..][i - 1];
      r
  }

  /** `table.get(group, {})`: the entries of the first group with that name, or none. */
  function FindGroup(groups: seq<Group>, name: string): (r: seq<Entry>)
    ensures (forall i :: 0 <= i < |groups| ==> groups[i].name != name) ==> r == []
    ensures r != [] ==> exists i :: 0 <= i < |groups| && groups[i].name == name && groups[i].entries == r
  {
    if groups == [] then []
    else if groups[0].name == name then groups[0].entries
    else
      var r := FindGroup(groups[1..], name);
      assert forall i :: 1 <= i < |groups| ==> groups[i] == groups[1..][i - 1];
      r
  }

  /** `table.get(group, {}).get(sub)`. */
  function TwoLevel(groups: seq<Group>, group: string, sub: string): (r: Option<string>)
    ensures r.Some? ==> exists i :: 0 <= i < |groups| && Entry(sub, r.value) in groups[i].entries
  {
    Find(FindGroup(groups, group), sub)
  }

  /** `next((code for g in table.values() for leaf, code in g.items() if leaf == name), None)`. */
  function FindLeaf(groups: seq<Group>, name: string): (r: Option<string>)
    ensures r.None? <==> forall i :: 0 <= i < |groups| ==> Find(groups[i].entries, name).None?
    ensures r.Some? ==> exists i :: 0 <= i < |groups| && Entry(name, r.value) in groups[i].entries
  {
    if groups == [] then None
    else
      var here := Find(groups[0].entries, name);
      if here.Some? then here
      else
        var r := FindLeaf(groups[1..], name);
        assert forall i :: 1 <= i < |groups| ==> groups[i] == groups[1..][i - 1];
        r
  }

  /** A name that no leaf has finds nothing. */
  lemma FindLeafAbsent(groups: seq<Group>, name: string)
    requires forall i, k :: 0 <= i < |groups| && 0 <= k < |groups[i].entries| ==> groups[i].entries[k].name != name
    ensures FindLeaf(groups, name) == None
  {
  }

  /** `get_code(name, sub=None)`: two levels when `sub` is truthy, otherwise the leaf search. */
  function GetCode(groups: seq<Group>, name: string, sub: Option<string>): Option<string>
  {
    if Truthy(sub) then TwoLevel(groups, name, sub.value) else FindLeaf(groups, name)
  }

  /** Every code of the table is a non-empty string, so a found code is truthy. */
  predicate CodesNonEmpty(groups: seq<Group>)
  {
    forall i, k :: 0 <= i < |groups| && 0 <= k < |groups[i].entries| ==> groups[i].entries[k].code != ""
  }

  lemma GetCodeTruthy(groups: seq<Group>, name: string, sub: Option<string>)
    requires CodesNonEmpty(groups)
    ensures GetCode(groups, name, sub).Some? ==> Truthy(GetCode(groups, name, sub))
  {
  }

  /** The leaf (name, code) pairs in iteration order. */
  function Leaves(groups: seq<Group>): seq<Entry>
  {
    if groups == [] then [] else groups[0].entries + Leaves(groups[1..])
  }

  /** The name of an entry, or its code. */
  function Key(e: Entry, byCode: bool): string
  {
    if byCode then e.code else e.name
  }

  /** No two entries share a name (or, by code, a code). */
  predicate DistinctBy(entries: seq<Entry>, byCode: bool)
  {
    forall i, j :: 0 <= i < j < |entries| ==> Key(entries[i], byCode) != Key(entries[j], byCode)
  }

  /** No entry of `a` shares a name (or a code) with an entry of `b`. */
  predicate DisjointBy(a: seq<Entry>, b: seq<Entry>, byCode: bool)
  {
    forall i, j :: 0 <= i < |a| && 0 <= j < |b| ==> Key(a[i], byCode) != Key(b[j], byCode)
  }

  predicate DistinctNames(entries: seq<Entry>)
  {
    DistinctBy(entries, false)
  }

  predicate DistinctCodes(entries: seq<Entry>)
  {
    DistinctBy(entries, true)
  }

  lemma DistinctAppend(a: seq<Entry>, b: seq<Entry>, byCode: bool)
    requires DistinctBy(a, byCode) && DistinctBy(b, byCode) && DisjointBy(a, b, byCode)
    ensures DistinctBy(a + b, byCode)
  {
    var ab := a + b;
    forall i, j | 0 <= i < j < |ab|
      ensures Key(ab[i], byCode) != Key(ab[j], byCode)
    {
      if j < |a| {
        assert ab[i] == a[i] && ab[j] == a[j];
      } else if i < |a| {
        assert ab[i] == a[i] && ab[j] == b[j - |a|];
      } else {
        assert ab[i] == b[i - |a|] && ab[j] == b[j - |a|];
      }
    }
  }

  lemma {:induction false} DisjointFromLeaves(a: seq<Entry>, groups: seq<Group>, byCode: bool)
    requires forall h :: 0 <= h < |groups| ==> DisjointBy(a, groups[h].entries, byCode)
    ensures DisjointBy(a, Leaves(groups), byCode)
    decreases |groups|
  {
    if groups != [] {
      assert forall h :: 1 <= h < |groups| ==> groups[h] == groups[1..][h - 1];
      DisjointFromLeaves(a, groups[1..], byCode);
      var b, c := groups[0].entries, Leaves(groups[1..]);
      forall i, j | 0 <= i < |a| && 0 <= j < |b + c|
        ensures Key(a[i], byCode) != Key((b + c)[j], byCode)
      {
        if j < |b| {
          assert (b + c)[j] == b[j];
        } else {
          assert (b + c)[j] == c[j - |b|];
        }
      }
    }
  }

  /**
   * The leaves of a table are distinct when those of each group are and no
   * two groups share one: the group-by-group check that the code tables pass.
   */
  lemma {:induction false} LeavesDistinctBy(groups: seq<Group>, byCode: bool)
    requires forall g :: 0 <= g < |groups| ==> DistinctBy(groups[g].entries, byCode)
    requires forall g, h :: 0 <= g < h < |groups| ==> DisjointBy(groups[g].entries, groups[h].entries, byCode)
    ensures DistinctBy(Leaves(groups), byCode)
    decreases |groups|
  {
    if groups != [] {
      assert forall h :: 1 <= h < |groups| ==> groups[h] == groups[1..][h - 1];
      LeavesDistinctBy(groups[1..], byCode);
      DisjointFromLeaves(groups[0].entries, groups[1..], byCode);
      DistinctAppend(groups[0].entries, Leaves(groups[1..]), byCode);
    }
  }

  /** The leaf search returns the code of the first leaf, in iteration order, with that name. */
  lemma {:induction false} FindLeafIsFindOnLeaves(groups: seq<Group>, name: string)
    ensures FindLeaf(groups, name) == Find(Leaves(groups), name)
    decreases |groups|
  {
    if groups != [] {
      FindLeafIsFindOnLeaves(groups[1..], name);
      FindAppend(groups[0].entries, Leaves(groups[1..]), name);
    }
  }

  lemma {:induction false} FindAppend(a: seq<Entry>, b: seq<Entry>, key: string)
    ensures Find(a + b, key) == if Find(a, key).Some? then Find(a, key) else Find(b, key)
    decreases |a|
  {
    if a != [] {
      assert (a + b)[1..] == a[1..] + b;
      FindAppend(a[1..], b, key);
    } else {
      assert a + b == b;
    }
  }

  /** With distinct names the first match is the only one, so order does not matter. */
  lemma FindExact(entries: seq<Entry>, key: string, c: string)
    requires DistinctNames(entries)
    ensures Find(entries, key) == Some(c) <==> Entry(key, c) in entries
  {
    if Entry(key, c) in entries {
      var j :| 0 <= j < |entries| && entries[j] == Entry(key, c);
      var r := Find(entries, key);
      var i :| 0 <= i < |entries| && entries[i] == Entry(key, r.value);
      assert i == j;
    }
  }

  /**
   * With distinct leaf names the leaf search returns c exactly when some
   * group holds the leaf (name, c), whatever the order of groups and entries.
   */
  lemma FindLeafUnique(groups: seq<Group>, name: string, c: string)
    requires DistinctNames(Leaves(groups))
    ensures FindLeaf(groups, name) == Some(c) <==> Entry(name, c) in Leaves(groups)
  {
    FindLeafIsFindOnLeaves(groups, name);
    FindExact(Leaves(groups), name, c);
  }

  /** A Python dict of dicts: group names are distinct, and so are the names within each group. */
  predicate IsDict(groups: seq<Group>)
  {
    && (forall i, j :: 0 <= i < j < |groups| ==> groups[i].name != groups[j].name)
    && (forall i :: 0 <= i < |groups| ==> DistinctNames(groups[i].entries))
  }

  /** `table.get(group, {}).get(sub)` is `table[group][sub]` when both keys exist, and None otherwise. */
  lemma TwoLevelExact(groups: seq<Group>, group: string, sub: string, c: string)
    requires IsDict(groups)
    ensures TwoLevel(groups, group, sub) == Some(c) <==>
      exists i :: 0 <= i < |groups| && groups[i].name == group && Entry(sub, c) in groups[i].entries
  {
    var es := FindGroup(groups, group);
    if es != [] {
      var k :| 0 <= k < |groups| && groups[k].name == group && groups[k].entries == es;
      FindExact(es, sub, c);
      forall i | 0 <= i < |groups| && groups[i].name == group
        ensures i == k
      {
      }
    } else if exists i :: 0 <= i < |groups| && groups[i].name == group && Entry(sub, c) in groups[i].entries {
      var i :| 0 <= i < |groups| && groups[i].name == group && Entry(sub, c) in groups[i].entries;
      FindGroupFirst(groups, group, i);
    }
  }

  /** The group `table.get` finds under a name some group has is the first group with that name. */
  lemma {:induction false} FindGroupFirst(groups: seq<Group>, name: string, i: nat)
    requires i < |groups| && groups[i].name == name
    requires forall j :: 0 <= j < i ==> groups[j].name != name
    ensures FindGroup(groups, name) == groups[i].entries
    decreases i
  {
    if i > 0 {
      FindGroupFirst(groups[1..], name, i - 1);
    }
  }

  // ---------------------------------------------------------------------------
  // The query-parameter map of `build_params`
  // ---------------------------------------------------------------------------

  /** A parameter value: the texts and the page number. */
  datatype Value = Text(s: string) | Number(n: int)

  /** The keyword arguments `build_params` reads; None is an absent argument. */
  datatype SearchArgs = SearchArgs(
    keyword: Option<string>,
    page: Option<int>,
    region: Option<string>,
    job: Option<string>,
    sort: Option<string>,
    experience: Option<string>,
    employment: Option<string>)

  /** The codes the optional arguments resolved to (None when the argument was falsy). */
  datatype Resolved = Resolved(
    loc: Option<string>,
    job: Option<string>,
    sort: Option<string>,
    exp: Option<string>,
    emp: Option<string>)

  /** `params[key] = code` when the resolved code is truthy. */
  function AddIf(params: map<string, Value>, key: string, code: Option<string>): (r: map<string, Value>)
    ensures Truthy(code) ==> r == params[key := Text(code.value)]
    ensures !Truthy(code) ==> r == params
    ensures forall k :: k != key ==> (k in r <==> k in params) && (k in params ==> r[k] == params[k])
  {
    if Truthy(code) then params[key := Text(code.value)] else params
  }

  /** The three fixed parameters, then each optional code in the order `build_params` adds them. */
  function Assemble(args: SearchArgs, codes: Resolved): map<string, Value>
  {
    var base := map[
      "searchType" := Text("search"),
      "searchword" := Text(if args.keyword.Some? then args.keyword.value else ""),
      "recruitPage" := Number(if args.page.Some? then args.page.value else 1)];
    AddIf(AddIf(AddIf(AddIf(AddIf(base, "loc_cd", codes.loc), "job_cd", codes.job), "sort", codes.sort),
      "exp_cd", codes.exp), "emp_cd", codes.emp)
  }

  /** The eight keys `build_params` can produce. */
  predicate ParamKey(k: string)
  {
    k == "searchType" || k == "searchword" || k == "recruitPage"
    || k == "loc_cd" || k == "job_cd" || k == "sort" || k == "exp_cd" || k == "emp_cd"
  }

  /** The fixed keys are always there, with "" and 1 as the defaults of `keyword` and `page`. */
  lemma AssembleFixedKeys(args: SearchArgs, codes: Resolved)
    ensures var p := Assemble(args, codes);
      && "searchType" in p && p["searchType"] == Text("search")
      && "searchword" in p && p["searchword"] == Text(if args.keyword.Some? then args.keyword.value else "")
      && "recruitPage" in p && p["recruitPage"] == Number(if args.page.Some? then args.page.value else 1)
  {
  }

  /** Each code key is there exactly when its code is truthy, and then holds that code. */
  lemma AssembleCodeKeys(args: SearchArgs, codes: Resolved)
    ensures var p := Assemble(args, codes);
      && ("loc_cd" in p <==> Truthy(codes.loc)) && (Truthy(codes.loc) ==> p["loc_cd"] == Text(codes.loc.value))
      && ("job_cd" in p <==> Truthy(codes.job)) && (Truthy(codes.job) ==> p["job_cd"] == Text(codes.job.value))
      && ("sort" in p <==> Truthy(codes.sort)) && (Truthy(codes.sort) ==> p["sort"] == Text(codes.sort.value))
      && ("exp_cd" in p <==> Truthy(codes.exp)) && (Truthy(codes.exp) ==> p["exp_cd"] == Text(codes.exp.value))
      && ("emp_cd" in p <==> Truthy(codes.emp)) && (Truthy(codes.emp) ==> p["emp_cd"] == Text(codes.emp.value))
  {
  }

  /** No key other than the eight parameter names appears. */
  lemma AssembleOnlyParamKeys(args: SearchArgs, codes: Resolved)
    ensures forall k :: k in Assemble(args, codes) ==> ParamKey(k)
  {
  }
}

=== FILE: csv_import.dfy ===
/**
 * `import_csv_to_db` of app/crawling/utils/csv_to_db.py: with no path, the
 * greatest ".csv" name of the crawl directory is chosen; every row then
 * overwrites the Job with the same (title, company_name) or adds a new Job.
 * The session is committed once at the end; any exception rolls it back and
 * is re-raised.
 *
 * The session flushes before each query (SQLAlchemy's autoflush), so a Job
 * added by an earlier row of the same file is found by a later row with the
 * same key; the table below therefore includes the pending rows.
 */
module CsvImport {
  import opened Wrappers
  import opened Text
  import opened Upsert

  /** A Job as this importer writes it (the id is its index + 1). */
  datatype CsvJob = CsvJob(
    title: string,
    companyName: string,
    location: string,
    experience: string,
    education: string,
    employmentType: string,
    deadline: string,
    techStacks: string,
    updatedAt: Option<nat>)

  /** The row has the eight columns the loop reads with `row[...]`. */
  predicate Complete(row: CsvRow)
  {
    && "title" in row && "company_name" in row && "location" in row && "experience" in row
    && "education" in row && "employment_type" in row && "deadline" in row && "tech_stack" in row
  }

  /**
   * The KeyError the loop raises: the first absent column in the order it
   * reads them (title and company_name for the lookup, then the rest).
   */
  function FirstMissing(row: CsvRow): (r: Option<string>)
    ensures r.None? <==> Complete(row)
    ensures r.Some? ==> r.value !in row
  {
    if "title" !in row then Some("title")
    else if "company_name" !in row then Some("company_name")
    else if "location" !in row then Some("location")
    else if "experience" !in row then Some("experience")
    else if "education" !in row then Some("education")
    else if "employment_type" !in row then Some("employment_type")
    else if "deadline" !in row then Some("deadline")
    else if "tech_stack" !in row then Some("tech_stack")
    else None
  }

  /** The `filter_by(title=..., company_name=...)` condition. */
  predicate SameKey(job: CsvJob, title: string, companyName: string)
  {
    job.title == title && job.companyName == companyName
  }

  predicate HasJob(jobs: seq<CsvJob>, title: string, companyName: string)
  {
    exists j :: 0 <= j < |jobs| && SameKey(jobs[j], title, companyName)
  }

  /** `.first()`: the lowest-id Job with that key. */
  function FindJob(jobs: seq<CsvJob>, title: string, companyName: string): (r: Option<nat>)
    ensures r.None? <==> !HasJob(jobs, title, companyName)
    ensures r.Some? ==> r.value < |jobs| && SameKey(jobs[r.value], title, companyName)
  {
    if jobs == [] then None
    else if SameKey(jobs[0], title, companyName) then Some(0)
    else match FindJob(jobs[1..], title, companyName)
      case None =>
        assert forall j :: 1 <= j < |jobs| ==> jobs[j] == jobs[1..][j - 1];
        None
      case Some(k) => Some(k + 1)
  }

  /** The Job added for a row with no match (updated_at left to the table default). */
  function JobFromRow(row: CsvRow): CsvJob
    requires Complete(row)
  {
    CsvJob(row["title"], row["company_name"], row["location"], row["experience"], row["education"],
           row["employment_type"], row["deadline"], row["tech_stack"], None)
  }

  /** The six columns a matching row overwrites, and `updated_at := now`. */
  function Overwritten(job: CsvJob, row: CsvRow, now: nat): (r: CsvJob)
    requires Complete(row)
    ensures r.title == job.title && r.companyName == job.companyName
  {
    job.(location := row["location"], experience := row["experience"], education := row["education"],
         employmentType := row["employment_type"], deadline := row["deadline"],
         techStacks := row["tech_stack"], updatedAt := Some(now))
  }

  /** The effect of one row: the table afterwards and whether it was an update, or the column it lacks. */
  datatype RowStep = Applied(jobs: seq<CsvJob>, updated: bool) | Missing(column: string)

  /** The rows read so far, or the KeyError message that aborted the file. */
  datatype Run = Running(jobs: seq<CsvJob>, counts: Counts) | Aborted(error: string)

  /** What the call leaves behind: the committed table and the returned count, or the raised error. */
  datatype Outcome = Imported(jobs: seq<CsvJob>, count: nat) | Failed(error: string)

  /** `str(KeyError(k))`. */
  function KeyMessage(column: string): string
  {
    "'" + column + "'"
  }

  /** One row of the loop. */
  function ImportRow(jobs: seq<CsvJob>, row: CsvRow, now: nat): RowStep
  {
    match FirstMissing(row)
    case Some(k) => Missing(k)
    case None =>
      match FindJob(jobs, row["title"], row["company_name"])
      case Some(k) => Applied(jobs[k := Overwritten(jobs[k], row, now)], true)
      case None => Applied(jobs + [JobFromRow(row)], false)
  }

  /** The rows from here on, applied in order; the first KeyError aborts the file. */
  function ImportFrom(jobs: seq<CsvJob>, c: Counts, rows: seq<CsvRow>, now: nat): Run
    decreases |rows|
  {
    if rows == [] then Running(jobs, c)
    else match ImportRow(jobs, rows[0], now)
      case Missing(k) => Aborted(KeyMessage(k))
      case Applied(jobs', updated) => ImportFrom(jobs', Count(c, updated), rows[1..], now)
  }

  /** The names `os.listdir` returned that end in ".csv". */
  predicate IsCsv(name: string)
  {
    EndsWith(name, ".csv")
  }

  /** `sorted(csv_files)[-1]` over the names ending in ".csv"; None when there is none. */
  function LatestCsv(names: seq<string>): (r: Option<string>)
    ensures r.None? <==> forall f :: f in names ==> !IsCsv(f)
    ensures r.Some? ==> r.value in names && IsCsv(r.value)
    decreases |names|
  {
    if names == [] then None
    else
      var best := LatestCsv(names[1..]);
      if !IsCsv(names[0]) then best
      else if best.None? || LexLe(best.value, names[0]) then Some(names[0])
      else best
  }

  /** The name chosen is the greatest ".csv" name in Python's string order. */
  lemma {:induction false} LatestCsvIsGreatest(names: seq<string>, f: string)
    requires f in names && IsCsv(f)
    ensures LatestCsv(names).Some? && LexLe(f, LatestCsv(names).value)
    decreases |names|
  {
    var best := LatestCsv(names[1..]);
    if f == names[0] {
      if best.Some? && !LexLe(best.value, f) {
        LexLeTotal(best.value, f);
      } else {
        LexLeReflexive(f);
      }
    } else {
      assert f in names[1..];
      LatestCsvIsGreatest(names[1..], f);
      if IsCsv(names[0]) && LexLe(best.value, names[0]) {
        LexLeTransitive(f, best.value, names[0]);
      }
    }
  }

  /** The file the import reads: the given path, else the latest ".csv" of the directory. */
  function ChooseFile(path: string, names: seq<string>): Option<string>
  {
    if path != "" then Some(path) else LatestCsv(names)
  }

  /**
   * The whole call. `files` maps a path to its rows; opening a path it lacks
   * raises. An error leaves the table as it was.
   */
  function Import(jobs: seq<CsvJob>, path: string, names: seq<string>, files: map<string, seq<CsvRow>>,
                  now: nat): Outcome
  {
    match ChooseFile(path, names)
    case None => Imported(jobs, 0)
    case Some(file) =>
      if file !in files then Failed("No such file or directory")
      else match ImportFrom(jobs, Counts(0, 0), files[file], now)
        case Aborted(e) => Failed(e)
        case Running(jobs', c) => Imported(jobs', c.saved + c.updated)
  }

  /** The Flask-SQLAlchemy session over the Job table. */
  class JobSession {
    var jobs: seq<CsvJob>

    constructor (jobs0: seq<CsvJob>)
      ensures jobs == jobs0
    {
      jobs := jobs0;
    }

    /** The body of the row loop: whether the row updated a Job, or the KeyError. */
    method ApplyRow(row: CsvRow, now: nat) returns (r: Result<bool>)
      modifies this
      ensures var u := ImportRow(old(jobs), row, now);
        if u.Applied? then r == Ok(u.updated) && jobs == u.jobs
        else r == Err(KeyMessage(u.column)) && jobs == old(jobs)
    {
      var missing := FirstMissing(row);
      if missing.Some? {
        return Err(KeyMessage(missing.value));
      }
      var existing := FindJob(jobs, row["title"], row["company_name"]);
      if existing.Some? {
        jobs := jobs[existing.value := Overwritten(jobs[existing.value], row, now)];
        return Ok(true);
      }
      jobs := jobs + [JobFromRow(row)];
      r := Ok(false);
    }

    /** The row loop and the commit; on an error every row of the file is rolled back. */
    method ImportRows(rows: seq<CsvRow>, now: nat) returns (r: Result<nat>)
      modifies this
      ensures var spec := ImportFrom(old(jobs), Counts(0, 0), rows, now);
        spec.Running? ==> jobs == spec.jobs && r.Ok? && r.value == spec.counts.saved + spec.counts.updated
      ensures var spec := ImportFrom(old(jobs), Counts(0, 0), rows, now);
        spec.Aborted? ==> jobs == old(jobs) && r == Err(spec.error)
    {
      var begin := jobs;
      ghost var spec := ImportFrom(jobs, Counts(0, 0), rows, now);
      var saved, updated := 0, 0;
      for i := 0 to |rows|
        invariant begin == old(jobs)
        invariant ImportFrom(jobs, Counts(saved, updated), rows[i..], now) == spec
      {
        ghost var counts := Counts(saved, updated);
        ghost var u := ImportRow(jobs, rows[i], now);
        ImportFromCons(jobs, counts, rows[i..], now);
        assert rows[i..][0] == rows[i] && rows[i..][1..] == rows[i + 1..];
        var step := ApplyRow(rows[i], now);
        if step.Err? {
          assert spec == Aborted(step.error);
          jobs := begin;
          r := Err(step.error);
          assert !spec.Running?;
          return;
        }
        if step.value {
          updated := updated + 1;
        } else {
          saved := saved + 1;
        }
        assert Counts(saved, updated) == Count(counts, u.updated);
      }
      assert rows[|rows|..] == [];
      assert spec == Running(jobs, Counts(saved, updated));
      assert spec.counts.saved + spec.counts.updated == saved + updated;
      r := Ok(saved + updated);
    }

    /** `import_csv_to_db(csv_file_path)`. */
    method ImportCsvToDb(path: string, names: seq<string>, files: map<string, seq<CsvRow>>, now: nat)
      returns (r: Result<nat>)
      modifies this
      ensures var spec := Import(old(jobs), path, names, files, now);
        spec.Imported? ==> jobs == spec.jobs && r.Ok? && r.value == spec.count
      ensures var spec := Import(old(jobs), path, names, files, now);
        spec.Failed? ==> jobs == old(jobs) && r == Err(spec.error)
    {
      ghost var spec := Import(jobs, path, names, files, now);
      var file := path;
      if path == "" {
        var latest := LatestCsv(names);
        if latest.None? {
          assert spec == Imported(jobs, 0);
          return Ok(0);
        }
        file := latest.value;
      }
      assert ChooseFile(path, names) == Some(file);
      if file !in files {
        assert spec == Failed("No such file or directory");
        return Err("No such file or directory");
      }
      ghost var run := ImportFrom(jobs, Counts(0, 0), files[file], now);
      r := ImportRows(files[file], now);
      assert run.Running? ==> spec == Imported(run.jobs, run.counts.saved + run.counts.updated);
    }
  }

  /** The first row of a non-empty file decides between failing and going on with the rest. */
  lemma ImportFromCons(jobs: seq<CsvJob>, c: Counts, rows: seq<CsvRow>, now: nat)
    requires rows != []
    ensures var u := ImportRow(jobs, rows[0], now);
      ImportFrom(jobs, c, rows, now)
        == if u.Missing? then Aborted(KeyMessage(u.column)) else ImportFrom(u.jobs, Count(c, u.updated), rows[1..], now)
  {
  }

  // ---------------------------------------------------------------------------
  // Properties of the import
  // ---------------------------------------------------------------------------

  /** The import aborts exactly when some row lacks one of the eight columns. */
  lemma {:induction false} ImportFailsIffIncomplete(jobs: seq<CsvJob>, c: Counts, rows: seq<CsvRow>, now: nat)
    ensures ImportFrom(jobs, c, rows, now).Aborted? <==> exists row :: row in rows && !Complete(row)
    decreases |rows|
  {
    if rows != [] {
      ImportFromCons(jobs, c, rows, now);
      var u := ImportRow(jobs, rows[0], now);
      if Complete(rows[0]) {
        assert u.Applied?;
        ImportFailsIffIncomplete(u.jobs, Count(c, u.updated), rows[1..], now);
        assert rows == [rows[0]] + rows[1..];
      } else {
        assert u.Missing?;
      }
    }
  }

  /** Each row read is saved or updated, so the count grows by the number of rows. */
  lemma {:induction false} ImportCountsRows(jobs: seq<CsvJob>, c: Counts, rows: seq<CsvRow>, now: nat)
    requires ImportFrom(jobs, c, rows, now).Running?
    ensures var done := ImportFrom(jobs, c, rows, now);
      done.counts.saved + done.counts.updated == c.saved + c.updated + |rows|
    decreases |rows|
  {
    if rows != [] {
      ImportFromCons(jobs, c, rows, now);
      var u := ImportRow(jobs, rows[0], now);
      ImportCountsRows(u.jobs, Count(c, u.updated), rows[1..], now);
    }
  }

  /** A successful call returns the number of rows of the file it read, and 0 when there was none. */
  lemma ImportReturnsRowCount(jobs: seq<CsvJob>, path: string, names: seq<string>,
                              files: map<string, seq<CsvRow>>, now: nat)
    requires Import(jobs, path, names, files, now).Imported?
    ensures var file := ChooseFile(path, names);
      Import(jobs, path, names, files, now).count == if file.None? then 0 else |files[file.value]|
  {
    var file := ChooseFile(path, names);
    if file.Some? {
      ImportCountsRows(jobs, Counts(0, 0), files[file.value], now);
    }
  }

  /** A failed call reports the first missing column of the first incomplete row, or the missing file. */
  lemma ImportFailure(jobs: seq<CsvJob>, path: string, names: seq<string>,
                      files: map<string, seq<CsvRow>>, now: nat)
    ensures var file := ChooseFile(path, names);
      Import(jobs, path, names, files, now).Failed? <==>
        file.Some? && (file.value !in files || exists row :: row in files[file.value] && !Complete(row))
  {
    var file := ChooseFile(path, names);
    if file.Some? && file.value in files {
      ImportFailsIffIncomplete(jobs, Counts(0, 0), files[file.value], now);
    }
  }

  /** A matched row rewrites that one Job and counts as an update. */
  lemma ImportRowUpdates(jobs: seq<CsvJob>, row: CsvRow, now: nat)
    requires Complete(row) && HasJob(jobs, row["title"], row["company_name"])
    ensures var u := ImportRow(jobs, row, now);
      var k := FindJob(jobs, row["title"], row["company_name"]).value;
      && u.Applied? && u.updated && |u.jobs| == |jobs|
      && (forall j :: 0 <= j < |jobs| && j != k ==> u.jobs[j] == jobs[j])
      && u.jobs[k] == Overwritten(jobs[k], row, now)
  {
    assert FirstMissing(row).None?;
  }

  /** A row with no match appends one Job with the row's values and counts as saved. */
  lemma ImportRowSaves(jobs: seq<CsvJob>, row: CsvRow, now: nat)
    requires Complete(row) && !HasJob(jobs, row["title"], row["company_name"])
    ensures var u := ImportRow(jobs, row, now);
      u.Applied? && !u.updated && u.jobs == jobs + [JobFromRow(row)]
  {
    assert FirstMissing(row).None?;
  }

  /** An update copies the six columns and stamps the time; the key and the other columns stay. */
  lemma OverwrittenFields(job: CsvJob, row: CsvRow, now: nat)
    requires Complete(row)
    ensures var r := Overwritten(job, row, now);
      && r.title == job.title && r.companyName == job.companyName
      && r.location == row["location"] && r.experience == row["experience"]
      && r.education == row["education"] && r.employmentType == row["employment_type"]
      && r.deadline == row["deadline"] && r.techStacks == row["tech_stack"]
      && r.updatedAt == Some(now)
  {
  }

  /** No two Jobs share (title, company_name). */
  predicate UniqueKeys(jobs: seq<CsvJob>)
  {
    forall i, j :: 0 <= i < j < |jobs| ==> !SameKey(jobs[j], jobs[i].title, jobs[i].companyName)
  }

  lemma ImportRowKeepsUniqueKeys(jobs: seq<CsvJob>, row: CsvRow, now: nat)
    requires UniqueKeys(jobs) && ImportRow(jobs, row, now).Applied?
    ensures UniqueKeys(ImportRow(jobs, row, now).jobs)
  {
    var jobs' := ImportRow(jobs, row, now).jobs;
    match FindJob(jobs, row["title"], row["company_name"])
    case Some(k) =>
      assert forall i :: 0 <= i < |jobs'| ==>
        jobs'[i].title == jobs[i].title && jobs'[i].companyName == jobs[i].companyName;
    case None =>
      assert forall i :: 0 <= i < |jobs| ==> jobs'[i] == jobs[i];
  }

  /** An import keeps at most one Job per (title, company_name). */
  lemma {:induction false} ImportKeepsUniqueKeys(jobs: seq<CsvJob>, c: Counts, rows: seq<CsvRow>, now: nat)
    requires UniqueKeys(jobs) && ImportFrom(jobs, c, rows, now).Running?
    ensures UniqueKeys(ImportFrom(jobs, c, rows, now).jobs)
    decreases |rows|
  {
    if rows != [] {
      ImportFromCons(jobs, c, rows, now);
      var u := ImportRow(jobs, rows[0], now);
      ImportRowKeepsUniqueKeys(jobs, rows[0], now);
      ImportKeepsUniqueKeys(u.jobs, Count(c, u.updated), rows[1..], now);
    }
  }

  // ---------------------------------------------------------------------------
  // Importing the same file again only updates
  // ---------------------------------------------------------------------------

  /** The row is complete and a Job with its key exists. */
  predicate Present(jobs: seq<CsvJob>, row: CsvRow)
  {
    Complete(row) && HasJob(jobs, row["title"], row["company_name"])
  }

  /** Keys are never removed or renamed, so a present row stays present. */
  lemma ImportRowKeepsPresent(jobs: seq<CsvJob>, row: CsvRow, other: CsvRow, now: nat)
    requires Present(jobs, other) && ImportRow(jobs, row, now).Applied?
    ensures Present(ImportRow(jobs, row, now).jobs, other)
  {
    var jobs' := ImportRow(jobs, row, now).jobs;
    var j :| 0 <= j < |jobs| && SameKey(jobs[j], other["title"], other["company_name"]);
    assert SameKey(jobs'[j], other["title"], other["company_name"]);
  }

  lemma {:induction false} ImportKeepsPresent(jobs: seq<CsvJob>, c: Counts, rows: seq<CsvRow>,
                                              other: CsvRow, now: nat)
    requires Present(jobs, other) && ImportFrom(jobs, c, rows, now).Running?
    ensures Present(ImportFrom(jobs, c, rows, now).jobs, other)
    decreases |rows|
  {
    if rows != [] {
      ImportFromCons(jobs, c, rows, now);
      var u := ImportRow(jobs, rows[0], now);
      ImportRowKeepsPresent(jobs, rows[0], other, now);
      ImportKeepsPresent(u.jobs, Count(c, u.updated), rows[1..], other, now);
    }
  }

  lemma ImportRowMakesPresent(jobs: seq<CsvJob>, row: CsvRow, now: nat)
    requires ImportRow(jobs, row, now).Applied?
    ensures Present(ImportRow(jobs, row, now).jobs, row)
  {
    assert Complete(row);
    var jobs' := ImportRow(jobs, row, now).jobs;
    match FindJob(jobs, row["title"], row["company_name"])
    case Some(k) =>
      assert SameKey(jobs'[k], row["title"], row["company_name"]);
    case None =>
      assert SameKey(jobs'[|jobs|], row["title"], row["company_name"]);
  }

  /** After a successful import every row of the file is present. */
  lemma {:induction false} ImportMakesRowsPresent(jobs: seq<CsvJob>, c: Counts, rows: seq<CsvRow>, now: nat)
    requires ImportFrom(jobs, c, rows, now).Running?
    ensures forall row :: row in rows ==> Present(ImportFrom(jobs, c, rows, now).jobs, row)
    decreases |rows|
  {
    if rows != [] {
      ImportFromCons(jobs, c, rows, now);
      var u := ImportRow(jobs, rows[0], now);
      ImportRowMakesPresent(jobs, rows[0], now);
      ImportKeepsPresent(u.jobs, Count(c, u.updated), rows[1..], rows[0], now);
      ImportMakesRowsPresent(u.jobs, Count(c, u.updated), rows[1..], now);
      assert forall row :: row in rows ==> row == rows[0] || row in rows[1..];
    }
  }

  /** Importing rows that are all present updates each one and adds no Job. */
  lemma {:induction false} PresentRowsOnlyUpdate(jobs: seq<CsvJob>, c: Counts, rows: seq<CsvRow>, now: nat)
    requires forall row :: row in rows ==> Present(jobs, row)
    ensures ImportFrom(jobs, c, rows, now).Running?
    ensures var done := ImportFrom(jobs, c, rows, now);
      |done.jobs| == |jobs| && done.counts == Counts(c.saved, c.updated + |rows|)
    decreases |rows|
  {
    if rows != [] {
      var row := rows[0];
      assert Present(jobs, row);
      ImportRowUpdates(jobs, row, now);
      ImportFromCons(jobs, c, rows, now);
      var u := ImportRow(jobs, row, now);
      forall other | other in rows[1..] ensures Present(u.jobs, other) {
        ImportRowKeepsPresent(jobs, row, other, now);
      }
      PresentRowsOnlyUpdate(u.jobs, Count(c, u.updated), rows[1..], now);
    }
  }

  /** Importing the same file twice: the second run adds no Job and counts every row as updated. */
  lemma ReimportOnlyUpdates(jobs: seq<CsvJob>, rows: seq<CsvRow>, now: nat, later: nat)
    requires ImportFrom(jobs, Counts(0, 0), rows, now).Running?
    ensures var first := ImportFrom(jobs, Counts(0, 0), rows, now).jobs;
      var second := ImportFrom(first, Counts(0, 0), rows, later);
      second.Running? && |second.jobs| == |first| && second.counts == Counts(0, |rows|)
  {
    ImportMakesRowsPresent(jobs, Counts(0, 0), rows, now);
    var first := ImportFrom(jobs, Counts(0, 0), rows, now).jobs;
    PresentRowsOnlyUpdate(first, Counts(0, 0), rows, later);
  }
}

=== FILE: db_loader.dfy ===
/**
 * db_loader.py: the `retry_on_error` decorator, the `JobDatabase` loader
 * (company and location get-or-create, tech-stack and category lookups in the
 * caches loaded at start-up, posting insert with junction rows) and the row
 * counters of `process_csv_file`.
 *
 * Whether a database call raises is not decided by the model: the retry loop
 * takes the outcome of each attempt as a parameter, and the CSV loop takes,
 * per row, the step (if any) whose call still raised after its retries.
 */
module DbLoader {
  import opened Wrappers
  import opened Seqs
  import opened Text
  import opened Schema

  // ---------------------------------------------------------------------------
  // retry_on_error
  // ---------------------------------------------------------------------------

  /** An exception: a mysql.connector `Error`, or any other exception. */
  datatype Fault = MysqlError(message: string) | OtherError(message: string)

  /** What one call of the decorated function does. */
  datatype Attempt<T> = Returned(value: T) | Raised(fault: Fault)

  /** What the wrapper does: return a value, raise, or return None without calling. */
  datatype Retried<T> = Value(value: T) | Failure(fault: Fault) | NoAttempt

  /**
   * The wrapper built by `retry_on_error(max_retries)`; `attempt(k)` is the
   * outcome of the k-th call (from 0). `calls` is how many calls were made.
   */
  method Retry<T>(maxRetries: int, attempt: nat -> Attempt<T>) returns (r: Retried<T>, calls: nat)
    ensures maxRetries <= 0 ==> r == NoAttempt && calls == 0
    ensures maxRetries > 0 ==> 1 <= calls <= maxRetries && r != NoAttempt
    ensures forall k :: 0 <= k < calls - 1 ==> attempt(k).Raised? && attempt(k).fault.MysqlError?
    ensures r.Value? ==> attempt(calls - 1) == Returned(r.value)
    ensures r.Failure? ==> attempt(calls - 1) == Raised(r.fault)
    ensures r.Failure? && r.fault.MysqlError? ==> calls == maxRetries
  {
    var retries := 0;
    calls := 0;
    while retries < maxRetries
      invariant 0 <= retries && calls == retries
      invariant maxRetries > 0 ==> retries < maxRetries
      invariant maxRetries <= 0 ==> retries == 0
      invariant forall k :: 0 <= k < calls ==> attempt(k).Raised? && attempt(k).fault.MysqlError?
      decreases maxRetries - retries
    {
      var outcome := attempt(calls);
      calls := calls + 1;
      match outcome {
        case Returned(v) =>
          return Value(v), calls;
        case Raised(f) =>
          if f.OtherError? {
            return Failure(f), calls;
          }
          retries := retries + 1;
          if retries == maxRetries {
            return Failure(f), calls;
          }
      }
    }
    r := NoAttempt;
  }

  // ---------------------------------------------------------------------------
  // Caches, locations and tech-stack text
  // ---------------------------------------------------------------------------

  /** `{key_of(row): row_id for row in rows}` over rows in id order. */
  function IdCache(keys: seq<string>): map<string, nat>
  {
    if keys == [] then map[] else IdCache(keys[..|keys| - 1])[keys[|keys| - 1] := |keys|]
  }

  /**
   * The cache has exactly the keys of the rows, and maps each to the id of
   * the LAST row with that key (a later duplicate overwrites an earlier one).
   */
  lemma {:induction false} IdCacheLastRow(keys: seq<string>, k: string)
    ensures k in IdCache(keys) <==> k in keys
    ensures k in IdCache(keys) ==>
      var id := IdCache(keys)[k];
      1 <= id <= |keys| && keys[id - 1] == k && k !in keys[id..]
    decreases |keys|
  {
    if keys != [] {
      var init := keys[..|keys| - 1];
      var last := keys[|keys| - 1];
      assert keys == init + [last];
      IdCacheLastRow(init, k);
      if k != last && k in IdCache(init) {
        var id := IdCache(init)[k];
        assert keys[id - 1] == init[id - 1];
        assert keys[id..] == init[id..] + [last];
      }
    }
  }

  /** `_load_tech_stacks`: lowercased name to stack_id. */
  function StackCache(stacks: seq<TechStack>): map<string, nat>
  {
    IdCache(seq(|stacks|, i requires 0 <= i < |stacks| => Lower(stacks[i].name)))
  }

  /** The (city, district) key `insert_location` derives with `location.split(' ', 1)`. */
  function SplitLocation(text: string): (r: Location)
    ensures ' ' !in r.city
    ensures r.district.None? <==> ' ' !in text
    ensures r.district.Some? ==> text == r.city + [' '] + r.district.value
  {
    match Seqs.IndexOf(text, ' ')
    case None => Location(text, None)
    case Some(k) =>
      assert text == text[..k] + [' '] + text[k + 1..];
      Location(text[..k], Some(text[k + 1..]))
  }

  /** `insert_location`: NaN gives no id; otherwise get-or-create on (city, district). */
  function LocationFor(locations: seq<Location>, location: Option<string>): (r: (seq<Location>, Option<nat>))
    ensures location.None? <==> r.1.None?
    ensures location.None? ==> r.0 == locations
    ensures location.Some? ==> (r.0, r.1.value) == GetOrCreate(locations, SplitLocation(location.value))
  {
    if location.None? then (locations, None)
    else
      var (table, id) := GetOrCreate(locations, SplitLocation(location.value));
      (table, Some(id))
  }

  /** The stripped items of the text before the first '외', split on ','. */
  function StackNames(text: string): (names: seq<string>)
    ensures |names| == |Split(Split(text, '외')[0], ',')| >= 1
    ensures forall i :: 0 <= i < |names| ==> names[i] == Strip(Split(Split(text, '외')[0], ',')[i])
  {
    var items := Split(Split(text, '외')[0], ',');
    seq(|items|, i requires 0 <= i < |items| => Strip(items[i]))
  }

  /** The cached ids of the lowercased names, in order, skipping names not in the cache. */
  function StackIds(names: seq<string>, cache: map<string, nat>): (ids: seq<nat>)
    ensures |ids| <= |names|
    ensures forall k :: 0 <= k < |ids| ==> ids[k] in cache.Values
  {
    if names == [] then []
    else
      var last := Lower(names[|names| - 1]);
      StackIds(names[..|names| - 1], cache) + (if last in cache then [cache[last]] else [])
  }

  /** When every name is cached, there is exactly one id per name, in input order. */
  lemma {:induction false} StackIdsAllCached(names: seq<string>, cache: map<string, nat>)
    requires forall i :: 0 <= i < |names| ==> Lower(names[i]) in cache
    ensures |StackIds(names, cache)| == |names|
    ensures forall i :: 0 <= i < |names| ==> StackIds(names, cache)[i] == cache[Lower(names[i])]
  {
    if names != [] {
      var init := names[..|names| - 1];
      StackIdsAllCached(init, cache);
      assert forall i :: 0 <= i < |init| ==> init[i] == names[i];
    }
  }

  /** One name contributes its cached id, or nothing when it is not cached. */
  lemma StackIdsSingleton(n: string, cache: map<string, nat>)
    ensures StackIds([n], cache) == if Lower(n) in cache then [cache[Lower(n)]] else []
  {
    assert [n][..0] == [];
  }

  /** The names contribute independently: the ids of a concatenation are the concatenated ids. */
  lemma {:induction false} StackIdsAppend(a: seq<string>, b: seq<string>, cache: map<string, nat>)
    ensures StackIds(a + b, cache) == StackIds(a, cache) + StackIds(b, cache)
    decreases |b|
  {
    if b == [] {
      assert a + b == a;
    } else {
      var init := b[..|b| - 1];
      assert (a + b)[..|a + b| - 1] == a + init;
      StackIdsAppend(a, init, cache);
    }
  }

  /** A cached name is never dropped: its id follows the ids of the names before it. */
  lemma StackIdsKeepsCached(names: seq<string>, cache: map<string, nat>, i: nat)
    requires i < |names| && Lower(names[i]) in cache
    ensures var before := StackIds(names[..i], cache);
      |before| < |StackIds(names, cache)| && StackIds(names, cache)[|before|] == cache[Lower(names[i])]
  {
    assert names == names[..i] + [names[i]] + names[i + 1..];
    StackIdsAppend(names[..i] + [names[i]], names[i + 1..], cache);
    StackIdsAppend(names[..i], [names[i]], cache);
    StackIdsSingleton(names[i], cache);
  }

  /** A name that is not cached contributes nothing. */
  lemma StackIdsDropsUncached(names: seq<string>, cache: map<string, nat>, i: nat)
    requires i < |names| && Lower(names[i]) !in cache
    ensures StackIds(names[..i + 1], cache) == StackIds(names[..i], cache)
  {
    assert names[..i + 1] == names[..i] + [names[i]];
    StackIdsAppend(names[..i], [names[i]], cache);
    StackIdsSingleton(names[i], cache);
  }

  /** `get_tech_stacks`. */
  function TechIds(techText: Option<string>, cache: map<string, nat>): seq<nat>
  {
    if techText.None? then [] else StackIds(StackNames(techText.value), cache)
  }

  /** `get_categories`: at most one id, that of the stripped text when it is cached. */
  function CategoryIds(experience: Option<string>, cache: map<string, nat>): (ids: seq<nat>)
    ensures |ids| <= 1
    ensures ids != [] <==> experience.Some? && Strip(experience.value) in cache
    ensures ids != [] ==> ids[0] == cache[Strip(experience.value)]
  {
    if experience.None? then []
    else if Strip(experience.value) in cache then [cache[Strip(experience.value)]]
    else []
  }

  // ---------------------------------------------------------------------------
  // Postings
  // ---------------------------------------------------------------------------

  /** The `job_data` dict `process_csv_file` hands to `insert_job_posting`. */
  datatype JobData = JobData(
    companyId: nat,
    title: string,
    jobDescription: string,
    experienceLevel: Option<string>,
    educationLevel: Option<string>,
    employmentType: Option<string>,
    salaryInfo: Option<string>,
    locationId: Option<nat>,
    deadlineDate: Option<string>,
    techStacks: seq<nat>,
    categories: seq<nat>)

  /** The tables the loader writes. */
  datatype LoaderTables = LoaderTables(
    companies: seq<string>,
    locations: seq<Location>,
    postings: seq<Posting>,
    stackLinks: seq<Link>,
    categoryLinks: seq<Link>)

  /** The duplicate check: any posting, deleted or not, with this company and title. */
  predicate HasPosting(postings: seq<Posting>, companyId: nat, title: string)
  {
    exists j :: 0 <= j < |postings| && postings[j].companyId == companyId && postings[j].title == title
  }

  function FindPosting(postings: seq<Posting>, companyId: nat, title: string): (r: Option<nat>)
    ensures r.None? <==> !HasPosting(postings, companyId, title)
    ensures r.Some? ==> r.value < |postings| && postings[r.value].companyId == companyId
                        && postings[r.value].title == title
  {
    if postings == [] then None
    else if postings[0].companyId == companyId && postings[0].title == title then Some(0)
    else match FindPosting(postings[1..], companyId, title)
      case None =>
        assert forall j :: 1 <= j < |postings| ==> postings[j] == postings[1..][j - 1];
        None
      case Some(k) => Some(k + 1)
  }

  /** One junction row per id, all for `postingId`, in order. */
  function Links(postingId: nat, ids: seq<nat>): (r: seq<Link>)
    ensures |r| == |ids|
    ensures forall i :: 0 <= i < |ids| ==> r[i] == Link(postingId, ids[i])
  {
    if ids == [] then [] else Links(postingId, ids[..|ids| - 1]) + [Link(postingId, ids[|ids| - 1])]
  }

  /** The job_postings row `insert_job_posting` writes. */
  function NewPosting(data: JobData): Posting
  {
    Posting(data.companyId, data.title, data.jobDescription, data.experienceLevel,
            data.educationLevel, data.employmentType, data.salaryInfo, data.locationId,
            data.deadlineDate, Active, 0, None)
  }

  /** `insert_job_posting`: the tables afterwards and the new posting id, or None for a duplicate. */
  function InsertPosting(t: LoaderTables, data: JobData): (r: (LoaderTables, Option<nat>))
    ensures r.1.None? <==> HasPosting(t.postings, data.companyId, data.title)
    ensures r.1.None? ==> r.0 == t
    ensures r.1.Some? ==> (r.1.value == IdAt(|t.postings|)
      && r.0 == t.(postings := t.postings + [NewPosting(data)],
                   stackLinks := t.stackLinks + Links(r.1.value, data.techStacks),
                   categoryLinks := t.categoryLinks + Links(r.1.value, data.categories)))
  {
    if FindPosting(t.postings, data.companyId, data.title).Some? then (t, None)
    else
      var id := IdAt(|t.postings|);
      (t.(postings := t.postings + [NewPosting(data)],
          stackLinks := t.stackLinks + Links(id, data.techStacks),
          categoryLinks := t.categoryLinks + Links(id, data.categories)), Some(id))
  }

  /** An inserted posting is active, has never been viewed, and carries the row's fields. */
  lemma InsertedPostingIsActive(t: LoaderTables, data: JobData)
    requires !HasPosting(t.postings, data.companyId, data.title)
    ensures var p := InsertPosting(t, data).0.postings[|t.postings|];
      p.status == Active && p.viewCount == 0 && p.deletedAt.None?
      && p.companyId == data.companyId && p.title == data.title && p.locationId == data.locationId
  {
  }

  // ---------------------------------------------------------------------------
  // Seeding the lookup tables at start-up
  // ---------------------------------------------------------------------------

  /** The rows `_init_tech_stacks` inserts, in order. */
  const SeedStacks: seq<TechStack> := [
    TechStack("Python", Some("Programming")), TechStack("Java", Some("Programming")),
    TechStack("C++", Some("Programming")), TechStack("Linux", Some("System")),
    TechStack("AWS", Some("Cloud")), TechStack("React", Some("Frontend")),
    TechStack("Django", Some("Backend")), TechStack("Spring", Some("Backend")),
    TechStack("웹개발", Some("Web")), TechStack("앱개발", Some("Mobile")),
    TechStack("백엔드", Some("Backend")), TechStack("프론트엔드", Some("Frontend")),
    TechStack("머신러닝", Some("AI")), TechStack("딥러닝", Some("AI")),
    TechStack("AI", Some("AI")), TechStack("DevOps", Some("DevOps")),
    TechStack("Git", Some("Tool")), TechStack("API", Some("Development"))]

  /** The names `_init_job_categories` inserts, in order. */
  const SeedCategories: seq<string> := ["신입", "경력", "신입·경력", "경력무관", "인턴", "전문연구요원"]

  function StackName(s: TechStack): string { s.name }

  function CategoryName(name: string): string { name }

  /** Some row of the table has this name. */
  predicate Named<T>(rows: seq<T>, name: T -> string, n: string)
  {
    exists j :: 0 <= j < |rows| && name(rows[j]) == n
  }

  /**
   * `INSERT IGNORE` of each seed row in turn, the name being the table's
   * unique key: a seed whose name is already present is skipped, any other
   * is appended with the next id.
   */
  function InsertIgnore<T>(rows: seq<T>, name: T -> string, seeds: seq<T>): (r: seq<T>)
    ensures |rows| <= |r| && r[..|rows|] == rows
    ensures forall i :: 0 <= i < |seeds| ==> Named(r, name, name(seeds[i]))
    ensures forall j :: |rows| <= j < |r| ==> r[j] in seeds
    decreases |seeds|
  {
    if seeds == [] then rows
    else
      var next := if Named(rows, name, name(seeds[0])) then rows else rows + [seeds[0]];
      var r := InsertIgnore(next, name, seeds[1..]);
      assert r[..|next|] == next;
      assert name(next[|next| - 1]) == name(seeds[0]) || Named(rows, name, name(seeds[0]));
      assert forall i :: 1 <= i < |seeds| ==> seeds[i] == seeds[1..][i - 1];
      r
  }

  /** Seeds whose names are all present insert nothing. */
  lemma {:induction false} InsertIgnorePresent<T>(rows: seq<T>, name: T -> string, seeds: seq<T>)
    requires forall i :: 0 <= i < |seeds| ==> Named(rows, name, name(seeds[i]))
    ensures InsertIgnore(rows, name, seeds) == rows
    decreases |seeds|
  {
    if seeds != [] {
      assert forall i :: 1 <= i < |seeds| ==> seeds[i] == seeds[1..][i - 1];
      InsertIgnorePresent(rows, name, seeds[1..]);
    }
  }

  /** Seeding a second time changes nothing: the start-up of a reused database is idempotent. */
  lemma SeedingIdempotent<T>(rows: seq<T>, name: T -> string, seeds: seq<T>)
    ensures InsertIgnore(InsertIgnore(rows, name, seeds), name, seeds) == InsertIgnore(rows, name, seeds)
  {
    InsertIgnorePresent(InsertIgnore(rows, name, seeds), name, seeds);
  }

  /** After seeding, the lowercased name of every seed stack is in the cache loaded from the table. */
  lemma SeedStacksCached(stacks: seq<TechStack>, seeds: seq<TechStack>)
    ensures forall i :: 0 <= i < |seeds| ==> Lower(seeds[i].name) in StackCache(InsertIgnore(stacks, StackName, seeds))
  {
    var st := InsertIgnore(stacks, StackName, seeds);
    var keys := seq(|st|, i requires 0 <= i < |st| => Lower(st[i].name));
    forall i | 0 <= i < |seeds|
      ensures Lower(seeds[i].name) in StackCache(st)
    {
      var j :| 0 <= j < |st| && StackName(st[j]) == StackName(seeds[i]);
      assert keys[j] == Lower(seeds[i].name);
      IdCacheLastRow(keys, Lower(seeds[i].name));
    }
  }

  /** After seeding, every seed category is in the cache loaded from the table. */
  lemma SeedCategoriesCached(categories: seq<string>, seeds: seq<string>)
    ensures forall i :: 0 <= i < |seeds| ==> seeds[i] in IdCache(InsertIgnore(categories, CategoryName, seeds))
  {
    var cs := InsertIgnore(categories, CategoryName, seeds);
    forall i | 0 <= i < |seeds|
      ensures seeds[i] in IdCache(cs)
    {
      var j :| 0 <= j < |cs| && CategoryName(cs[j]) == CategoryName(seeds[i]);
      IdCacheLastRow(cs, seeds[i]);
    }
  }

  /** `_init_tech_stacks` / `_init_job_categories`: one INSERT IGNORE per seed row, in order. */
  method InitTable<T>(rows: seq<T>, name: T -> string, seeds: seq<T>) returns (r: seq<T>)
    ensures r == InsertIgnore(rows, name, seeds)
  {
    r := rows;
    for i := 0 to |seeds|
      invariant InsertIgnore(r, name, seeds[i..]) == InsertIgnore(rows, name, seeds)
    {
      assert seeds[i..][1..] == seeds[i + 1..];
      if !Named(r, name, name(seeds[i])) {
        r := r + [seeds[i]];
      }
    }
    assert seeds[|seeds|..] == [];
  }

  // ---------------------------------------------------------------------------
  // The loader object
  // ---------------------------------------------------------------------------

  class JobDatabase {
    /** The rows of the tables the loader writes, behind the one connection. */
    var tables: LoaderTables
    /** The tech_stacks and job_categories tables, which only start-up writes. */
    var stacks: seq<TechStack>
    var categories: seq<string>
    var techStackCache: map<string, nat>
    var categoryCache: map<string, nat>

    /**
     * `__init__`: seeds tech_stacks and job_categories with INSERT IGNORE,
     * then loads the caches from the seeded tables. The seed lists are the
     * ones `__init__` always passes: `SeedStacks` and `SeedCategories`.
     */
    constructor (t: LoaderTables, stacks0: seq<TechStack>, categories0: seq<string>,
                 stackSeeds: seq<TechStack>, categorySeeds: seq<string>)
      ensures tables == t
      ensures stacks == InsertIgnore(stacks0, StackName, stackSeeds)
      ensures categories == InsertIgnore(categories0, CategoryName, categorySeeds)
      ensures techStackCache == StackCache(stacks) && categoryCache == IdCache(categories)
      ensures forall i :: 0 <= i < |stackSeeds| ==> Lower(stackSeeds[i].name) in techStackCache
      ensures forall i :: 0 <= i < |categorySeeds| ==> categorySeeds[i] in categoryCache
    {
      var st := InitTable(stacks0, StackName, stackSeeds);
      var cs := InitTable(categories0, CategoryName, categorySeeds);
      SeedStacksCached(stacks0, stackSeeds);
      SeedCategoriesCached(categories0, categorySeeds);
      tables := t;
      stacks := st;
      categories := cs;
      techStackCache := StackCache(st);
      categoryCache := IdCache(cs);
    }

    /** `insert_company`: SELECT by exact name, INSERT when absent. */
    method InsertCompany(name: string) returns (id: nat)
      modifies this`tables
      ensures tables == WithCompany(old(tables), name).0 && id == WithCompany(old(tables), name).1
    {
      var found := Seqs.IndexOf(tables.companies, name);
      if found.Some? {
        return IdAt(found.value);
      }
      tables := tables.(companies := tables.companies + [name]);
      id := |tables.companies|;
    }

    /** `insert_location`. */
    method InsertLocation(location: Option<string>) returns (id: Option<nat>)
      modifies this`tables
      ensures tables == WithLocation(old(tables), location).0 && id == WithLocation(old(tables), location).1
    {
      if location.None? {
        return None;
      }
      var key := SplitLocation(location.value);
      var found := Seqs.IndexOf(tables.locations, key);
      if found.Some? {
        return Some(IdAt(found.value));
      }
      tables := tables.(locations := tables.locations + [key]);
      id := Some(|tables.locations|);
    }

    /** `get_tech_stacks`: reads the cache only. */
    method GetTechStacks(techText: Option<string>) returns (ids: seq<nat>)
      ensures ids == TechIds(techText, techStackCache)
    {
      if techText.None? {
        return [];
      }
      var techs := StackNames(techText.value);
      ids := [];
      for i := 0 to |techs|
        invariant ids == StackIds(techs[..i], techStackCache)
      {
        assert techs[..i + 1][..i] == techs[..i];
        var techLower := Lower(techs[i]);
        if techLower in techStackCache {
          ids := ids + [techStackCache[techLower]];
        }
      }
      assert techs[..|techs|] == techs;
    }

    /** `get_categories`: reads the cache only. */
    method GetCategories(experience: Option<string>) returns (ids: seq<nat>)
      ensures ids == CategoryIds(experience, categoryCache)
    {
      if experience.None? {
        return [];
      }
      var stripped := Strip(experience.value);
      ids := [];
      if stripped in categoryCache {
        ids := ids + [categoryCache[stripped]];
      }
    }

    /** `insert_job_posting`: the duplicate check, the INSERT and one junction row per id. */
    method InsertJobPosting(data: JobData) returns (id: Option<nat>)
      modifies this`tables
      ensures tables == InsertPosting(old(tables), data).0 && id == InsertPosting(old(tables), data).1
    {
      if FindPosting(tables.postings, data.companyId, data.title).Some? {
        return None;
      }
      tables := tables.(postings := tables.postings + [NewPosting(data)]);
      var postingId := |tables.postings|;
      ghost var added := tables;
      for k := 0 to |data.techStacks|
        invariant tables == added.(stackLinks := added.stackLinks + Links(postingId, data.techStacks[..k]))
      {
        assert data.techStacks[..k + 1][..k] == data.techStacks[..k];
        tables := tables.(stackLinks := tables.stackLinks + [Link(postingId, data.techStacks[k])]);
      }
      assert data.techStacks[..|data.techStacks|] == data.techStacks;
      added := tables;
      for k := 0 to |data.categories|
        invariant tables == added.(categoryLinks := added.categoryLinks + Links(postingId, data.categories[..k]))
      {
        assert data.categories[..k + 1][..k] == data.categories[..k];
        tables := tables.(categoryLinks := tables.categoryLinks + [Link(postingId, data.categories[k])]);
      }
      assert data.categories[..|data.categories|] == data.categories;
      id := Some(postingId);
    }
  }

  // ---------------------------------------------------------------------------
  // process_csv_file
  // ---------------------------------------------------------------------------

  /**
   * One pandas row. The columns 회사명, 제목 and 링크 are taken as always
   * present; the others are None when the cell is NaN.
   */
  datatype CsvRecord = CsvRecord(
    companyName: string,   // 회사명
    title: string,         // 제목
    link: string,          // 링크
    location: Option<string>,       // 지역
    sector: Option<string>,         // 직무분야
    experience: Option<string>,     // 경력
    education: Option<string>,      // 학력
    employmentType: Option<string>, // 고용형태
    salary: Option<string>,         // 연봉정보
    deadline: Option<string>)       // 마감일

  /** The call that raised (after its retries) while a row was processed. */
  datatype Stage = CompanyFails | LocationFails | PostingFails

  datatype RowOutcome = Inserted | Skipped | Errored

  datatype LoadCounts = LoadCounts(inserted: nat, skipped: nat, errored: nat)

  function JobDataFor(row: CsvRecord, companyId: nat, locationId: Option<nat>,
                      stackCache: map<string, nat>, categoryCache: map<string, nat>): JobData
  {
    JobData(companyId, row.title, row.link, row.experience, row.education, row.employmentType,
            row.salary, locationId, row.deadline, TechIds(row.sector, stackCache),
            CategoryIds(row.experience, categoryCache))
  }

  /** Every table of `t'` extends the same table of `t`: the loader only appends. */
  predicate Grows(t: LoaderTables, t': LoaderTables)
  {
    && t.companies <= t'.companies && t.locations <= t'.locations && t.postings <= t'.postings
    && t.stackLinks <= t'.stackLinks && t.categoryLinks <= t'.categoryLinks
  }

  /** `insert_company` on the loader's tables: only the companies table may change. */
  function WithCompany(t: LoaderTables, name: string): (r: (LoaderTables, nat))
    ensures r.0 == t.(companies := GetOrCreate(t.companies, name).0)
    ensures r.1 == GetOrCreate(t.companies, name).1
    ensures Grows(t, r.0)
  {
    var company := GetOrCreate(t.companies, name);
    (t.(companies := company.0), company.1)
  }

  /** `insert_location` on the loader's tables: only the locations table may change. */
  function WithLocation(t: LoaderTables, location: Option<string>): (r: (LoaderTables, Option<nat>))
    ensures r.0 == t.(locations := LocationFor(t.locations, location).0)
    ensures r.1 == LocationFor(t.locations, location).1
    ensures Grows(t, r.0)
  {
    var found := LocationFor(t.locations, location);
    (t.(locations := found.0), found.1)
  }

  lemma InsertPostingGrows(t: LoaderTables, data: JobData)
    ensures Grows(t, InsertPosting(t, data).0)
  {
  }

  /**
   * One row of the loop. Company and location inserts commit at once, so a
   * later failure keeps them; a failing posting insert is rolled back.
   */
  function LoadRow(t: LoaderTables, row: CsvRecord, fault: Option<Stage>,
                   stackCache: map<string, nat>, categoryCache: map<string, nat>): (r: (LoaderTables, RowOutcome))
  {
    if fault == Some(CompanyFails) then (t, Errored)
    else
      var company := WithCompany(t, row.companyName);
      if fault == Some(LocationFails) then (company.0, Errored)
      else
        var location := WithLocation(company.0, row.location);
        if fault == Some(PostingFails) then (location.0, Errored)
        else
          var posted := InsertPosting(location.0, JobDataFor(row, company.1, location.1, stackCache, categoryCache));
          (posted.0, if posted.1.Some? then Inserted else Skipped)
  }

  /** A row is counted as an error exactly when one of its calls raised; the tables only grow. */
  lemma GrowsTransitive(t1: LoaderTables, t2: LoaderTables, t3: LoaderTables)
    requires Grows(t1, t2) && Grows(t2, t3)
    ensures Grows(t1, t3)
  {
  }

  lemma LoadRowOutcome(t: LoaderTables, row: CsvRecord, fault: Option<Stage>,
                       stackCache: map<string, nat>, categoryCache: map<string, nat>)
    ensures var r := LoadRow(t, row, fault, stackCache, categoryCache);
      (r.1 == Errored <==> fault.Some?) && Grows(t, r.0)
  {
    var r := LoadRow(t, row, fault, stackCache, categoryCache);
    var company := WithCompany(t, row.companyName);
    var location := WithLocation(company.0, row.location);
    if fault.None? {
      var data := JobDataFor(row, company.1, location.1, stackCache, categoryCache);
      var posted := InsertPosting(location.0, data);
      InsertPostingGrows(location.0, data);
      GrowsTransitive(t, company.0, location.0);
      GrowsTransitive(t, location.0, posted.0);
      assert r.0 == posted.0 && r.1 != Errored;
    } else if fault.value == CompanyFails {
      assert r.0 == t;
    } else if fault.value == LocationFails {
      assert r.0 == company.0;
    } else {
      GrowsTransitive(t, company.0, location.0);
      assert r.0 == location.0;
    }
  }

  function Tally(c: LoadCounts, outcome: RowOutcome): LoadCounts
  {
    match outcome
    case Inserted => c.(inserted := c.inserted + 1)
    case Skipped => c.(skipped := c.skipped + 1)
    case Errored => c.(errored := c.errored + 1)
  }

  /** Rows `i..` of the file processed in order; `fault(k)` says which call of row k raised. */
  function ProcessFrom(t: LoaderTables, c: LoadCounts, rows: seq<CsvRecord>, i: nat,
                       fault: nat -> Option<Stage>,
                       stackCache: map<string, nat>, categoryCache: map<string, nat>): (LoaderTables, LoadCounts)
    requires i <= |rows|
    decreases |rows| - i
  {
    if i == |rows| then (t, c)
    else
      var step := LoadRow(t, rows[i], fault(i), stackCache, categoryCache);
      ProcessFrom(step.0, Tally(c, step.1), rows, i + 1, fault, stackCache, categoryCache)
  }

  /** `process_csv_file` after the file is read: the loop and its two counters. */
  method ProcessCsvFile(db: JobDatabase, rows: seq<CsvRecord>, fault: nat -> Option<Stage>)
    returns (inserted: nat, skipped: nat)
    modifies db
    ensures var r := ProcessFrom(old(db.tables), LoadCounts(0, 0, 0), rows, 0, fault,
                                 old(db.techStackCache), old(db.categoryCache));
      db.tables == r.0 && inserted == r.1.inserted && skipped == r.1.skipped
    ensures db.techStackCache == old(db.techStackCache) && db.categoryCache == old(db.categoryCache)
  {
    ghost var spec := ProcessFrom(db.tables, LoadCounts(0, 0, 0), rows, 0, fault,
                                  db.techStackCache, db.categoryCache);
    ghost var errored := 0;
    inserted, skipped := 0, 0;
    for i := 0 to |rows|
      invariant db.techStackCache == old(db.techStackCache) && db.categoryCache == old(db.categoryCache)
      invariant var r := ProcessFrom(db.tables, LoadCounts(inserted, skipped, errored), rows, i, fault,
                                     db.techStackCache, db.categoryCache);
        r.0 == spec.0 && r.1 == spec.1
    {
      ghost var before := db.tables;
      ghost var counts := LoadCounts(inserted, skipped, errored);
      ghost var step := LoadRow(before, rows[i], fault(i), db.techStackCache, db.categoryCache);
      ghost var next := ProcessFrom(step.0, Tally(counts, step.1), rows, i + 1, fault,
                                    db.techStackCache, db.categoryCache);
      assert next.0 == spec.0 && next.1 == spec.1;
      var row := rows[i];
      var outcome := ProcessRow(db, row, fault(i));
      assert db.tables == step.0 && outcome == step.1;
      match outcome {
        case Inserted => inserted := inserted + 1;
        case Skipped => skipped := skipped + 1;
        case Errored => errored := errored + 1;
      }
      assert LoadCounts(inserted, skipped, errored) == Tally(counts, step.1);
    }
  }

  /** The body of the row loop's `try`, ending at the call that raises, if any. */
  method ProcessRow(db: JobDatabase, row: CsvRecord, fault: Option<Stage>) returns (outcome: RowOutcome)
    modifies db
    ensures var r := LoadRow(old(db.tables), row, fault, old(db.techStackCache), old(db.categoryCache));
      db.tables == r.0 && outcome == r.1
    ensures db.techStackCache == old(db.techStackCache) && db.categoryCache == old(db.categoryCache)
  {
    ghost var t0 := db.tables;
    ghost var expected := LoadRow(t0, row, fault, db.techStackCache, db.categoryCache);
    if fault == Some(CompanyFails) {
      assert expected.0 == t0 && expected.1 == Errored;
      return Errored;
    }
    var companyId := db.InsertCompany(row.companyName);
    ghost var company := WithCompany(t0, row.companyName);
    if fault == Some(LocationFails) {
      assert expected.0 == company.0 && expected.1 == Errored;
      return Errored;
    }
    var locationId := db.InsertLocation(row.location);
    ghost var location := WithLocation(company.0, row.location);
    var techStackIds := db.GetTechStacks(row.sector);
    var categoryIds := db.GetCategories(row.experience);
    if fault == Some(PostingFails) {
      assert expected.0 == location.0 && expected.1 == Errored;
      return Errored;
    }
    var data := JobData(companyId, row.title, row.link, row.experience, row.education,
                        row.employmentType, row.salary, locationId, row.deadline, techStackIds, categoryIds);
    assert data == JobDataFor(row, company.1, location.1, db.techStackCache, db.categoryCache);
    ghost var posted := InsertPosting(location.0, data);
    assert expected.0 == posted.0 && expected.1 == (if posted.1.Some? then Inserted else Skipped);
    var postingId := db.InsertJobPosting(data);
    outcome := if postingId.Some? then Inserted else Skipped;
  }

  // ---------------------------------------------------------------------------
  // Properties of the CSV loop
  // ---------------------------------------------------------------------------

  /** The number of rows in `i..n` that raise. */
  function FaultCount(fault: nat -> Option<Stage>, i: nat, n: nat): nat
    decreases n - i
  {
    if i >= n then 0 else (if fault(i).Some? then 1 else 0) + FaultCount(fault, i + 1, n)
  }

  /**
   * Every row is counted exactly once: inserted + skipped + errored grows by
   * the number of rows, and the errored ones are exactly the rows that raised,
   * so an error never stops the rows after it.
   */
  lemma {:induction false} ProcessCountsRows(t: LoaderTables, c: LoadCounts, rows: seq<CsvRecord>, i: nat,
                                             fault: nat -> Option<Stage>,
                                             stackCache: map<string, nat>, categoryCache: map<string, nat>)
    requires i <= |rows|
    ensures var c' := ProcessFrom(t, c, rows, i, fault, stackCache, categoryCache).1;
      && c'.inserted + c'.skipped + c'.errored == c.inserted + c.skipped + c.errored + (|rows| - i)
      && c'.errored == c.errored + FaultCount(fault, i, |rows|)
    decreases |rows| - i
  {
    if i < |rows| {
      var step := LoadRow(t, rows[i], fault(i), stackCache, categoryCache);
      LoadRowOutcome(t, rows[i], fault(i), stackCache, categoryCache);
      var c1 := Tally(c, step.1);
      assert c1.inserted + c1.skipped + c1.errored == c.inserted + c.skipped + c.errored + 1;
      assert c1.errored == c.errored + (if fault(i).Some? then 1 else 0);
      ProcessCountsRows(step.0, c1, rows, i + 1, fault, stackCache, categoryCache);
    }
  }

  /** No two companies share a name, and no two postings share (company_id, title). */
  predicate UniqueKeys(t: LoaderTables)
  {
    && NoDuplicates(t.companies)
    && NoDuplicates(t.locations)
    && forall i, j :: 0 <= i < j < |t.postings| ==>
         !(t.postings[i].companyId == t.postings[j].companyId && t.postings[i].title == t.postings[j].title)
  }

  lemma InsertPostingKeepsUniqueKeys(t: LoaderTables, data: JobData)
    requires UniqueKeys(t)
    ensures UniqueKeys(InsertPosting(t, data).0)
  {
    if !HasPosting(t.postings, data.companyId, data.title) {
      var p := InsertPosting(t, data).0.postings;
      forall i, j | 0 <= i < j < |p|
        ensures !(p[i].companyId == p[j].companyId && p[i].title == p[j].title)
      {
        if j == |t.postings| {
          assert p[i] == t.postings[i];
        }
      }
    }
  }

  lemma WithCompanyKeepsUniqueKeys(t: LoaderTables, name: string)
    requires UniqueKeys(t)
    ensures UniqueKeys(WithCompany(t, name).0)
  {
    GetOrCreateKeepsUnique(t.companies, name);
    assert WithCompany(t, name).0.postings == t.postings;
  }

  lemma WithLocationKeepsUniqueKeys(t: LoaderTables, location: Option<string>)
    requires UniqueKeys(t)
    ensures UniqueKeys(WithLocation(t, location).0)
  {
    if location.Some? {
      GetOrCreateKeepsUnique(t.locations, SplitLocation(location.value));
    }
    assert WithLocation(t, location).0.postings == t.postings;
  }

  lemma LoadRowKeepsUniqueKeys(t: LoaderTables, row: CsvRecord, fault: Option<Stage>,
                               stackCache: map<string, nat>, categoryCache: map<string, nat>)
    requires UniqueKeys(t)
    ensures UniqueKeys(LoadRow(t, row, fault, stackCache, categoryCache).0)
  {
    var company := WithCompany(t, row.companyName);
    WithCompanyKeepsUniqueKeys(t, row.companyName);
    var location := WithLocation(company.0, row.location);
    WithLocationKeepsUniqueKeys(company.0, row.location);
    InsertPostingKeepsUniqueKeys(location.0, JobDataFor(row, company.1, location.1, stackCache, categoryCache));
  }

  /** The loader keeps one company per name, one location per key and one posting per (company_id, title). */
  lemma {:induction false} ProcessKeepsUniqueKeys(t: LoaderTables, c: LoadCounts, rows: seq<CsvRecord>, i: nat,
                                                  fault: nat -> Option<Stage>,
                                                  stackCache: map<string, nat>, categoryCache: map<string, nat>)
    requires i <= |rows| && UniqueKeys(t)
    ensures UniqueKeys(ProcessFrom(t, c, rows, i, fault, stackCache, categoryCache).0)
    decreases |rows| - i
  {
    if i < |rows| {
      var step := LoadRow(t, rows[i], fault(i), stackCache, categoryCache);
      LoadRowKeepsUniqueKeys(t, rows[i], fault(i), stackCache, categoryCache);
      ProcessKeepsUniqueKeys(step.0, Tally(c, step.1), rows, i + 1, fault, stackCache, categoryCache);
    }
  }

  // ---------------------------------------------------------------------------
  // Loading the same file again inserts nothing
  // ---------------------------------------------------------------------------

  /** The row's company, location and (company_id, title) posting all exist. */
  predicate Loaded(t: LoaderTables, row: CsvRecord)
  {
    && row.companyName in t.companies
    && (row.location.Some? ==> SplitLocation(row.location.value) in t.locations)
    && HasPosting(t.postings, Seqs.IndexOf(t.companies, row.companyName).value + 1, row.title)
  }

  /** A fault-free row leaves itself loaded. */
  lemma LoadRowLoads(t: LoaderTables, row: CsvRecord,
                     stackCache: map<string, nat>, categoryCache: map<string, nat>)
    ensures Loaded(LoadRow(t, row, None, stackCache, categoryCache).0, row)
  {
    var company := WithCompany(t, row.companyName);
    assert Seqs.IndexOf(company.0.companies, row.companyName) == Some(company.1 - 1);
    var location := WithLocation(company.0, row.location);
    var data := JobDataFor(row, company.1, location.1, stackCache, categoryCache);
    var t3 := InsertPosting(location.0, data).0;
    assert LoadRow(t, row, None, stackCache, categoryCache).0 == t3;
    assert t3.companies == company.0.companies && t3.locations == location.0.locations;
    if !HasPosting(location.0.postings, company.1, row.title) {
      assert t3.postings[|location.0.postings|].companyId == company.1;
    } else {
      assert location.0.postings <= t3.postings;
    }
    assert HasPosting(t3.postings, company.1, row.title);
  }

  /** Processing a row never unloads another: every table only grows. */
  lemma LoadRowKeepsLoaded(t: LoaderTables, row: CsvRecord, fault: Option<Stage>, other: CsvRecord,
                           stackCache: map<string, nat>, categoryCache: map<string, nat>)
    requires Loaded(t, other)
    ensures Loaded(LoadRow(t, row, fault, stackCache, categoryCache).0, other)
  {
    LoadRowOutcome(t, row, fault, stackCache, categoryCache);
    var t' := LoadRow(t, row, fault, stackCache, categoryCache).0;
    IndexOfPrefix(t.companies, t'.companies, other.companyName);
    var id := Seqs.IndexOf(t.companies, other.companyName).value + 1;
    var j :| 0 <= j < |t.postings| && t.postings[j].companyId == id && t.postings[j].title == other.title;
    assert t'.postings[j] == t.postings[j];
  }

  lemma {:induction false} ProcessKeepsLoaded(t: LoaderTables, c: LoadCounts, rows: seq<CsvRecord>, i: nat,
                                              fault: nat -> Option<Stage>, other: CsvRecord,
                                              stackCache: map<string, nat>, categoryCache: map<string, nat>)
    requires i <= |rows| && Loaded(t, other)
    ensures Loaded(ProcessFrom(t, c, rows, i, fault, stackCache, categoryCache).0, other)
    decreases |rows| - i
  {
    if i < |rows| {
      var step := LoadRow(t, rows[i], fault(i), stackCache, categoryCache);
      LoadRowKeepsLoaded(t, rows[i], fault(i), other, stackCache, categoryCache);
      ProcessKeepsLoaded(step.0, Tally(c, step.1), rows, i + 1, fault, other, stackCache, categoryCache);
    }
  }

  /** The fault oracle of a run in which no call raises. */
  function NoFaults(k: nat): Option<Stage>
  {
    None
  }

  /** After a run in which nothing raised, every row of the file is loaded. */
  lemma {:induction false} ProcessLoadsRows(t: LoaderTables, c: LoadCounts, rows: seq<CsvRecord>, i: nat,
                                            stackCache: map<string, nat>, categoryCache: map<string, nat>)
    requires i <= |rows|
    ensures var t' := ProcessFrom(t, c, rows, i, NoFaults, stackCache, categoryCache).0;
      forall k :: i <= k < |rows| ==> Loaded(t', rows[k])
    decreases |rows| - i
  {
    if i < |rows| {
      var step := LoadRow(t, rows[i], None, stackCache, categoryCache);
      assert NoFaults(i) == None;
      assert ProcessFrom(t, c, rows, i, NoFaults, stackCache, categoryCache)
          == ProcessFrom(step.0, Tally(c, step.1), rows, i + 1, NoFaults, stackCache, categoryCache);
      var t' := ProcessFrom(step.0, Tally(c, step.1), rows, i + 1, NoFaults, stackCache, categoryCache).0;
      LoadRowLoads(t, rows[i], stackCache, categoryCache);
      ProcessKeepsLoaded(step.0, Tally(c, step.1), rows, i + 1, NoFaults, rows[i], stackCache, categoryCache);
      ProcessLoadsRows(step.0, Tally(c, step.1), rows, i + 1, stackCache, categoryCache);
      assert forall k :: i < k < |rows| ==> Loaded(t', rows[k]);
      assert Loaded(t', rows[i]);
    }
  }

  /** A fault-free row that is already loaded changes nothing and is skipped. */
  lemma LoadedRowIsSkipped(t: LoaderTables, row: CsvRecord,
                           stackCache: map<string, nat>, categoryCache: map<string, nat>)
    requires Loaded(t, row)
    ensures LoadRow(t, row, None, stackCache, categoryCache).0 == t
    ensures LoadRow(t, row, None, stackCache, categoryCache).1 == Skipped
  {
    var company := WithCompany(t, row.companyName);
    assert company.0 == t;
    var location := WithLocation(t, row.location);
    assert location.0 == t;
  }

  lemma {:induction false} LoadedRowsAreSkipped(t: LoaderTables, c: LoadCounts, rows: seq<CsvRecord>, i: nat,
                                                stackCache: map<string, nat>, categoryCache: map<string, nat>)
    requires i <= |rows|
    requires forall k :: i <= k < |rows| ==> Loaded(t, rows[k])
    ensures ProcessFrom(t, c, rows, i, NoFaults, stackCache, categoryCache).0 == t
    ensures ProcessFrom(t, c, rows, i, NoFaults, stackCache, categoryCache).1
         == LoadCounts(c.inserted, c.skipped + (|rows| - i), c.errored)
    decreases |rows| - i
  {
    if i < |rows| {
      LoadedRowIsSkipped(t, rows[i], stackCache, categoryCache);
      LoadedRowsAreSkipped(t, Tally(c, Skipped), rows, i + 1, stackCache, categoryCache);
    }
  }

  /**
   * Loading a file a second time, with no errors in either run, leaves every
   * table as the first run left it and counts every row as skipped.
   */
  lemma ReloadSkipsEverything(t: LoaderTables, rows: seq<CsvRecord>,
                              stackCache: map<string, nat>, categoryCache: map<string, nat>)
    ensures var first := ProcessFrom(t, LoadCounts(0, 0, 0), rows, 0, NoFaults, stackCache, categoryCache).0;
      && ProcessFrom(first, LoadCounts(0, 0, 0), rows, 0, NoFaults, stackCache, categoryCache).0 == first
      && ProcessFrom(first, LoadCounts(0, 0, 0), rows, 0, NoFaults, stackCache, categoryCache).1
         == LoadCounts(0, |rows|, 0)
  {
    ProcessLoadsRows(t, LoadCounts(0, 0, 0), rows, 0, stackCache, categoryCache);
    var first := ProcessFrom(t, LoadCounts(0, 0, 0), rows, 0, NoFaults, stackCache, categoryCache).0;
    LoadedRowsAreSkipped(first, LoadCounts(0, 0, 0), rows, 0, stackCache, categoryCache);
  }
}

=== FILE: deadline.dfy ===
/**
 * `parse_deadline` of upload_to_jcloud.py: the "MM/DD" in a listing's
 * deadline text becomes "YYYY-MM-DD", the year being inferred from the current
 * date. The current year and month are parameters instead of a clock read.
 */
module Deadline {
  import opened Wrappers
  import opened Text

  /** `(\d{2})/(\d{2})` matches at position i (ASCII digits). */
  predicate MatchAt(s: string, i: nat)
  {
    i + 5 <= |s| && IsDigit(s[i]) && IsDigit(s[i + 1]) && s[i + 2] == '/'
    && IsDigit(s[i + 3]) && IsDigit(s[i + 4])
  }

  /** `re.search`: the leftmost match position at or after `from`. */
  function FindDate(s: string, from: nat): (r: Option<nat>)
    ensures r.Some? ==> from <= r.value && MatchAt(s, r.value)
    ensures r.Some? ==> forall j :: from <= j < r.value ==> !MatchAt(s, j)
    ensures r.None? ==> forall j :: from <= j ==> !MatchAt(s, j)
    decreases |s| - from
  {
    if from + 5 > |s| then None
    else if MatchAt(s, from) then Some(from)
    else FindDate(s, from + 1)
  }

  /** The deadline's year: this year, or next year when its month is already past. */
  function DeadlineYear(month: nat, nowYear: nat, nowMonth: nat): nat
  {
    if month < nowMonth then nowYear + 1 else nowYear
  }

  /** The "NN/NN" at position i rewritten as "YYYY-NN-NN". */
  function DateText(s: string, i: nat, nowYear: nat, nowMonth: nat): string
    requires MatchAt(s, i)
  {
    var month := s[i..i + 2];
    NatToString(DeadlineYear(DigitsValue(month), nowYear, nowMonth)) + "-" + month + "-" + s[i + 3..i + 5]
  }

  /** True for the inputs `parse_deadline` rejects before searching: None, "" and any casing of "none". */
  predicate Blank(deadline: Option<string>)
  {
    deadline.None? || deadline.value == "" || Lower(deadline.value) == "none"
  }

  function ParseDeadline(deadline: Option<string>, nowYear: nat, nowMonth: nat): (r: Option<string>)
    ensures Blank(deadline) ==> r.None?
    ensures !Blank(deadline) ==> (r.Some? <==> exists i :: MatchAt(deadline.value, i))
  {
    if Blank(deadline) then None
    else match FindDate(deadline.value, 0)
      case None => None
      case Some(i) => Some(DateText(deadline.value, i, nowYear, nowMonth))
  }

  /**
   * On a match the result copies the leftmost "MM" and "DD" verbatim (no range
   * check) after the inferred year.
   */
  lemma ParseDeadlineMatch(s: string, i: nat, nowYear: nat, nowMonth: nat)
    requires !Blank(Some(s)) && MatchAt(s, i)
    requires forall j :: 0 <= j < i ==> !MatchAt(s, j)
    ensures ParseDeadline(Some(s), nowYear, nowMonth)
         == Some(NatToString(DeadlineYear(DigitsValue(s[i..i + 2]), nowYear, nowMonth))
                 + "-" + s[i..i + 2] + "-" + s[i + 3..i + 5])
  {
    var r := FindDate(s, 0);
    assert r.Some?;
    assert r.value == i;
  }

  /** The deadline text of a typical listing, "~ 01/09(목)". */
  const SampleText := "~ 01/09(목)"

  lemma SampleNotBlank()
    ensures !Blank(Some(SampleText))
  {
    assert |Lower(SampleText)| == 10;
  }

  lemma SampleMatch()
    ensures FindDate(SampleText, 0) == Some(2)
  {
    assert !MatchAt(SampleText, 0) && !MatchAt(SampleText, 1) && MatchAt(SampleText, 2);
  }

  lemma SampleFields()
    ensures SampleText[2..4] == "01" && SampleText[5..7] == "09"
    ensures DigitsValue(SampleText[2..4]) == 1
  {
    assert SampleText[2..4] == "01";
    assert DigitsValue("0") == 0;
  }

  /** The sample is due on January 9th of the year `DeadlineYear` infers for month 1. */
  lemma SampleDeadline(y: nat, m: nat)
    ensures ParseDeadline(Some(SampleText), y, m) == Some(NatToString(DeadlineYear(1, y, m)) + "-01-09")
  {
    SampleNotBlank();
    SampleMatch();
    SampleFields();
    assert ParseDeadline(Some(SampleText), y, m) == Some(DateText(SampleText, 2, y, m));
    assert DateText(SampleText, 2, y, m) == NatToString(DeadlineYear(1, y, m)) + "-" + "01" + "-" + "09";
    var year := NatToString(DeadlineYear(1, y, m));
    assert year + "-" + "01" + "-" + "09" == year + "-01-09";
  }

  /** "~ 01/09(목)" read in December of year y is due in January of y + 1. */
  lemma DecemberRollsOver(y: nat)
    ensures ParseDeadline(Some(SampleText), y, 12) == Some(NatToString(y + 1) + "-01-09")
  {
    SampleDeadline(y, 12);
  }

  /** The same text read in January of year y is due in January of y. */
  lemma JanuaryKeepsYear(y: nat)
    ensures ParseDeadline(Some(SampleText), y, 1) == Some(NatToString(y) + "-01-09")
  {
    SampleDeadline(y, 1);
  }

  /** The year is never earlier than the current one and at most one later. */
  lemma DeadlineYearRange(month: nat, nowYear: nat, nowMonth: nat)
    ensures nowYear <= DeadlineYear(month, nowYear, nowMonth) <= nowYear + 1
    ensures DeadlineYear(month, nowYear, nowMonth) == nowYear <==> month >= nowMonth
  {
  }
}

=== FILE: jcloud_upload.dfy ===
/**
 * `upload_csv_to_jcloud` of upload_to_jcloud.py: every CSV row gets its
 * company by exact name (get-or-create), then either refreshes the live
 * posting with the same (title, company_id) or inserts a new active posting.
 * The whole file is one transaction: a row that lacks a column the loop reads
 * with `row[...]` raises KeyError, everything is rolled back and the error is
 * re-raised.
 */
module JcloudUpload {
  import opened Wrappers
  import opened Seqs
  import opened Schema
  import opened Deadline
  import opened Upsert

  /** The two tables the upload writes. */
  datatype Tables = Tables(companies: seq<string>, postings: seq<Posting>)

  /** The duplicate check's condition: same title and company, `deleted_at IS NULL`. */
  predicate LiveMatch(p: Posting, title: string, companyId: nat)
  {
    p.title == title && p.companyId == companyId && p.deletedAt.None?
  }

  predicate HasLive(postings: seq<Posting>, title: string, companyId: nat)
  {
    exists j :: 0 <= j < |postings| && LiveMatch(postings[j], title, companyId)
  }

  /** The posting the duplicate check finds: the first live match. */
  function FindLive(postings: seq<Posting>, title: string, companyId: nat): (r: Option<nat>)
    ensures r.None? <==> !HasLive(postings, title, companyId)
    ensures r.Some? ==> r.value < |postings| && LiveMatch(postings[r.value], title, companyId)
    ensures r.Some? ==> forall j :: 0 <= j < r.value ==> !LiveMatch(postings[j], title, companyId)
  {
    if postings == [] then None
    else if LiveMatch(postings[0], title, companyId) then Some(0)
    else match FindLive(postings[1..], title, companyId)
      case None =>
        assert forall j :: 1 <= j < |postings| ==> postings[j] == postings[1..][j - 1];
        None
      case Some(k) => Some(k + 1)
  }

  /** The row inserted for a CSV row without a live match. */
  function NewPosting(row: CsvRow, title: string, companyId: nat, deadline: Option<string>): Posting
  {
    Posting(companyId, title, CellOr(row, "description"), Some(CellOr(row, "experience")),
            Some(CellOr(row, "education")), Some(CellOr(row, "employment_type")), None, None,
            deadline, Active, 0, None)
  }

  /** The UPDATE applied to a live match: five columns refreshed and status reset to 'active'. */
  function Refreshed(p: Posting, row: CsvRow, deadline: Option<string>): Posting
  {
    p.(description := CellOr(row, "description"), experienceLevel := Some(CellOr(row, "experience")),
       educationLevel := Some(CellOr(row, "education")),
       employmentType := Some(CellOr(row, "employment_type")), deadlineDate := deadline,
       status := Active)
  }

  /** One iteration of the row loop: the new tables and whether it was an update, or the KeyError. */
  function UploadRow(t: Tables, row: CsvRow, nowYear: nat, nowMonth: nat): Result<(Tables, bool)>
  {
    if "company_name" !in row then Err("'company_name'")
    else if "title" !in row then Err("'title'")
    else
      var (companies, cid) := GetOrCreate(t.companies, row["company_name"]);
      var deadline := ParseDeadline(Cell(row, "deadline"), nowYear, nowMonth);
      match FindLive(t.postings, row["title"], cid)
      case Some(k) =>
        Ok((Tables(companies, t.postings[k := Refreshed(t.postings[k], row, deadline)]), true))
      case None =>
        Ok((Tables(companies, t.postings + [NewPosting(row, row["title"], cid, deadline)]), false))
  }

  /** The rows from here on, applied in order to tables `t` and counters `c`. */
  function UploadFrom(t: Tables, c: Counts, rows: seq<CsvRow>, nowYear: nat, nowMonth: nat)
    : Result<(Tables, Counts)>
    decreases |rows|
  {
    if rows == [] then Ok((t, c))
    else match UploadRow(t, rows[0], nowYear, nowMonth)
      case Err(e) => Err(e)
      case Ok(step) => UploadFrom(step.0, Count(c, step.1), rows[1..], nowYear, nowMonth)
  }

  /** The upload's database connection: the companies and job_postings tables. */
  class JcloudDatabase {
    var companies: seq<string>
    var postings: seq<Posting>

    constructor (companies0: seq<string>, postings0: seq<Posting>)
      ensures companies == companies0 && postings == postings0
    {
      companies, postings := companies0, postings0;
    }

    /**
     * One row: the KeyError for a missing column (nothing written), else the
     * company get-or-create and the posting UPDATE or INSERT.
     */
    method ApplyRow(row: CsvRow, nowYear: nat, nowMonth: nat) returns (r: Result<bool>)
      modifies this
      ensures var u := UploadRow(Tables(old(companies), old(postings)), row, nowYear, nowMonth);
        if u.Ok? then r == Ok(u.value.1) && Tables(companies, postings) == u.value.0
        else r == Err(u.error) && companies == old(companies) && postings == old(postings)
    {
      if "company_name" !in row {
        return Err("'company_name'");
      }
      if "title" !in row {
        return Err("'title'");
      }
      var name := row["company_name"];
      var companyId: nat;
      match IndexOf(companies, name) {
        case Some(k) =>
          companyId := k + 1;
        case None =>
          companies := companies + [name];
          companyId := |companies|;
      }
      assert GetOrCreate(old(companies), name) == (companies, companyId);
      var deadline := ParseDeadline(Cell(row, "deadline"), nowYear, nowMonth);
      var existing := FindLive(postings, row["title"], companyId);
      if existing.Some? {
        postings := postings[existing.value := Refreshed(postings[existing.value], row, deadline)];
      } else {
        postings := postings + [NewPosting(row, row["title"], companyId, deadline)];
      }
      r := Ok(existing.Some?);
    }

    /**
     * The row loop and the single commit: on success the tables are those of
     * the specification and the result is saved + updated; on a KeyError the
     * tables are rolled back and the error is raised.
     */
    method UploadCsv(rows: seq<CsvRow>, nowYear: nat, nowMonth: nat) returns (r: Result<nat>)
      modifies this
      ensures var spec := UploadFrom(Tables(old(companies), old(postings)), Counts(0, 0), rows, nowYear, nowMonth);
        if spec.Ok? then Tables(companies, postings) == spec.value.0 && r == Ok(spec.value.1.saved + spec.value.1.updated)
        else companies == old(companies) && postings == old(postings) && r == Err(spec.error)
    {
      var begin := (companies, postings);
      ghost var spec := UploadFrom(Tables(companies, postings), Counts(0, 0), rows, nowYear, nowMonth);
      var saved, updated := 0, 0;
      var i := 0;
      while i < |rows|
        invariant 0 <= i <= |rows|
        invariant begin == (old(companies), old(postings))
        invariant UploadFrom(Tables(companies, postings), Counts(saved, updated), rows[i..], nowYear, nowMonth) == spec
      {
        ghost var before := Tables(companies, postings);
        ghost var counts := Counts(saved, updated);
        ghost var u := UploadRow(before, rows[i], nowYear, nowMonth);
        UploadFromCons(before, counts, rows[i..], nowYear, nowMonth);
        assert rows[i..][0] == rows[i] && rows[i..][1..] == rows[i + 1..];
        var step := ApplyRow(rows[i], nowYear, nowMonth);
        if step.Err? {
          assert spec == Err(step.error);
          companies, postings := begin.0, begin.1;
          return Err(step.error);
        }
        assert spec == UploadFrom(u.value.0, Count(counts, u.value.1), rows[i + 1..], nowYear, nowMonth);
        if step.value {
          updated := updated + 1;
        } else {
          saved := saved + 1;
        }
        assert Counts(saved, updated) == Count(counts, u.value.1);
        i := i + 1;
      }
      assert rows[i..] == [];
      assert spec == Ok((Tables(companies, postings), Counts(saved, updated)));
      r := Ok(saved + updated);
    }
  }

  /** The first row of a non-empty file decides between failing and going on with the rest. */
  lemma UploadFromCons(t: Tables, c: Counts, rows: seq<CsvRow>, nowYear: nat, nowMonth: nat)
    requires rows != []
    ensures var u := UploadRow(t, rows[0], nowYear, nowMonth);
      UploadFrom(t, c, rows, nowYear, nowMonth)
        == if u.Err? then Err(u.error) else UploadFrom(u.value.0, Count(c, u.value.1), rows[1..], nowYear, nowMonth)
  {
  }

  /** A successful upload of a non-empty file: its first row succeeds and the rest follow. */
  lemma UploadFromOk(t: Tables, c: Counts, rows: seq<CsvRow>, nowYear: nat, nowMonth: nat)
    requires rows != [] && UploadFrom(t, c, rows, nowYear, nowMonth).Ok?
    ensures UploadRow(t, rows[0], nowYear, nowMonth).Ok?
    ensures var step := UploadRow(t, rows[0], nowYear, nowMonth).value;
      UploadFrom(t, c, rows, nowYear, nowMonth)
        == UploadFrom(step.0, Count(c, step.1), rows[1..], nowYear, nowMonth)
  {
  }

  // ---------------------------------------------------------------------------
  // Properties of the specification
  // ---------------------------------------------------------------------------

  /** A row the loop cannot read: `row['company_name']` or `row['title']` raises KeyError. */
  predicate MissingColumn(row: CsvRow)
  {
    "company_name" !in row || "title" !in row
  }

  /** The upload fails exactly when some row lacks company_name or title. */
  lemma {:induction false} UploadFailsIffMissingColumn(t: Tables, c: Counts, rows: seq<CsvRow>,
                                                       nowYear: nat, nowMonth: nat)
    ensures UploadFrom(t, c, rows, nowYear, nowMonth).Err?
        <==> exists row :: row in rows && MissingColumn(row)
    decreases |rows|
  {
    if rows != [] {
      UploadFromCons(t, c, rows, nowYear, nowMonth);
      if !MissingColumn(rows[0]) {
        var u := UploadRow(t, rows[0], nowYear, nowMonth);
        assert u.Ok?;
        UploadFailsIffMissingColumn(u.value.0, Count(c, u.value.1), rows[1..], nowYear, nowMonth);
        assert rows == [rows[0]] + rows[1..];
      }
    }
  }

  /** Every row read is either saved or updated, so the result is the number of rows. */
  lemma {:induction false} UploadCountsRows(t: Tables, c: Counts, rows: seq<CsvRow>,
                                            nowYear: nat, nowMonth: nat)
    requires UploadFrom(t, c, rows, nowYear, nowMonth).Ok?
    ensures var done := UploadFrom(t, c, rows, nowYear, nowMonth).value;
      done.1.saved + done.1.updated == c.saved + c.updated + |rows|
    decreases |rows|
  {
    if rows != [] {
      UploadFromOk(t, c, rows, nowYear, nowMonth);
      var step := UploadRow(t, rows[0], nowYear, nowMonth).value;
      UploadCountsRows(step.0, Count(c, step.1), rows[1..], nowYear, nowMonth);
    }
  }

  /** No two live postings share (title, company_id). */
  predicate UniqueLive(postings: seq<Posting>)
  {
    forall i, j :: 0 <= i < j < |postings| && postings[i].deletedAt.None? ==>
      !LiveMatch(postings[j], postings[i].title, postings[i].companyId)
  }

  lemma UploadRowKeepsUniqueLive(t: Tables, row: CsvRow, nowYear: nat, nowMonth: nat)
    requires UniqueLive(t.postings)
    requires UploadRow(t, row, nowYear, nowMonth).Ok?
    ensures UniqueLive(UploadRow(t, row, nowYear, nowMonth).value.0.postings)
  {
    var (companies, cid) := GetOrCreate(t.companies, row["company_name"]);
    var p' := UploadRow(t, row, nowYear, nowMonth).value.0.postings;
    match FindLive(t.postings, row["title"], cid)
    case Some(k) =>
      assert forall i :: 0 <= i < |p'| ==>
        p'[i].title == t.postings[i].title && p'[i].companyId == t.postings[i].companyId
        && p'[i].deletedAt == t.postings[i].deletedAt;
    case None =>
      assert forall i :: 0 <= i < |t.postings| ==> p'[i] == t.postings[i];
  }

  /** The upload never creates a second live posting for one (title, company_id). */
  lemma {:induction false} UploadKeepsUniqueLive(t: Tables, c: Counts, rows: seq<CsvRow>,
                                                 nowYear: nat, nowMonth: nat)
    requires UniqueLive(t.postings)
    requires UploadFrom(t, c, rows, nowYear, nowMonth).Ok?
    ensures UniqueLive(UploadFrom(t, c, rows, nowYear, nowMonth).value.0.postings)
    decreases |rows|
  {
    if rows != [] {
      UploadFromOk(t, c, rows, nowYear, nowMonth);
      var step := UploadRow(t, rows[0], nowYear, nowMonth).value;
      UploadRowKeepsUniqueLive(t, rows[0], nowYear, nowMonth);
      UploadKeepsUniqueLive(step.0, Count(c, step.1), rows[1..], nowYear, nowMonth);
    }
  }

  // ---------------------------------------------------------------------------
  // Re-uploading the same rows only updates
  // ---------------------------------------------------------------------------

  /** The row's company exists and a live posting with its (title, company_id) exists. */
  predicate Covered(t: Tables, row: CsvRow)
  {
    && "company_name" in row && "title" in row
    && IndexOf(t.companies, row["company_name"]).Some?
    && HasLive(t.postings, row["title"], IndexOf(t.companies, row["company_name"]).value + 1)
  }

  /** An upload step never uncovers a row: companies are only appended and live keys only added. */
  lemma UploadRowKeepsCovered(t: Tables, row: CsvRow, other: CsvRow, nowYear: nat, nowMonth: nat)
    requires Covered(t, other)
    requires UploadRow(t, row, nowYear, nowMonth).Ok?
    ensures Covered(UploadRow(t, row, nowYear, nowMonth).value.0, other)
  {
    var (companies, cid) := GetOrCreate(t.companies, row["company_name"]);
    var t' := UploadRow(t, row, nowYear, nowMonth).value.0;
    var name := other["company_name"];
    if row["company_name"] !in t.companies {
      IndexOfAppend(t.companies, row["company_name"], name);
    }
    assert IndexOf(t'.companies, name) == IndexOf(t.companies, name);
    var oid := IndexOf(t.companies, name).value + 1;
    var j :| 0 <= j < |t.postings| && LiveMatch(t.postings[j], other["title"], oid);
    assert LiveMatch(t'.postings[j], other["title"], oid);
  }

  lemma {:induction false} UploadFromKeepsCovered(t: Tables, c: Counts, rows: seq<CsvRow>,
                                                  other: CsvRow, nowYear: nat, nowMonth: nat)
    requires Covered(t, other)
    requires UploadFrom(t, c, rows, nowYear, nowMonth).Ok?
    ensures Covered(UploadFrom(t, c, rows, nowYear, nowMonth).value.0, other)
    decreases |rows|
  {
    if rows != [] {
      UploadFromOk(t, c, rows, nowYear, nowMonth);
      var step := UploadRow(t, rows[0], nowYear, nowMonth).value;
      UploadRowKeepsCovered(t, rows[0], other, nowYear, nowMonth);
      UploadFromKeepsCovered(step.0, Count(c, step.1), rows[1..], other, nowYear, nowMonth);
    }
  }

  lemma UploadRowCovers(t: Tables, row: CsvRow, nowYear: nat, nowMonth: nat)
    requires UploadRow(t, row, nowYear, nowMonth).Ok?
    ensures Covered(UploadRow(t, row, nowYear, nowMonth).value.0, row)
  {
    var (companies, cid) := GetOrCreate(t.companies, row["company_name"]);
    var t' := UploadRow(t, row, nowYear, nowMonth).value.0;
    assert t'.companies == companies;
    assert IndexOf(companies, row["company_name"]) == Some(cid - 1);
    match FindLive(t.postings, row["title"], cid)
    case Some(k) =>
      assert LiveMatch(t'.postings[k], row["title"], cid);
    case None =>
      assert LiveMatch(t'.postings[|t.postings|], row["title"], cid);
  }

  /** After a successful upload the first row is covered. */
  lemma UploadCoversFirst(t: Tables, c: Counts, rows: seq<CsvRow>, nowYear: nat, nowMonth: nat)
    requires rows != [] && UploadFrom(t, c, rows, nowYear, nowMonth).Ok?
    ensures Covered(UploadFrom(t, c, rows, nowYear, nowMonth).value.0, rows[0])
  {
    UploadFromOk(t, c, rows, nowYear, nowMonth);
    var step := UploadRow(t, rows[0], nowYear, nowMonth).value;
    UploadRowCovers(t, rows[0], nowYear, nowMonth);
    UploadFromKeepsCovered(step.0, Count(c, step.1), rows[1..], rows[0], nowYear, nowMonth);
  }

  /** After a successful upload every uploaded row is covered. */
  lemma {:induction false} UploadCoversRows(t: Tables, c: Counts, rows: seq<CsvRow>,
                                            nowYear: nat, nowMonth: nat)
    requires UploadFrom(t, c, rows, nowYear, nowMonth).Ok?
    ensures forall row :: row in rows ==> Covered(UploadFrom(t, c, rows, nowYear, nowMonth).value.0, row)
    decreases |rows|
  {
    if rows != [] {
      UploadFromOk(t, c, rows, nowYear, nowMonth);
      var step := UploadRow(t, rows[0], nowYear, nowMonth).value;
      UploadCoversFirst(t, c, rows, nowYear, nowMonth);
      UploadCoversRows(step.0, Count(c, step.1), rows[1..], nowYear, nowMonth);
      assert forall row :: row in rows ==> row == rows[0] || row in rows[1..];
    }
  }

  /** Uploading rows that are all covered updates each one and inserts nothing. */
  lemma {:induction false} CoveredUploadOnlyUpdates(t: Tables, c: Counts, rows: seq<CsvRow>,
                                                    nowYear: nat, nowMonth: nat)
    requires forall row :: row in rows ==> Covered(t, row)
    ensures UploadFrom(t, c, rows, nowYear, nowMonth).Ok?
    ensures var done := UploadFrom(t, c, rows, nowYear, nowMonth).value;
      && done.0.companies == t.companies
      && |done.0.postings| == |t.postings|
      && done.1 == Counts(c.saved, c.updated + |rows|)
    decreases |rows|
  {
    if rows != [] {
      var row := rows[0];
      assert row in rows;
      assert Covered(t, row);
      var cid := IndexOf(t.companies, row["company_name"]).value + 1;
      assert GetOrCreate(t.companies, row["company_name"]) == (t.companies, cid);
      assert FindLive(t.postings, row["title"], cid).Some?;
      var step := UploadRow(t, row, nowYear, nowMonth).value;
      assert step.1 && step.0.companies == t.companies && |step.0.postings| == |t.postings|;
      forall other | other in rows[1..] ensures Covered(step.0, other) {
        UploadRowKeepsCovered(t, row, other, nowYear, nowMonth);
      }
      CoveredUploadOnlyUpdates(step.0, Count(c, step.1), rows[1..], nowYear, nowMonth);
    }
  }

  /**
   * Re-uploading the same file after a successful upload succeeds, inserts
   * no company and no posting, and counts every row as updated.
   */
  lemma ReuploadOnlyUpdates(t: Tables, rows: seq<CsvRow>, nowYear: nat, nowMonth: nat)
    requires UploadFrom(t, Counts(0, 0), rows, nowYear, nowMonth).Ok?
    ensures var first := UploadFrom(t, Counts(0, 0), rows, nowYear, nowMonth).value.0;
      var second := UploadFrom(first, Counts(0, 0), rows, nowYear, nowMonth);
      && second.Ok?
      && second.value.0.companies == first.companies
      && |second.value.0.postings| == |first.postings|
      && second.value.1 == Counts(0, |rows|)
  {
    UploadCoversRows(t, Counts(0, 0), rows, nowYear, nowMonth);
    var first := UploadFrom(t, Counts(0, 0), rows, nowYear, nowMonth).value.0;
    CoveredUploadOnlyUpdates(first, Counts(0, 0), rows, nowYear, nowMonth);
  }
}

=== FILE: job_config.dfy ===
/**
 * `JobConfig` of app/config/job_config.py: the Saramin job-category codes,
 * grouped by field, and `get_code`.
 */
module JobConfig {
  import opened Wrappers
  import opened CodeTables

  /** `_categories`, in insertion order. */
  const Categories: seq<Group> := [
    Group("개발", [Entry("백엔드", "2001"), Entry("프론트엔드", "2002"), Entry("풀스택", "2003"),
                 Entry("모바일", "2004"), Entry("데이터", "2005"), Entry("DevOps", "2006")]),
    Group("기획", [Entry("서비스기획", "1601"), Entry("프로젝트관리", "1602"), Entry("전략기획", "1603")]),
    Group("디자인", [Entry("UX/UI", "1501"), Entry("웹디자인", "1502"), Entry("그래픽", "1503")])
  ]

  /** `get_code(category, sub_category)`. */
  function GetCode(category: string, subCategory: Option<string>): Option<string>
  {
    CodeTables.GetCode(Categories, category, subCategory)
  }

  lemma GroupsDistinct(byCode: bool)
    ensures forall g :: 0 <= g < |Categories| ==> DistinctBy(Categories[g].entries, byCode)
  {
  }

  lemma DevelopmentPlanningDisjoint(byCode: bool)
    ensures DisjointBy(Categories[0].entries, Categories[1].entries, byCode)
  {
  }

  lemma DevelopmentDesignDisjoint(byCode: bool)
    ensures DisjointBy(Categories[0].entries, Categories[2].entries, byCode)
  {
  }

  lemma PlanningDesignDisjoint(byCode: bool)
    ensures DisjointBy(Categories[1].entries, Categories[2].entries, byCode)
  {
  }

  /** The 12 leaf names are distinct across groups, and so are their codes. */
  lemma LeavesDistinct()
    ensures DistinctNames(Leaves(Categories)) && DistinctCodes(Leaves(Categories))
  {
    GroupsDistinct(false);
    DevelopmentPlanningDisjoint(false); DevelopmentDesignDisjoint(false); PlanningDesignDisjoint(false);
    LeavesDistinctBy(Categories, false);
    GroupsDistinct(true);
    DevelopmentPlanningDisjoint(true); DevelopmentDesignDisjoint(true); PlanningDesignDisjoint(true);
    LeavesDistinctBy(Categories, true);
  }

  lemma CategoriesAreDict()
    ensures IsDict(Categories)
  {
    GroupsDistinct(false);
  }

  lemma CategoriesAreNonEmpty()
    ensures CodesNonEmpty(Categories)
  {
  }

  /** With a truthy `sub_category` the result is `_categories[category][sub_category]`, or None when either key is unknown. */
  lemma GetCodeWithSubCategory(category: string, subCategory: Option<string>, c: string)
    requires Truthy(subCategory)
    ensures GetCode(category, subCategory) == Some(c) <==>
      exists g :: 0 <= g < |Categories| && Categories[g].name == category && Entry(subCategory.value, c) in Categories[g].entries
  {
    CategoriesAreDict();
    TwoLevelExact(Categories, category, subCategory.value, c);
  }

  /** Without a sub-category the result is the code of the leaf named `category`, in whichever group it is. */
  lemma GetCodeByLeaf(category: string, subCategory: Option<string>, c: string)
    requires !Truthy(subCategory)
    ensures GetCode(category, subCategory) == Some(c) <==> Entry(category, c) in Leaves(Categories)
  {
    LeavesDistinct();
    FindLeafUnique(Categories, category, c);
  }

  /** No leaf is named like a group. */
  lemma NoLeafNamed(name: string)
    requires name == "개발" || name == "기획" || name == "디자인"
    ensures forall i, k :: 0 <= i < |Categories| && 0 <= k < |Categories[i].entries| ==> Categories[i].entries[k].name != name
  {
  }

  /** The group names "개발", "기획" and "디자인" give None without a sub-category. */
  lemma GroupNamesAreNotLeaves(g: nat, subCategory: Option<string>)
    requires g < |Categories| && !Truthy(subCategory)
    ensures GetCode(Categories[g].name, subCategory) == None
  {
    NoLeafNamed(Categories[g].name);
    FindLeafAbsent(Categories, Categories[g].name);
  }

  /** A found code is never "". */
  lemma FoundCodeIsTruthy(category: string, subCategory: Option<string>)
    ensures GetCode(category, subCategory).Some? ==> Truthy(GetCode(category, subCategory))
  {
    CategoriesAreNonEmpty();
    GetCodeTruthy(Categories, category, subCategory);
  }

  /** "백엔드" alone gives 2001. */
  lemma BackendByLeaf()
    ensures GetCode("백엔드", None) == Some("2001")
  {
  }
}

=== FILE: jobs_model.dfy ===
/**
 * The write side and the detail read of `Job` in app/jobs/models.py:
 * `create_job`, `update_job`, `delete_job` and `get_job_detail`, over the
 * locations, tech_stacks, job_categories, job_postings and junction tables.
 *
 * Each operation is a function from the tables before to the tables after
 * (and what the call returns); `JobBoard` holds the tables and performs the
 * operations in place, with the per-name loops of the source as loops.
 */
module JobsModel {
  import opened Wrappers
  import opened Schema

  datatype JobTables = JobTables(
    locations: seq<Location>,
    stacks: seq<TechStack>,
    categories: seq<string>,
    postings: seq<Posting>,
    stackLinks: seq<Link>,
    categoryLinks: seq<Link>)

  const NotFound := "Job posting not found"
  const AlreadyDeleted := "Job posting already deleted"

  /** A posting with this id exists (whatever its status). */
  predicate Exists(t: JobTables, jobId: int)
  {
    1 <= jobId <= |t.postings|
  }

  // ---------------------------------------------------------------------------
  // Get-or-create of tech stacks and categories, one junction row per name
  // ---------------------------------------------------------------------------

  /** `SELECT stack_id FROM tech_stacks WHERE name = %s` and `fetchone()`: the first row with that name. */
  function StackIndex(stacks: seq<TechStack>, name: string): (r: Option<nat>)
    ensures r.Some? ==> r.value < |stacks| && stacks[r.value].name == name
    ensures r.Some? ==> forall i :: 0 <= i < r.value ==> stacks[i].name != name
    ensures r.None? ==> forall i :: 0 <= i < |stacks| ==> stacks[i].name != name
  {
    if stacks == [] then None
    else if stacks[0].name == name then Some(0)
    else match StackIndex(stacks[1..], name)
      case None => None
      case Some(k) => Some(k + 1)
  }

  /** No two tech_stacks rows share a name. */
  predicate StackNamesUnique(stacks: seq<TechStack>)
  {
    forall i, j :: 0 <= i < j < |stacks| ==> stacks[i].name != stacks[j].name
  }

  /** The id of the stack with this name, inserting `(name, category)` when there is none. */
  datatype Got<T> = Got(rows: seq<T>, id: nat)

  function GetOrCreateStack(stacks: seq<TechStack>, name: string, category: Option<string>): (r: Got<TechStack>)
    ensures 1 <= r.id <= |r.rows| && r.rows[r.id - 1].name == name
    ensures StackIndex(stacks, name).Some? ==> r.rows == stacks && r.id == StackIndex(stacks, name).value + 1
    ensures StackIndex(stacks, name).None? ==> r.rows == stacks + [TechStack(name, category)]
  {
    match StackIndex(stacks, name)
    case Some(k) => Got(stacks, IdAt(k))
    case None => Got(stacks + [TechStack(name, category)], IdAt(|stacks|))
  }

  /** `SELECT category_id FROM job_categories WHERE name = %s` and `fetchone()`. */
  function CategoryIndex(categories: seq<string>, name: string): (r: Option<nat>)
    ensures r.Some? ==> r.value < |categories| && categories[r.value] == name
    ensures r.Some? ==> forall i :: 0 <= i < r.value ==> categories[i] != name
    ensures r.None? ==> forall i :: 0 <= i < |categories| ==> categories[i] != name
  {
    if categories == [] then None
    else if categories[0] == name then Some(0)
    else match CategoryIndex(categories[1..], name)
      case None => None
      case Some(k) => Some(k + 1)
  }

  /** No two job_categories rows share a name. */
  predicate CategoryNamesUnique(categories: seq<string>)
  {
    forall i, j :: 0 <= i < j < |categories| ==> categories[i] != categories[j]
  }

  /** The id of the category with this name, inserting it when there is none. */
  function GetOrCreateCategory(categories: seq<string>, name: string): (r: Got<string>)
    ensures 1 <= r.id <= |r.rows| && r.rows[r.id - 1] == name
    ensures CategoryIndex(categories, name).Some? ==> r.rows == categories && r.id == CategoryIndex(categories, name).value + 1
    ensures CategoryIndex(categories, name).None? ==> r.rows == categories + [name]
  {
    match CategoryIndex(categories, name)
    case Some(k) => Got(categories, IdAt(k))
    case None => Got(categories + [name], IdAt(|categories|))
  }

  /** One iteration over the tech-stack names: get-or-create the stack, then link it to the posting. */
  function StepStack(t: JobTables, postingId: nat, name: string, category: Option<string>): JobTables
  {
    var g := GetOrCreateStack(t.stacks, name, category);
    t.(stacks := g.rows, stackLinks := t.stackLinks + [Link(postingId, g.id)])
  }

  /** The whole loop over the tech-stack names, in list order. */
  function AddStacks(t: JobTables, postingId: nat, names: seq<string>, category: Option<string>): (r: JobTables)
    ensures r.locations == t.locations && r.categories == t.categories
    ensures r.postings == t.postings && r.categoryLinks == t.categoryLinks
    ensures |r.stackLinks| == |t.stackLinks| + |names|
    decreases |names|
  {
    if names == [] then t
    else AddStacks(StepStack(t, postingId, names[0], category), postingId, names[1..], category)
  }

  /** A job_categories lookup by name, inserting the name when absent. */
  function StepCategory(t: JobTables, postingId: nat, name: string): JobTables
  {
    var g := GetOrCreateCategory(t.categories, name);
    t.(categories := g.rows, categoryLinks := t.categoryLinks + [Link(postingId, g.id)])
  }

  /** The whole loop over the category names, in list order. */
  function AddCategories(t: JobTables, postingId: nat, names: seq<string>): (r: JobTables)
    ensures r.locations == t.locations && r.stacks == t.stacks
    ensures r.postings == t.postings && r.stackLinks == t.stackLinks
    ensures |r.categoryLinks| == |t.categoryLinks| + |names|
    decreases |names|
  {
    if names == [] then t
    else AddCategories(StepCategory(t, postingId, names[0]), postingId, names[1..])
  }

  /** The loop only appends: to the stacks and to the junction rows. */
  lemma {:induction false} AddStacksGrows(t: JobTables, postingId: nat, names: seq<string>, category: Option<string>)
    ensures t.stacks <= AddStacks(t, postingId, names, category).stacks
    ensures t.stackLinks <= AddStacks(t, postingId, names, category).stackLinks
    decreases |names|
  {
    if names != [] {
      AddStacksGrows(StepStack(t, postingId, names[0], category), postingId, names[1..], category);
    }
  }

  lemma {:induction false} AddCategoriesGrows(t: JobTables, postingId: nat, names: seq<string>)
    ensures t.categories <= AddCategories(t, postingId, names).categories
    ensures t.categoryLinks <= AddCategories(t, postingId, names).categoryLinks
    decreases |names|
  {
    if names != [] {
      AddCategoriesGrows(StepCategory(t, postingId, names[0]), postingId, names[1..]);
    }
  }

  /** The junction row at `at` links the posting to a row named `name`. */
  predicate StackLinked(stacks: seq<TechStack>, links: seq<Link>, at: nat, postingId: nat, name: string)
  {
    at < |links| && links[at].postingId == postingId
    && 1 <= links[at].refId <= |stacks| && stacks[links[at].refId - 1].name == name
  }

  predicate CategoryLinked(categories: seq<string>, links: seq<Link>, at: nat, postingId: nat, name: string)
  {
    at < |links| && links[at].postingId == postingId
    && 1 <= links[at].refId <= |categories| && categories[links[at].refId - 1] == name
  }

  /** A stack link stays valid when both tables only grow. */
  lemma StackLinkedGrows(t: JobTables, t': JobTables, at: nat, postingId: nat, name: string)
    requires StackLinked(t.stacks, t.stackLinks, at, postingId, name)
    requires t.stacks <= t'.stacks && t.stackLinks <= t'.stackLinks
    ensures StackLinked(t'.stacks, t'.stackLinks, at, postingId, name)
  {
    assert t'.stackLinks[at] == t.stackLinks[at];
    assert t'.stacks[t.stackLinks[at].refId - 1] == t.stacks[t.stackLinks[at].refId - 1];
  }

  lemma CategoryLinkedGrows(t: JobTables, t': JobTables, at: nat, postingId: nat, name: string)
    requires CategoryLinked(t.categories, t.categoryLinks, at, postingId, name)
    requires t.categories <= t'.categories && t.categoryLinks <= t'.categoryLinks
    ensures CategoryLinked(t'.categories, t'.categoryLinks, at, postingId, name)
  {
    assert t'.categoryLinks[at] == t.categoryLinks[at];
    assert t'.categories[t.categoryLinks[at].refId - 1] == t.categories[t.categoryLinks[at].refId - 1];
  }

  /** One junction row per list element, in order, each linking the posting to the stack of that name. */
  lemma {:induction false} AddStacksLinks(t: JobTables, postingId: nat, names: seq<string>, category: Option<string>)
    ensures var r := AddStacks(t, postingId, names, category);
      forall k :: 0 <= k < |names| ==> StackLinked(r.stacks, r.stackLinks, |t.stackLinks| + k, postingId, names[k])
    decreases |names|
  {
    if names != [] {
      var t1 := StepStack(t, postingId, names[0], category);
      var r := AddStacks(t, postingId, names, category);
      assert r == AddStacks(t1, postingId, names[1..], category);
      AddStacksLinks(t1, postingId, names[1..], category);
      AddStacksGrows(t1, postingId, names[1..], category);
      assert |t1.stackLinks| == |t.stackLinks| + 1;
      assert StackLinked(t1.stacks, t1.stackLinks, |t.stackLinks|, postingId, names[0]);
      StackLinkedGrows(t1, r, |t.stackLinks|, postingId, names[0]);
      forall k | 1 <= k < |names|
        ensures StackLinked(r.stacks, r.stackLinks, |t.stackLinks| + k, postingId, names[k])
      {
        assert names[1..][k - 1] == names[k];
        assert StackLinked(r.stacks, r.stackLinks, |t1.stackLinks| + (k - 1), postingId, names[1..][k - 1]);
      }
    }
  }

  /** Stacks are only created for names that had none, so names stay unique. */
  lemma {:induction false} AddStacksUnique(t: JobTables, postingId: nat, names: seq<string>, category: Option<string>)
    requires StackNamesUnique(t.stacks)
    ensures StackNamesUnique(AddStacks(t, postingId, names, category).stacks)
    decreases |names|
  {
    if names != [] {
      var t1 := StepStack(t, postingId, names[0], category);
      if StackIndex(t.stacks, names[0]).None? {
        forall i, j | 0 <= i < j < |t1.stacks| ensures t1.stacks[i].name != t1.stacks[j].name {
          if j == |t.stacks| {
            assert t1.stacks[i] == t.stacks[i];
          }
        }
      }
      AddStacksUnique(t1, postingId, names[1..], category);
    }
  }

  /** Every stack the loop creates is named by the list and has the given category. */
  lemma {:induction false} AddStacksNew(t: JobTables, postingId: nat, names: seq<string>, category: Option<string>)
    ensures var r := AddStacks(t, postingId, names, category);
      forall i :: |t.stacks| <= i < |r.stacks| ==> r.stacks[i].category == category && r.stacks[i].name in names
    decreases |names|
  {
    if names != [] {
      var t1 := StepStack(t, postingId, names[0], category);
      var r := AddStacks(t, postingId, names, category);
      assert r == AddStacks(t1, postingId, names[1..], category);
      AddStacksNew(t1, postingId, names[1..], category);
      AddStacksGrows(t1, postingId, names[1..], category);
      forall i | |t.stacks| <= i < |r.stacks|
        ensures r.stacks[i].category == category && r.stacks[i].name in names
      {
        if i >= |t1.stacks| {
          assert r.stacks[i].name in names[1..];
        } else {
          assert r.stacks[i] == t1.stacks[i] == TechStack(names[0], category);
        }
      }
    }
  }

  lemma {:induction false} AddCategoriesLinks(t: JobTables, postingId: nat, names: seq<string>)
    ensures var r := AddCategories(t, postingId, names);
      forall k :: 0 <= k < |names| ==> CategoryLinked(r.categories, r.categoryLinks, |t.categoryLinks| + k, postingId, names[k])
    decreases |names|
  {
    if names != [] {
      var t1 := StepCategory(t, postingId, names[0]);
      var r := AddCategories(t, postingId, names);
      assert r == AddCategories(t1, postingId, names[1..]);
      AddCategoriesLinks(t1, postingId, names[1..]);
      AddCategoriesGrows(t1, postingId, names[1..]);
      assert |t1.categoryLinks| == |t.categoryLinks| + 1;
      assert CategoryLinked(t1.categories, t1.categoryLinks, |t.categoryLinks|, postingId, names[0]);
      CategoryLinkedGrows(t1, r, |t.categoryLinks|, postingId, names[0]);
      forall k | 1 <= k < |names|
        ensures CategoryLinked(r.categories, r.categoryLinks, |t.categoryLinks| + k, postingId, names[k])
      {
        assert names[1..][k - 1] == names[k];
        assert CategoryLinked(r.categories, r.categoryLinks, |t1.categoryLinks| + (k - 1), postingId, names[1..][k - 1]);
      }
    }
  }

  lemma {:induction false} AddCategoriesUnique(t: JobTables, postingId: nat, names: seq<string>)
    requires CategoryNamesUnique(t.categories)
    ensures CategoryNamesUnique(AddCategories(t, postingId, names).categories)
    decreases |names|
  {
    if names != [] {
      var t1 := StepCategory(t, postingId, names[0]);
      if CategoryIndex(t.categories, names[0]).None? {
        forall i, j | 0 <= i < j < |t1.categories| ensures t1.categories[i] != t1.categories[j] {
          if j == |t.categories| {
            assert t1.categories[i] == t.categories[i];
          }
        }
      }
      AddCategoriesUnique(t1, postingId, names[1..]);
    }
  }

  // ---------------------------------------------------------------------------
  // create_job
  // ---------------------------------------------------------------------------

  /** `job_data` after `validate_job_data` accepted it; absent lists are []. */
  datatype JobData = JobData(
    companyId: nat,
    title: string,
    description: string,
    experienceLevel: Option<string>,
    educationLevel: Option<string>,
    employmentType: Option<string>,
    salaryInfo: Option<string>,
    location: Option<Location>,
    deadlineDate: Option<string>,
    techStacks: seq<string>,
    jobCategories: seq<string>)

  /** The location get-or-create; the id is None when no location was given. */
  datatype Located = Located(tables: JobTables, locationId: Option<nat>)

  function WithLocation(t: JobTables, location: Option<Location>): (r: Located)
    ensures r.tables.(locations := t.locations) == t
    ensures location.None? ==> r == Located(t, None)
    ensures location.Some? ==>
      r.locationId.Some? && 1 <= r.locationId.value <= |r.tables.locations|
      && r.tables.locations[r.locationId.value - 1] == location.value
    ensures location.Some? ==> r.tables.locations == GetOrCreate(t.locations, location.value).0
  {
    if location.None? then Located(t, None)
    else
      var (rows, id) := GetOrCreate(t.locations, location.value);
      Located(t.(locations := rows), Some(id))
  }

  /** The row `INSERT INTO job_postings` writes: status 'active', view_count 0. */
  function NewPosting(d: JobData, locationId: Option<nat>): Posting
  {
    Posting(d.companyId, d.title, d.description, d.experienceLevel, d.educationLevel,
      d.employmentType, d.salaryInfo, locationId, d.deadlineDate, Active, 0, None)
  }

  /** The tables after `create_job` and the `posting_id` it returns. */
  datatype Created = Created(tables: JobTables, postingId: nat)

  /** The location get-or-create, then `INSERT INTO job_postings`. */
  function InsertPosting(t: JobTables, d: JobData): (r: JobTables)
    ensures r.stacks == t.stacks && r.categories == t.categories
    ensures r.stackLinks == t.stackLinks && r.categoryLinks == t.categoryLinks
    ensures |r.postings| == |t.postings| + 1
  {
    var l := WithLocation(t, d.location);
    l.tables.(postings := t.postings + [NewPosting(d, l.locationId)])
  }

  function Create(t: JobTables, d: JobData): Created
  {
    var postingId := IdAt(|t.postings|);
    var t2 := AddStacks(InsertPosting(t, d), postingId, d.techStacks, Some("Other"));
    Created(AddCategories(t2, postingId, d.jobCategories), postingId)
  }

  /**
   * The new posting gets the next id, is active with no views, carries the
   * submitted fields and the id of a location row equal to the submitted
   * one; earlier postings are unchanged.
   */
  lemma CreateInsertsActive(t: JobTables, d: JobData)
    ensures var r := Create(t, d);
      var p := r.tables.postings[r.postingId - 1];
      && r.postingId == |t.postings| + 1 && r.tables.postings[..|t.postings|] == t.postings
      && |r.tables.postings| == |t.postings| + 1
      && p.status == Active && p.viewCount == 0 && p.deletedAt.None?
      && p.companyId == d.companyId && p.title == d.title && p.description == d.description
      && p.experienceLevel == d.experienceLevel && p.educationLevel == d.educationLevel
      && p.employmentType == d.employmentType && p.salaryInfo == d.salaryInfo
      && p.deadlineDate == d.deadlineDate
      && (d.location.None? <==> p.locationId.None?)
      && (d.location.Some? ==>
            1 <= p.locationId.value <= |r.tables.locations|
            && r.tables.locations[p.locationId.value - 1] == d.location.value)
  {
    var l := WithLocation(t, d.location);
    assert (t.postings + [NewPosting(d, l.locationId)])[..|t.postings|] == t.postings;
  }

  /**
   * One tech-stack junction row per element of the list, in order, linking
   * the new posting to the stack of that name; stacks created here get the
   * category 'Other'.
   */
  lemma CreateStackLinks(t: JobTables, d: JobData)
    ensures var r := Create(t, d);
      && |r.tables.stackLinks| == |t.stackLinks| + |d.techStacks|
      && (forall k :: 0 <= k < |d.techStacks| ==>
            StackLinked(r.tables.stacks, r.tables.stackLinks, |t.stackLinks| + k, r.postingId, d.techStacks[k]))
      && (forall i :: |t.stacks| <= i < |r.tables.stacks| ==>
            r.tables.stacks[i].category == Some("Other") && r.tables.stacks[i].name in d.techStacks)
  {
    var postingId := IdAt(|t.postings|);
    var t1 := InsertPosting(t, d);
    var t2 := AddStacks(t1, postingId, d.techStacks, Some("Other"));
    var r := AddCategories(t2, postingId, d.jobCategories);
    assert r == Create(t, d).tables;
    AddStacksLinks(t1, postingId, d.techStacks, Some("Other"));
    AddStacksNew(t1, postingId, d.techStacks, Some("Other"));
    forall k | 0 <= k < |d.techStacks|
      ensures StackLinked(r.stacks, r.stackLinks, |t.stackLinks| + k, postingId, d.techStacks[k])
    {
      assert StackLinked(t2.stacks, t2.stackLinks, |t1.stackLinks| + k, postingId, d.techStacks[k]);
    }
  }

  /** One category junction row per element of the list, in order. */
  lemma CreateCategoryLinks(t: JobTables, d: JobData)
    ensures var r := Create(t, d);
      && |r.tables.categoryLinks| == |t.categoryLinks| + |d.jobCategories|
      && (forall k :: 0 <= k < |d.jobCategories| ==>
            CategoryLinked(r.tables.categories, r.tables.categoryLinks, |t.categoryLinks| + k, r.postingId, d.jobCategories[k]))
  {
    var postingId := IdAt(|t.postings|);
    var t1 := InsertPosting(t, d);
    var t2 := AddStacks(t1, postingId, d.techStacks, Some("Other"));
    var r := AddCategories(t2, postingId, d.jobCategories);
    assert Create(t, d) == Created(r, postingId);
    assert t2.categoryLinks == t.categoryLinks;
    AddCategoriesLinks(t2, postingId, d.jobCategories);
    forall k | 0 <= k < |d.jobCategories|
      ensures CategoryLinked(r.categories, r.categoryLinks, |t.categoryLinks| + k, postingId, d.jobCategories[k])
    {
      assert CategoryLinked(r.categories, r.categoryLinks, |t2.categoryLinks| + k, postingId, d.jobCategories[k]);
    }
  }

  /** Creating a posting keeps stack names and category names free of duplicates. */
  lemma CreateKeepsNamesUnique(t: JobTables, d: JobData)
    requires StackNamesUnique(t.stacks) && CategoryNamesUnique(t.categories)
    ensures StackNamesUnique(Create(t, d).tables.stacks) && CategoryNamesUnique(Create(t, d).tables.categories)
  {
    var postingId := IdAt(|t.postings|);
    var t1 := InsertPosting(t, d);
    var t2 := AddStacks(t1, postingId, d.techStacks, Some("Other"));
    AddStacksUnique(t1, postingId, d.techStacks, Some("Other"));
    AddCategoriesUnique(t2, postingId, d.jobCategories);
  }

  // ---------------------------------------------------------------------------
  // update_job
  // ---------------------------------------------------------------------------

  /**
   * The keys of `job_data` `update_job` reads: None for an absent key. The
   * nullable columns take `Some(None)` for an explicit null.
   */
  datatype JobUpdate = JobUpdate(
    title: Option<string>,
    description: Option<string>,
    experienceLevel: Option<Option<string>>,
    educationLevel: Option<Option<string>>,
    employmentType: Option<Option<string>>,
    salaryInfo: Option<Option<string>>,
    deadlineDate: Option<Option<string>>,
    status: Option<string>,
    location: Option<Location>,
    techStacks: Option<seq<string>>,
    jobCategories: Option<seq<string>>)

  /** A column of the `updates` dict: the new value when the key was given, else the old one. */
  function Override<T>(current: T, given: Option<T>): T
  {
    if given.Some? then given.value else current
  }

  /** The row after `UPDATE job_postings SET ...` over the allow-listed fields and location_id. */
  function UpdatedPosting(p: Posting, u: JobUpdate, locationId: Option<nat>): Posting
  {
    p.(title := Override(p.title, u.title),
       description := Override(p.description, u.description),
       experienceLevel := Override(p.experienceLevel, u.experienceLevel),
       educationLevel := Override(p.educationLevel, u.educationLevel),
       employmentType := Override(p.employmentType, u.employmentType),
       salaryInfo := Override(p.salaryInfo, u.salaryInfo),
       deadlineDate := Override(p.deadlineDate, u.deadlineDate),
       status := Override(p.status, u.status),
       locationId := if locationId.Some? then locationId else p.locationId)
  }

  /** `DELETE FROM posting_... WHERE posting_id = %s`: the junction rows of other postings, in order. */
  function Unlink(links: seq<Link>, postingId: nat): seq<Link>
  {
    if links == [] then []
    else (if links[0].postingId == postingId then [] else [links[0]]) + Unlink(links[1..], postingId)
  }

  /** Exactly the rows of other postings survive the DELETE. */
  lemma {:induction false} UnlinkKeepsOthers(links: seq<Link>, postingId: nat)
    ensures forall l :: l in Unlink(links, postingId) <==> l in links && l.postingId != postingId
  {
    if links != [] {
      UnlinkKeepsOthers(links[1..], postingId);
      assert links == [links[0]] + links[1..];
    }
  }

  /** The tables after a call and the message it returns (None on success). */
  datatype Outcome = Outcome(tables: JobTables, error: Option<string>)

  function RewriteStacks(t: JobTables, jobId: nat, names: Option<seq<string>>): JobTables
  {
    if names.None? then t
    else AddStacks(t.(stackLinks := Unlink(t.stackLinks, jobId)), jobId, names.value, None)
  }

  function RewriteCategories(t: JobTables, jobId: nat, names: Option<seq<string>>): JobTables
  {
    if names.None? then t
    else AddCategories(t.(categoryLinks := Unlink(t.categoryLinks, jobId)), jobId, names.value)
  }

  /** The location get-or-create, then `UPDATE job_postings SET ...` of the posting's row. */
  function UpdateRow(t: JobTables, jobId: int, u: JobUpdate): (r: JobTables)
    requires Exists(t, jobId)
    ensures r.stacks == t.stacks && r.categories == t.categories
    ensures r.stackLinks == t.stackLinks && r.categoryLinks == t.categoryLinks
    ensures |r.postings| == |t.postings|
  {
    var l := WithLocation(t, u.location);
    l.tables.(postings := t.postings[jobId - 1 := UpdatedPosting(t.postings[jobId - 1], u, l.locationId)])
  }

  function Update(t: JobTables, jobId: int, u: JobUpdate): Outcome
  {
    if !Exists(t, jobId) then Outcome(t, Some(NotFound))
    else
      Outcome(RewriteCategories(RewriteStacks(UpdateRow(t, jobId, u), jobId, u.techStacks), jobId, u.jobCategories), None)
  }

  /** A missing id is the only failure, and it changes nothing. */
  lemma UpdateNotFound(t: JobTables, jobId: int, u: JobUpdate)
    ensures Update(t, jobId, u).error.Some? <==> !Exists(t, jobId)
    ensures !Exists(t, jobId) ==> Update(t, jobId, u) == Outcome(t, Some(NotFound))
  {
  }

  /**
   * Only the eight allow-listed fields and location_id of the posting
   * change, each to the submitted value when its key was given; company,
   * view count and deletion time stay, and so do all other postings.
   */
  lemma UpdateFields(t: JobTables, jobId: int, u: JobUpdate)
    requires Exists(t, jobId)
    ensures var r := Update(t, jobId, u).tables;
      var p := t.postings[jobId - 1];
      var q := r.postings[jobId - 1];
      && |r.postings| == |t.postings|
      && (forall i :: 0 <= i < |t.postings| && i != jobId - 1 ==> r.postings[i] == t.postings[i])
      && q.companyId == p.companyId && q.viewCount == p.viewCount && q.deletedAt == p.deletedAt
      && (u.title.None? ==> q.title == p.title) && (u.title.Some? ==> q.title == u.title.value)
      && (u.description.None? ==> q.description == p.description)
      && (u.description.Some? ==> q.description == u.description.value)
      && (u.status.None? ==> q.status == p.status) && (u.status.Some? ==> q.status == u.status.value)
      && (u.experienceLevel.None? ==> q.experienceLevel == p.experienceLevel)
      && (u.experienceLevel.Some? ==> q.experienceLevel == u.experienceLevel.value)
      && (u.educationLevel.None? ==> q.educationLevel == p.educationLevel)
      && (u.educationLevel.Some? ==> q.educationLevel == u.educationLevel.value)
      && (u.employmentType.None? ==> q.employmentType == p.employmentType)
      && (u.employmentType.Some? ==> q.employmentType == u.employmentType.value)
      && (u.salaryInfo.None? ==> q.salaryInfo == p.salaryInfo)
      && (u.salaryInfo.Some? ==> q.salaryInfo == u.salaryInfo.value)
      && (u.deadlineDate.None? ==> q.deadlineDate == p.deadlineDate)
      && (u.deadlineDate.Some? ==> q.deadlineDate == u.deadlineDate.value)
      && (u.location.None? ==> q.locationId == p.locationId)
      && (u.location.Some? ==>
            q.locationId.Some? && 1 <= q.locationId.value <= |r.locations|
            && r.locations[q.locationId.value - 1] == u.location.value)
  {
  }

  /** Without the key, a posting's junction rows are left alone. */
  lemma UpdateKeepsLinks(t: JobTables, jobId: int, u: JobUpdate)
    requires Exists(t, jobId)
    ensures u.techStacks.None? ==> Update(t, jobId, u).tables.stackLinks == t.stackLinks
    ensures u.jobCategories.None? ==> Update(t, jobId, u).tables.categoryLinks == t.categoryLinks
  {
  }

  /**
   * With the key, the posting's stack rows are dropped, those of other
   * postings kept in order, and one row per given name is appended (a stack
   * created here has no category).
   */
  lemma UpdateRewritesStacks(t: JobTables, jobId: int, u: JobUpdate)
    requires Exists(t, jobId) && u.techStacks.Some?
    ensures var r := Update(t, jobId, u).tables;
      var names := u.techStacks.value;
      var kept := Unlink(t.stackLinks, jobId);
      && kept <= r.stackLinks
      && |r.stackLinks| == |kept| + |names|
      && forall k :: 0 <= k < |names| ==> StackLinked(r.stacks, r.stackLinks, |kept| + k, jobId, names[k])
  {
    var t1 := UpdateRow(t, jobId, u);
    var t2 := RewriteStacks(t1, jobId, u.techStacks);
    var r := RewriteCategories(t2, jobId, u.jobCategories);
    assert Update(t, jobId, u).tables == r;
    assert r.stacks == t2.stacks && r.stackLinks == t2.stackLinks;
    RewriteStacksLinks(t1, jobId, u.techStacks.value);
  }

  /** The junction rewrite on its own: other postings' rows kept in order, then one row per name. */
  lemma RewriteStacksLinks(t: JobTables, jobId: nat, names: seq<string>)
    ensures var r := RewriteStacks(t, jobId, Some(names));
      var kept := Unlink(t.stackLinks, jobId);
      && kept <= r.stackLinks
      && |r.stackLinks| == |kept| + |names|
      && forall k :: 0 <= k < |names| ==> StackLinked(r.stacks, r.stackLinks, |kept| + k, jobId, names[k])
  {
    var kept := Unlink(t.stackLinks, jobId);
    var t0 := t.(stackLinks := kept);
    var r := AddStacks(t0, jobId, names, None);
    assert RewriteStacks(t, jobId, Some(names)) == r;
    AddStacksLinks(t0, jobId, names, None);
    AddStacksGrows(t0, jobId, names, None);
    forall k | 0 <= k < |names|
      ensures StackLinked(r.stacks, r.stackLinks, |kept| + k, jobId, names[k])
    {
      assert StackLinked(r.stacks, r.stackLinks, |t0.stackLinks| + k, jobId, names[k]);
    }
  }

  lemma UpdateRewritesCategories(t: JobTables, jobId: int, u: JobUpdate)
    requires Exists(t, jobId) && u.jobCategories.Some?
    ensures var r := Update(t, jobId, u).tables;
      var names := u.jobCategories.value;
      var kept := Unlink(t.categoryLinks, jobId);
      && kept <= r.categoryLinks
      && |r.categoryLinks| == |kept| + |names|
      && forall k :: 0 <= k < |names| ==> CategoryLinked(r.categories, r.categoryLinks, |kept| + k, jobId, names[k])
  {
    var t2 := RewriteStacks(UpdateRow(t, jobId, u), jobId, u.techStacks);
    assert t2.categoryLinks == t.categoryLinks;
    assert Update(t, jobId, u).tables == RewriteCategories(t2, jobId, u.jobCategories);
    RewriteCategoriesLinks(t2, jobId, u.jobCategories.value);
  }

  lemma RewriteCategoriesLinks(t: JobTables, jobId: nat, names: seq<string>)
    ensures var r := RewriteCategories(t, jobId, Some(names));
      var kept := Unlink(t.categoryLinks, jobId);
      && kept <= r.categoryLinks
      && |r.categoryLinks| == |kept| + |names|
      && forall k :: 0 <= k < |names| ==> CategoryLinked(r.categories, r.categoryLinks, |kept| + k, jobId, names[k])
  {
    var kept := Unlink(t.categoryLinks, jobId);
    var t0 := t.(categoryLinks := kept);
    var r := AddCategories(t0, jobId, names);
    assert RewriteCategories(t, jobId, Some(names)) == r;
    AddCategoriesLinks(t0, jobId, names);
    AddCategoriesGrows(t0, jobId, names);
    forall k | 0 <= k < |names|
      ensures CategoryLinked(r.categories, r.categoryLinks, |kept| + k, jobId, names[k])
    {
      assert CategoryLinked(r.categories, r.categoryLinks, |t0.categoryLinks| + k, jobId, names[k]);
    }
  }

  // ---------------------------------------------------------------------------
  // delete_job
  // ---------------------------------------------------------------------------

  /** The soft delete: the row stays, its status becomes 'deleted'. */
  function Delete(t: JobTables, jobId: int): Outcome
  {
    if !Exists(t, jobId) then Outcome(t, Some(NotFound))
    else if t.postings[jobId - 1].status == Deleted then Outcome(t, Some(AlreadyDeleted))
    else Outcome(t.(postings := t.postings[jobId - 1 := t.postings[jobId - 1].(status := Deleted)]), None)
  }

  /**
   * A missing id and an already deleted posting are refused without change;
   * otherwise only the status of that posting changes, to 'deleted'.
   */
  lemma DeleteOutcome(t: JobTables, jobId: int)
    ensures var r := Delete(t, jobId);
      && (r.error == Some(NotFound) <==> !Exists(t, jobId))
      && (r.error == Some(AlreadyDeleted) <==> Exists(t, jobId) && t.postings[jobId - 1].status == Deleted)
      && (r.error.Some? ==> r.tables == t)
      && (r.error.None? ==>
            |r.tables.postings| == |t.postings|
            && r.tables.postings[jobId - 1] == t.postings[jobId - 1].(status := Deleted)
            && forall i :: 0 <= i < |t.postings| && i != jobId - 1 ==> r.tables.postings[i] == t.postings[i])
  {
  }

  /** Deleting twice: the second call reports the posting as already deleted. */
  lemma DeleteTwice(t: JobTables, jobId: int)
    requires Delete(t, jobId).error.None?
    ensures Delete(Delete(t, jobId).tables, jobId) == Outcome(Delete(t, jobId).tables, Some(AlreadyDeleted))
  {
  }

  // ---------------------------------------------------------------------------
  // get_job_detail
  // ---------------------------------------------------------------------------

  /** `UPDATE job_postings SET view_count = view_count + 1`: any status, a missing id changes nothing. */
  function View(t: JobTables, jobId: int): JobTables
  {
    if !Exists(t, jobId) then t
    else t.(postings := t.postings[jobId - 1 := t.postings[jobId - 1].(viewCount := t.postings[jobId - 1].viewCount + 1)])
  }

  /** The detail row: the posting with the names of its stacks and categories (GROUP_CONCAT DISTINCT). */
  datatype JobDetail = JobDetail(posting: Posting, techStacks: set<string>, jobCategories: set<string>)

  function StackNames(t: JobTables, jobId: int): set<string>
  {
    set l | l in t.stackLinks && l.postingId == jobId && 1 <= l.refId <= |t.stacks| :: t.stacks[l.refId - 1].name
  }

  function CategoryNames(t: JobTables, jobId: int): set<string>
  {
    set l | l in t.categoryLinks && l.postingId == jobId && 1 <= l.refId <= |t.categories| :: t.categories[l.refId - 1]
  }

  /** What the SELECT after the increment returns: nothing for a missing or deleted posting. */
  function Detail(t: JobTables, jobId: int): Option<JobDetail>
  {
    if !Exists(t, jobId) || t.postings[jobId - 1].status == Deleted then None
    else Some(JobDetail(t.postings[jobId - 1], StackNames(t, jobId), CategoryNames(t, jobId)))
  }

  /**
   * The view count of an existing posting, deleted or not, goes up by
   * exactly one and nothing else changes; the detail is None exactly for a
   * missing or deleted posting and otherwise shows the incremented count.
   */
  lemma ViewedOnce(t: JobTables, jobId: int)
    ensures var v := View(t, jobId);
      && (!Exists(t, jobId) ==> v == t)
      && (Exists(t, jobId) ==>
            && |v.postings| == |t.postings|
            && v.postings[jobId - 1] == t.postings[jobId - 1].(viewCount := t.postings[jobId - 1].viewCount + 1)
            && (forall i :: 0 <= i < |t.postings| && i != jobId - 1 ==> v.postings[i] == t.postings[i])
            && v.(postings := t.postings) == t)
      && (Detail(v, jobId).None? <==> !Exists(t, jobId) || t.postings[jobId - 1].status == Deleted)
      && (Detail(v, jobId).Some? ==> Detail(v, jobId).value.posting.viewCount == t.postings[jobId - 1].viewCount + 1)
  {
  }

  // ---------------------------------------------------------------------------
  // The tables, updated in place
  // ---------------------------------------------------------------------------

  class JobBoard {
    var t: JobTables

    constructor (t0: JobTables)
      ensures t == t0
    {
      t := t0;
    }

    /** The `for tech in ...` loop: one SELECT, possibly one INSERT, and one junction INSERT per name. */
    method LinkStacks(postingId: nat, names: seq<string>, category: Option<string>)
      modifies this
      ensures t == AddStacks(old(t), postingId, names, category)
    {
      for i := 0 to |names|
        invariant AddStacks(t, postingId, names[i..], category) == AddStacks(old(t), postingId, names, category)
      {
        assert names[i..][1..] == names[i + 1..];
        var found := StackIndex(t.stacks, names[i]);
        var stackId: nat;
        if found.Some? {
          stackId := IdAt(found.value);
        } else {
          stackId := IdAt(|t.stacks|);
          t := t.(stacks := t.stacks + [TechStack(names[i], category)]);
        }
        t := t.(stackLinks := t.stackLinks + [Link(postingId, stackId)]);
      }
    }

    /** The `for category in ...` loop. */
    method LinkCategories(postingId: nat, names: seq<string>)
      modifies this
      ensures t == AddCategories(old(t), postingId, names)
    {
      for i := 0 to |names|
        invariant AddCategories(t, postingId, names[i..]) == AddCategories(old(t), postingId, names)
      {
        assert names[i..][1..] == names[i + 1..];
        var found := CategoryIndex(t.categories, names[i]);
        var categoryId: nat;
        if found.Some? {
          categoryId := IdAt(found.value);
        } else {
          categoryId := IdAt(|t.categories|);
          t := t.(categories := t.categories + [names[i]]);
        }
        t := t.(categoryLinks := t.categoryLinks + [Link(postingId, categoryId)]);
      }
    }

    /** `create_job(job_data)`: returns the new `posting_id`. */
    method CreateJob(d: JobData) returns (postingId: nat)
      modifies this
      ensures t == Create(old(t), d).tables && postingId == Create(old(t), d).postingId
    {
      var l := WithLocation(t, d.location);
      postingId := IdAt(|t.postings|);
      t := l.tables.(postings := t.postings + [NewPosting(d, l.locationId)]);
      LinkStacks(postingId, d.techStacks, Some("Other"));
      LinkCategories(postingId, d.jobCategories);
    }

    /** `update_job(job_id, job_data)`: None on success, else the message. */
    method UpdateJob(jobId: int, u: JobUpdate) returns (error: Option<string>)
      modifies this
      ensures t == Update(old(t), jobId, u).tables && error == Update(old(t), jobId, u).error
    {
      if !Exists(t, jobId) {
        return Some(NotFound);
      }
      var l := WithLocation(t, u.location);
      var p := UpdatedPosting(t.postings[jobId - 1], u, l.locationId);
      t := l.tables.(postings := t.postings[jobId - 1 := p]);
      if u.techStacks.Some? {
        t := t.(stackLinks := Unlink(t.stackLinks, jobId));
        LinkStacks(jobId, u.techStacks.value, None);
      }
      if u.jobCategories.Some? {
        t := t.(categoryLinks := Unlink(t.categoryLinks, jobId));
        LinkCategories(jobId, u.jobCategories.value);
      }
      error := None;
    }

    /** `delete_job(job_id)`. */
    method DeleteJob(jobId: int) returns (error: Option<string>)
      modifies this
      ensures t == Delete(old(t), jobId).tables && error == Delete(old(t), jobId).error
    {
      if !Exists(t, jobId) {
        return Some(NotFound);
      }
      var p := t.postings[jobId - 1];
      if p.status == Deleted {
        return Some(AlreadyDeleted);
      }
      t := t.(postings := t.postings[jobId - 1 := p.(status := Deleted)]);
      error := None;
    }

    /** `get_job_detail(job_id)`: the view count goes up first, then the row is read. */
    method GetJobDetail(jobId: int) returns (detail: Option<JobDetail>)
      modifies this
      ensures t == View(old(t), jobId) && detail == Detail(t, jobId)
    {
      if Exists(t, jobId) {
        var p := t.postings[jobId - 1];
        t := t.(postings := t.postings[jobId - 1 := p.(viewCount := p.viewCount + 1)]);
      }
      detail := Detail(t, jobId);
    }
  }
}

=== FILE: jobs_query.dfy ===
/**
 * `Job.list_jobs` of app/jobs/models.py: the listing query and its parameter
 * list, built clause by clause from the filters dict, and the splitting of
 * the aggregated tech-stack and category columns of the fetched rows.
 */
module JobsQuery {
  import opened Wrappers
  import opened Text
  import opened Sql
  import opened JobsUtils

  /** `page_size`. */
  const PageSize: int := 20

  /** The SELECT over postings, companies, locations and the junction tables; it keeps active postings only. */
  const BaseQuery: string :=
    "SELECT DISTINCT jp.posting_id, c.name as company_name, jp.title, jp.job_description, "
    + "jp.experience_level, jp.education_level, jp.employment_type, jp.salary_info, jp.location_id, "
    + "CONCAT(l.city, ' ', COALESCE(l.district, '')) as location, jp.deadline_date, jp.view_count, "
    + "jp.created_at, GROUP_CONCAT(DISTINCT ts.name) as tech_stacks, "
    + "GROUP_CONCAT(DISTINCT jc.name) as job_categories "
    + "FROM job_postings jp JOIN companies c ON jp.company_id = c.company_id "
    + "LEFT JOIN locations l ON jp.location_id = l.location_id "
    + "LEFT JOIN posting_tech_stacks pts ON jp.posting_id = pts.posting_id "
    + "LEFT JOIN tech_stacks ts ON pts.stack_id = ts.stack_id "
    + "LEFT JOIN posting_categories pc ON jp.posting_id = pc.posting_id "
    + "LEFT JOIN job_categories jc ON pc.category_id = jc.category_id "
    + ActiveOnly

  const ActiveOnly: string := "WHERE jp.status = 'active'"

  /** `filters.get(key)` for a text filter, when truthy. */
  function TextFilter(f: JobFilters, key: string): (r: Option<string>)
    ensures r.Some? ==> r.value != ""
  {
    if key in f.texts && f.texts[key] != "" then Some(f.texts[key]) else None
  }

  /** `filters.get(key, [])` for a list filter, [] when absent. */
  function ListFilter(f: JobFilters, key: string): seq<string>
  {
    if key in f.lists then f.lists[key] else []
  }

  /** `f"%{v}%"`. */
  function Like(v: string): SqlValue
  {
    SStr("%" + v + "%")
  }

  /** `valid_sort_fields.get(filters.get('sort_field'), 'jp.created_at')`. */
  function SortColumn(sortField: Option<string>): (r: string)
    ensures r == "jp.created_at" || r == "jp.view_count" || r == "jp.deadline_date" || r == "jp.title"
  {
    if sortField == Some("view_count") then "jp.view_count"
    else if sortField == Some("deadline_date") then "jp.deadline_date"
    else if sortField == Some("title") then "jp.title"
    else "jp.created_at"
  }

  /** `'DESC' if filters.get('sort_order', 'desc').lower() == 'desc' else 'ASC'`. */
  function SortDirection(sortOrder: Option<string>): (r: string)
    ensures r == "DESC" <==> Lower(if sortOrder.Some? then sortOrder.value else "desc") == "desc"
    ensures r == "DESC" || r == "ASC"
  {
    if Lower(if sortOrder.Some? then sortOrder.value else "desc") == "desc" then "DESC" else "ASC"
  }

  /** The parameter a present scalar filter adds: `%value%` for a LIKE, the value itself for `=`. */
  function FilterParam(v: Option<string>, like: bool): seq<SqlValue>
  {
    if v.None? then [] else if like then [Like(v.value)] else [SStr(v.value)]
  }

  /** The keyword is matched against the title and the description: its pattern is passed twice. */
  function KeywordParams(v: Option<string>): seq<SqlValue>
  {
    if v.None? then [] else [Like(v.value), Like(v.value)]
  }

  /** `filters.get('location_id')` is truthy: present and not 0. */
  predicate LocationApplied(f: JobFilters)
  {
    f.locationId.Some? && f.locationId.value != 0
  }

  function LocationParams(f: JobFilters): seq<SqlValue>
  {
    if LocationApplied(f) then [SInt(f.locationId.value)] else []
  }

  /** The `%s` parameters of the seven scalar filters, in the order they are added. */
  function ScalarParams(f: JobFilters): seq<SqlValue>
  {
    KeywordParams(TextFilter(f, "keyword"))
    + FilterParam(TextFilter(f, "company"), true)
    + FilterParam(TextFilter(f, "employment_type"), false)
    + FilterParam(TextFilter(f, "position"), true)
    + LocationParams(f)
    + FilterParam(TextFilter(f, "salary_info"), true)
    + FilterParam(TextFilter(f, "experience_level"), false)
  }

  /** All `%s` parameters: the scalar filters', then the tech-stack names, then the category names. */
  function FilterParams(f: JobFilters): seq<SqlValue>
  {
    ScalarParams(f) + Strs(ListFilter(f, "tech_stacks")) + Strs(ListFilter(f, "job_categories"))
  }

  function Strs(names: seq<string>): (r: seq<SqlValue>)
    ensures |r| == |names|
    ensures forall i :: 0 <= i < |names| ==> r[i] == SStr(names[i])
  {
    seq(|names|, i requires 0 <= i < |names| => SStr(names[i]))
  }

  function Count(b: bool): nat { if b then 1 else 0 }

  /** The keyword adds two parameters, each other present filter one, and each list one per element. */
  lemma FilterParamCount(f: JobFilters)
    ensures |FilterParams(f)| ==
      2 * Count(TextFilter(f, "keyword").Some?) + Count(TextFilter(f, "company").Some?)
      + Count(TextFilter(f, "employment_type").Some?) + Count(TextFilter(f, "position").Some?)
      + Count(LocationApplied(f)) + Count(TextFilter(f, "salary_info").Some?)
      + Count(TextFilter(f, "experience_level").Some?)
      + |ListFilter(f, "tech_stacks")| + |ListFilter(f, "job_categories")|
  {
  }

  /** `" AND <column> IN (%s,...,%s)"` for a non-empty list. */
  function InClause(column: string, n: nat): (q: Query)
    requires n >= 1
    ensures Placeholders(q) == n && NoSplice(q)
  {
    PlaceholdersAppend([Lit(" AND " + column + " IN (")], ParamList(n));
    PlaceholdersAppend([Lit(" AND " + column + " IN (")] + ParamList(n), [Lit(")")]);
    [Lit(" AND " + column + " IN (")] + ParamList(n) + [Lit(")")]
  }

  /** Appending one clause of the listing query, with its parameters. */
  method AddClause(q: Query, params: seq<SqlValue>, clause: Query, values: seq<SqlValue>)
    returns (q': Query, params': seq<SqlValue>)
    requires Placeholders(q) == |params| && Placeholders(clause) == |values|
    requires NoSplice(q) && NoSplice(clause)
    ensures q' == q + clause && params' == params + values
    ensures Placeholders(q') == |params'| && NoSplice(q')
  {
    PlaceholdersAppend(q, clause);
    q' := q + clause;
    params' := params + values;
  }

  /** Appending literal text, which adds no parameter. */
  method AddText(q: Query, params: seq<SqlValue>, text: string) returns (q': Query)
    requires Placeholders(q) == |params| && NoSplice(q)
    ensures q' == q + [Lit(text)]
    ensures Placeholders(q') == |params| && NoSplice(q')
  {
    PlaceholdersAppend(q, [Lit(text)]);
    q' := q + [Lit(text)];
  }

  /** One optional clause: it and its parameters are added only when the filter is applied. */
  method AddFilter(q: Query, params: seq<SqlValue>, clause: Query, values: seq<SqlValue>)
    returns (q': Query, params': seq<SqlValue>)
    requires Placeholders(q) == |params| && NoSplice(q) && |q| >= 1
    requires NoSplice(clause) && (values != [] ==> Placeholders(clause) == |values|)
    ensures params' == params + values
    ensures Placeholders(q') == |params'| && NoSplice(q')
    ensures |q'| >= 1 && q'[0] == q[0]
  {
    if values != [] {
      q', params' := AddClause(q, params, clause, values);
    } else {
      q', params' := q, params;
      assert params + values == params;
    }
  }

  /** `" AND (jp.title LIKE %s OR jp.job_description LIKE %s)"`. */
  function KeywordClause(): (q: Query)
    ensures Placeholders(q) == 2 && NoSplice(q)
  {
    var q := [Lit(" AND (jp.title LIKE "), Param, Lit(" OR jp.job_description LIKE "), Param, Lit(")")];
    PlaceholdersAppend(q[..2], q[2..]);
    assert q[..2] + q[2..] == q;
    q
  }

  /** `" AND <column> <op> %s"`: one condition with one parameter. */
  function Condition(column: string, op: string): (q: Query)
    ensures Placeholders(q) == 1 && NoSplice(q)
  {
    var q := [Lit(" AND " + column + " " + op + " "), Param];
    PlaceholdersAppend([q[0]], [Param]);
    assert [q[0]] + [Param] == q;
    q
  }

  /** The base SELECT and the seven scalar filters, each added only when truthy. */
  method ScalarClauses(f: JobFilters) returns (q: Query, params: seq<SqlValue>)
    ensures Placeholders(q) == |params| && NoSplice(q)
    ensures params == ScalarParams(f)
    ensures |q| >= 1 && q[0] == Lit(BaseQuery)
  {
    q := [Lit(BaseQuery)];
    var kw := KeywordParams(TextFilter(f, "keyword"));
    q, params := AddFilter(q, [], KeywordClause(), kw);
    assert params == kw;
    var values := FilterParam(TextFilter(f, "company"), true);
    q, params := AddFilter(q, params, Condition("c.name", "LIKE"), values);
    values := FilterParam(TextFilter(f, "employment_type"), false);
    q, params := AddFilter(q, params, Condition("jp.employment_type", "="), values);
    values := FilterParam(TextFilter(f, "position"), true);
    q, params := AddFilter(q, params, Condition("jp.title", "LIKE"), values);
    q, params := AddFilter(q, params, Condition("jp.location_id", "="), LocationParams(f));
    values := FilterParam(TextFilter(f, "salary_info"), true);
    q, params := AddFilter(q, params, Condition("jp.salary_info", "LIKE"), values);
    values := FilterParam(TextFilter(f, "experience_level"), false);
    q, params := AddFilter(q, params, Condition("jp.experience_level", "="), values);
  }

  /** `AND <column> IN (...)` with the names as parameters, added only for a non-empty list. */
  method ListClause(q: Query, params: seq<SqlValue>, column: string, names: seq<string>)
    returns (q': Query, params': seq<SqlValue>)
    requires Placeholders(q) == |params| && NoSplice(q) && |q| >= 1
    ensures Placeholders(q') == |params'| && NoSplice(q')
    ensures params' == params + Strs(names)
    ensures |q'| >= 1 && q'[0] == q[0]
  {
    if names == [] {
      q', params' := q, params;
    } else {
      q', params' := AddClause(q, params, InClause(column, |names|), Strs(names));
    }
  }

  /**
   * The query and parameters `list_jobs(filters, page)` executes. It starts
   * with the active-only SELECT, has exactly as many `%s` as parameters, and
   * ends with the grouping, the allow-listed ordering and the page window.
   */
  method ListJobsQuery(f: JobFilters, page: int) returns (q: Query, params: seq<SqlValue>)
    ensures Placeholders(q) == |params|
    ensures params == FilterParams(f)
    ensures NoSplice(q)
    ensures |q| >= 4 && q[0] == Lit(BaseQuery)
    ensures q[|q| - 3] == Lit(" GROUP BY jp.posting_id")
    ensures q[|q| - 2] == Lit(" ORDER BY " + SortColumn(f.sortField) + " " + SortDirection(f.sortOrder))
    ensures q[|q| - 1] == Lit(" LIMIT 20 OFFSET " + IntToString((page - 1) * PageSize))
  {
    q, params := ScalarClauses(f);
    q, params := ListClause(q, params, "ts.name", ListFilter(f, "tech_stacks"));
    q, params := ListClause(q, params, "jc.name", ListFilter(f, "job_categories"));
    q := AddText(q, params, " GROUP BY jp.posting_id");
    q := AddText(q, params, " ORDER BY " + SortColumn(f.sortField) + " " + SortDirection(f.sortOrder));
    q := AddText(q, params, " LIMIT 20 OFFSET " + IntToString((page - 1) * PageSize));
  }

  /** A fetched row, with the two GROUP_CONCAT columns still as text (NULL when nothing is linked). */
  datatype FetchedRow = FetchedRow(postingId: nat, techStacks: Option<string>, jobCategories: Option<string>)

  /** A row as `list_jobs` returns it, with both columns as lists. */
  datatype ListedJob = ListedJob(postingId: nat, techStacks: seq<string>, jobCategories: seq<string>)

  /** The loop over the fetched rows: each keeps its order and id, and NULL or "" becomes []. */
  method SplitRows(rows: seq<FetchedRow>) returns (jobs: seq<ListedJob>)
    ensures |jobs| == |rows|
    ensures forall i :: 0 <= i < |rows| ==>
      jobs[i] == ListedJob(rows[i].postingId, SplitAggregate(rows[i].techStacks), SplitAggregate(rows[i].jobCategories))
  {
    jobs := [];
    for i := 0 to |rows|
      invariant |jobs| == i
      invariant forall j :: 0 <= j < i ==>
        jobs[j] == ListedJob(rows[j].postingId, SplitAggregate(rows[j].techStacks), SplitAggregate(rows[j].jobCategories))
    {
      jobs := jobs + [ListedJob(rows[i].postingId, SplitAggregate(rows[i].techStacks), SplitAggregate(rows[i].jobCategories))];
    }
  }

  /** Row r of the ordered result is among the rows `LIMIT 20 OFFSET (page - 1) * 20` returns. */
  predicate InWindow(page: int, r: nat)
  {
    (page - 1) * PageSize <= r < (page - 1) * PageSize + PageSize
  }

  /**
   * The windows of pages 1, 2, ... tile the result: every row is returned
   * by exactly one page, page r / 20 + 1, so paging from page 1 on neither
   * skips nor repeats a row.
   */
  lemma PagesTileRows(r: nat)
    ensures InWindow(r / PageSize + 1, r)
    ensures forall page :: page >= 1 && InWindow(page, r) ==> page == r / PageSize + 1
  {
    var p := r / PageSize + 1;
    assert (p - 1) * PageSize == r - r % PageSize;
  }
}

=== FILE: jobs_routes.dfy ===
/**
 * `get_jobs` of app/jobs/routes.py: the listing endpoint that builds its SQL
 * directly from the query string. Filters become `%s` parameters, but the
 * `sort` and `order` arguments are pasted into ORDER BY as given.
 *
 * The two statements the endpoint executes are not run here: `found` is the
 * `FOUND_ROWS()` count the database answers, or None when it raises.
 */
module JobsRoutes {
  import opened Wrappers
  import opened Text
  import opened Sql
  import opened JobsUtils
  import opened JobsQuery

  const RouteBase: string :=
    "SELECT SQL_CALC_FOUND_ROWS j.*, c.name as company_name, c.location as company_location "
    + "FROM jobs j JOIN companies c ON j.company_id = c.id WHERE j.status = 'active'"

  /** `int(request.args.get(key, default))`: the default when absent, None when `int()` raises. */
  function IntArg(args: seq<Arg>, key: string, default: int): (r: Option<int>)
    ensures ArgGet(args, key).None? ==> r == Some(default)
    ensures ArgGet(args, key).Some? ==> r == ParseInt(ArgGet(args, key).value)
  {
    var v := ArgGet(args, key);
    if v.None? then Some(default) else ParseInt(v.value)
  }

  /** `request.args.get(key, default)`. */
  function TextArg(args: seq<Arg>, key: string, default: string): string
  {
    var v := ArgGet(args, key);
    if v.None? then default else v.value
  }

  /** The parameter a truthy filter adds (a LIKE pattern or the text itself), none otherwise. */
  function RouteParam(v: Option<string>, like: bool): seq<SqlValue>
  {
    if !Given(v) then [] else if like then [Like(v.value)] else [SStr(v.value)]
  }

  /** The keyword is matched against title, description and company name: three equal patterns. */
  function RouteKeywordParams(v: Option<string>): seq<SqlValue>
  {
    if !Given(v) then [] else [Like(v.value), Like(v.value), Like(v.value)]
  }

  /** The parameters of the one-placeholder filters: location, experience, education, salary bounds. */
  function RouteScalarParams(args: seq<Arg>): seq<SqlValue>
  {
    RouteParam(ArgGet(args, "location"), true)
    + RouteParam(ArgGet(args, "experience"), false)
    + RouteParam(ArgGet(args, "education"), false)
    + RouteParam(ArgGet(args, "salary_min"), false)
    + RouteParam(ArgGet(args, "salary_max"), false)
  }

  /** The filter parameters in clause order: the one-placeholder filters, then the keyword. */
  function RouteFilterParams(args: seq<Arg>): seq<SqlValue>
  {
    RouteScalarParams(args) + RouteKeywordParams(ArgGet(args, "keyword"))
  }

  /** Each truthy filter adds one parameter, the keyword three copies of one pattern. */
  lemma RouteFilterParamCount(args: seq<Arg>)
    ensures |RouteFilterParams(args)| ==
      Count(Given(ArgGet(args, "location"))) + Count(Given(ArgGet(args, "experience")))
      + Count(Given(ArgGet(args, "education"))) + Count(Given(ArgGet(args, "salary_min")))
      + Count(Given(ArgGet(args, "salary_max"))) + 3 * Count(Given(ArgGet(args, "keyword")))
    ensures Given(ArgGet(args, "keyword")) ==>
      var p := RouteFilterParams(args);
      var pattern := Like(ArgGet(args, "keyword").value);
      p[|p| - 3..] == [pattern, pattern, pattern]
  {
  }

  /** `" AND (j.title LIKE %s OR j.description LIKE %s OR c.name LIKE %s)"`. */
  function RouteKeywordClause(): (q: Query)
    ensures Placeholders(q) == 3 && NoSplice(q)
  {
    var q := [Lit(" AND (j.title LIKE "), Param, Lit(" OR j.description LIKE "), Param,
              Lit(" OR c.name LIKE "), Param, Lit(")")];
    PlaceholdersAppend(q[..2], q[2..]);
    PlaceholdersAppend(q[2..4], q[4..]);
    assert q[2..] == q[2..4] + q[4..];
    assert q[..2] + q[2..] == q;
    q
  }

  /** The base SELECT and the one-placeholder filter clauses. */
  method RouteScalarClauses(args: seq<Arg>) returns (q: Query, params: seq<SqlValue>)
    ensures Placeholders(q) == |params| && NoSplice(q)
    ensures params == RouteScalarParams(args)
    ensures |q| >= 1 && q[0] == Lit(RouteBase)
  {
    q := [Lit(RouteBase)];
    var values := RouteParam(ArgGet(args, "location"), true);
    q, params := AddFilter(q, [], Condition("c.location", "LIKE"), values);
    assert params == values;
    values := RouteParam(ArgGet(args, "experience"), false);
    q, params := AddFilter(q, params, Condition("j.experience", "="), values);
    values := RouteParam(ArgGet(args, "education"), false);
    q, params := AddFilter(q, params, Condition("j.education", "="), values);
    values := RouteParam(ArgGet(args, "salary_min"), false);
    q, params := AddFilter(q, params, Condition("j.salary", ">="), values);
    values := RouteParam(ArgGet(args, "salary_max"), false);
    q, params := AddFilter(q, params, Condition("j.salary", "<="), values);
  }

  /** The base SELECT and the filter clauses, with no caller text pasted in. */
  method RouteFilterClauses(args: seq<Arg>) returns (q: Query, params: seq<SqlValue>)
    ensures Placeholders(q) == |params| && NoSplice(q)
    ensures params == RouteFilterParams(args)
    ensures |q| >= 1 && q[0] == Lit(RouteBase)
  {
    q, params := RouteScalarClauses(args);
    var values := RouteKeywordParams(ArgGet(args, "keyword"));
    q, params := AddFilter(q, params, RouteKeywordClause(), values);
  }

  /** `" ORDER BY {sort} {order}"`: both texts pasted in verbatim. */
  function OrderBy(sort: string, order: string): (q: Query)
    ensures Placeholders(q) == 0 && SplicedTexts(q) == [sort, order]
    ensures Render(q) == " ORDER BY " + sort + " " + order
  {
    var a := [Lit(" ORDER BY "), Spliced(sort)];
    var b := [Lit(" "), Spliced(order)];
    PlaceholdersAppend(a, b);
    SplicedTextsAppend(a, b);
    RenderAppend(a, b);
    assert a[1..][1..] == [] && b[1..][1..] == [];
    a + b
  }

  /** `" LIMIT %s OFFSET %s"`. */
  function LimitOffset(): (q: Query)
    ensures Placeholders(q) == 2 && SplicedTexts(q) == [] && Render(q) == " LIMIT %s OFFSET %s"
  {
    var q := [Lit(" LIMIT "), Param, Lit(" OFFSET "), Param];
    PlaceholdersAppend(q[..2], q[2..]);
    SplicedTextsAppend(q[..2], q[2..]);
    RenderAppend(q[..2], q[2..]);
    assert q[..2] + q[2..] == q;
    q
  }

  /**
   * The query `get_jobs` executes: exactly as many `%s` as parameters,
   * per_page and offset as the last two parameters, and `sort` and `order`
   * as the only caller text in the SQL, pasted in just before the LIMIT.
   */
  method RouteQuery(args: seq<Arg>, sort: string, order: string, perPage: int, offset: int)
    returns (q: Query, params: seq<SqlValue>)
    ensures Placeholders(q) == |params|
    ensures params == RouteFilterParams(args) + [SInt(perPage), SInt(offset)]
    ensures SplicedTexts(q) == [sort, order]
    ensures EndsWith(Render(q), " ORDER BY " + sort + " " + order + " LIMIT %s OFFSET %s")
    ensures |q| >= 1 && q[0] == Lit(RouteBase)
  {
    var filtered;
    filtered, params := RouteFilterClauses(args);
    NoSpliceHasNoText(filtered);
    var tail := OrderBy(sort, order) + LimitOffset();
    PlaceholdersAppend(OrderBy(sort, order), LimitOffset());
    SplicedTextsAppend(OrderBy(sort, order), LimitOffset());
    RenderAppend(OrderBy(sort, order), LimitOffset());
    q := filtered + tail;
    PlaceholdersAppend(filtered, tail);
    SplicedTextsAppend(filtered, tail);
    RenderAppend(filtered, tail);
    params := params + [SInt(perPage), SInt(offset)];
    assert Render(q)[|Render(q)| - |Render(tail)|..] == Render(tail);
  }

  /** Python's `//`: the quotient rounded towards minus infinity; None for a zero divisor. */
  function FloorDiv(a: int, b: int): (r: Option<int>)
    ensures r.None? <==> b == 0
    ensures r.Some? ==> r.value * b <= a < r.value * b + b || r.value * b + b < a <= r.value * b
  {
    if b == 0 then None
    else if b > 0 then Some(a / b)
    else Some((-a) / (-b))
  }

  /** `(total + per_page - 1) // per_page`. */
  function Pages(total: nat, perPage: int): Option<int>
  {
    FloorDiv(total + perPage - 1, perPage)
  }

  /** For a positive page size, the page count is the least number of pages holding all rows. */
  lemma PagesIsCeiling(total: nat, perPage: int)
    requires perPage > 0
    ensures Pages(total, perPage).Some?
    ensures var pages := Pages(total, perPage).value;
      && pages * perPage >= total
      && (total > 0 ==> (pages - 1) * perPage < total)
      && (total == 0 ==> pages == 0)
  {
    var a := total + perPage - 1;
    var pages := a / perPage;
    var rest := a % perPage;
    assert a == pages * perPage + rest && 0 <= rest < perPage;
    assert (pages - 1) * perPage == pages * perPage - perPage;
  }

  datatype Pagination = Pagination(page: int, perPage: int, total: nat, pages: int)

  /** Why the endpoint answered 500: a non-integer page or per_page, a database error, or per_page 0. */
  datatype Failure = NotAnInteger | DatabaseError | DivisionByZero

  datatype JobsResponse =
    | Listing(query: Query, params: seq<SqlValue>, pagination: Pagination)
    | ServerError(failure: Failure)

  /** What the page and window tell the client. */
  predicate Paginated(p: Pagination, page: int, perPage: int, total: nat)
  {
    p.page == page && p.perPage == perPage && p.total == total && Some(p.pages) == Pages(total, perPage)
  }

  /**
   * What `get_jobs()` answers once page and per_page parsed: a failed
   * execution is a database error, a zero per_page a division by zero, and
   * otherwise the listing holds the filters' parameters then LIMIT and
   * OFFSET, as many placeholders as parameters, the sort and order arguments
   * as the only spliced text, and the pagination block.
   */
  predicate Answered(resp: JobsResponse, args: seq<Arg>, page: int, perPage: int, found: Option<nat>)
  {
    && (resp == ServerError(DatabaseError) <==> found.None?)
    && (resp == ServerError(DivisionByZero) <==> found.Some? && perPage == 0)
    && resp != ServerError(NotAnInteger)
    && (resp.Listing? ==>
          && Paginated(resp.pagination, page, perPage, found.value)
          && resp.params == RouteFilterParams(args) + [SInt(perPage), SInt((page - 1) * perPage)]
          && Placeholders(resp.query) == |resp.params|
          && SplicedTexts(resp.query) == [TextArg(args, "sort", "created_at"), TextArg(args, "order", "desc")])
  }

  /**
   * The part of `get_jobs()` after page and per_page parsed: the query is
   * built and executed, then the page count is computed.
   */
  method ListingFor(args: seq<Arg>, page: int, perPage: int, found: Option<nat>) returns (resp: JobsResponse)
    ensures Answered(resp, args, page, perPage, found)
  {
    var offset := (page - 1) * perPage;
    var sort := TextArg(args, "sort", "created_at");
    var order := TextArg(args, "order", "desc");
    var q, params := RouteQuery(args, sort, order, perPage, offset);
    if found.None? {
      return ServerError(DatabaseError);
    }
    var pages := Pages(found.value, perPage);
    if pages.None? {
      return ServerError(DivisionByZero);
    }
    resp := Listing(q, params, Pagination(page, perPage, found.value, pages.value));
  }

  /** `get_jobs()`: a page or per_page that is not an integer fails before anything is executed. */
  method GetJobs(args: seq<Arg>, found: Option<nat>) returns (resp: JobsResponse)
    ensures resp == ServerError(NotAnInteger) <==>
      IntArg(args, "page", 1).None? || IntArg(args, "per_page", 20).None?
    ensures IntArg(args, "page", 1).Some? && IntArg(args, "per_page", 20).Some? ==>
      Answered(resp, args, IntArg(args, "page", 1).value, IntArg(args, "per_page", 20).value, found)
  {
    var page := IntArg(args, "page", 1);
    if page.None? {
      return ServerError(NotAnInteger);
    }
    var perPage := IntArg(args, "per_page", 20);
    if perPage.None? {
      return ServerError(NotAnInteger);
    }
    resp := ListingFor(args, page.value, perPage.value, found);
  }

  /** Without page and per_page arguments the first 20 rows are asked for. */
  lemma DefaultWindow(args: seq<Arg>)
    requires ArgGet(args, "page").None? && ArgGet(args, "per_page").None?
    ensures IntArg(args, "page", 1) == Some(1) && IntArg(args, "per_page", 20) == Some(20)
  {
  }
}

=== FILE: jobs_utils.dfy ===
/**
 * app/jobs/utils.py: the checks `validate_job_data` makes on a decoded job
 * body, and `prepare_job_filters`, which turns the query string of a listing
 * request into the filter dict `Job.list_jobs` reads.
 */
module JobsUtils {
  import opened Wrappers
  import opened Text
  import opened JsonValue

  // ---------------------------------------------------------------------------
  // validate_job_data
  // ---------------------------------------------------------------------------

  /** title, job_description and company_id are all keys of the body. */
  predicate HasRequired(data: seq<Member>)
  {
    HasKey(data, "title") && HasKey(data, "job_description") && HasKey(data, "company_id")
  }

  /** A location value `validate_job_data` accepts: an object with a "city" key. */
  predicate LocationShape(v: Json)
  {
    v.JObj? && HasKey(v.members, "city")
  }

  /** The error message, or None when the body passes every check. */
  function ValidateJobData(data: seq<Member>): (r: Option<string>)
    ensures !HasRequired(data) ==> r == Some("Missing required fields")
  {
    if !HasRequired(data) then Some("Missing required fields")
    else if HasKey(data, "location") && !LocationShape(Get(data, "location").value) then Some("Invalid location format")
    else if HasKey(data, "tech_stacks") && !Get(data, "tech_stacks").value.JArr? then Some("tech_stacks must be a list")
    else if HasKey(data, "job_categories") && !Get(data, "job_categories").value.JArr? then Some("job_categories must be a list")
    else None
  }

  /** A body passes exactly when it has the required keys and every optional key it has is of the right shape. */
  predicate WellFormedJob(data: seq<Member>)
  {
    && HasRequired(data)
    && (HasKey(data, "location") ==> LocationShape(Get(data, "location").value))
    && (HasKey(data, "tech_stacks") ==> Get(data, "tech_stacks").value.JArr?)
    && (HasKey(data, "job_categories") ==> Get(data, "job_categories").value.JArr?)
  }

  /**
   * None exactly for well-formed bodies; otherwise the first failing check
   * names the error: the missing fields first, then the location, then the
   * two lists in order.
   */
  lemma ValidateJobDataSpec(data: seq<Member>)
    ensures ValidateJobData(data).None? <==> WellFormedJob(data)
    ensures ValidateJobData(data) == Some("Invalid location format") <==>
      HasRequired(data) && HasKey(data, "location") && !LocationShape(Get(data, "location").value)
    ensures ValidateJobData(data) == Some("tech_stacks must be a list") <==>
      && HasRequired(data)
      && (HasKey(data, "location") ==> LocationShape(Get(data, "location").value))
      && HasKey(data, "tech_stacks") && !Get(data, "tech_stacks").value.JArr?
    ensures ValidateJobData(data) == Some("job_categories must be a list") <==>
      && HasRequired(data)
      && (HasKey(data, "location") ==> LocationShape(Get(data, "location").value))
      && (HasKey(data, "tech_stacks") ==> Get(data, "tech_stacks").value.JArr?)
      && HasKey(data, "job_categories") && !Get(data, "job_categories").value.JArr?
  {
  }

  // ---------------------------------------------------------------------------
  // prepare_job_filters
  // ---------------------------------------------------------------------------

  /** One `key=value` pair of the query string, in order; a key may repeat. */
  datatype Arg = Arg(key: string, value: string)

  /** `args.get(key)`: the first value given for the key. */
  function ArgGet(args: seq<Arg>, key: string): (r: Option<string>)
    ensures r.None? <==> forall i :: 0 <= i < |args| ==> args[i].key != key
    ensures r.Some? ==> Arg(key, r.value) in args
  {
    if args == [] then None
    else if args[0].key == key then Some(args[0].value)
    else
      var r := ArgGet(args[1..], key);
      assert forall i :: 1 <= i < |args| ==> args[i] == args[1..][i - 1];
      r
  }

  /** `args.getlist(key)`: every value given for the key, in order. */
  function ArgList(args: seq<Arg>, key: string): (r: seq<string>)
    ensures r == [] <==> ArgGet(args, key).None?
    ensures r != [] ==> r[0] == ArgGet(args, key).value
    ensures |r| <= |args|
  {
    if args == [] then []
    else (if args[0].key == key then [args[0].value] else []) + ArgList(args[1..], key)
  }

  /** Truthiness of an optional text value. */
  predicate Given(s: Option<string>)
  {
    s.Some? && s.value != ""
  }

  /**
   * The filters dict: text filters by key, the integer location_id, the two
   * list filters by key, and the sort keys (None where the key is absent).
   */
  datatype JobFilters = JobFilters(
    texts: map<string, string>,
    locationId: Option<int>,
    lists: map<string, seq<string>>,
    sortField: Option<string>,
    sortOrder: Option<string>)

  /** The text filters, in the order they are copied. */
  const TextFields: seq<string> := ["keyword", "company", "employment_type", "position", "salary_info", "experience_level"]

  predicate IsTextField(k: string)
  {
    k == "keyword" || k == "company" || k == "employment_type"
    || k == "position" || k == "salary_info" || k == "experience_level"
  }

  /** The list filters, in the order they are copied. */
  const ListFields: seq<string> := ["tech_stacks", "job_categories"]

  predicate IsListField(k: string)
  {
    k == "tech_stacks" || k == "job_categories"
  }

  lemma FieldsListed()
    ensures forall k :: IsTextField(k) <==> k in TextFields
    ensures forall k :: IsListField(k) <==> k in ListFields
  {
    assert TextFields[0] == "keyword" && TextFields[1] == "company" && TextFields[2] == "employment_type";
    assert TextFields[3] == "position" && TextFields[4] == "salary_info" && TextFields[5] == "experience_level";
    assert ListFields[0] == "tech_stacks" && ListFields[1] == "job_categories";
  }

  /** The first loop of `prepare_job_filters`: the truthy text filters. */
  method CopyTextFilters(args: seq<Arg>) returns (texts: map<string, string>)
    ensures forall k :: k in texts <==> IsTextField(k) && Given(ArgGet(args, k))
    ensures forall k :: k in texts ==> ArgGet(args, k) == Some(texts[k])
  {
    FieldsListed();
    texts := map[];
    for i := 0 to |TextFields|
      invariant forall k :: k in texts <==> k in TextFields[..i] && Given(ArgGet(args, k))
      invariant forall k :: k in texts ==> ArgGet(args, k) == Some(texts[k])
    {
      assert TextFields[..i + 1] == TextFields[..i] + [TextFields[i]];
      var v := ArgGet(args, TextFields[i]);
      if Given(v) {
        texts := texts[TextFields[i] := v.value];
      }
    }
    assert TextFields[..|TextFields|] == TextFields;
  }

  /** The last loop: the list filters given at least once. */
  method CopyListFilters(args: seq<Arg>) returns (lists: map<string, seq<string>>)
    ensures forall k :: k in lists <==> IsListField(k) && ArgList(args, k) != []
    ensures forall k :: k in lists ==> lists[k] == ArgList(args, k)
  {
    FieldsListed();
    lists := map[];
    for i := 0 to |ListFields|
      invariant forall k :: k in lists <==> k in ListFields[..i] && ArgList(args, k) != []
      invariant forall k :: k in lists ==> lists[k] == ArgList(args, k)
    {
      assert ListFields[..i + 1] == ListFields[..i] + [ListFields[i]];
      var vs := ArgList(args, ListFields[i]);
      if vs != [] {
        lists := lists[ListFields[i] := vs];
      }
    }
    assert ListFields[..|ListFields|] == ListFields;
  }

  /** `prepare_job_filters(args)`. */
  method PrepareJobFilters(args: seq<Arg>) returns (f: JobFilters)
    ensures forall k :: k in f.texts <==> IsTextField(k) && Given(ArgGet(args, k))
    ensures forall k :: k in f.texts ==> ArgGet(args, k) == Some(f.texts[k])
    ensures f.locationId == (if Given(ArgGet(args, "location_id")) then ParseInt(ArgGet(args, "location_id").value) else None)
    ensures forall k :: k in f.lists <==> IsListField(k) && ArgList(args, k) != []
    ensures forall k :: k in f.lists ==> f.lists[k] == ArgList(args, k)
    ensures f.sortField == Some(if ArgGet(args, "sort_field").Some? then ArgGet(args, "sort_field").value else "created_at")
    ensures f.sortOrder == Some(if ArgGet(args, "sort_order").Some? then ArgGet(args, "sort_order").value else "desc")
  {
    var texts := CopyTextFilters(args);
    var locationId: Option<int> := None;
    var loc := ArgGet(args, "location_id");
    if Given(loc) {
      locationId := ParseInt(loc.value);
    }
    var lists := CopyListFilters(args);
    var sortField := ArgGet(args, "sort_field");
    var sortOrder := ArgGet(args, "sort_order");
    f := JobFilters(texts, locationId, lists,
      Some(if sortField.Some? then sortField.value else "created_at"),
      Some(if sortOrder.Some? then sortOrder.value else "desc"));
  }

  /** A location_id that is not an integer is dropped, not an error: "12" gives 12, "abc" gives nothing. */
  lemma LocationIdParsed()
    ensures ParseInt("12") == Some(12)
    ensures ParseInt("abc") == None
  {
    ParseIntOfDigits("12");
    assert DigitsValue("12") == 12 by {
      assert "12"[..1] == "1";
    }
    assert Strip("abc") == "abc" by {
      StripNoSpace("abc");
    }
  }
}

=== FILE: json.dfy ===
/**
 * Decoded JSON request and response bodies (what `request.get_json()`
 * returns), and Python's truthiness on them. Objects keep their members in
 * text order; `json.loads` keeps the last of duplicate keys.
 */
module JsonValue {
  import opened Wrappers

  datatype Json =
    | JNull
    | JBool(b: bool)
    | JNum(n: int)
    | JStr(s: string)
    | JArr(items: seq<Json>)
    | JObj(members: seq<Member>)

  datatype Member = Member(key: string, value: Json)

  /** `bool(v)` in Python for the decoded value. */
  predicate Truthy(j: Json)
  {
    match j
    case JNull => false
    case JBool(b) => b
    case JNum(n) => n != 0
    case JStr(s) => s != ""
    case JArr(items) => items != []
    case JObj(members) => members != []
  }

  predicate HasKey(members: seq<Member>, key: string)
  {
    exists i :: 0 <= i < |members| && members[i].key == key
  }

  /** `d.get(key)`: the value of the last member named `key`. */
  function Get(members: seq<Member>, key: string): (r: Option<Json>)
    ensures r.Some? <==> HasKey(members, key)
    ensures r.Some? ==> exists i :: 0 <= i < |members| && members[i] == Member(key, r.value)
                                   && forall k :: i < k < |members| ==> members[k].key != key
  {
    if members == [] then None
    else
      var last := members[|members| - 1];
      if last.key == key then Some(last.value)
      else
        var r := Get(members[..|members| - 1], key);
        assert HasKey(members, key) ==> HasKey(members[..|members| - 1], key);
        r
  }
}

=== FILE: listing.dfy ===
/**
 * One `item_recruit` entry of a Saramin search-result page, as the two
 * crawlers see it: each CSS selector they use either finds an element or
 * not. Only the text and the `href` of an element are read.
 */
module Listing {
  import opened Wrappers

  datatype Elem = Elem(text: string, href: Option<string>)

  datatype Item = Item(
    jobTit: Option<Elem>,        // `[class*="job_tit"]`
    jobTitAnchor: Option<Elem>,  // `[class*="job_tit"] a`
    corpName: Option<Elem>,      // `[class*="corp_name"]`
    corpNameAnchor: Option<Elem>, // `[class*="corp_name"] a`
    conditions: seq<string>,     // texts of `[class*="job_condition"] > span`, in document order
    date: Option<Elem>,          // `[class*="date"]`
    sector: Option<Elem>)        // `[class*="job_sector"]`

  /** `details[i].text if len(details) > i else ''`. */
  function Span(details: seq<string>, i: nat): (r: string)
    ensures i < |details| ==> r == details[i]
    ensures i >= |details| ==> r == ""
  {
    if i < |details| then details[i] else ""
  }
}

=== FILE: local_crawler.dfy ===
/**
 * `LocalSaraminCrawler` of Crawl/scripts/local_crawler.py: the HTTP variant of
 * the crawler. `current_page` is a field of the crawler that one call of
 * `crawl_jobs` advances and that the next call starts from.
 *
 * The HTTP session is not modelled: what each page request returns is given
 * by a `fetch` function.
 */
module LocalCrawler {
  import opened Wrappers
  import opened Text
  import opened Listing

  /** `self.MAX_PAGES`. */
  const MaxPages: int := 10

  /** The dict `extract_job_info` builds; every field is stripped. */
  datatype LocalRecord = LocalRecord(
    title: string,
    companyName: string,
    location: string,
    experience: string,
    education: string,
    deadline: string)

  /** The record of a listing item, or None unless it has both the title anchor and the company anchor. */
  function ExtractJobInfo(item: Item): (r: Option<LocalRecord>)
    ensures r.Some? <==> item.jobTitAnchor.Some? && item.corpNameAnchor.Some?
  {
    if item.jobTitAnchor.Some? && item.corpNameAnchor.Some? then
      Some(LocalRecord(
        Strip(item.jobTitAnchor.value.text),
        Strip(item.corpNameAnchor.value.text),
        Strip(Span(item.conditions, 0)),
        Strip(Span(item.conditions, 1)),
        Strip(Span(item.conditions, 2)),
        if item.date.Some? then Strip(item.date.value.text) else ""))
    else None
  }

  /** No field of a record starts or ends with whitespace. */
  predicate Stripped(s: string)
  {
    s == [] || (!IsSpace(s[0]) && !IsSpace(s[|s| - 1]))
  }

  /** Every field is stripped, and absent condition spans or date give "". */
  lemma ExtractedFields(item: Item)
    requires ExtractJobInfo(item).Some?
    ensures var r := ExtractJobInfo(item).value;
      && Stripped(r.title) && Stripped(r.companyName) && Stripped(r.location)
      && Stripped(r.experience) && Stripped(r.education) && Stripped(r.deadline)
      && r.title == Strip(item.jobTitAnchor.value.text)
      && r.companyName == Strip(item.corpNameAnchor.value.text)
      && (|item.conditions| < 1 ==> r.location == "")
      && (|item.conditions| < 2 ==> r.experience == "")
      && (|item.conditions| < 3 ==> r.education == "")
      && (item.date.None? ==> r.deadline == "")
      && (item.date.Some? ==> r.deadline == Strip(item.date.value.text))
  {
    assert Strip("") == "";
  }

  /** The page's records: the items extracted in order, None dropped. */
  function Extracted(items: seq<Item>): (r: seq<LocalRecord>)
    ensures |r| <= |items|
  {
    if items == [] then []
    else
      var last := ExtractJobInfo(items[|items| - 1]);
      Extracted(items[..|items| - 1]) + (if last.Some? then [last.value] else [])
  }

  /** When every item has both anchors, each gives one record. */
  lemma {:induction false} ExtractedKeepsAll(items: seq<Item>)
    requires forall i :: 0 <= i < |items| ==> ExtractJobInfo(items[i]).Some?
    ensures |Extracted(items)| == |items|
    decreases |items|
  {
    if items != [] {
      ExtractedKeepsAll(items[..|items| - 1]);
    }
  }

  /** What a page request gave: the `.item_recruit` elements, or an exception. */
  datatype Fetch = Fetched(items: seq<Item>) | FetchFailed

  /** The loop breaks on this response: an exception, or a page with no elements. */
  predicate Stops(response: Fetch)
  {
    response.FetchFailed? || response.items == []
  }

  /** `all_jobs` and `current_page` when the loop stops. */
  datatype Crawl = Crawl(records: seq<LocalRecord>, page: int)

  /**
   * The while loop from `current_page == page`, with `acc` collected so far:
   * it stops past MAX_PAGES, at the first page with no elements, or at the
   * first exception; `current_page` moves on only after a non-empty page.
   */
  function CrawlFrom(fetch: int -> Fetch, page: int, acc: seq<LocalRecord>): Crawl
    decreases MaxPages + 1 - page
  {
    if page > MaxPages || Stops(fetch(page)) then Crawl(acc, page)
    else CrawlFrom(fetch, page + 1, acc + Extracted(fetch(page).items))
  }

  class LocalSaraminCrawler {
    var currentPage: int

    constructor ()
      ensures currentPage == 1
    {
      currentPage := 1;
    }

    /** The inner loop over a page's elements. */
    static method ExtractPage(items: seq<Item>) returns (recs: seq<LocalRecord>)
      ensures recs == Extracted(items)
    {
      recs := [];
      for k := 0 to |items|
        invariant recs == Extracted(items[..k])
      {
        assert items[..k + 1][..k] == items[..k];
        var info := ExtractJobInfo(items[k]);
        if info.Some? {
          recs := recs + [info.value];
        }
      }
      assert items[..|items|] == items;
    }

    /**
     * `crawl_jobs()`: returns `len(all_jobs)`, and the rows `save_to_csv`
     * is given (none when nothing was found, as it is then not called).
     */
    method CrawlJobs(fetch: int -> Fetch) returns (count: nat, csvRows: seq<LocalRecord>)
      modifies this
      ensures currentPage == CrawlFrom(fetch, old(currentPage), []).page
      ensures csvRows == CrawlFrom(fetch, old(currentPage), []).records
      ensures count == |csvRows|
    {
      ghost var spec := CrawlFrom(fetch, currentPage, []);
      var allJobs: seq<LocalRecord> := [];
      var page := currentPage;
      while page <= MaxPages
        invariant CrawlFrom(fetch, page, allJobs) == spec
        decreases MaxPages + 1 - page
      {
        var response := fetch(page);
        if Stops(response) {
          break;
        }
        var recs := ExtractPage(response.items);
        allJobs := allJobs + recs;
        page := page + 1;
      }
      currentPage := page;
      count := |allJobs|;
      csvRows := allJobs;
    }
  }

  // ---------------------------------------------------------------------------
  // Properties of the page loop
  // ---------------------------------------------------------------------------

  /** The records are those collected before, then the new pages' records in order. */
  lemma {:induction false} CrawlKeepsEarlier(fetch: int -> Fetch, page: int, acc: seq<LocalRecord>)
    ensures acc <= CrawlFrom(fetch, page, acc).records
    decreases MaxPages + 1 - page
  {
    if page <= MaxPages && !Stops(fetch(page)) {
      CrawlKeepsEarlier(fetch, page + 1, acc + Extracted(fetch(page).items));
    }
  }

  /** `current_page` never moves back and, starting at most MAX_PAGES + 1, never passes MAX_PAGES + 1. */
  lemma {:induction false} CrawlPageBound(fetch: int -> Fetch, page: int, acc: seq<LocalRecord>)
    ensures page <= CrawlFrom(fetch, page, acc).page
    ensures page <= MaxPages + 1 ==> CrawlFrom(fetch, page, acc).page <= MaxPages + 1
    decreases MaxPages + 1 - page
  {
    if page <= MaxPages && !Stops(fetch(page)) {
      CrawlPageBound(fetch, page + 1, acc + Extracted(fetch(page).items));
    }
  }

  /** The loop stops on the page it ends at because that page failed, was empty, or is past MAX_PAGES. */
  lemma {:induction false} CrawlStopsAt(fetch: int -> Fetch, page: int, acc: seq<LocalRecord>)
    ensures var p := CrawlFrom(fetch, page, acc).page;
      p > MaxPages || Stops(fetch(p))
    decreases MaxPages + 1 - page
  {
    if page <= MaxPages && !Stops(fetch(page)) {
      CrawlStopsAt(fetch, page + 1, acc + Extracted(fetch(page).items));
    }
  }

  /** Twenty complete items on page 1 and an empty page 2: 20 records, and the next call starts at page 2. */
  lemma TwentyThenEmpty(fetch: int -> Fetch)
    requires fetch(1).Fetched? && |fetch(1).items| == 20
    requires forall i :: 0 <= i < 20 ==> ExtractJobInfo(fetch(1).items[i]).Some?
    requires fetch(2) == Fetched([])
    ensures |CrawlFrom(fetch, 1, []).records| == 20 && CrawlFrom(fetch, 1, []).page == 2
  {
    ExtractedKeepsAll(fetch(1).items);
    assert CrawlFrom(fetch, 1, []) == CrawlFrom(fetch, 2, [] + Extracted(fetch(1).items));
  }

  /** Once `current_page` is past MAX_PAGES a call visits nothing, returns 0 and leaves the field as it is. */
  lemma ExhaustedCrawlerFindsNothing(fetch: int -> Fetch, page: int)
    requires page > MaxPages
    ensures CrawlFrom(fetch, page, []) == Crawl([], page)
  {
  }

  /** A run over all ten pages, each non-empty, leaves `current_page` at 11, so the next call returns 0. */
  lemma {:induction false} FullRunExhausts(fetch: int -> Fetch, page: int, acc: seq<LocalRecord>)
    requires page >= 1
    requires forall p :: page <= p <= MaxPages ==> !Stops(fetch(p))
    ensures page <= MaxPages + 1 ==> CrawlFrom(fetch, page, acc).page == MaxPages + 1
    decreases MaxPages + 1 - page
  {
    if page <= MaxPages {
      FullRunExhausts(fetch, page + 1, acc + Extracted(fetch(page).items));
    }
  }
}

=== FILE: location_config.dfy ===
/**
 * `LocationConfig` of app/config/location_config.py: the Saramin region
 * codes, grouped by area, and `get_code`.
 */
module LocationConfig {
  import opened Wrappers
  import opened CodeTables

  /** `_codes`, in insertion order. */
  const Codes: seq<Group> := [
    Group("수도권", [Entry("서울", "101000"), Entry("경기", "102000"), Entry("인천", "108000")]),
    Group("광역시", [Entry("부산", "106000"), Entry("대구", "104000"), Entry("광주", "103000"),
                  Entry("대전", "105000"), Entry("울산", "107000"), Entry("세종", "118000")]),
    Group("도", [Entry("강원", "109000"), Entry("경남", "110000"), Entry("경북", "111000"),
               Entry("전남", "112000"), Entry("전북", "113000"), Entry("충남", "115000"),
               Entry("충북", "114000"), Entry("제주", "116000")]),
    Group("해외", [Entry("아시아", "210000"), Entry("북미", "220000"), Entry("유럽", "240000"),
                 Entry("오세아니아", "250000")])
  ]

  /** `get_code(region, sub_region)`. */
  function GetCode(region: string, subRegion: Option<string>): Option<string>
  {
    CodeTables.GetCode(Codes, region, subRegion)
  }

  /** Within each group, and between any two groups, names differ and codes differ. */
  lemma GroupsDistinct(byCode: bool)
    ensures forall g :: 0 <= g < |Codes| ==> DistinctBy(Codes[g].entries, byCode)
  {
  }

  lemma MetroCitiesDisjoint(byCode: bool)
    ensures DisjointBy(Codes[0].entries, Codes[1].entries, byCode)
  {
  }

  lemma MetroProvincesDisjoint(byCode: bool)
    ensures DisjointBy(Codes[0].entries, Codes[2].entries, byCode)
  {
  }

  lemma MetroOverseasDisjoint(byCode: bool)
    ensures DisjointBy(Codes[0].entries, Codes[3].entries, byCode)
  {
  }

  lemma CitiesProvincesDisjoint(byCode: bool)
    ensures DisjointBy(Codes[1].entries, Codes[2].entries, byCode)
  {
  }

  lemma CitiesOverseasDisjoint(byCode: bool)
    ensures DisjointBy(Codes[1].entries, Codes[3].entries, byCode)
  {
  }

  lemma ProvincesOverseasDisjoint(byCode: bool)
    ensures DisjointBy(Codes[2].entries, Codes[3].entries, byCode)
  {
  }

  /** All 21 leaf names are distinct, and so are all 21 codes. */
  lemma LeavesDistinct()
    ensures DistinctNames(Leaves(Codes)) && DistinctCodes(Leaves(Codes))
  {
    GroupsDistinct(false);
    MetroCitiesDisjoint(false); MetroProvincesDisjoint(false); MetroOverseasDisjoint(false); CitiesProvincesDisjoint(false); CitiesOverseasDisjoint(false); ProvincesOverseasDisjoint(false);
    LeavesDistinctBy(Codes, false);
    GroupsDistinct(true);
    MetroCitiesDisjoint(true); MetroProvincesDisjoint(true); MetroOverseasDisjoint(true); CitiesProvincesDisjoint(true); CitiesOverseasDisjoint(true); ProvincesOverseasDisjoint(true);
    LeavesDistinctBy(Codes, true);
  }

  lemma CodesAreDict()
    ensures IsDict(Codes)
  {
    GroupsDistinct(false);
  }

  lemma CodesAreNonEmpty()
    ensures CodesNonEmpty(Codes)
  {
  }

  /** `_codes` is a dict of dicts with non-empty codes. */
  lemma CodesWellFormed()
    ensures IsDict(Codes) && CodesNonEmpty(Codes)
  {
    CodesAreDict();
    CodesAreNonEmpty();
  }

  /** With a truthy `sub_region` the result is `_codes[region][sub_region]`, or None when either key is unknown. */
  lemma GetCodeWithSubRegion(region: string, subRegion: Option<string>, c: string)
    requires Truthy(subRegion)
    ensures GetCode(region, subRegion) == Some(c) <==>
      exists g :: 0 <= g < |Codes| && Codes[g].name == region && Entry(subRegion.value, c) in Codes[g].entries
  {
    CodesWellFormed();
    TwoLevelExact(Codes, region, subRegion.value, c);
  }

  /** Without a sub-region the result is the code of the leaf named `region`, in whichever group it is. */
  lemma GetCodeByLeaf(region: string, subRegion: Option<string>, c: string)
    requires !Truthy(subRegion)
    ensures GetCode(region, subRegion) == Some(c) <==> Entry(region, c) in Leaves(Codes)
  {
    LeavesDistinct();
    FindLeafUnique(Codes, region, c);
  }

  /** No leaf is named like a group. */
  lemma NoLeafNamed(name: string)
    requires name == "수도권" || name == "광역시" || name == "도" || name == "해외"
    ensures forall i, k :: 0 <= i < |Codes| && 0 <= k < |Codes[i].entries| ==> Codes[i].entries[k].name != name
  {
  }

  /** A group name is not a leaf: "수도권", "광역시", "도" and "해외" give None without a sub-region. */
  lemma GroupNamesAreNotLeaves(g: nat, subRegion: Option<string>)
    requires g < |Codes| && !Truthy(subRegion)
    ensures GetCode(Codes[g].name, subRegion) == None
  {
    NoLeafNamed(Codes[g].name);
    FindLeafAbsent(Codes, Codes[g].name);
  }

  /** A found code is never "", so `if code := ...` in the caller sees every hit. */
  lemma FoundCodeIsTruthy(region: string, subRegion: Option<string>)
    ensures GetCode(region, subRegion).Some? ==> Truthy(GetCode(region, subRegion))
  {
    CodesWellFormed();
    GetCodeTruthy(Codes, region, subRegion);
  }

  /** Seoul by its leaf name alone gives 101000. */
  lemma SeoulByLeaf()
    ensures GetCode("서울", None) == Some("101000")
  {
  }

  /** Seoul under its group gives 101000 too. */
  lemma SeoulByGroup()
    ensures GetCode("수도권", Some("서울")) == Some("101000")
  {
  }
}

=== FILE: params_code.dfy ===
/**
 * app/crawling/params_code.py: the crawler's own copy of the code tables,
 * the lookups and `SearchParams.build_params`. Its tables are literally those
 * of app/config, so every lookup and the parameter map agree with the
 * `LocationConfig`, `JobConfig` and `SearchConfig` modules on every input,
 * and the properties proved there carry over.
 */
module ParamsCode {
  import opened Wrappers
  import opened CodeTables
  import LocationConfig
  import JobConfig
  import SearchConfig

  /** `LocationConfig._codes`. */
  const LocationCodes: seq<Group> := [
    Group("수도권", [Entry("서울", "101000"), Entry("경기", "102000"), Entry("인천", "108000")]),
    Group("광역시", [Entry("부산", "106000"), Entry("대구", "104000"), Entry("광주", "103000"),
                  Entry("대전", "105000"), Entry("울산", "107000"), Entry("세종", "118000")]),
    Group("도", [Entry("강원", "109000"), Entry("경남", "110000"), Entry("경북", "111000"),
               Entry("전남", "112000"), Entry("전북", "113000"), Entry("충남", "115000"),
               Entry("충북", "114000"), Entry("제주", "116000")]),
    Group("해외", [Entry("아시아", "210000"), Entry("북미", "220000"), Entry("유럽", "240000"),
                 Entry("오세아니아", "250000")])
  ]

  /** `JobConfig._categories`. */
  const JobCategories: seq<Group> := [
    Group("개발", [Entry("백엔드", "2001"), Entry("프론트엔드", "2002"), Entry("풀스택", "2003"),
                 Entry("모바일", "2004"), Entry("데이터", "2005"), Entry("DevOps", "2006")]),
    Group("기획", [Entry("서비스기획", "1601"), Entry("프로젝트관리", "1602"), Entry("전략기획", "1603")]),
    Group("디자인", [Entry("UX/UI", "1501"), Entry("웹디자인", "1502"), Entry("그래픽", "1503")])
  ]

  /** `SearchConfig._sort_options`. */
  const SortOptions: seq<Entry> := [
    Entry("최신순", "latest"), Entry("관련도순", "relevance"),
    Entry("마감임박순", "deadline"), Entry("경력순", "experience")]

  /** `SearchConfig._filters`. */
  const Filters: seq<Group> := [
    Group("경력", [Entry("신입", "1"), Entry("경력", "2"), Entry("무관", "0")]),
    Group("고용형태", [Entry("정규직", "1"), Entry("계약직", "2"), Entry("인턴", "3")])
  ]

  /** `LocationConfig.get_code(region, sub_region)`. */
  function LocationCode(region: string, subRegion: Option<string>): Option<string>
  {
    GetCode(LocationCodes, region, subRegion)
  }

  /** `JobConfig.get_code(category, sub_category)`. */
  function JobCode(category: string, subCategory: Option<string>): Option<string>
  {
    GetCode(JobCategories, category, subCategory)
  }

  /** `SearchConfig.get_sort_code(sort_type)`. */
  function SortCode(sortType: string): Option<string>
  {
    Find(SortOptions, sortType)
  }

  /** `SearchConfig.get_filter_code(filter_type, value)`. */
  function FilterCode(filterType: string, value: string): Option<string>
  {
    TwoLevel(Filters, filterType, value)
  }

  /** The codes `build_params` looks up, each only when its argument is truthy. */
  function Resolve(args: SearchArgs): Resolved
  {
    Resolved(
      if Truthy(args.region) then LocationCode(args.region.value, None) else None,
      if Truthy(args.job) then JobCode(args.job.value, None) else None,
      if Truthy(args.sort) then SortCode(args.sort.value) else None,
      if Truthy(args.experience) then FilterCode("경력", args.experience.value) else None,
      if Truthy(args.employment) then FilterCode("고용형태", args.employment.value) else None)
  }

  /** `SearchParams.build_params(**kwargs)`. */
  function BuildParams(args: SearchArgs): map<string, Value>
  {
    Assemble(args, Resolve(args))
  }

  /** The crawler's tables are the configuration's tables. */
  lemma TablesAgree()
    ensures LocationCodes == LocationConfig.Codes
    ensures JobCategories == JobConfig.Categories
    ensures SortOptions == SearchConfig.SortOptions
    ensures Filters == SearchConfig.Filters
  {
  }

  /** Both `get_code`s of the location table agree on every input. */
  lemma LocationAgrees(region: string, subRegion: Option<string>)
    ensures LocationCode(region, subRegion) == LocationConfig.GetCode(region, subRegion)
  {
    TablesAgree();
  }

  /** Both `get_code`s of the category table agree on every input. */
  lemma JobAgrees(category: string, subCategory: Option<string>)
    ensures JobCode(category, subCategory) == JobConfig.GetCode(category, subCategory)
  {
    TablesAgree();
  }

  /** Both sort and filter lookups agree on every input. */
  lemma SearchAgrees(sortType: string, filterType: string, value: string)
    ensures SortCode(sortType) == SearchConfig.GetSortCode(sortType)
    ensures FilterCode(filterType, value) == SearchConfig.GetFilterCode(filterType, value)
  {
    TablesAgree();
  }

  /** Both `build_params` give the same map for the same arguments. */
  lemma BuildParamsAgrees(args: SearchArgs)
    ensures BuildParams(args) == SearchConfig.BuildParams(args)
  {
    ResolveAgrees(args);
  }

  lemma ResolveAgrees(args: SearchArgs)
    ensures Resolve(args) == SearchConfig.Resolve(args)
  {
    var r, q := Resolve(args), SearchConfig.Resolve(args);
    if Truthy(args.region) {
      LocationAgrees(args.region.value, None);
    }
    if Truthy(args.job) {
      JobAgrees(args.job.value, None);
    }
    if Truthy(args.sort) {
      SearchAgrees(args.sort.value, "", "");
    }
    if Truthy(args.experience) {
      SearchAgrees("", "경력", args.experience.value);
    }
    if Truthy(args.employment) {
      SearchAgrees("", "고용형태", args.employment.value);
    }
    assert r.loc == q.loc && r.job == q.job && r.sort == q.sort && r.exp == q.exp && r.emp == q.emp;
  }

  /** With a truthy sub-region: a two-level lookup, None when either key is unknown. */
  lemma LocationWithSubRegion(region: string, subRegion: Option<string>, c: string)
    requires Truthy(subRegion)
    ensures LocationCode(region, subRegion) == Some(c) <==>
      exists g :: 0 <= g < |LocationCodes| && LocationCodes[g].name == region
        && Entry(subRegion.value, c) in LocationCodes[g].entries
  {
    TablesAgree();
    LocationConfig.GetCodeWithSubRegion(region, subRegion, c);
  }

  /** Without one: the code of the leaf named `region`, and None for a group name such as "수도권". */
  lemma LocationByLeaf(region: string, subRegion: Option<string>, c: string)
    requires !Truthy(subRegion)
    ensures LocationCode(region, subRegion) == Some(c) <==> Entry(region, c) in Leaves(LocationCodes)
    ensures (exists g :: 0 <= g < |LocationCodes| && LocationCodes[g].name == region) ==>
      LocationCode(region, subRegion) == None
  {
    TablesAgree();
    LocationConfig.GetCodeByLeaf(region, subRegion, c);
    if g :| 0 <= g < |LocationCodes| && LocationCodes[g].name == region {
      LocationConfig.GroupNamesAreNotLeaves(g, subRegion);
    }
  }

  /** The category lookup has the same two modes. */
  lemma JobModes(category: string, subCategory: Option<string>, c: string)
    ensures Truthy(subCategory) ==> (JobCode(category, subCategory) == Some(c) <==>
      exists g :: 0 <= g < |JobCategories| && JobCategories[g].name == category
        && Entry(subCategory.value, c) in JobCategories[g].entries)
    ensures !Truthy(subCategory) ==> (JobCode(category, subCategory) == Some(c) <==>
      Entry(category, c) in Leaves(JobCategories))
    ensures !Truthy(subCategory) && (exists g :: 0 <= g < |JobCategories| && JobCategories[g].name == category) ==>
      JobCode(category, subCategory) == None
  {
    TablesAgree();
    if Truthy(subCategory) {
      JobConfig.GetCodeWithSubCategory(category, subCategory, c);
    } else {
      JobConfig.GetCodeByLeaf(category, subCategory, c);
      if g :| 0 <= g < |JobCategories| && JobCategories[g].name == category {
        JobConfig.GroupNamesAreNotLeaves(g, subCategory);
      }
    }
  }

  /** An unknown sort label, or an unknown filter type, gives None. */
  lemma UnknownOptions(sortType: string, filterType: string, value: string)
    ensures SortCode(sortType).None? <==>
      !(sortType == "최신순" || sortType == "관련도순" || sortType == "마감임박순" || sortType == "경력순")
    ensures filterType != "경력" && filterType != "고용형태" ==> FilterCode(filterType, value) == None
  {
    SearchAgrees(sortType, filterType, value);
    SearchConfig.SortLabels(sortType);
    if filterType != "경력" && filterType != "고용형태" {
      SearchConfig.UnknownFilterType(filterType, value);
    }
  }

  /** All leaf names, and all codes, are distinct in both tables: first-match lookup does not depend on order. */
  lemma LeavesDistinct()
    ensures DistinctNames(Leaves(LocationCodes)) && DistinctCodes(Leaves(LocationCodes))
    ensures DistinctNames(Leaves(JobCategories)) && DistinctCodes(Leaves(JobCategories))
  {
    TablesAgree();
    LocationConfig.LeavesDistinct();
    JobConfig.LeavesDistinct();
  }

  /** The fixed keys are always there, with "" and 1 as the defaults of keyword and page. */
  lemma BuildParamsFixedKeys(args: SearchArgs)
    ensures var p := BuildParams(args);
      && "searchType" in p && p["searchType"] == Text("search")
      && "searchword" in p && p["searchword"] == Text(if args.keyword.Some? then args.keyword.value else "")
      && "recruitPage" in p && p["recruitPage"] == Number(if args.page.Some? then args.page.value else 1)
  {
    AssembleFixedKeys(args, Resolve(args));
  }

  /** Each code key is there exactly when its argument is truthy and its code resolves; nothing else is. */
  lemma BuildParamsCodeKeys(args: SearchArgs)
    ensures var p := BuildParams(args);
      && ("loc_cd" in p <==> Truthy(args.region) && LocationCode(args.region.value, None).Some?)
      && ("job_cd" in p <==> Truthy(args.job) && JobCode(args.job.value, None).Some?)
      && ("sort" in p <==> Truthy(args.sort) && SortCode(args.sort.value).Some?)
      && ("exp_cd" in p <==> Truthy(args.experience) && FilterCode("경력", args.experience.value).Some?)
      && ("emp_cd" in p <==> Truthy(args.employment) && FilterCode("고용형태", args.employment.value).Some?)
      && (forall k :: k in p ==> ParamKey(k))
  {
    BuildParamsAgrees(args);
    ResolveAgrees(args);
    SearchConfig.BuildParamsRegion(args);
    SearchConfig.BuildParamsJob(args);
    SearchConfig.BuildParamsSort(args);
    SearchConfig.BuildParamsFilters(args);
    SearchConfig.BuildParamsOnlyParamKeys(args);
  }
}

=== FILE: rate_limit.dfy ===
/**
 * The `rate_limit` decorator and `api_rate_limit` of
 * app/middleware/rate_limit.py: a fixed-window request counter per client
 * kept in Redis.
 *
 * The Redis database is a map from key to counter. A key's time to live is
 * not modelled as time: the end of a window is the separate `ExpireWindow`
 * operation, which is what Redis does when the TTL set by `setex` runs out.
 * Where a Redis call raises is a parameter, as is the wrapped handler's
 * response.
 */
module RateLimit {
  import opened Wrappers

  /** `rate_limit()`'s default `requests`. */
  const DefaultRequests := 100
  /** `rate_limit()`'s default `window`, in seconds. */
  const DefaultWindow := 60

  /** `'rate_limit:' + identifier`, the identifier being the X-API-KEY header if non-empty, else the remote address. */
  function CounterKey(apiKey: Option<string>, remoteAddr: Option<string>): (k: string)
    ensures apiKey.Some? && apiKey.value != "" ==> k == "rate_limit:" + apiKey.value
    ensures (apiKey.None? || apiKey.value == "") && remoteAddr.Some? ==> k == "rate_limit:" + remoteAddr.value
    ensures |k| >= 11 && k[..11] == "rate_limit:"
  {
    var id := if apiKey.Some? && apiKey.value != "" then apiKey.value
              else if remoteAddr.Some? then remoteAddr.value
              else "None";
    "rate_limit:" + id
  }

  /** What the wrapped view returned: a `(body, status)` tuple or a bare body. */
  datatype HandlerResult = Pair(body: string, status: int) | Bare(body: string)

  /** Which Redis call raises, if any: the first `get`, the `setex`/`incr`, or the `get`/`ttl` after the view ran. */
  datatype Fault = NoFault | FailOnRead | FailOnWrite | FailAfterView

  /**
   * What the client gets: 429 without calling the view; the view's body and
   * status with the X-RateLimit-Limit and X-RateLimit-Remaining headers; or,
   * after a Redis error, the view's own result with no headers.
   */
  datatype Reply =
    | Limited
    | Counted(body: string, status: int, limit: int, remaining: int)
    | Uncounted(result: HandlerResult)

  /** The counters after a request, the reply, and how many times the view ran. */
  datatype Step = Step(counters: map<string, int>, reply: Reply, viewCalls: nat)

  /**
   * One request through `rate_limit(requests, window)`: an absent counter is
   * set to 1, a counter at or above `requests` answers 429, any other is
   * incremented; the view then runs and Remaining is `requests` minus the
   * counter. A Redis error falls back to calling the view.
   */
  function Request(counters: map<string, int>, key: string, requests: int, view: HandlerResult, fault: Fault): Step
  {
    if fault == FailOnRead then Step(counters, Uncounted(view), 1)
    else if key in counters && counters[key] >= requests then Step(counters, Limited, 0)
    else if fault == FailOnWrite then Step(counters, Uncounted(view), 1)
    else
      var counters' := counters[key := if key in counters then counters[key] + 1 else 1];
      if fault == FailAfterView then Step(counters', Uncounted(view), 2)
      else
        var remaining := requests - counters'[key];
        match view
        case Pair(body, status) => Step(counters', Counted(body, status, requests, remaining), 1)
        case Bare(body) => Step(counters', Counted(body, 200, requests, remaining), 1)
  }

  /**
   * Without a Redis error: an absent counter starts at 1 and the request
   * passes whatever the limit; a counter at the limit answers 429 and stays;
   * otherwise the counter grows by one. Other clients' counters never change.
   */
  lemma RequestCounts(counters: map<string, int>, key: string, requests: int, view: HandlerResult)
    ensures var s := Request(counters, key, requests, view, NoFault);
      && (key !in counters ==> s.counters == counters[key := 1] && s.reply.Counted? && s.viewCalls == 1)
      && (key in counters && counters[key] >= requests ==>
            s.counters == counters && s.reply == Limited && s.viewCalls == 0)
      && (key in counters && counters[key] < requests ==>
            s.counters == counters[key := counters[key] + 1] && s.reply.Counted? && s.viewCalls == 1)
      && (s.reply.Counted? ==> s.reply.remaining == requests - s.counters[key] && s.reply.limit == requests)
      && (forall k :: k != key ==> (k in s.counters <==> k in counters) && (k in counters ==> s.counters[k] == counters[k]))
  {
  }

  /** A bare response is sent with status 200; a tuple keeps its status. */
  lemma StatusOfResponse(counters: map<string, int>, key: string, requests: int, view: HandlerResult)
    requires Request(counters, key, requests, view, NoFault).reply.Counted?
    ensures var r := Request(counters, key, requests, view, NoFault).reply;
      && (view.Bare? ==> r.status == 200 && r.body == view.body)
      && (view.Pair? ==> r.status == view.status && r.body == view.body)
  {
  }

  /**
   * A Redis error lets the request through: the view runs without the
   * counter being checked; when the error comes after the view ran, the view
   * runs a second time.
   */
  lemma RedisErrorFailsOpen(counters: map<string, int>, key: string, requests: int, view: HandlerResult, fault: Fault)
    requires fault != NoFault
    requires fault == FailOnRead || !(key in counters && counters[key] >= requests)
    ensures var s := Request(counters, key, requests, view, fault);
      && s.reply == Uncounted(view)
      && s.viewCalls == (if fault == FailAfterView then 2 else 1)
      && (fault != FailAfterView ==> s.counters == counters)
  {
  }

  /** The largest value a counter reaches in one window: `requests`, but at least the 1 of the first request. */
  function Ceiling(requests: int): int
  {
    if requests > 1 then requests else 1
  }

  /** Within a window the counter never passes `max(requests, 1)`. */
  lemma CounterBounded(counters: map<string, int>, key: string, requests: int, view: HandlerResult, fault: Fault)
    requires key in counters ==> counters[key] <= Ceiling(requests)
    ensures var s := Request(counters, key, requests, view, fault);
      key in s.counters ==> s.counters[key] <= Ceiling(requests)
  {
  }

  /** `n` requests from one client inside a window, with no Redis error, from the counters given. */
  function Burst(counters: map<string, int>, key: string, requests: int, view: HandlerResult, n: nat): map<string, int>
  {
    if n == 0 then counters
    else Request(Burst(counters, key, requests, view, n - 1), key, requests, view, NoFault).counters
  }

  /** Starting a window with no counter, n requests leave the counter at min(n, max(requests, 1)). */
  lemma {:induction false} BurstCount(counters: map<string, int>, key: string, requests: int, view: HandlerResult, n: nat)
    requires key !in counters && n >= 1
    ensures var c := Burst(counters, key, requests, view, n);
      key in c && c[key] == (if n < Ceiling(requests) then n else Ceiling(requests))
  {
    if n > 1 {
      BurstCount(counters, key, requests, view, n - 1);
    }
  }

  /** With the default of 100, the first 100 requests of a window pass and the 101st gets 429. */
  lemma HundredAndFirstRejected(counters: map<string, int>, key: string, view: HandlerResult)
    requires key !in counters
    ensures Request(Burst(counters, key, DefaultRequests, view, 99), key, DefaultRequests, view, NoFault).reply.Counted?
    ensures Request(Burst(counters, key, DefaultRequests, view, 100), key, DefaultRequests, view, NoFault).reply == Limited
  {
    BurstCount(counters, key, DefaultRequests, view, 99);
    BurstCount(counters, key, DefaultRequests, view, 100);
  }

  /** `(requests, window)` for an endpoint. */
  datatype Limit = Limit(requests: nat, window: nat)

  /** `api_rate_limit()`: the per-endpoint table, (100, 60) for any endpoint not in it. */
  function EndpointLimit(endpoint: Option<string>): (l: Limit)
    ensures endpoint.None? ==> l == Limit(DefaultRequests, DefaultWindow)
    ensures l.window == 60
  {
    if endpoint == Some("list_jobs") then Limit(200, 60)
    else if endpoint == Some("search_jobs") then Limit(100, 60)
    else if endpoint == Some("apply_job") then Limit(30, 60)
    else if endpoint == Some("register_user") then Limit(10, 60)
    else Limit(DefaultRequests, DefaultWindow)
  }

  /** The four named endpoints get their own limits; every other endpoint gets the default. */
  lemma EndpointLimits(endpoint: string)
    ensures EndpointLimit(Some("list_jobs")).requests == 200
    ensures EndpointLimit(Some("apply_job")).requests == 30
    ensures EndpointLimit(Some("register_user")).requests == 10
    ensures endpoint !in {"list_jobs", "search_jobs", "apply_job", "register_user"} ==>
      EndpointLimit(Some(endpoint)) == Limit(100, 60)
  {
  }

  /** The Redis database that holds the counters. */
  class RateLimiter {
    var counters: map<string, int>

    constructor ()
      ensures counters == map[]
    {
      counters := map[];
    }

    /** One request through the decorator; returns the reply and how many times the view ran. */
    method Handle(apiKey: Option<string>, remoteAddr: Option<string>, requests: int, view: HandlerResult, fault: Fault)
      returns (reply: Reply, viewCalls: nat)
      modifies this
      ensures var s := Request(old(counters), CounterKey(apiKey, remoteAddr), requests, view, fault);
        counters == s.counters && reply == s.reply && viewCalls == s.viewCalls
    {
      var key := CounterKey(apiKey, remoteAddr);
      if fault == FailOnRead {
        return Uncounted(view), 1;
      }
      if key in counters && counters[key] >= requests {
        return Limited, 0;
      }
      if fault == FailOnWrite {
        return Uncounted(view), 1;
      }
      if key in counters {
        counters := counters[key := counters[key] + 1];
      } else {
        counters := counters[key := 1];
      }
      if fault == FailAfterView {
        return Uncounted(view), 2;
      }
      var remaining := requests - counters[key];
      match view {
        case Pair(body, status) => reply := Counted(body, status, requests, remaining);
        case Bare(body) => reply := Counted(body, 200, requests, remaining);
      }
      viewCalls := 1;
    }

    /** The key's TTL runs out: Redis drops the counter and the next request starts a new window. */
    method ExpireWindow(key: string)
      modifies this
      ensures counters == old(counters) - {key}
    {
      counters := counters - {key};
    }
  }
}

=== FILE: redis_cache.dfy ===
/**
 * `RedisCache` of app/cache/redis_cache.py: GET responses memoised in Redis
 * under `cache:<path>:<query string>`, deletion by glob pattern and a count
 * of the cached entries.
 *
 * The Redis database is a map from key to the decoded JSON value; storing
 * `json.dumps(result)` and answering `json.loads` of it is taken to give the
 * value back unchanged. A key's time to live is not modelled as time: its
 * running out is the separate `Expire` operation.
 */
module RedisCache {
  import opened JsonValue

  /** `setex`'s default timeout in seconds in `cache_response()`. */
  const DefaultTimeout := 300

  /** `f"cache:{request.path}:{request.query_string.decode()}"`. */
  function CacheKey(path: string, query: string): (k: string)
    ensures |k| == 7 + |path| + |query|
    ensures k[..6] == "cache:" && k[6..6 + |path|] == path && k[6 + |path|] == ':' && k[7 + |path|..] == query
  {
    "cache:" + path + ":" + query
  }

  /** While paths hold no ':', the key tells which path and query string it was built from. */
  lemma CacheKeyDeterminesRequest(path1: string, query1: string, path2: string, query2: string)
    requires ':' !in path1 && ':' !in path2
    ensures CacheKey(path1, query1) == CacheKey(path2, query2) <==> path1 == path2 && query1 == query2
  {
  }

  /** A ':' in the path lets two different requests share one cache entry. */
  lemma CacheKeyCollision()
    ensures CacheKey("/jobs:1", "") == CacheKey("/jobs", "1:")
  {
  }

  /** The cache after a request, the response, and how many times the view ran. */
  datatype Served = Served(store: map<string, Json>, response: Json, viewCalls: nat)

  /**
   * One request through `cache_response`: anything but GET runs the view
   * and leaves the cache alone; a stored entry is answered without running
   * the view; otherwise the view runs and its result is stored when truthy.
   */
  function Serve(store: map<string, Json>, httpMethod: string, path: string, query: string, view: Json): (s: Served)
    ensures httpMethod != "GET" ==> s == Served(store, view, 1)
    ensures httpMethod == "GET" && CacheKey(path, query) in store ==>
      s == Served(store, store[CacheKey(path, query)], 0)
  {
    var key := CacheKey(path, query);
    if httpMethod != "GET" then Served(store, view, 1)
    else if key in store then Served(store, store[key], 0)
    else Served(if Truthy(view) then store[key := view] else store, view, 1)
  }

  /**
   * A GET that misses runs the view once, answers its result, and stores it
   * under the request's key exactly when the result is truthy; no other
   * entry changes.
   */
  lemma MissStoresTruthy(store: map<string, Json>, path: string, query: string, view: Json)
    requires CacheKey(path, query) !in store
    ensures var s := Serve(store, "GET", path, query, view);
      && s.response == view && s.viewCalls == 1
      && (CacheKey(path, query) in s.store <==> Truthy(view))
      && (Truthy(view) ==> s.store[CacheKey(path, query)] == view)
      && (forall k :: k != CacheKey(path, query) ==> (k in s.store <==> k in store))
      && (forall k | k in store :: s.store[k] == store[k])
  {
  }

  /** Once a GET has stored its result, the same GET is answered from the cache with that result and the view does not run. */
  lemma Memoised(store: map<string, Json>, path: string, query: string, first: Json, second: Json)
    requires CacheKey(path, query) !in store && Truthy(first)
    ensures var s1 := Serve(store, "GET", path, query, first);
      var s2 := Serve(s1.store, "GET", path, query, second);
      s2.response == first && s2.viewCalls == 0 && s2.store == s1.store
  {
    MissStoresTruthy(store, path, query, first);
  }

  /** A falsy result is not stored, so the next identical GET runs the view again. */
  lemma FalsyNotMemoised(store: map<string, Json>, path: string, query: string, first: Json, second: Json)
    requires CacheKey(path, query) !in store && !Truthy(first)
    ensures var s1 := Serve(store, "GET", path, query, first);
      var s2 := Serve(s1.store, "GET", path, query, second);
      s1.store == store && s2.response == second && s2.viewCalls == 1
  {
    MissStoresTruthy(store, path, query, first);
  }

  /**
   * Redis's glob matching with `*` (any run of characters), `?` (any one
   * character) and literal characters.
   */
  predicate GlobMatch(pattern: string, s: string)
    decreases |pattern| + |s|
  {
    if pattern == [] then s == []
    else if pattern[0] == '*' then GlobMatch(pattern[1..], s) || (s != [] && GlobMatch(pattern, s[1..]))
    else s != [] && (pattern[0] == '?' || pattern[0] == s[0]) && GlobMatch(pattern[1..], s[1..])
  }

  /** `*` matches every string. */
  lemma {:induction false} StarMatchesAll(s: string)
    ensures GlobMatch("*", s)
  {
    if s != [] {
      StarMatchesAll(s[1..]);
    }
  }

  predicate Wildcard(c: char)
  {
    c == '*' || c == '?'
  }

  /** A literal prefix of a pattern must be a prefix of the string, and the rest of the pattern matches the rest. */
  lemma {:induction false} LiteralPrefix(lit: string, rest: string, s: string)
    requires forall i :: 0 <= i < |lit| ==> !Wildcard(lit[i])
    ensures GlobMatch(lit + rest, s) <==> |s| >= |lit| && s[..|lit|] == lit && GlobMatch(rest, s[|lit|..])
    decreases |lit|
  {
    if lit != [] {
      assert (lit + rest)[0] == lit[0];
      assert (lit + rest)[1..] == lit[1..] + rest;
      LiteralPrefix(lit[1..], rest, if s == [] then s else s[1..]);
      if |s| >= |lit| {
        assert s[1..][|lit| - 1..] == s[|lit|..];
        assert s[..|lit|] == [s[0]] + s[1..][..|lit| - 1];
      }
    } else {
      assert lit + rest == rest;
    }
  }

  /** `cache:*` matches exactly the keys that start with `cache:`. */
  lemma AllCacheKeys(k: string)
    ensures GlobMatch("cache:*", k) <==> |k| >= 6 && k[..6] == "cache:"
  {
    assert "cache:*" == "cache:" + "*";
    LiteralPrefix("cache:", "*", k);
    if |k| >= 6 {
      StarMatchesAll(k[6..]);
    }
  }

  /** What `invalidate_cache(pattern)` leaves: every key matching `cache:<pattern>` deleted, the rest kept. */
  function Evict(store: map<string, Json>, pattern: string): (r: map<string, Json>)
    ensures forall k :: k in r <==> k in store && !GlobMatch("cache:" + pattern, k)
    ensures forall k | k in r :: r[k] == store[k]
  {
    map k | k in store && !GlobMatch("cache:" + pattern, k) :: store[k]
  }

  /** `invalidate_cache()` with its default pattern deletes every cached response and nothing else. */
  lemma EvictAllDropsCacheKeys(store: map<string, Json>)
    ensures forall k :: k in Evict(store, "*") <==> k in store && !(|k| >= 6 && k[..6] == "cache:")
  {
    forall k
      ensures k in Evict(store, "*") <==> k in store && !(|k| >= 6 && k[..6] == "cache:")
    {
      assert "cache:" + "*" == "cache:*";
      AllCacheKeys(k);
    }
  }

  /** Evicting twice with the same pattern is evicting once. */
  lemma EvictIdempotent(store: map<string, Json>, pattern: string)
    ensures Evict(Evict(store, pattern), pattern) == Evict(store, pattern)
  {
  }

  /** The keys `scan_iter("cache:*")` visits. */
  function CachedKeys(store: map<string, Json>): (r: set<string>)
    ensures forall k :: k in r <==> k in store && |k| >= 6 && k[..6] == "cache:"
  {
    var r := set k | k in store && GlobMatch("cache:*", k);
    assert forall k :: k in r <==> k in store && |k| >= 6 && k[..6] == "cache:" by {
      forall k ensures GlobMatch("cache:*", k) <==> |k| >= 6 && k[..6] == "cache:" {
        AllCacheKeys(k);
      }
    }
    r
  }

  /** The Redis database that holds the cached responses. */
  class Cache {
    var store: map<string, Json>

    constructor ()
      ensures store == map[]
    {
      store := map[];
    }

    /** One request through the `cache_response` decorator. */
    method Respond(httpMethod: string, path: string, query: string, view: Json) returns (response: Json, viewCalls: nat)
      modifies this
      ensures var s := Serve(old(store), httpMethod, path, query, view);
        store == s.store && response == s.response && viewCalls == s.viewCalls
    {
      var key := CacheKey(path, query);
      if httpMethod != "GET" {
        return view, 1;
      }
      if key in store {
        return store[key], 0;
      }
      if Truthy(view) {
        store := store[key := view];
      }
      return view, 1;
    }

    /** `invalidate_cache(pattern)`: deletes the keys the scan for `cache:<pattern>` finds, one at a time. */
    method Invalidate(pattern: string)
      modifies this
      ensures store == Evict(old(store), pattern)
    {
      var glob := "cache:" + pattern;
      var todo := store.Keys;
      ghost var start := store;
      while todo != {}
        invariant todo <= start.Keys
        invariant forall k :: k in store <==> k in start && (k in todo || !GlobMatch(glob, k))
        invariant forall k | k in store :: store[k] == start[k]
        decreases todo
      {
        var key :| key in todo;
        if GlobMatch(glob, key) {
          store := store - {key};
        }
        todo := todo - {key};
      }
      assert store.Keys == Evict(start, pattern).Keys;
    }

    /** `get_cache_size()`: how many keys the scan for `cache:*` finds. */
    method Size() returns (n: nat)
      ensures n == |CachedKeys(store)|
    {
      var todo := store.Keys;
      ghost var seen: set<string> := {};
      n := 0;
      while todo != {}
        invariant todo <= store.Keys
        invariant forall k :: k in seen <==> k in store && k !in todo && GlobMatch("cache:*", k)
        invariant n == |seen|
        decreases todo
      {
        var key :| key in todo;
        if GlobMatch("cache:*", key) {
          seen := seen + {key};
          n := n + 1;
        }
        todo := todo - {key};
      }
      forall k ensures k in seen <==> k in CachedKeys(store) {
        AllCacheKeys(k);
      }
      assert seen == CachedKeys(store);
    }

    /** The entry's timeout runs out and Redis drops it. */
    method Expire(key: string)
      modifies this
      ensures store == old(store) - {key}
    {
      store := store - {key};
    }
  }
}

=== FILE: resumes.dfy ===
/**
 * `Resume` of app/resumes/models.py: a user's resumes, one of which is the
 * primary resume.
 *
 * The resumes table is a sequence of rows in insertion order with the next
 * AUTO_INCREMENT id; `created_at` is taken to grow with insertion order, so
 * "newest first" is "latest inserted first". A `SELECT ... fetchone()`
 * without ORDER BY answers the first matching row.
 */
module Resumes {
  import opened Wrappers

  datatype Resume = Resume(id: nat, userId: nat, title: string, content: string, isPrimary: bool)

  datatype ResumeTable = ResumeTable(rows: seq<Resume>, nextId: nat)

  const NotFound := "Resume not found"
  const PrimaryKept := "Cannot delete primary resume"

  /** Ids grow with insertion order and stay below the next id AUTO_INCREMENT hands out. */
  predicate Valid(t: ResumeTable)
  {
    && (forall i, j :: 0 <= i < j < |t.rows| ==> t.rows[i].id < t.rows[j].id)
    && (forall i :: 0 <= i < |t.rows| ==> t.rows[i].id < t.nextId)
  }

  /** No user has two primary resumes. */
  predicate OnePrimary(rows: seq<Resume>)
  {
    forall i, j :: 0 <= i < j < |rows| && rows[i].userId == rows[j].userId ==>
      !(rows[i].isPrimary && rows[j].isPrimary)
  }

  /** The user has at least one resume. */
  predicate Owns(rows: seq<Resume>, userId: nat)
  {
    exists r :: r in rows && r.userId == userId
  }

  /** The user has a primary resume. */
  predicate HasPrimary(rows: seq<Resume>, userId: nat)
  {
    exists r :: r in rows && r.userId == userId && r.isPrimary
  }

  /** Every user with a resume has a primary one. */
  predicate PrimaryPresent(rows: seq<Resume>)
  {
    forall r :: r in rows ==> HasPrimary(rows, r.userId)
  }

  // ---------------------------------------------------------------------------
  // create_resume
  // ---------------------------------------------------------------------------

  /** The table after an insert, and `cursor.lastrowid`. */
  datatype Created = Created(table: ResumeTable, id: nat)

  /** `create_resume(user_id, data)`: the new resume is primary iff `COUNT(*)` of the user's resumes was 0. */
  function CreateResume(t: ResumeTable, userId: nat, title: string, content: string): Created
  {
    Created(
      ResumeTable(t.rows + [Resume(t.nextId, userId, title, content, !Owns(t.rows, userId))], t.nextId + 1),
      t.nextId)
  }

  /** The new row is the user's first resume exactly when it is primary; nothing else changes. */
  lemma CreatePrimaryIffFirst(t: ResumeTable, userId: nat, title: string, content: string)
    ensures var c := CreateResume(t, userId, title, content);
      && c.table.rows[..|t.rows|] == t.rows
      && c.table.rows[|t.rows|].id == c.id == t.nextId
      && c.table.rows[|t.rows|].userId == userId
      && (c.table.rows[|t.rows|].isPrimary <==> !Owns(t.rows, userId))
      && |c.table.rows| == |t.rows| + 1
  {
  }

  /** Creating a resume keeps ids valid and at most one primary per user. */
  lemma CreateKeepsOnePrimary(t: ResumeTable, userId: nat, title: string, content: string)
    requires Valid(t) && OnePrimary(t.rows)
    ensures var t' := CreateResume(t, userId, title, content).table;
      Valid(t') && OnePrimary(t'.rows)
  {
    var r := Resume(t.nextId, userId, title, content, !Owns(t.rows, userId));
    var rows' := t.rows + [r];
    forall i, j | 0 <= i < j < |rows'| && rows'[i].userId == rows'[j].userId
      ensures !(rows'[i].isPrimary && rows'[j].isPrimary)
    {
      if j == |t.rows| {
        assert rows'[i] in t.rows;
      }
    }
  }

  /** After a create every user with a resume still has a primary one. */
  lemma CreateKeepsPrimaryPresent(t: ResumeTable, userId: nat, title: string, content: string)
    requires PrimaryPresent(t.rows)
    ensures PrimaryPresent(CreateResume(t, userId, title, content).table.rows)
  {
    var r := Resume(t.nextId, userId, title, content, !Owns(t.rows, userId));
    var rows' := t.rows + [r];
    forall b | b in rows'
      ensures HasPrimary(rows', b.userId)
    {
      if b in t.rows {
        var c :| c in t.rows && c.userId == b.userId && c.isPrimary;
        assert c in rows';
      } else if Owns(t.rows, userId) {
        var d :| d in t.rows && d.userId == userId;
        var c :| c in t.rows && c.userId == d.userId && c.isPrimary;
        assert c in rows';
      } else {
        assert r in rows';
      }
    }
  }

  // ---------------------------------------------------------------------------
  // get_resume
  // ---------------------------------------------------------------------------

  /** `WHERE resume_id = %s AND user_id = %s` then `fetchone()`: the first row with that id and owner. */
  function Owned(rows: seq<Resume>, id: nat, userId: nat): (r: Option<nat>)
    ensures r.Some? ==> r.value < |rows| && rows[r.value].id == id && rows[r.value].userId == userId
    ensures r.None? ==> forall i :: 0 <= i < |rows| ==> !(rows[i].id == id && rows[i].userId == userId)
  {
    if rows == [] then None
    else if rows[0].id == id && rows[0].userId == userId then Some(0)
    else
      var rest := Owned(rows[1..], id, userId);
      if rest.None? then None else Some(rest.value + 1)
  }

  /** `get_resume(resume_id, user_id)`: the resume if the caller owns it, else "Resume not found". */
  function GetResume(t: ResumeTable, id: nat, userId: nat): (r: Result<Resume>)
    ensures r.Ok? ==> r.value in t.rows && r.value.id == id && r.value.userId == userId
    ensures r.Err? ==> r.error == NotFound && forall b :: b in t.rows ==> !(b.id == id && b.userId == userId)
  {
    var k := Owned(t.rows, id, userId);
    if k.None? then Err(NotFound) else Ok(t.rows[k.value])
  }

  /** Another user's resume is never returned, whatever its id. */
  lemma GetResumeOnlyOwn(t: ResumeTable, id: nat, userId: nat, other: nat)
    requires other != userId
    requires forall b :: b in t.rows && b.id == id ==> b.userId == other
    ensures GetResume(t, id, userId) == Err(NotFound)
  {
  }

  // ---------------------------------------------------------------------------
  // update_resume
  // ---------------------------------------------------------------------------

  /** The `data` dict of `update_resume`: each key present or not. */
  datatype ResumeEdit = ResumeEdit(title: Option<string>, content: Option<string>)

  /** The table after a call, and the error string it returns (None on success). */
  datatype Outcome = Outcome(table: ResumeTable, error: Option<string>)

  /** The row with the given fields set. */
  function Edit(r: Resume, e: ResumeEdit): Resume
  {
    r.(title := if e.title.Some? then e.title.value else r.title,
       content := if e.content.Some? then e.content.value else r.content)
  }

  /** `UPDATE resumes SET ... WHERE resume_id = %s AND user_id = %s`. */
  function EditRows(rows: seq<Resume>, id: nat, userId: nat, e: ResumeEdit): seq<Resume>
  {
    seq(|rows|, i requires 0 <= i < |rows| =>
      if rows[i].id == id && rows[i].userId == userId then Edit(rows[i], e) else rows[i])
  }

  /**
   * `update_resume(resume_id, user_id, data)`: a missing or foreign resume is
   * "Resume not found"; with neither title nor content nothing is written.
   */
  function UpdateResume(t: ResumeTable, id: nat, userId: nat, e: ResumeEdit): Outcome
  {
    if Owned(t.rows, id, userId).None? then Outcome(t, Some(NotFound))
    else if e.title.None? && e.content.None? then Outcome(t, None)
    else Outcome(t.(rows := EditRows(t.rows, id, userId, e)), None)
  }

  /** A missing or foreign resume changes nothing and reports "Resume not found". */
  lemma UpdateNotFound(t: ResumeTable, id: nat, userId: nat, e: ResumeEdit)
    requires forall b :: b in t.rows ==> !(b.id == id && b.userId == userId)
    ensures UpdateResume(t, id, userId, e) == Outcome(t, Some(NotFound))
  {
  }

  /**
   * On an owned resume only title and content of that row can change, each
   * only when given; every other row and field is kept, and None is returned.
   */
  lemma UpdateFields(t: ResumeTable, id: nat, userId: nat, e: ResumeEdit)
    requires Owned(t.rows, id, userId).Some?
    ensures var o := UpdateResume(t, id, userId, e);
      && o.error.None? && o.table.nextId == t.nextId && |o.table.rows| == |t.rows|
      && (forall i :: 0 <= i < |t.rows| ==>
            && o.table.rows[i].id == t.rows[i].id
            && o.table.rows[i].userId == t.rows[i].userId
            && o.table.rows[i].isPrimary == t.rows[i].isPrimary
            && (!(t.rows[i].id == id && t.rows[i].userId == userId) ==> o.table.rows[i] == t.rows[i])
            && (t.rows[i].id == id && t.rows[i].userId == userId ==>
                  && o.table.rows[i].title == (if e.title.Some? then e.title.value else t.rows[i].title)
                  && o.table.rows[i].content == (if e.content.Some? then e.content.value else t.rows[i].content)))
  {
  }

  /** Rows that agree position by position on id, owner and primary flag. */
  predicate SameKeys(rows: seq<Resume>, rows': seq<Resume>)
  {
    && |rows'| == |rows|
    && forall i :: 0 <= i < |rows| ==>
         rows'[i].id == rows[i].id && rows'[i].userId == rows[i].userId && rows'[i].isPrimary == rows[i].isPrimary
  }

  /** The invariants only look at ids, owners and primary flags. */
  lemma SameKeysKeepInvariants(t: ResumeTable, rows': seq<Resume>)
    requires SameKeys(t.rows, rows')
    requires Valid(t) && OnePrimary(t.rows) && PrimaryPresent(t.rows)
    ensures Valid(t.(rows := rows')) && OnePrimary(rows') && PrimaryPresent(rows')
  {
    forall b | b in rows'
      ensures HasPrimary(rows', b.userId)
    {
      var i :| 0 <= i < |rows'| && rows'[i] == b;
      assert t.rows[i] in t.rows;
      var c :| c in t.rows && c.userId == t.rows[i].userId && c.isPrimary;
      var j :| 0 <= j < |t.rows| && t.rows[j] == c;
      assert rows'[j] in rows';
    }
  }

  /** Updating never touches ids, owners or primary flags, so the invariants hold after it. */
  lemma UpdateKeepsInvariants(t: ResumeTable, id: nat, userId: nat, e: ResumeEdit)
    requires Valid(t) && OnePrimary(t.rows) && PrimaryPresent(t.rows)
    ensures var t' := UpdateResume(t, id, userId, e).table;
      Valid(t') && OnePrimary(t'.rows) && PrimaryPresent(t'.rows)
  {
    var t' := UpdateResume(t, id, userId, e).table;
    if t' != t {
      UpdateFields(t, id, userId, e);
      SameKeysKeepInvariants(t, t'.rows);
    }
  }

  // ---------------------------------------------------------------------------
  // delete_resume
  // ---------------------------------------------------------------------------

  /**
   * `delete_resume(resume_id, user_id)`: a missing or foreign resume is
   * "Resume not found", a primary one is refused, otherwise the row is deleted.
   */
  function DeleteResume(t: ResumeTable, id: nat, userId: nat): Outcome
  {
    var k := Owned(t.rows, id, userId);
    if k.None? then Outcome(t, Some(NotFound))
    else if t.rows[k.value].isPrimary then Outcome(t, Some(PrimaryKept))
    else Outcome(t.(rows := t.rows[..k.value] + t.rows[k.value + 1..]), None)
  }

  /** With ids unique, the owned row found is the only row with that id. */
  lemma OwnedIsOnly(t: ResumeTable, id: nat, userId: nat)
    requires Valid(t) && Owned(t.rows, id, userId).Some?
    ensures forall i :: 0 <= i < |t.rows| && t.rows[i].id == id ==> i == Owned(t.rows, id, userId).value
  {
  }

  lemma SplitAt(rows: seq<Resume>, k: nat)
    requires k < |rows|
    ensures rows == rows[..k] + [rows[k]] + rows[k + 1..]
  {
  }

  /**
   * Refusals change nothing; a successful delete removes exactly the one
   * owned, non-primary row, and every other row stays.
   */
  lemma DeleteOutcome(t: ResumeTable, id: nat, userId: nat)
    requires Valid(t)
    ensures var o := DeleteResume(t, id, userId);
      && ((forall b :: b in t.rows ==> !(b.id == id && b.userId == userId)) ==> o == Outcome(t, Some(NotFound)))
      && ((exists b :: b in t.rows && b.id == id && b.userId == userId && b.isPrimary) ==>
            o == Outcome(t, Some(PrimaryKept)))
      && (o.error.None? ==>
            && o.table.nextId == t.nextId && |o.table.rows| == |t.rows| - 1
            && (forall b :: b in t.rows && b.id == id ==> b.userId == userId && !b.isPrimary)
            && (forall b :: b in o.table.rows <==> b in t.rows && b.id != id))
  {
    var k := Owned(t.rows, id, userId);
    if k.None? {
      forall b | b in t.rows
        ensures !(b.id == id && b.userId == userId)
      {
        var i :| 0 <= i < |t.rows| && t.rows[i] == b;
      }
    } else {
      OwnedIsOnly(t, id, userId);
      forall b | b in t.rows && b.id == id
        ensures b == t.rows[k.value]
      {
        var i :| 0 <= i < |t.rows| && t.rows[i] == b;
      }
      var rest := t.rows[..k.value] + t.rows[k.value + 1..];
      SplitAt(t.rows, k.value);
      forall b | b in rest
        ensures b in t.rows && b.id != id
      {
        var i :| 0 <= i < |rest| && rest[i] == b;
        if i < k.value {
          assert t.rows[i] == b;
        } else {
          assert t.rows[i + 1] == b;
        }
      }
    }
  }

  /** Dropping one row keeps ids increasing and at most one primary per user. */
  lemma RemoveAtKeepsOrder(t: ResumeTable, k: nat)
    requires k < |t.rows| && Valid(t) && OnePrimary(t.rows)
    ensures Valid(t.(rows := t.rows[..k] + t.rows[k + 1..]))
    ensures OnePrimary(t.rows[..k] + t.rows[k + 1..])
  {
    var rows' := t.rows[..k] + t.rows[k + 1..];
    forall i | 0 <= i < |rows'|
      ensures rows'[i] == t.rows[if i < k then i else i + 1]
    {
    }
  }

  /** Dropping a row that is not primary keeps a primary for every user with resumes. */
  lemma RemoveAtKeepsPrimaryPresent(rows: seq<Resume>, k: nat)
    requires k < |rows| && !rows[k].isPrimary && PrimaryPresent(rows)
    ensures PrimaryPresent(rows[..k] + rows[k + 1..])
  {
    var rows' := rows[..k] + rows[k + 1..];
    SplitAt(rows, k);
    forall b | b in rows'
      ensures HasPrimary(rows', b.userId)
    {
      var c :| c in rows && c.userId == b.userId && c.isPrimary;
      assert c in rows[..k] + [rows[k]] + rows[k + 1..];
      assert c in rows';
    }
  }

  /** A delete never removes a primary resume, so the invariants hold after it. */
  lemma DeleteKeepsInvariants(t: ResumeTable, id: nat, userId: nat)
    requires Valid(t) && OnePrimary(t.rows) && PrimaryPresent(t.rows)
    ensures var t' := DeleteResume(t, id, userId).table;
      Valid(t') && OnePrimary(t'.rows) && PrimaryPresent(t'.rows)
  {
    var k := Owned(t.rows, id, userId);
    if k.Some? && !t.rows[k.value].isPrimary {
      RemoveAtKeepsOrder(t, k.value);
      RemoveAtKeepsPrimaryPresent(t.rows, k.value);
    }
  }

  // ---------------------------------------------------------------------------
  // get_user_resumes
  // ---------------------------------------------------------------------------

  /** The user's rows whose primary flag is `primary`, latest inserted first. */
  function Pick(rows: seq<Resume>, userId: nat, primary: bool): seq<Resume>
  {
    if rows == [] then []
    else
      Pick(rows[1..], userId, primary)
      + (if rows[0].userId == userId && rows[0].isPrimary == primary then [rows[0]] else [])
  }

  /** `ORDER BY is_primary DESC, created_at DESC` over the user's rows. */
  function UserResumes(t: ResumeTable, userId: nat): seq<Resume>
  {
    Pick(t.rows, userId, true) + Pick(t.rows, userId, false)
  }

  /** Picked rows are the user's rows with that flag. */
  lemma {:induction false} PickMembers(rows: seq<Resume>, userId: nat, primary: bool)
    ensures forall r :: r in Pick(rows, userId, primary) <==>
      r in rows && r.userId == userId && r.isPrimary == primary
  {
    if rows != [] {
      PickMembers(rows[1..], userId, primary);
      assert rows == [rows[0]] + rows[1..];
    }
  }

  /** With increasing ids, picked rows come with decreasing ids: newest first. */
  lemma {:induction false} PickNewestFirst(rows: seq<Resume>, userId: nat, primary: bool)
    requires forall i, j :: 0 <= i < j < |rows| ==> rows[i].id < rows[j].id
    ensures forall i, j :: 0 <= i < j < |Pick(rows, userId, primary)| ==>
      Pick(rows, userId, primary)[i].id > Pick(rows, userId, primary)[j].id
  {
    if rows != [] {
      var rest := rows[1..];
      PickNewestFirst(rest, userId, primary);
      PickMembers(rest, userId, primary);
      var p := Pick(rest, userId, primary);
      forall r | r in p
        ensures r.id > rows[0].id
      {
        var k :| 0 <= k < |rest| && rest[k] == r;
        assert rows[k + 1] == r;
      }
      var p' := Pick(rows, userId, primary);
      forall i, j | 0 <= i < j < |p'|
        ensures p'[i].id > p'[j].id
      {
        if j < |p| {
          assert p'[i] == p[i] && p'[j] == p[j];
        } else {
          assert p'[i] == p[i] && p'[j] == rows[0];
          assert p[i] in p;
        }
      }
    }
  }

  /**
   * `get_user_resumes(user_id)` lists exactly the user's resumes, primary
   * ones first and within each group newest first.
   */
  lemma UserResumesOrder(t: ResumeTable, userId: nat)
    requires Valid(t)
    ensures var l := UserResumes(t, userId);
      && (forall r :: r in l <==> r in t.rows && r.userId == userId)
      && (forall i, j :: 0 <= i < j < |l| ==>
            (l[i].isPrimary && !l[j].isPrimary) || (l[i].isPrimary == l[j].isPrimary && l[i].id > l[j].id))
  {
    var a, b := Pick(t.rows, userId, true), Pick(t.rows, userId, false);
    PickMembers(t.rows, userId, true);
    PickMembers(t.rows, userId, false);
    PickNewestFirst(t.rows, userId, true);
    PickNewestFirst(t.rows, userId, false);
    var l := a + b;
    forall i, j | 0 <= i < j < |l|
      ensures (l[i].isPrimary && !l[j].isPrimary) || (l[i].isPrimary == l[j].isPrimary && l[i].id > l[j].id)
    {
      if j < |a| {
        assert l[i] == a[i] && l[j] == a[j];
        assert a[i] in a && a[j] in a;
      } else if i < |a| {
        assert l[i] == a[i] && l[j] == b[j - |a|];
        assert a[i] in a && b[j - |a|] in b;
      } else {
        assert l[i] == b[i - |a|] && l[j] == b[j - |a|];
        assert b[i - |a|] in b && b[j - |a|] in b;
      }
    }
  }

  // ---------------------------------------------------------------------------
  // The table as the three writing calls change it
  // ---------------------------------------------------------------------------

  class ResumeStore {
    var t: ResumeTable

    constructor ()
      ensures t == ResumeTable([], 1)
    {
      t := ResumeTable([], 1);
    }

    /** `create_resume(user_id, data)`: returns `(resume_id, None)`. */
    method Create(userId: nat, title: string, content: string) returns (id: nat)
      modifies this
      ensures t == CreateResume(old(t), userId, title, content).table
      ensures id == old(t).nextId
    {
      var isPrimary := !Owns(t.rows, userId);
      id := t.nextId;
      t := ResumeTable(t.rows + [Resume(id, userId, title, content, isPrimary)], t.nextId + 1);
    }

    /** `update_resume(resume_id, user_id, data)`. */
    method Update(id: nat, userId: nat, e: ResumeEdit) returns (error: Option<string>)
      modifies this
      ensures t == UpdateResume(old(t), id, userId, e).table
      ensures error == UpdateResume(old(t), id, userId, e).error
    {
      if Owned(t.rows, id, userId).None? {
        return Some(NotFound);
      }
      if e.title.Some? || e.content.Some? {
        t := t.(rows := EditRows(t.rows, id, userId, e));
      }
      error := None;
    }

    /** `delete_resume(resume_id, user_id)`. */
    method Delete(id: nat, userId: nat) returns (error: Option<string>)
      modifies this
      ensures t == DeleteResume(old(t), id, userId).table
      ensures error == DeleteResume(old(t), id, userId).error
    {
      var k := Owned(t.rows, id, userId);
      if k.None? {
        return Some(NotFound);
      }
      if t.rows[k.value].isPrimary {
        return Some(PrimaryKept);
      }
      t := t.(rows := t.rows[..k.value] + t.rows[k.value + 1..]);
      error := None;
    }
  }
}

=== FILE: saramin.dfy ===
/**
 * `SaraminCrawler` of app/crawling/saramin.py: `extract_job_info` turns a
 * listing item into a record, `crawl_jobs` walks the result pages 1 to
 * MAX_PAGES collecting records, and `save_jobs` stores them through the ORM.
 *
 * The browser is not modelled: what each page shows, and whether waiting for
 * it or leaving it raised, is given by a `visit` function.
 */
module Saramin {
  import opened Wrappers
  import opened Seqs
  import opened Text
  import opened Listing
  import opened Schema

  /** `CrawlingConfig.MAX_PAGES` (app/crawling/config.py). */
  const MaxPages: nat := 50

  /** The dict `extract_job_info` builds. */
  datatype SaraminRecord = SaraminRecord(
    title: string,
    link: Option<string>,
    companyName: string,
    location: string,
    experience: string,
    education: string,
    employmentType: string,
    deadline: string,
    sector: string)

  /**
   * `find_element` raises NoSuchElementException for a missing title, company,
   * date or sector element, and the record is then None. Title and company
   * are stripped; the condition spans and the date and sector texts are not.
   */
  function ExtractJobInfo(item: Item): (r: Option<SaraminRecord>)
    ensures r.Some? <==> item.jobTit.Some? && item.corpName.Some? && item.date.Some? && item.sector.Some?
  {
    if item.jobTit.None? || item.corpName.None? || item.date.None? || item.sector.None? then None
    else Some(SaraminRecord(
      Strip(item.jobTit.value.text),
      item.jobTit.value.href,
      Strip(item.corpName.value.text),
      Span(item.conditions, 0),
      Span(item.conditions, 1),
      Span(item.conditions, 2),
      Span(item.conditions, 3),
      item.date.value.text,
      item.sector.value.text))
  }

  /** Where each field of an extracted record comes from. */
  lemma ExtractedFields(item: Item)
    requires ExtractJobInfo(item).Some?
    ensures var r := ExtractJobInfo(item).value;
      && r.title == Strip(item.jobTit.value.text) && r.link == item.jobTit.value.href
      && r.companyName == Strip(item.corpName.value.text)
      && (|item.conditions| > 0 ==> r.location == item.conditions[0])
      && (|item.conditions| > 1 ==> r.experience == item.conditions[1])
      && (|item.conditions| > 2 ==> r.education == item.conditions[2])
      && (|item.conditions| > 3 ==> r.employmentType == item.conditions[3])
      && (|item.conditions| < 1 ==> r.location == "")
      && (|item.conditions| < 2 ==> r.experience == "")
      && (|item.conditions| < 3 ==> r.education == "")
      && (|item.conditions| < 4 ==> r.employmentType == "")
      && r.deadline == item.date.value.text && r.sector == item.sector.value.text
  {
  }

  /** The records of a page: the items extracted in order, the None ones dropped. */
  function Extracted(items: seq<Item>): (r: seq<SaraminRecord>)
    ensures |r| <= |items|
  {
    if items == [] then []
    else
      var last := ExtractJobInfo(items[|items| - 1]);
      Extracted(items[..|items| - 1]) + (if last.Some? then [last.value] else [])
  }

  /** Every record comes from one of the page's items. */
  lemma {:induction false} ExtractedFromItems(items: seq<Item>, rec: SaraminRecord)
    requires rec in Extracted(items)
    ensures exists item :: item in items && ExtractJobInfo(item) == Some(rec)
    decreases |items|
  {
    var init := items[..|items| - 1];
    if rec in Extracted(init) {
      ExtractedFromItems(init, rec);
      var item :| item in init && ExtractJobInfo(item) == Some(rec);
      assert item in items;
    } else {
      assert ExtractJobInfo(items[|items| - 1]) == Some(rec);
    }
  }

  /** When every item has its four elements, no item is dropped. */
  lemma {:induction false} ExtractedKeepsAll(items: seq<Item>)
    requires forall i :: 0 <= i < |items| ==> ExtractJobInfo(items[i]).Some?
    ensures |Extracted(items)| == |items|
    ensures forall i :: 0 <= i < |items| ==> Extracted(items)[i] == ExtractJobInfo(items[i]).value
    decreases |items|
  {
    if items != [] {
      ExtractedKeepsAll(items[..|items| - 1]);
    }
  }

  /** How one page ended: normally, by a TimeoutException, or by another exception. */
  datatype PageEnd = Next | TimedOut | Failed

  /**
   * One iteration of the page loop: the items whose records were appended
   * before the page ended (none when the wait itself raised) and how it ended.
   */
  datatype PageVisit = PageVisit(items: seq<Item>, end: PageEnd)

  /**
   * `all_jobs` after pages `page`..MAX_PAGES, starting from `acc`: a timeout
   * ends the loop, any other error moves on to the next page.
   */
  function CollectFrom(visit: nat -> PageVisit, page: nat, acc: seq<SaraminRecord>): seq<SaraminRecord>
    decreases MaxPages + 1 - page
  {
    if page > MaxPages then acc
    else
      var v := visit(page);
      var got := acc + Extracted(v.items);
      if v.end == TimedOut then got else CollectFrom(visit, page + 1, got)
  }

  /** Records are only appended: what was collected before stays, first and in order. */
  lemma {:induction false} CollectKeepsEarlier(visit: nat -> PageVisit, page: nat, acc: seq<SaraminRecord>)
    ensures acc <= CollectFrom(visit, page, acc)
    decreases MaxPages + 1 - page
  {
    if page <= MaxPages {
      var got := acc + Extracted(visit(page).items);
      if visit(page).end != TimedOut {
        CollectKeepsEarlier(visit, page + 1, got);
      }
    }
  }

  /** A timeout on page p ends the crawl: later pages do not matter. */
  lemma {:induction false} TimeoutStopsCrawl(visit: nat -> PageVisit, other: nat -> PageVisit, page: nat, p: nat,
                                             acc: seq<SaraminRecord>)
    requires page <= p <= MaxPages && visit(p).end == TimedOut
    requires forall q :: page <= q <= p ==> other(q) == visit(q)
    ensures CollectFrom(other, page, acc) == CollectFrom(visit, page, acc)
    decreases p - page
  {
    if page < p {
      var got := acc + Extracted(visit(page).items);
      if visit(page).end != TimedOut {
        TimeoutStopsCrawl(visit, other, page + 1, p, got);
      }
    }
  }

  /** Every record collected was there before or comes from an item of a page in `page`..MAX_PAGES. */
  lemma {:induction false} CollectedFromPages(visit: nat -> PageVisit, page: nat, acc: seq<SaraminRecord>,
                                              rec: SaraminRecord)
    requires rec in CollectFrom(visit, page, acc)
    ensures rec in acc || exists p, item :: page <= p <= MaxPages && item in visit(p).items && ExtractJobInfo(item) == Some(rec)
    decreases MaxPages + 1 - page
  {
    if page <= MaxPages && rec !in acc {
      var v := visit(page);
      var got := acc + Extracted(v.items);
      if v.end != TimedOut {
        CollectedFromPages(visit, page + 1, got, rec);
      }
      if rec in Extracted(v.items) {
        ExtractedFromItems(v.items, rec);
        var item :| item in v.items && ExtractJobInfo(item) == Some(rec);
        assert page <= page <= MaxPages && item in visit(page).items;
      } else {
        var p, item :| page + 1 <= p <= MaxPages && item in visit(p).items && ExtractJobInfo(item) == Some(rec);
        assert page <= p;
      }
    }
  }

  /** A page whose wait raised something other than a timeout adds nothing and the crawl moves on. */
  lemma FailedPageSkipped(visit: nat -> PageVisit, page: nat, acc: seq<SaraminRecord>)
    requires 1 <= page <= MaxPages && visit(page) == PageVisit([], Failed)
    ensures CollectFrom(visit, page, acc) == CollectFrom(visit, page + 1, acc)
  {
    assert acc + Extracted([]) == acc;
  }

  /** The inner loop of `crawl_jobs`: the page's items extracted in order, None dropped. */
  method ExtractPage(items: seq<Item>) returns (recs: seq<SaraminRecord>)
    ensures recs == Extracted(items)
  {
    recs := [];
    for k := 0 to |items|
      invariant recs == Extracted(items[..k])
    {
      assert items[..k + 1][..k] == items[..k];
      var info := ExtractJobInfo(items[k]);
      if info.Some? {
        recs := recs + [info.value];
      }
    }
    assert items[..|items|] == items;
  }

  /** The page loop of `crawl_jobs`. */
  method CollectPages(visit: nat -> PageVisit) returns (jobs: seq<SaraminRecord>)
    ensures jobs == CollectFrom(visit, 1, [])
  {
    jobs := [];
    for page := 1 to MaxPages + 1
      invariant CollectFrom(visit, page, jobs) == CollectFrom(visit, 1, [])
    {
      var v := visit(page);
      var recs := ExtractPage(v.items);
      jobs := jobs + recs;
      if v.end == TimedOut {
        return;
      }
    }
  }

  // ---------------------------------------------------------------------------
  // save_jobs
  // ---------------------------------------------------------------------------

  /** A `jobs` row written by `save_jobs`; `link` is NOT NULL in the table. */
  datatype StoredJob = StoredJob(
    companyId: nat,
    title: string,
    link: Option<string>,
    location: string,
    experience: string,
    education: string,
    employmentType: string,
    deadline: string,
    sector: string)

  /** The committed `companies` names (id = index + 1) and `jobs` rows. */
  datatype Store = Store(companies: seq<string>, jobs: seq<StoredJob>)

  /** The committed tables and the rows added to the session since the last commit. */
  datatype Session = Session(st: Store, pending: seq<StoredJob>)

  /** What `save_jobs` leaves committed and what it returns. */
  datatype Saved = Saved(store: Store, count: nat)

  function JobOf(companyId: nat, r: SaraminRecord): StoredJob
  {
    StoredJob(companyId, r.title, r.link, r.location, r.experience, r.education, r.employmentType,
              r.deadline, r.sector)
  }

  /** Rows the database accepts: none has a NULL link. */
  predicate AllLinked(jobs: seq<StoredJob>)
  {
    forall i :: 0 <= i < |jobs| ==> jobs[i].link.Some?
  }

  /** The rows a query in the session sees: the committed ones, then the pending ones. */
  function Visible(s: Session): seq<StoredJob>
  {
    s.st.jobs + s.pending
  }

  /**
   * One record once the query's flush has succeeded: a new company is added
   * and committed together with the pending rows, then the record's row is
   * added to the session.
   */
  function Step(s: Session, rec: SaraminRecord): (r: Session)
    ensures var co := GetOrCreate(s.st.companies, rec.companyName);
      && r.st.companies == co.0
      && Visible(r) == Visible(s) + [JobOf(co.1, rec)]
      && s.st.jobs <= r.st.jobs
      && (AllLinked(s.pending) ==> (AllLinked(r.pending) <==> rec.link.Some?))
  {
    var co := GetOrCreate(s.st.companies, rec.companyName);
    var job := JobOf(co.1, rec);
    if rec.companyName in s.st.companies then
      assert (s.pending + [job])[|s.pending|] == job;
      Session(s.st, s.pending + [job])
    else
      assert [job][0] == job;
      Session(Store(co.0, s.st.jobs + s.pending), [job])
  }

  /**
   * The loop from here on. The company query flushes the pending rows first
   * and the final commit flushes them last; a NULL link then raises, the
   * session rolls the pending rows back and 0 is returned.
   */
  function SaveFrom(s: Session, saved: nat, records: seq<SaraminRecord>): Saved
    decreases |records|
  {
    if !AllLinked(s.pending) then Saved(s.st, 0)
    else if records == [] then Saved(s.st.(jobs := Visible(s)), saved)
    else SaveFrom(Step(s, records[0]), saved + 1, records[1..])
  }

  /** `save_jobs` on an empty session. */
  function Save(st: Store, records: seq<SaraminRecord>): Saved
  {
    SaveFrom(Session(st, []), 0, records)
  }

  /** The database behind the ORM session. */
  class JobStore {
    var store: Store

    constructor (store0: Store)
      ensures store == store0
    {
      store := store0;
    }

    /** `save_jobs(jobs)`: `store` holds what is committed; `pending` what the session holds beyond it. */
    method SaveJobs(records: seq<SaraminRecord>) returns (saved: nat)
      modifies this
      ensures store == Save(old(store), records).store
      ensures saved == Save(old(store), records).count
    {
      ghost var spec := Save(store, records);
      var pending: seq<StoredJob> := [];
      saved := 0;
      for i := 0 to |records|
        invariant SaveFrom(Session(store, pending), saved, records[i..]) == spec
      {
        if exists j :: 0 <= j < |pending| && pending[j].link.None? {
          return 0;
        }
        assert records[i..][0] == records[i] && records[i..][1..] == records[i + 1..];
        ghost var next := Step(Session(store, pending), records[i]);
        var rec := records[i];
        var co := GetOrCreate(store.companies, rec.companyName);
        if rec.companyName !in store.companies {
          store := Store(co.0, store.jobs + pending);
          pending := [];
        }
        pending := pending + [JobOf(co.1, rec)];
        saved := saved + 1;
        assert Session(store, pending) == next;
      }
      assert records[|records|..] == [];
      if exists j :: 0 <= j < |pending| && pending[j].link.None? {
        return 0;
      }
      store := store.(jobs := store.jobs + pending);
    }
  }

  /** The crawl: the pages, then `save_jobs`; a failed browser start raises. */
  method CrawlJobs(driverStarted: bool, visit: nat -> PageVisit, db: JobStore) returns (r: Result<nat>)
    modifies db
    ensures !driverStarted ==> r == Err("WebDriver 초기화 실패") && db.store == old(db.store)
    ensures driverStarted ==> r.Ok? && r.value == Save(old(db.store), CollectFrom(visit, 1, [])).count
    ensures driverStarted ==> db.store == Save(old(db.store), CollectFrom(visit, 1, [])).store
  {
    if !driverStarted {
      return Err("WebDriver 초기화 실패");
    }
    var jobs := CollectPages(visit);
    var saved := db.SaveJobs(jobs);
    r := Ok(saved);
  }

  // ---------------------------------------------------------------------------
  // Properties of save_jobs
  // ---------------------------------------------------------------------------

  predicate Linked(records: seq<SaraminRecord>)
  {
    forall i :: 0 <= i < |records| ==> records[i].link.Some?
  }

  /** The result is the number of records when all have a link, and 0 otherwise. */
  lemma {:induction false} SaveCount(s: Session, saved: nat, records: seq<SaraminRecord>)
    ensures AllLinked(s.pending) && Linked(records) ==> SaveFrom(s, saved, records).count == saved + |records|
    ensures !(AllLinked(s.pending) && Linked(records)) ==> SaveFrom(s, saved, records).count == 0
    decreases |records|
  {
    if AllLinked(s.pending) && records != [] {
      var next, rest := Step(s, records[0]), records[1..];
      assert AllLinked(next.pending) <==> records[0].link.Some?;
      assert SaveFrom(s, saved, records) == SaveFrom(next, saved + 1, rest);
      SaveCount(next, saved + 1, rest);
      LinkedSplit(records);
      assert |records| == |rest| + 1;
    }
  }

  lemma LinkedSplit(records: seq<SaraminRecord>)
    requires records != []
    ensures Linked(records) <==> records[0].link.Some? && Linked(records[1..])
  {
    if records[0].link.Some? && Linked(records[1..]) {
      forall i | 0 <= i < |records| ensures records[i].link.Some? {
        if i > 0 {
          assert records[i] == records[1..][i - 1];
        }
      }
    }
  }

  /** Committed rows are never lost and companies are never removed, whether the save succeeds or fails. */
  lemma {:induction false} SaveOnlyGrows(s: Session, saved: nat, records: seq<SaraminRecord>)
    ensures var r := SaveFrom(s, saved, records).store;
      s.st.companies <= r.companies && s.st.jobs <= r.jobs
    decreases |records|
  {
    if AllLinked(s.pending) && records != [] {
      SaveOnlyGrows(Step(s, records[0]), saved + 1, records[1..]);
    }
  }

  /** Company names are unique, every committed row has a link and points at a company. */
  predicate StoreOk(st: Store)
  {
    && NoDuplicates(st.companies)
    && AllLinked(st.jobs)
    && forall i :: 0 <= i < |st.jobs| ==> 1 <= st.jobs[i].companyId <= |st.companies|
  }

  predicate SessionOk(s: Session)
  {
    && StoreOk(s.st)
    && forall i :: 0 <= i < |s.pending| ==> 1 <= s.pending[i].companyId <= |s.st.companies|
  }

  lemma StepKeepsSessionOk(s: Session, rec: SaraminRecord)
    requires SessionOk(s) && AllLinked(s.pending)
    ensures SessionOk(Step(s, rec))
  {
    GetOrCreateKeepsUnique(s.st.companies, rec.companyName);
  }

  /** The committed tables stay consistent, whether the save succeeds or fails. */
  lemma {:induction false} SaveKeepsStoreOk(s: Session, saved: nat, records: seq<SaraminRecord>)
    requires SessionOk(s)
    ensures StoreOk(SaveFrom(s, saved, records).store)
    decreases |records|
  {
    if AllLinked(s.pending) && records != [] {
      StepKeepsSessionOk(s, records[0]);
      SaveKeepsStoreOk(Step(s, records[0]), saved + 1, records[1..]);
    }
  }

  /** `jobs` are the rows of `records`, one each and in order, pointing at the company of each name. */
  predicate Describes(companies: seq<string>, jobs: seq<StoredJob>, records: seq<SaraminRecord>)
  {
    && |jobs| == |records|
    && forall i :: 0 <= i < |jobs| ==>
         && jobs[i] == JobOf(jobs[i].companyId, records[i])
         && 1 <= jobs[i].companyId <= |companies|
         && companies[jobs[i].companyId - 1] == records[i].companyName
  }

  lemma DescribesCons(companies: seq<string>, job: StoredJob, jobs: seq<StoredJob>,
                      rec: SaraminRecord, records: seq<SaraminRecord>)
    requires job == JobOf(job.companyId, rec) && 1 <= job.companyId <= |companies|
    requires companies[job.companyId - 1] == rec.companyName
    requires Describes(companies, jobs, records)
    ensures Describes(companies, [job] + jobs, [rec] + records)
  {
    var js := [job] + jobs;
    var rs := [rec] + records;
    forall i | 1 <= i < |js|
      ensures js[i] == JobOf(js[i].companyId, rs[i])
    {
      assert js[i] == jobs[i - 1] && rs[i] == records[i - 1];
    }
  }

  /**
   * On success every record becomes exactly one committed row, in order and
   * without deduplication, after the rows that were there.
   */
  lemma {:induction false} SaveSuccess(s: Session, saved: nat, records: seq<SaraminRecord>)
    requires AllLinked(s.pending) && Linked(records)
    ensures var r := SaveFrom(s, saved, records).store;
      && |r.jobs| == |Visible(s)| + |records|
      && r.jobs[..|Visible(s)|] == Visible(s)
      && Describes(r.companies, r.jobs[|Visible(s)|..], records)
    decreases |records|
  {
    var r := SaveFrom(s, saved, records).store;
    if records != [] {
      var rec := records[0];
      var s1 := Step(s, rec);
      var co := GetOrCreate(s.st.companies, rec.companyName);
      var n := |Visible(s)|;
      assert Linked(records[1..]);
      SaveSuccess(s1, saved + 1, records[1..]);
      SaveOnlyGrows(s1, saved + 1, records[1..]);
      assert r.jobs[..n + 1] == Visible(s1) == Visible(s) + [JobOf(co.1, rec)];
      assert r.jobs[..n] == r.jobs[..n + 1][..n];
      var tail := r.jobs[n..];
      assert tail == [JobOf(co.1, rec)] + r.jobs[n + 1..];
      assert r.companies[co.1 - 1] == rec.companyName;
      DescribesCons(r.companies, JobOf(co.1, rec), r.jobs[n + 1..], rec, records[1..]);
      assert records == [rec] + records[1..];
    } else {
      assert r.jobs == Visible(s);
    }
  }

  /** A successful save leaves every record's company in the table and adds no other name. */
  lemma {:induction false} SaveCompanies(s: Session, saved: nat, records: seq<SaraminRecord>, name: string)
    requires AllLinked(s.pending) && Linked(records)
    ensures var r := SaveFrom(s, saved, records).store;
      name in r.companies <==> name in s.st.companies || exists i :: 0 <= i < |records| && records[i].companyName == name
    decreases |records|
  {
    if records != [] {
      var s1 := Step(s, records[0]);
      assert Linked(records[1..]);
      SaveCompanies(s1, saved + 1, records[1..], name);
      assert s1.st.companies == s.st.companies || s1.st.companies == s.st.companies + [records[0].companyName];
      if exists i :: 0 <= i < |records[1..]| && records[1..][i].companyName == name {
        var i :| 0 <= i < |records[1..]| && records[1..][i].companyName == name;
        assert records[i + 1].companyName == name;
      }
      if exists i :: 0 <= i < |records| && records[i].companyName == name {
        var i :| 0 <= i < |records| && records[i].companyName == name;
        if i > 0 {
          assert records[1..][i - 1].companyName == name;
        }
      }
    }
  }

  /** `save_jobs` returns the batch size exactly when every record has a link, and 0 otherwise. */
  lemma SaveJobsResult(st: Store, records: seq<SaraminRecord>)
    ensures Save(st, records).count == if Linked(records) then |records| else 0
    ensures Linked(records) ==> |Save(st, records).store.jobs| == |st.jobs| + |records|
  {
    SaveCount(Session(st, []), 0, records);
    if Linked(records) {
      SaveSuccess(Session(st, []), 0, records);
    }
  }

  /** Two records of one new company create it once; both rows carry its id. */
  lemma CompanyCreatedOnce(st: Store, a: SaraminRecord, b: SaraminRecord)
    requires a.link.Some? && b.link.Some? && a.companyName == b.companyName
    requires a.companyName !in st.companies
    ensures var r := Save(st, [a, b]).store;
      && r.companies == st.companies + [a.companyName]
      && |r.jobs| == |st.jobs| + 2
      && r.jobs[|st.jobs|].companyId == r.jobs[|st.jobs| + 1].companyId == |st.companies| + 1
  {
    var s0 := Session(st, []);
    var s1 := Step(s0, a);
    var s2 := Step(s1, b);
    assert [a, b][1..] == [b] && [b][1..] == [];
    assert s1.st.companies == st.companies + [a.companyName];
    assert a.companyName in s1.st.companies;
    assert s2.st.companies == s1.st.companies;
    assert AllLinked(s0.pending) && AllLinked(s1.pending) && AllLinked(s2.pending);
    assert Save(st, [a, b]) == SaveFrom(s1, 1, [b]);
    assert SaveFrom(s1, 1, [b]) == SaveFrom(s2, 2, []);
    assert Visible(s2) == st.jobs + [JobOf(|st.companies| + 1, a), JobOf(|st.companies| + 1, b)];
  }

  /**
   * A record without a link fails the batch, yet rows committed by an
   * earlier company creation stay: here the first record's row is kept
   * while 0 is returned.
   */
  lemma PartialSaveReportsZero(st: Store, a: SaraminRecord, b: SaraminRecord)
    requires a.link.Some? && b.link.None?
    requires b.companyName !in st.companies && b.companyName != a.companyName
    ensures Save(st, [a, b]).count == 0 && |Save(st, [a, b]).store.jobs| == |st.jobs| + 1
  {
    var s0 := Session(st, []);
    var s1 := Step(s0, a);
    var s2 := Step(s1, b);
    assert [a, b][1..] == [b] && [b][1..] == [];
    assert |Visible(s1)| == |st.jobs| + 1;
    assert b.companyName !in s1.st.companies;
    assert s2.st.jobs == Visible(s1);
    assert s2.pending[0].link.None?;
    assert AllLinked(s0.pending) && AllLinked(s1.pending);
    assert Save(st, [a, b]) == SaveFrom(s1, 1, [b]);
    assert SaveFrom(s1, 1, [b]) == SaveFrom(s2, 2, []);
  }
}

=== FILE: schema.dfy ===
/**
 * Rows of the relational job-board schema (companies, locations,
 * tech_stacks, job_categories, job_postings and the two junction tables) as
 * the crawler loaders and the job API read and write them. A table whose rows
 * are never removed is a sequence in id order: the row at index i has id i + 1,
 * as AUTO_INCREMENT assigns them from 1.
 */
module Schema {
  import opened Wrappers
  import opened Seqs

  datatype Location = Location(city: string, district: Option<string>)

  datatype TechStack = TechStack(name: string, category: Option<string>)

  /** A job_postings row (created_at and updated_at are not modelled). */
  datatype Posting = Posting(
    companyId: nat,
    title: string,
    description: string,
    experienceLevel: Option<string>,
    educationLevel: Option<string>,
    employmentType: Option<string>,
    salaryInfo: Option<string>,
    locationId: Option<nat>,
    deadlineDate: Option<string>,
    status: string,
    viewCount: nat,
    deletedAt: Option<string>)

  /** A posting_tech_stacks or posting_categories row. */
  datatype Link = Link(postingId: nat, refId: nat)

  const Active := "active"
  const Deleted := "deleted"

  /** The id AUTO_INCREMENT gave the row at `index` of an append-only table. */
  function IdAt(index: nat): nat { index + 1 }

  /**
   * SELECT by the whole key, INSERT when absent: the table afterwards and the
   * id of the row with that key (the first one, as `fetchone()` returns it).
   */
  function GetOrCreate<T(==)>(table: seq<T>, key: T): (r: (seq<T>, nat))
    ensures 1 <= r.1 <= |r.0| && r.0[r.1 - 1] == key && key !in r.0[..r.1 - 1]
    ensures key in table ==> r.0 == table
    ensures key !in table ==> r.0 == table + [key]
  {
    match IndexOf(table, key)
    case Some(k) => (table, IdAt(k))
    case None => (table + [key], IdAt(|table|))
  }

  /** Get-or-create never inserts a key that is already present. */
  lemma GetOrCreateKeepsUnique<T>(table: seq<T>, key: T)
    requires NoDuplicates(table)
    ensures NoDuplicates(GetOrCreate(table, key).0)
  {
    if key !in table {
      var t' := table + [key];
      forall i, j | 0 <= i < j < |t'| ensures t'[i] != t'[j] {
        if j == |table| {
          assert t'[i] == table[i];
        }
      }
    }
  }

  /** A second get-or-create of the same key changes nothing and returns the same id. */
  lemma GetOrCreateIdempotent<T>(table: seq<T>, key: T)
    ensures GetOrCreate(GetOrCreate(table, key).0, key) == GetOrCreate(table, key)
  {
    var (t1, id) := GetOrCreate(table, key);
    var (t2, id2) := GetOrCreate(t1, key);
    assert t2 == t1;
  }
}

=== FILE: search_config.dfy ===
/**
 * `SearchConfig` and `SearchParams` of app/config/search_config.py: the sort
 * and filter code tables, and the query parameters of a Saramin search,
 * with region and job codes from `LocationConfig` and `JobConfig`.
 */
module SearchConfig {
  import opened Wrappers
  import opened CodeTables
  import LocationConfig
  import JobConfig

  /** `_sort_options`. */
  const SortOptions: seq<Entry> := [
    Entry("최신순", "latest"), Entry("관련도순", "relevance"),
    Entry("마감임박순", "deadline"), Entry("경력순", "experience")]

  /** `_filters`. */
  const Filters: seq<Group> := [
    Group("경력", [Entry("신입", "1"), Entry("경력", "2"), Entry("무관", "0")]),
    Group("고용형태", [Entry("정규직", "1"), Entry("계약직", "2"), Entry("인턴", "3")])
  ]

  /** `get_sort_code(sort_type)`. */
  function GetSortCode(sortType: string): Option<string>
  {
    Find(SortOptions, sortType)
  }

  /** `get_filter_code(filter_type, value)`. */
  function GetFilterCode(filterType: string, value: string): Option<string>
  {
    TwoLevel(Filters, filterType, value)
  }

  /**
   * The codes `build_params` looks up: each only when its argument is truthy,
   * region and job by leaf name without a sub key, experience and employment
   * under the filter types "경력" and "고용형태".
   */
  function Resolve(args: SearchArgs): Resolved
  {
    Resolved(
      if Truthy(args.region) then LocationConfig.GetCode(args.region.value, None) else None,
      if Truthy(args.job) then JobConfig.GetCode(args.job.value, None) else None,
      if Truthy(args.sort) then GetSortCode(args.sort.value) else None,
      if Truthy(args.experience) then GetFilterCode("경력", args.experience.value) else None,
      if Truthy(args.employment) then GetFilterCode("고용형태", args.employment.value) else None)
  }

  /** `build_params(**kwargs)`. */
  function BuildParams(args: SearchArgs): map<string, Value>
  {
    Assemble(args, Resolve(args))
  }

  /** `get_sort_code` knows exactly the four Korean sort labels. */
  lemma SortLabels(sortType: string)
    ensures GetSortCode(sortType).Some? <==>
      sortType == "최신순" || sortType == "관련도순" || sortType == "마감임박순" || sortType == "경력순"
  {
  }

  /** It maps each label to its own code. */
  lemma SortCodes()
    ensures GetSortCode("최신순") == Some("latest")
    ensures GetSortCode("관련도순") == Some("relevance")
    ensures GetSortCode("마감임박순") == Some("deadline")
    ensures GetSortCode("경력순") == Some("experience")
  {
  }

  lemma FiltersAreDict()
    ensures IsDict(Filters)
  {
  }

  /** `get_filter_code` is `_filters[filter_type][value]`, or None when either key is unknown. */
  lemma FilterCodeExact(filterType: string, value: string, c: string)
    ensures GetFilterCode(filterType, value) == Some(c) <==>
      exists g :: 0 <= g < |Filters| && Filters[g].name == filterType && Entry(value, c) in Filters[g].entries
  {
    FiltersAreDict();
    TwoLevelExact(Filters, filterType, value, c);
  }

  /** An unknown filter type gives None whatever the value. */
  lemma UnknownFilterType(filterType: string, value: string)
    requires filterType != "경력" && filterType != "고용형태"
    ensures GetFilterCode(filterType, value) == None
  {
  }

  /** Every sort and filter code is non-empty. */
  lemma SearchCodesNonEmpty()
    ensures forall k :: 0 <= k < |SortOptions| ==> SortOptions[k].code != ""
    ensures CodesNonEmpty(Filters)
  {
  }

  lemma SortCodeIsTruthy(sortType: string)
    ensures GetSortCode(sortType).Some? ==> Truthy(GetSortCode(sortType))
  {
    SearchCodesNonEmpty();
  }

  lemma FilterCodeIsTruthy(filterType: string, value: string)
    ensures GetFilterCode(filterType, value).Some? ==> Truthy(GetFilterCode(filterType, value))
  {
    SearchCodesNonEmpty();
    GetCodeTruthy(Filters, filterType, Some("x"));
  }

  /** searchType is "search", searchword the keyword or "", recruitPage the page or 1. */
  lemma BuildParamsFixedKeys(args: SearchArgs)
    ensures var p := BuildParams(args);
      && "searchType" in p && p["searchType"] == Text("search")
      && "searchword" in p && p["searchword"] == Text(if args.keyword.Some? then args.keyword.value else "")
      && "recruitPage" in p && p["recruitPage"] == Number(if args.page.Some? then args.page.value else 1)
  {
    AssembleFixedKeys(args, Resolve(args));
  }

  /** loc_cd is there exactly when the region is truthy and its code resolves, and holds that code. */
  lemma BuildParamsRegion(args: SearchArgs)
    ensures var p := BuildParams(args);
      && ("loc_cd" in p <==> Truthy(args.region) && LocationConfig.GetCode(args.region.value, None).Some?)
      && ("loc_cd" in p ==> p["loc_cd"] == Text(LocationConfig.GetCode(args.region.value, None).value))
  {
    AssembleCodeKeys(args, Resolve(args));
    if Truthy(args.region) {
      LocationConfig.FoundCodeIsTruthy(args.region.value, None);
    }
  }

  /** job_cd likewise for the job. */
  lemma BuildParamsJob(args: SearchArgs)
    ensures var p := BuildParams(args);
      && ("job_cd" in p <==> Truthy(args.job) && JobConfig.GetCode(args.job.value, None).Some?)
      && ("job_cd" in p ==> p["job_cd"] == Text(JobConfig.GetCode(args.job.value, None).value))
  {
    AssembleCodeKeys(args, Resolve(args));
    if Truthy(args.job) {
      JobConfig.FoundCodeIsTruthy(args.job.value, None);
    }
  }

  /** sort likewise for the sort label. */
  lemma BuildParamsSort(args: SearchArgs)
    ensures var p := BuildParams(args);
      && ("sort" in p <==> Truthy(args.sort) && GetSortCode(args.sort.value).Some?)
      && ("sort" in p ==> p["sort"] == Text(GetSortCode(args.sort.value).value))
  {
    AssembleCodeKeys(args, Resolve(args));
    if Truthy(args.sort) {
      SortCodeIsTruthy(args.sort.value);
    }
  }

  /** exp_cd and emp_cd likewise, under the filter types "경력" and "고용형태". */
  lemma BuildParamsFilters(args: SearchArgs)
    ensures var p := BuildParams(args);
      && ("exp_cd" in p <==> Truthy(args.experience) && GetFilterCode("경력", args.experience.value).Some?)
      && ("exp_cd" in p ==> p["exp_cd"] == Text(GetFilterCode("경력", args.experience.value).value))
      && ("emp_cd" in p <==> Truthy(args.employment) && GetFilterCode("고용형태", args.employment.value).Some?)
      && ("emp_cd" in p ==> p["emp_cd"] == Text(GetFilterCode("고용형태", args.employment.value).value))
  {
    AssembleCodeKeys(args, Resolve(args));
    if Truthy(args.experience) {
      FilterCodeIsTruthy("경력", args.experience.value);
    }
    if Truthy(args.employment) {
      FilterCodeIsTruthy("고용형태", args.employment.value);
    }
  }

  /** No key other than the eight parameter names appears. */
  lemma BuildParamsOnlyParamKeys(args: SearchArgs)
    ensures forall k :: k in BuildParams(args) ==> ParamKey(k)
  {
    AssembleOnlyParamKeys(args, Resolve(args));
  }

  /**
   * The region is resolved without a sub-region: loc_cd holds c exactly when
   * the region is the leaf name of c, such as "서울" for 101000.
   */
  lemma RegionOnlyByLeaf(args: SearchArgs, c: string)
    ensures "loc_cd" in BuildParams(args) && BuildParams(args)["loc_cd"] == Text(c) <==>
      Truthy(args.region) && Entry(args.region.value, c) in Leaves(LocationConfig.Codes)
  {
    BuildParamsRegion(args);
    if Truthy(args.region) {
      LocationConfig.GetCodeByLeaf(args.region.value, None, c);
    }
  }

  /** A group name such as "수도권" as the region adds no loc_cd. */
  lemma GroupRegionAddsNothing(args: SearchArgs, g: nat)
    requires g < |LocationConfig.Codes| && args.region == Some(LocationConfig.Codes[g].name)
    ensures "loc_cd" !in BuildParams(args)
  {
    BuildParamsRegion(args);
    LocationConfig.GroupNamesAreNotLeaves(g, None);
  }
}

=== FILE: security.dfy ===
/**
 * `SecurityMiddleware` of app/middleware/security.py: HTML-escaping every
 * string in a decoded JSON body, the recursive XSS and SQL-injection checks,
 * the order `validate_request` applies them in, and the headers
 * `security_headers` adds.
 *
 * The two regular expressions are not modelled: each check takes the
 * pattern's `search` as a predicate on strings. An object is the member
 * list of its JSON text; the dict `json.loads` builds from it holds, for
 * each key, the last member with that key (`Current`).
 */
module Security {
  import opened Wrappers
  import opened JsonValue
  import opened JobsUtils

  // ---------------------------------------------------------------------------
  // html.escape
  // ---------------------------------------------------------------------------

  /** The characters `html.escape` replaces besides '&'. */
  predicate Markup(c: char)
  {
    c == '<' || c == '>' || c == '"' || c == '\''
  }

  /** `html.escape` (with quote=True) on one character. */
  function EscapeChar(c: char): (r: string)
    ensures forall i :: 0 <= i < |r| ==> !Markup(r[i])
    ensures r == [c] <==> c != '&' && !Markup(c)
  {
    if c == '&' then "&amp;"
    else if c == '<' then "&lt;"
    else if c == '>' then "&gt;"
    else if c == '"' then "&quot;"
    else if c == '\'' then "&#x27;"
    else [c]
  }

  /** `html.escape(s)`: the result holds no <, >, " or '. */
  function Escape(s: string): (r: string)
    ensures forall i :: 0 <= i < |r| ==> !Markup(r[i])
    ensures |r| >= |s|
  {
    if s == [] then []
    else
      var head := EscapeChar(s[0]);
      var tail := Escape(s[1..]);
      assert forall i :: |head| <= i < |head + tail| ==> (head + tail)[i] == tail[i - |head|];
      head + tail
  }

  /** The character an entity at the start of `s` stands for, and the entity's length. */
  function Entity(s: string): (r: Option<(char, nat)>)
    ensures r.Some? ==> 4 <= r.value.1 <= |s|
  {
    if s == [] || s[0] != '&' then None
    else if |s| >= 5 && s[..5] == "&amp;" then Some(('&', 5))
    else if |s| >= 4 && s[..4] == "&lt;" then Some(('<', 4))
    else if |s| >= 4 && s[..4] == "&gt;" then Some(('>', 4))
    else if |s| >= 6 && s[..6] == "&quot;" then Some(('"', 6))
    else if |s| >= 6 && s[..6] == "&#x27;" then Some(('\'', 6))
    else None
  }

  /** `html.unescape` restricted to the five entities `html.escape` writes. */
  function Unescape(s: string): string
    decreases |s|
  {
    if s == [] then []
    else match Entity(s)
      case Some((c, n)) => [c] + Unescape(s[n..])
      case None => [s[0]] + Unescape(s[1..])
  }

  /** The entity `EscapeChar` writes is read back as the character it replaced. */
  lemma EntityOfEscape(c: char, rest: string)
    requires EscapeChar(c) != [c]
    ensures Entity(EscapeChar(c) + rest) == Some((c, |EscapeChar(c)|))
  {
    var s := EscapeChar(c) + rest;
    if c == '&' {
      assert s[..5] == "&amp;";
    } else if c == '<' {
      assert s[1] == 'l' && s[..4] == "&lt;";
    } else if c == '>' {
      assert s[1] == 'g' && s[..4] == "&gt;";
    } else if c == '"' {
      assert s[1] == 'q' && s[..6] == "&quot;";
    } else {
      assert s[1] == '#' && s[..6] == "&#x27;";
    }
  }

  /** Unescaping an escaped character followed by anything gives the character back first. */
  lemma UnescapeChar(c: char, rest: string)
    ensures Unescape(EscapeChar(c) + rest) == [c] + Unescape(rest)
  {
    var s := EscapeChar(c) + rest;
    if EscapeChar(c) != [c] {
      EntityOfEscape(c, rest);
      assert s[|EscapeChar(c)|..] == rest;
    } else {
      assert s[0] == c && s[1..] == rest;
    }
  }

  /** Escaping loses nothing: unescaping gives the original string back. */
  lemma {:induction false} EscapeRoundTrip(s: string)
    ensures Unescape(Escape(s)) == s
  {
    if s != [] {
      UnescapeChar(s[0], Escape(s[1..]));
      EscapeRoundTrip(s[1..]);
    }
  }

  /** A string with no '&' and no markup character is left as it is. */
  lemma {:induction false} EscapePlain(s: string)
    requires forall i :: 0 <= i < |s| ==> s[i] != '&' && !Markup(s[i])
    ensures Escape(s) == s
  {
    if s != [] {
      EscapePlain(s[1..]);
    }
  }

  /** Escaping is not idempotent: an escaped '&' is escaped again. */
  lemma EscapeTwice()
    ensures Escape("&") == "&amp;" && Escape(Escape("&")) == "&amp;amp;"
  {
    assert Escape("&amp;") == "&amp;" + Escape("amp;");
    EscapePlain("amp;");
  }

  // ---------------------------------------------------------------------------
  // sanitize_input
  // ---------------------------------------------------------------------------

  /** `sanitize_input`: strings escaped, dicts and lists sanitised member by member, other values as they are. */
  function Sanitize(j: Json): (r: Json)
    ensures j.JStr? ==> r == JStr(Escape(j.s))
    ensures j.JNull? || j.JBool? || j.JNum? ==> r == j
    ensures j.JArr? ==> r.JArr? && |r.items| == |j.items|
    ensures j.JObj? ==> (r.JObj? && |r.members| == |j.members|
                         && forall i :: 0 <= i < |j.members| ==> r.members[i].key == j.members[i].key)
    decreases j
  {
    match j
    case JStr(s) => JStr(Escape(s))
    case JArr(items) => JArr(seq(|items|, i requires 0 <= i < |items| => Sanitize(items[i])))
    case JObj(ms) => JObj(seq(|ms|, i requires 0 <= i < |ms| => Member(ms[i].key, Sanitize(ms[i].value))))
    case _ => j
  }

  /** Every string value at every depth is free of <, >, " and '. */
  predicate Clean(j: Json)
    decreases j
  {
    match j
    case JStr(s) => forall i :: 0 <= i < |s| ==> !Markup(s[i])
    case JArr(items) => forall i :: 0 <= i < |items| ==> Clean(items[i])
    case JObj(ms) => forall i :: 0 <= i < |ms| ==> Clean(ms[i].value)
    case _ => true
  }

  /** A sanitised body is clean. */
  lemma {:induction false} SanitizeIsClean(j: Json)
    ensures Clean(Sanitize(j))
    decreases j
  {
    match j
    case JArr(items) =>
      forall i | 0 <= i < |items| ensures Clean(Sanitize(j).items[i]) {
        SanitizeIsClean(items[i]);
      }
    case JObj(ms) =>
      forall i | 0 <= i < |ms| ensures Clean(Sanitize(j).members[i].value) {
        SanitizeIsClean(ms[i].value);
      }
    case _ =>
  }

  /** A sanitised dict has the same keys. */
  lemma SanitizeHasKey(ms: seq<Member>, key: string)
    ensures HasKey(Sanitize(JObj(ms)).members, key) <==> HasKey(ms, key)
  {
    var r := Sanitize(JObj(ms)).members;
    if HasKey(ms, key) {
      var i :| 0 <= i < |ms| && ms[i].key == key;
      assert r[i].key == key;
    }
    if HasKey(r, key) {
      var i :| 0 <= i < |r| && r[i].key == key;
      assert ms[i].key == key;
    }
  }

  /** Looking a key up in a dict whose values were each mapped by `f` gives `f` of the original lookup. */
  lemma {:induction false} GetMapped(ms: seq<Member>, r: seq<Member>, f: Json -> Json, key: string)
    requires |r| == |ms| && HasKey(ms, key)
    requires forall i :: 0 <= i < |ms| ==> r[i] == Member(ms[i].key, f(ms[i].value))
    ensures Get(r, key) == Some(f(Get(ms, key).value))
  {
    var n := |ms| - 1;
    if ms[n].key != key {
      assert HasKey(ms[..n], key) by {
        var i :| 0 <= i < |ms| && ms[i].key == key;
        assert ms[..n][i].key == key;
      }
      GetMapped(ms[..n], r[..n], f, key);
    }
  }

  /** Looking a key up in a sanitised dict gives the sanitised value of the original lookup. */
  lemma SanitizeGet(ms: seq<Member>, key: string)
    requires HasKey(ms, key)
    ensures Get(Sanitize(JObj(ms)).members, key) == Some(Sanitize(Get(ms, key).value))
  {
    var r := Sanitize(JObj(ms)).members;
    assert forall i :: 0 <= i < |ms| ==> r[i] == Member(ms[i].key, Sanitize(ms[i].value));
    GetMapped(ms, r, Sanitize, key);
  }

  /** The inverse of `Sanitize`: every string unescaped. */
  function Desanitize(j: Json): Json
    decreases j
  {
    match j
    case JStr(s) => JStr(Unescape(s))
    case JArr(items) => JArr(seq(|items|, i requires 0 <= i < |items| => Desanitize(items[i])))
    case JObj(ms) => JObj(seq(|ms|, i requires 0 <= i < |ms| => Member(ms[i].key, Desanitize(ms[i].value))))
    case _ => j
  }

  /** Sanitising loses nothing: desanitising gives the original body back. */
  lemma {:induction false} SanitizeRoundTrip(j: Json)
    ensures Desanitize(Sanitize(j)) == j
    decreases j
  {
    match j
    case JStr(s) => EscapeRoundTrip(s);
    case JArr(items) =>
      forall i | 0 <= i < |items| ensures Desanitize(Sanitize(items[i])) == items[i] {
        SanitizeRoundTrip(items[i]);
      }
      assert Desanitize(Sanitize(j)).items == items;
    case JObj(ms) =>
      forall i | 0 <= i < |ms| ensures Desanitize(Sanitize(ms[i].value)) == ms[i].value {
        SanitizeRoundTrip(ms[i].value);
      }
      assert Desanitize(Sanitize(j)).members == ms;
    case _ =>
  }

  // ---------------------------------------------------------------------------
  // check_xss and check_sql_injection
  // ---------------------------------------------------------------------------

  /** Member i is the one the dict keeps for its key: no later member has the same key. */
  predicate Current(ms: seq<Member>, i: int)
    requires 0 <= i < |ms|
  {
    forall k :: i < k < |ms| ==> ms[k].key != ms[i].key
  }

  /**
   * `check_xss` and `check_sql_injection`, with `pattern` the regular
   * expression's search: a string is checked against it, a dict through its
   * values and a list through its items; keys and other values never match.
   */
  predicate Detect(j: Json, pattern: string -> bool)
    decreases j
  {
    match j
    case JStr(s) => pattern(s)
    case JArr(items) => exists i :: 0 <= i < |items| && Detect(items[i], pattern)
    case JObj(ms) => exists i :: 0 <= i < |ms| && Current(ms, i) && Detect(ms[i].value, pattern)
    case _ => false
  }

  function Concat(ss: seq<seq<string>>): (r: seq<string>)
    ensures forall x :: x in r <==> exists i :: 0 <= i < |ss| && x in ss[i]
  {
    if ss == [] then []
    else
      var r := ss[0] + Concat(ss[1..]);
      forall x | x in r ensures exists i :: 0 <= i < |ss| && x in ss[i] {
        if x !in ss[0] {
          var i :| 0 <= i < |ss[1..]| && x in ss[1..][i];
          assert x in ss[i + 1];
        }
      }
      forall x, i | 0 <= i < |ss| && x in ss[i] ensures x in r {
        if i > 0 {
          assert ss[1..][i - 1] == ss[i];
        }
      }
      r
  }

  /** The string values a dict or list holds at any depth, keys excluded, shadowed members excluded. */
  function Strings(j: Json): seq<string>
    decreases j
  {
    match j
    case JStr(s) => [s]
    case JArr(items) => Concat(seq(|items|, i requires 0 <= i < |items| => Strings(items[i])))
    case JObj(ms) => Concat(seq(|ms|, i requires 0 <= i < |ms| => if Current(ms, i) then Strings(ms[i].value) else []))
    case _ => []
  }

  /** A body is flagged exactly when one of its string values matches the pattern. */
  lemma {:induction false} DetectIffString(j: Json, pattern: string -> bool)
    ensures Detect(j, pattern) <==> exists s :: s in Strings(j) && pattern(s)
    decreases j
  {
    match j
    case JArr(items) =>
      forall i | 0 <= i < |items| ensures Detect(items[i], pattern) <==> exists s :: s in Strings(items[i]) && pattern(s) {
        DetectIffString(items[i], pattern);
      }
      var ss := seq(|items|, i requires 0 <= i < |items| => Strings(items[i]));
      if Detect(j, pattern) {
        var i :| 0 <= i < |items| && Detect(items[i], pattern);
        var s :| s in Strings(items[i]) && pattern(s);
        assert s in ss[i];
      }
    case JObj(ms) =>
      forall i | 0 <= i < |ms| ensures Detect(ms[i].value, pattern) <==> exists s :: s in Strings(ms[i].value) && pattern(s) {
        DetectIffString(ms[i].value, pattern);
      }
      var ss := seq(|ms|, i requires 0 <= i < |ms| => if Current(ms, i) then Strings(ms[i].value) else []);
      if Detect(j, pattern) {
        var i :| 0 <= i < |ms| && Current(ms, i) && Detect(ms[i].value, pattern);
        var s :| s in Strings(ms[i].value) && pattern(s);
        assert s in ss[i];
      }
    case _ =>
  }

  /** Keys are never checked: only the value decides. */
  lemma KeysNotChecked(key: string, value: Json, pattern: string -> bool)
    ensures Detect(JObj([Member(key, value)]), pattern) <==> Detect(value, pattern)
  {
    if Detect(value, pattern) {
      assert Current([Member(key, value)], 0);
    }
  }

  /** Of two members with one key only the later one, the one the dict keeps, is checked. */
  lemma ShadowedNotChecked(key: string, first: Json, second: Json, pattern: string -> bool)
    ensures Detect(JObj([Member(key, first), Member(key, second)]), pattern) <==> Detect(second, pattern)
  {
    var ms := [Member(key, first), Member(key, second)];
    assert ms[1].key == ms[0].key;
    if Detect(second, pattern) {
      assert Current(ms, 1);
    }
  }

  // ---------------------------------------------------------------------------
  // validate_request
  // ---------------------------------------------------------------------------

  /** `abort(400, description=...)` or the call to the view, with the body the view will read. */
  datatype Verdict = Abort(description: string) | Forward(body: Option<Json>)

  const XssDetected := "Potential XSS attack detected"
  const SqlDetected := "Potential SQL injection detected"
  const BadQueryParameter := "Invalid query parameter"

  /** A query-string value either check flags. */
  predicate Flagged(value: string, xss: string -> bool, sql: string -> bool)
  {
    xss(value) || sql(value)
  }

  /** Some key's first value (what `request.args.items()` yields) is flagged. */
  predicate BadArg(args: seq<Arg>, xss: string -> bool, sql: string -> bool)
  {
    exists i :: 0 <= i < |args| && ArgGet(args, args[i].key).Some? && Flagged(ArgGet(args, args[i].key).value, xss, sql)
  }

  /**
   * `validate_request`: a JSON body is checked for XSS, then for SQL
   * injection, then sanitised; then the query-string values are checked.
   */
  function ValidateRequest(isJson: bool, body: Json, args: seq<Arg>, xss: string -> bool, sql: string -> bool): Verdict
  {
    if isJson && Detect(body, xss) then Abort(XssDetected)
    else if isJson && Detect(body, sql) then Abort(SqlDetected)
    else if BadArg(args, xss, sql) then Abort(BadQueryParameter)
    else Forward(if isJson then Some(Sanitize(body)) else None)
  }

  /** XSS is reported before SQL injection, and both before a bad query parameter. */
  lemma ValidateOrder(isJson: bool, body: Json, args: seq<Arg>, xss: string -> bool, sql: string -> bool)
    ensures var v := ValidateRequest(isJson, body, args, xss, sql);
      && (v == Abort(XssDetected) <==> isJson && exists s :: s in Strings(body) && xss(s))
      && (v == Abort(SqlDetected) <==>
            isJson && (forall s :: s in Strings(body) ==> !xss(s)) && exists s :: s in Strings(body) && sql(s))
      && (v == Abort(BadQueryParameter) <==>
            (isJson ==> forall s :: s in Strings(body) ==> !xss(s) && !sql(s)) && BadArg(args, xss, sql))
  {
    DetectIffString(body, xss);
    DetectIffString(body, sql);
  }

  /**
   * A forwarded request had no string value matching either pattern and no
   * flagged query-string value, and the view reads the sanitised body, which
   * is clean and unescapes back to what the client sent.
   */
  lemma ForwardedIsSafe(isJson: bool, body: Json, args: seq<Arg>, xss: string -> bool, sql: string -> bool)
    requires ValidateRequest(isJson, body, args, xss, sql).Forward?
    ensures var v := ValidateRequest(isJson, body, args, xss, sql);
      && (isJson ==> forall s :: s in Strings(body) ==> !xss(s) && !sql(s))
      && (forall i :: 0 <= i < |args| ==> !Flagged(ArgGet(args, args[i].key).value, xss, sql))
      && (isJson <==> v.body.Some?)
      && (isJson ==> Clean(v.body.value) && Desanitize(v.body.value) == body)
  {
    DetectIffString(body, xss);
    DetectIffString(body, sql);
    SanitizeIsClean(body);
    SanitizeRoundTrip(body);
    forall i | 0 <= i < |args| ensures !Flagged(ArgGet(args, args[i].key).value, xss, sql) {
      assert ArgGet(args, args[i].key).Some?;
    }
  }

  /** Only a key's first value is checked: a flagged second value for the same key is let through. */
  lemma LaterValueNotChecked(key: string, first: string, second: string, xss: string -> bool, sql: string -> bool)
    requires !Flagged(first, xss, sql)
    ensures ValidateRequest(false, JNull, [Arg(key, first), Arg(key, second)], xss, sql) == Forward(None)
  {
    var args := [Arg(key, first), Arg(key, second)];
    assert ArgGet(args, key) == Some(first);
  }

  // ---------------------------------------------------------------------------
  // security_headers
  // ---------------------------------------------------------------------------

  /** The headers `security_headers` sets. */
  const HeaderNames := {"X-Content-Type-Options", "X-Frame-Options", "X-XSS-Protection",
                        "Strict-Transport-Security", "Content-Security-Policy"}

  /** The five headers `security_headers` sets on every response, overriding the view's; the view's other headers stay. */
  function SecurityHeaders(headers: map<string, string>): (h: map<string, string>)
    ensures h.Keys == headers.Keys + HeaderNames
    ensures h["X-Content-Type-Options"] == "nosniff"
    ensures h["X-Frame-Options"] == "SAMEORIGIN"
    ensures h["X-XSS-Protection"] == "1; mode=block"
    ensures h["Strict-Transport-Security"] == "max-age=31536000; includeSubDomains"
    ensures h["Content-Security-Policy"] == "default-src 'self'"
    ensures forall k :: k in headers && k !in HeaderNames ==> h[k] == headers[k]
  {
    headers["X-Content-Type-Options" := "nosniff"]
           ["X-Frame-Options" := "SAMEORIGIN"]
           ["X-XSS-Protection" := "1; mode=block"]
           ["Strict-Transport-Security" := "max-age=31536000; includeSubDomains"]
           ["Content-Security-Policy" := "default-src 'self'"]
  }
}

=== FILE: seqs.dfy ===
/**
 * First-match search over sequences. A database table whose rows are never
 * removed is a sequence in id order, and SQL's `fetchone()` without ORDER BY
 * is modelled as the matching row with the lowest id, that is the first.
 */
module Seqs {
  import opened Wrappers

  /** Index of the first element equal to `x`. */
  function IndexOf<T(==)>(s: seq<T>, x: T): (r: Option<nat>)
    ensures r.None? <==> x !in s
    ensures r.Some? ==> r.value < |s| && s[r.value] == x && x !in s[..r.value]
  {
    if s == [] then None
    else if s[0] == x then Some(0)
    else match IndexOf(s[1..], x)
      case None => None
      case Some(k) => assert s[1..][..k] == s[1..k + 1]; Some(k + 1)
  }

  /** Index of the first element satisfying `p`. */
  function FindFirst<T>(s: seq<T>, p: T -> bool): (r: Option<nat>)
    ensures r.None? ==> forall j :: 0 <= j < |s| ==> !p(s[j])
    ensures r.Some? ==> r.value < |s| && p(s[r.value])
    ensures r.Some? ==> forall j :: 0 <= j < r.value ==> !p(s[j])
  {
    if s == [] then None
    else if p(s[0]) then Some(0)
    else match FindFirst(s[1..], p)
      case None => None
      case Some(k) => Some(k + 1)
  }

  /** No element occurs twice. */
  predicate NoDuplicates<T(==)>(s: seq<T>)
  {
    forall i, j :: 0 <= i < j < |s| ==> s[i] != s[j]
  }

  /** Appending never changes where an element already present is first found. */
  lemma IndexOfAppend<T>(s: seq<T>, x: T, y: T)
    requires y in s
    ensures IndexOf(s + [x], y) == IndexOf(s, y)
  {
    var k := IndexOf(s, y).value;
    assert (s + [x])[k] == y && (s + [x])[..k] == s[..k];
    var k' := IndexOf(s + [x], y).value;
    assert k' <= k;
    assert s[..k'] == (s + [x])[..k'];
  }

  /** Extending a sequence does not move the first occurrence of an element it already holds. */
  lemma IndexOfPrefix<T>(s: seq<T>, s': seq<T>, y: T)
    requires s <= s' && y in s
    ensures IndexOf(s', y) == IndexOf(s, y)
  {
    var k := IndexOf(s, y).value;
    assert s'[k] == y && s'[..k] == s[..k];
    var k' := IndexOf(s', y).value;
    assert k' <= k;
    assert s[..k'] == s'[..k'];
  }
}

=== FILE: sql.dfy ===
/**
 * SQL text as the source builds it with `query +=`: a sequence of fragments.
 * A literal fragment is text written in the source (it never holds `%s`), a
 * parameter fragment is one `%s` placeholder bound to the next element of the
 * parameter list, and a spliced fragment is caller-supplied text pasted in
 * verbatim with an f-string.
 */
module Sql {
  import opened Wrappers
  import opened Text

  /** A value passed to the driver for one placeholder. */
  datatype SqlValue = SNull | SStr(s: string) | SInt(i: int)

  datatype Frag = Lit(text: string) | Param | Spliced(text: string)

  type Query = seq<Frag>

  /** Number of `%s` placeholders written by the source (not counting spliced text). */
  function Placeholders(q: Query): nat
  {
    if q == [] then 0 else (if q[0].Param? then 1 else 0) + Placeholders(q[1..])
  }

  lemma {:induction false} PlaceholdersAppend(a: Query, b: Query)
    ensures Placeholders(a + b) == Placeholders(a) + Placeholders(b)
  {
    if a == [] {
      assert a + b == b;
    } else {
      assert (a + b)[1..] == a[1..] + b;
      PlaceholdersAppend(a[1..], b);
    }
  }

  /** The caller-supplied texts pasted into the query, in order. */
  function SplicedTexts(q: Query): seq<string>
  {
    if q == [] then [] else (if q[0].Spliced? then [q[0].text] else []) + SplicedTexts(q[1..])
  }

  lemma {:induction false} SplicedTextsAppend(a: Query, b: Query)
    ensures SplicedTexts(a + b) == SplicedTexts(a) + SplicedTexts(b)
  {
    if a == [] {
      assert a + b == b;
    } else {
      assert (a + b)[1..] == a[1..] + b;
      SplicedTextsAppend(a[1..], b);
    }
  }

  /** The SQL text handed to `cursor.execute`. */
  function Render(q: Query): string
  {
    if q == [] then ""
    else (match q[0] case Lit(t) => t case Param => "%s" case Spliced(t) => t) + Render(q[1..])
  }

  lemma {:induction false} RenderAppend(a: Query, b: Query)
    ensures Render(a + b) == Render(a) + Render(b)
  {
    if a == [] {
      assert a + b == b;
    } else {
      assert (a + b)[1..] == a[1..] + b;
      RenderAppend(a[1..], b);
    }
  }

  /** No fragment of the query is caller text pasted in: every caller value is a parameter. */
  predicate NoSplice(q: Query)
  {
    forall i :: 0 <= i < |q| ==> !q[i].Spliced?
  }

  /** A query with no spliced fragment pastes in no caller text. */
  lemma {:induction false} NoSpliceHasNoText(q: Query)
    requires NoSplice(q)
    ensures SplicedTexts(q) == []
  {
    if q != [] {
      assert NoSplice(q[1..]);
      NoSpliceHasNoText(q[1..]);
    }
  }

  /** Literal text alone holds no placeholder. */
  lemma {:induction false} LiteralsOnly(q: Query)
    requires forall i :: 0 <= i < |q| ==> q[i].Lit?
    ensures Placeholders(q) == 0 && NoSplice(q)
  {
    if q != [] {
      LiteralsOnly(q[1..]);
    }
  }

  /** Text followed by one `%s`. */
  lemma TextThenParam(text: string)
    ensures Placeholders([Lit(text), Param]) == 1 && NoSplice([Lit(text), Param])
  {
    assert [Lit(text), Param][1..] == [Param];
    assert [Param][1..] == [];
  }

  /** `"ASC" if sort == "asc" else "DESC"`: only the exact lower-case "asc" sorts ascending. */
  function Direction(sort: string): (d: string)
    ensures d == "ASC" <==> sort == "asc"
    ensures d == "ASC" || d == "DESC"
  {
    if sort == "asc" then "ASC" else "DESC"
  }

  /** `','.join(['%s'] * n)`: n placeholders separated by commas. */
  function ParamList(n: nat): (q: Query)
    requires n >= 1
    ensures Placeholders(q) == n
    ensures q[0] == Param && q[|q| - 1] == Param
    ensures forall i :: 0 <= i < |q| ==> q[i] == Param || q[i] == Lit(",")
    decreases n
  {
    if n == 1 then [Param]
    else
      var rest := ParamList(n - 1);
      PlaceholdersAppend([Param, Lit(",")], rest);
      [Param, Lit(",")] + rest
  }

  /**
   * A GROUP_CONCAT column turned into a list, as the source does after the
   * fetch: a NULL or empty value gives [], anything else is split on ','.
   */
  function SplitAggregate(v: Option<string>): (r: seq<string>)
    ensures v.None? || v == Some("") <==> r == []
    ensures forall i :: 0 <= i < |r| ==> ',' !in r[i]
  {
    if v.None? || v.value == "" then [] else Split(v.value, ',')
  }

  /**
   * GROUP_CONCAT joins the names with ','; the split gives them back when no
   * name holds a comma and the joined text is not empty.
   */
  lemma SplitAggregateOfConcat(names: seq<string>)
    requires |names| >= 1
    requires forall i :: 0 <= i < |names| ==> ',' !in names[i]
    requires Join(names, ',') != ""
    ensures SplitAggregate(Some(Join(names, ','))) == names
  {
    SplitJoin(names, ',');
  }
}

=== FILE: text.dfy ===
/**
 * The string operations the source takes from Python's `str`: ASCII case
 * folding, whitespace stripping, splitting on one separator character, decimal
 * digits and `int()` parsing, and the code-point order `sorted()` uses.
 */
module Text {
  import opened Wrappers
  import Seqs

  // ---------------------------------------------------------------------------
  // Characters
  // ---------------------------------------------------------------------------

  predicate IsUpper(c: char) { 'A' <= c <= 'Z' }

  /** `str.lower()` on one character (ASCII letters only). */
  function LowerChar(c: char): char
  {
    if IsUpper(c) then (c as int + 32) as char else c
  }

  /** `str.lower()` (ASCII letters only). */
  function Lower(s: string): string
  {
    seq(|s|, i requires 0 <= i < |s| => LowerChar(s[i]))
  }

  /** The ASCII characters `str.isspace()` accepts: space, \t \n \v \f \r and \x1c-\x1f. */
  predicate IsSpace(c: char)
  {
    c == ' ' || ('\t' <= c <= '\r') || ('\U{001C}' <= c <= '\U{001F}')
  }

  predicate IsDigit(c: char) { '0' <= c <= '9' }

  predicate AllDigits(s: string)
  {
    forall i :: 0 <= i < |s| ==> IsDigit(s[i])
  }

  function DigitValue(c: char): nat
    requires IsDigit(c)
  {
    c as int - '0' as int
  }

  function DigitChar(d: nat): (c: char)
    requires d < 10
    ensures IsDigit(c) && DigitValue(c) == d
  {
    ('0' as int + d) as char
  }

  // ---------------------------------------------------------------------------
  // Prefixes, search and stripping
  // ---------------------------------------------------------------------------

  predicate StartsWith(s: string, prefix: string)
  {
    |prefix| <= |s| && s[..|prefix|] == prefix
  }

  predicate EndsWith(s: string, suffix: string)
  {
    |suffix| <= |s| && s[|s| - |suffix|..] == suffix
  }

  /** Leading whitespace removed (`str.lstrip()`). */
  function TrimStart(s: string): (r: string)
    ensures |r| <= |s|
    ensures r == [] || !IsSpace(r[0])
  {
    if s != [] && IsSpace(s[0]) then TrimStart(s[1..]) else s
  }

  /** Trailing whitespace removed (`str.rstrip()`). */
  function TrimEnd(s: string): (r: string)
    ensures |r| <= |s|
    ensures r == [] || !IsSpace(r[|r| - 1])
  {
    if s != [] && IsSpace(s[|s| - 1]) then TrimEnd(s[..|s| - 1]) else s
  }

  /** `str.strip()`: the longest middle part of `s` with no whitespace at either end. */
  function Strip(s: string): (r: string)
    ensures |r| <= |s|
    ensures r == [] || (!IsSpace(r[0]) && !IsSpace(r[|r| - 1]))
  {
    TrimEndIsPrefix(TrimStart(s));
    TrimEnd(TrimStart(s))
  }

  lemma {:induction false} TrimEndIsPrefix(s: string)
    ensures TrimEnd(s) == s[..|TrimEnd(s)|]
    decreases |s|
  {
    if s != [] && IsSpace(s[|s| - 1]) {
      TrimEndIsPrefix(s[..|s| - 1]);
    }
  }

  /** A string with no whitespace at its ends is its own strip. */
  lemma StripNoSpace(s: string)
    requires s == [] || (!IsSpace(s[0]) && !IsSpace(s[|s| - 1]))
    ensures Strip(s) == s
  {
  }

  // ---------------------------------------------------------------------------
  // Splitting and joining on one character
  // ---------------------------------------------------------------------------

  /** `s.split(sep)` for a one-character separator. */
  function Split(s: string, sep: char): (parts: seq<string>)
    ensures |parts| >= 1
    ensures forall i :: 0 <= i < |parts| ==> sep !in parts[i]
    decreases |s|
  {
    match Seqs.IndexOf(s, sep)
    case None => [s]
    case Some(k) => [s[..k]] + Split(s[k + 1..], sep)
  }

  /** `sep.join(parts)`. */
  function Join(parts: seq<string>, sep: char): string
  {
    if |parts| == 0 then ""
    else if |parts| == 1 then parts[0]
    else parts[0] + [sep] + Join(parts[1..], sep)
  }

  /** Joining the pieces of a split gives back the original text. */
  lemma {:induction false} JoinSplit(s: string, sep: char)
    ensures Join(Split(s, sep), sep) == s
    decreases |s|
  {
    match Seqs.IndexOf(s, sep)
    case None =>
    case Some(k) =>
      var rest := Split(s[k + 1..], sep);
      assert Split(s, sep) == [s[..k]] + rest;
      JoinCons(s[..k], rest, sep);
      JoinSplit(s[k + 1..], sep);
      assert s == s[..k] + [sep] + s[k + 1..];
  }

  lemma JoinCons(p: string, rest: seq<string>, sep: char)
    requires |rest| >= 1
    ensures Join([p] + rest, sep) == p + [sep] + Join(rest, sep)
  {
    assert ([p] + rest)[1..] == rest;
  }

  /** Splitting a join of separator-free pieces gives back the pieces. */
  lemma {:induction false} SplitJoin(parts: seq<string>, sep: char)
    requires |parts| >= 1
    requires forall i :: 0 <= i < |parts| ==> sep !in parts[i]
    ensures Split(Join(parts, sep), sep) == parts
    decreases |parts|
  {
    if |parts| > 1 {
      var s := Join(parts, sep);
      var rest := Join(parts[1..], sep);
      assert s == parts[0] + [sep] + rest;
      IndexOfAfter(parts[0], sep, rest);
      assert s[..|parts[0]|] == parts[0];
      assert s[|parts[0]| + 1..] == rest;
      assert Split(s, sep) == [parts[0]] + Split(rest, sep);
      SplitJoin(parts[1..], sep);
      assert parts == [parts[0]] + parts[1..];
    } else {
      assert Join(parts, sep) == parts[0];
    }
  }

  /** In text whose prefix lacks `c`, the first `c` is the one right after the prefix. */
  lemma IndexOfAfter(a: string, c: char, b: string)
    requires c !in a
    ensures Seqs.IndexOf(a + [c] + b, c) == Some(|a|)
  {
    var s := a + [c] + b;
    assert s[|a|] == c;
    assert s[..|a|] == a;
  }

  // ---------------------------------------------------------------------------
  // Decimal numbers
  // ---------------------------------------------------------------------------

  /** The value of a string of decimal digits. */
  function DigitsValue(s: string): nat
    requires AllDigits(s)
  {
    if s == [] then 0 else DigitsValue(s[..|s| - 1]) * 10 + DigitValue(s[|s| - 1])
  }

  /** Decimal text of a natural number, as `str(n)` writes it. */
  function NatToString(n: nat): (r: string)
    ensures |r| >= 1 && AllDigits(r)
    ensures |r| > 1 ==> r[0] != '0'
    decreases n
  {
    if n < 10 then [DigitChar(n)] else NatToString(n / 10) + [DigitChar(n % 10)]
  }

  /** Reading back the decimal text of `n` gives `n`. */
  lemma {:induction false} DigitsValueOfNatToString(n: nat)
    ensures DigitsValue(NatToString(n)) == n
    decreases n
  {
    if n >= 10 {
      var r := NatToString(n);
      assert r[..|r| - 1] == NatToString(n / 10);
      DigitsValueOfNatToString(n / 10);
    }
  }

  /** Decimal text of an integer, as `str(n)` writes it. */
  function IntToString(n: int): string
  {
    if n < 0 then "-" + NatToString(-n) else NatToString(n)
  }

  /**
   * `int(s)` on a string: surrounding whitespace, an optional sign and at
   * least one ASCII digit; anything else is a ValueError (None).
   */
  function ParseInt(s: string): (r: Option<int>)
    ensures r.Some? ==> Strip(s) != []
  {
    var t := Strip(s);
    if t == [] then None
    else if t[0] == '-' && |t| > 1 && AllDigits(t[1..]) then Some(0 - DigitsValue(t[1..]) as int)
    else if t[0] == '+' && |t| > 1 && AllDigits(t[1..]) then Some(DigitsValue(t[1..]))
    else if AllDigits(t) then Some(DigitsValue(t))
    else None
  }

  lemma ParseIntOfDigits(d: string)
    requires |d| >= 1 && AllDigits(d)
    ensures ParseInt(d) == Some(DigitsValue(d) as int)
  {
    StripNoSpace(d);
    assert d[0] != '-' && d[0] != '+';
  }

  lemma ParseIntOfNegated(d: string)
    requires |d| >= 1 && AllDigits(d)
    ensures ParseInt("-" + d) == Some(0 - DigitsValue(d) as int)
  {
    var s := "-" + d;
    StripNoSpace(s);
    assert s[0] == '-' && s[1..] == d;
  }

  /**
   * `int()` refuses text that, once stripped, holds a character other than
   * a digit, unless it is a sign in front of at least one digit: "abc",
   * "1.5", "1 2" and "-" give None.
   */
  lemma ParseIntRejectsNonDigit(s: string, i: nat)
    requires i < |Strip(s)| && !IsDigit(Strip(s)[i])
    requires i == 0 ==> (Strip(s)[0] != '-' && Strip(s)[0] != '+') || |Strip(s)| == 1
    ensures ParseInt(s) == None
  {
    var t := Strip(s);
    if i > 0 {
      assert t[1..][i - 1] == t[i];
    }
  }

  /** `int(str(n)) == n`. */
  lemma ParseIntOfIntToString(n: int)
    ensures ParseInt(IntToString(n)) == Some(n)
  {
    if n < 0 {
      var m: nat := -n;
      var d := NatToString(m);
      DigitsValueOfNatToString(m);
      ParseIntOfNegated(d);
      assert IntToString(n) == "-" + d;
    } else {
      var d := NatToString(n);
      DigitsValueOfNatToString(n);
      ParseIntOfDigits(d);
      assert IntToString(n) == d;
    }
  }

  // ---------------------------------------------------------------------------
  // Code-point order of strings (Python's `<` on `str`, used by `sorted`)
  // ---------------------------------------------------------------------------

  /** `a <= b` in Python: the first differing character decides; a prefix comes first. */
  predicate LexLe(a: string, b: string)
  {
    a == [] || (b != [] && (a[0] < b[0] || (a[0] == b[0] && LexLe(a[1..], b[1..]))))
  }

  lemma {:induction false} LexLeReflexive(a: string)
    ensures LexLe(a, a)
    decreases |a|
  {
    if a != [] {
      LexLeReflexive(a[1..]);
    }
  }

  lemma {:induction false} LexLeTotal(a: string, b: string)
    ensures LexLe(a, b) || LexLe(b, a)
    decreases |a|
  {
    if a != [] && b != [] && a[0] == b[0] {
      LexLeTotal(a[1..], b[1..]);
    }
  }

  lemma {:induction false} LexLeTransitive(a: string, b: string, c: string)
    requires LexLe(a, b) && LexLe(b, c)
    ensures LexLe(a, c)
    decreases |a|
  {
    if a != [] && a[0] == b[0] && b[0] == c[0] {
      LexLeTransitive(a[1..], b[1..], c[1..]);
    }
  }

  lemma {:induction false} LexLeAntisymmetric(a: string, b: string)
    requires LexLe(a, b) && LexLe(b, a)
    ensures a == b
    decreases |a|
  {
    if a != [] {
      LexLeAntisymmetric(a[1..], b[1..]);
      assert a == [a[0]] + a[1..] && b == [b[0]] + b[1..];
    }
  }
}

=== FILE: upsert.dfy ===
/**
 * What the two CSV upsert loops (upload_to_jcloud.py and
 * app/crawling/utils/csv_to_db.py) share: a csv.DictReader record and the
 * pair of counters each row bumps.
 */
module Upsert {
  import opened Wrappers

  /** One record of csv.DictReader: column name to cell text. */
  type CsvRow = map<string, string>

  /** `row.get(key, '')`. */
  function CellOr(row: CsvRow, key: string): string
  {
    if key in row then row[key] else ""
  }

  /** `row.get(key)`. */
  function Cell(row: CsvRow, key: string): Option<string>
  {
    if key in row then Some(row[key]) else None
  }

  /** `saved_count` and `updated_count`. */
  datatype Counts = Counts(saved: nat, updated: nat)

  /** The counter a row bumps: `updated_count` for an update, `saved_count` for an insert. */
  function Count(c: Counts, wasUpdate: bool): Counts
  {
    if wasUpdate then c.(updated := c.updated + 1) else c.(saved := c.saved + 1)
  }
}

=== FILE: wrappers.dfy ===
/**
 * Failure-carrying values shared by every module: an optional value and a
 * result that is either a value or an error message.
 */
module Wrappers {

  datatype Option<+T> = None | Some(value: T)

  /** A value or the text of the error the source would return or raise. */
  datatype Result<+T> = Ok(value: T) | Err(error: string)
}
